=== FILE: README.md ===
# aoc2024 solvers in Dafny

A model of the Advent of Code 2024 solvers of alexandersoen/aoc2024 (Python),
one Dafny module per day: `Day1` … `Day12`, `Day14`, `Day15` and `Day15Wide`
(the single-width and the double-width warehouse of day 15), and `Day16`.
Two small shared modules carry the vocabulary:

- `Common`: `Option`, `Result` and `PyError` (the Python exceptions a solver
  raises on input it does not expect, `IndexError` and `ValueError`), and
  `Pos`, an integer `(row, column)` pair that stands for the complex numbers
  and numpy index pairs the solvers use (every such use is integer valued).
- `Decimal`: `str(n)` and `int(s)` on natural numbers, used by the
  concatenation operator of day 7 and the stone split of day 11.

Each solver takes its input already parsed. Code that changes state step by
step is modelled in the same form: loops are `while`/`for` loops with their
invariants, objects whose fields change are classes (`Day3.StateMachine`,
`Day5.BreakRules`, `Day6.Tracker`, `Day14.Robot`, `Day15.Maze`,
`Day15Wide.LargeMaze`), and arrays sorted or marked in place stay arrays.
Each such method is proved against a function that states what the source
computes (a reference definition: the compacted disk, the flood-filled
regions, the walk of the guard, the push of a row of boxes), and the
properties the solvers rely on are proved about those functions as lemmas.
Where the Python raises on some input, the model returns the error instead
of excluding the input, except where "## Left out" lists a restricted
domain (a non-empty list of states in Day 3, non-empty updates in part 1
of Day 5, natural-number values in Day 7, natural-number stones and round
counts in Day 11, well-formed warehouses in Day 15).

Behaviour kept as written, and shown by a lemma:

- Day 3: a failing token is consumed, so `mmul(2,3)` is not counted
  (`Day3.MmulMissed`), and a comma straight after `mul(` reaches `int("")`
  and raises `ValueError` (`Day3.EmptyNumberRaises`).
- Day 7: the early exit on a running value above the target rejects a
  tuple whose value later drops back to the target through a multiplication
  by 0 (`Day7.EarlyExitMissesZero`); with all values at least 1 it is exact
  (`Day7.EarlyExitExact`).
- Day 16: `search` returns the last state it popped also when the heap runs
  empty without reaching the target; there is no failure flag, and
  `Day16.Search` says what that state is in that case.
- Day 16: `search_all_paths` overwrites the best target cost at every goal
  pop rather than taking a minimum, and the result is the number of cells on
  the histories of all nodes that reached the target within the bound in
  force when they were pushed.

## Model

| member | source | states |
|---|---|---|
| Decimal.Pow10 | day11.py:25-30 | every power of ten is positive |
| Decimal.DigitValue | day11.py:30 | a digit's value is below ten |
| Decimal.DigitChar | day11.py:22 | the character for a value below ten is a digit with that value |
| Decimal.FromDecimal | day11.py:30 | a string of k digits reads as a number below 10^k |
| Decimal.ToDecimal | day11.py:22 | str of a natural number is a non-empty string of digits with no leading zero unless it is "0" |
| Decimal.FromToDecimal | day11.py:22-30 | int(str(n)) is n |
| Decimal.FromDecimalAppend | day7.py:39 | reading s followed by t is reading s shifted by the length of t, plus reading t |
| Decimal.ToDecimalLength | day11.py:22-25 | n has exactly as many digits as str(n) has characters: below 10^len and, with more than one digit, at least 10^(len-1) |
| Day1.Sort | day1.py:23-24 | `list.sort()` in place: the array ends sorted and a permutation of its old contents |
| Day1.SortedDistance | day1.py:22-25 | both caller arrays end sorted permutations of their old contents; the result is the sum of absolute differences of the zipped pairs, cut at the shorter list; it is never negative and is 0 when the two lists hold the same multiset |
| Day1.PrefixDistanceNonNegative | day1.py:25 | a sum of absolute differences over any prefix is never negative |
| Day1.ZipDistanceNonNegative | day1.py:25 | the zipped distance is never negative |
| Day1.SortedPermutationsEqual | day1.py:23-24 | two sorted lists with the same multiset are equal, so sorting fixes the pairing |
| Day1.PrefixDistanceSelf | day1.py:25 | the distance of a list to itself is 0 |
| Day1.ZipDistanceOfSortedPermutations | day1.py:23-25 | sorted permutations of one multiset are at distance 0 |
| Day1.SimilarityScore | day1.py:28-30 | the score is 0 when no value of the first list occurs in the second |
| Day1.SimilarityWithEmpty | day1.py:29-30 | an empty second list gives score 0 |
| Day1.SimilarityConsRight | day1.py:29-30 | one more x in the second list adds x times the multiplicity of x in the first |
| Day1.SimilaritySymmetric | day1.py:29-30 | swapping the two lists gives the same score |
| Day2.NextIdx | day2.py:20-25 | the next index is one or two further on, two exactly when the next one is the skipped index, and never the skipped index |
| Day2.RemoveAt | day2.py:42 | `level[:i] + level[i + 1:]`: one shorter, entries before i kept, entries after i shifted down by one |
| Day2.AnyRemovalSafe | day2.py:41-49 | the removal loop succeeds exactly when some removal from the given index on leaves a safe level |
| Day2.LevelIsSafe | day2.py:28-51 | safe exactly when the differences are all >= 0 or all <= 0 and all within the jump bounds, or, with an error allowed, when removing some one entry makes it so; a safe level is always accepted |
| Day2.FirstBad | day2.py:63-69 | the first step out of order from a given index: None exactly when every later step increases within bounds; otherwise a bad step with every earlier one good |
| Day2.FastVerdictNoError | day2.py:54-87 | without an error allowance the walk accepts exactly the levels whose visited entries increase within bounds |
| Day2.FastVerdictAtBadStep | day2.py:70-85 | at the first bad step the verdict is: error allowed, and the walk succeeds skipping the step's second entry or else its first |
| Day2.Retry | day2.py:70-85 | at a bad step the second walk, without an error allowance, succeeds exactly when the level increases within bounds once the step's second entry, or else its first, is dropped |
| Day2.FastLevelIsSafe | day2.py:54-87 | the two-index walk returns the specified verdict; without an error allowance that is "the visited entries increase within bounds" |
| Day2.FastVerdict | day2.py:54-87 | a level whose kept entries increase within bounds is accepted; without an error allowed exactly those levels are accepted |
| Day2.DecreasingSteps | day2.py:100 | the number of decreasing steps is at most len - 1, and 0 exactly when no entry is followed by a smaller one |
| Day2.FastVerdictWithError | day2.py:54-87 | with one error allowed the walk accepts exactly the levels that increase within bounds as they stand or after removing one entry: only the two entries of the first bad step need trying |
| Day2.BadStepSurvives | day2.py:63-85 | removing an entry away from a bad step leaves that bad step in the level |
| Day2.Negate | day2.py:101 | `[-v for v in level]`: same length, every entry negated |
| Day2.FastCount | day2.py:90-108 | the fast count is at most the number of levels |
| Day2.BruteCount | day2.py:111-125 | the brute-force count is at most the number of levels |
| Day2.FastMonotonicWithinJumpNumSat | day2.py:90-108 | the loop counts the levels the fast verdict (negate when two or more steps decrease, then walk) accepts |
| Day2.MonotonicWithinJumpNumSat | day2.py:111-125 | the loop counts the levels level_is_safe accepts |
| Day2.IncreasingIsStrictSafe | day2.py:34-38 | a level increasing within bounds, or whose negation is, is safe |
| Day2.StrictSafeSplit | day2.py:34-38 | with min_jump >= 1, a level is safe exactly when it or its negation increases within bounds |
| Day2.FastIsSafe | day2.py:98-106 | the fast counter's verdict on one level, negated first when it has two or more decreasing steps, never accepts a level the brute-force checker rejects |
| Day2.OrientedWalkSound | day2.py:98-106 | a walk that accepts the level or its negation accepts a safe level |
| Day2.FastCountAtMostBruteCount | day2.py:90-125 | the fast count never exceeds the brute-force count |
| Day2.FastIsSafeMissesShortDecreasingLevel | day2.py:100-101 | [5, 3, 3] with jumps 1..3 and one error allowed: the fast counter rejects it (one decreasing step, so it is not negated), the brute-force checker accepts it |
| Day2.CorrectedFastIsSafeMatchesBrute | day2.py:98-106 | walking both the level and its negation decides exactly what level_is_safe decides, for min_jump >= 1 |
| Day3.NewDigitParse | day3.py:47-52 | a freshly built DigitParse is a template: full count, nothing read; max_count below 1 is refused |
| Day3.Int | day3.py:68-74 | `int(value_str)` succeeds exactly on a non-empty digit string and then gives its decimal value; otherwise ValueError |
| Day3.EvalConsumes | day3.py:32-79 | eval on no tokens raises IndexError; CharMatch consumes one token, keeps its state and succeeds exactly on its character; every eval consumes one token except a DigitParse that has read digits and meets its early-end character; a failure always consumes the offending token |
| Day3.Eval | day3.py:32-79 | no tokens raise IndexError; the only errors are IndexError and ValueError; a success consumes the first token or none; a partial success comes only from a DigitParse, which counts down by one and appends the token to value_str |
| Day3.DigitParseEval | day3.py:57-79 | a digit that uses up the count gives a full success with the number read; an earlier digit a partial success; the early-end character gives the number without consuming it, or ValueError when no digit was read; any other character fails |
| Day3.Reset | day3.py:95-98 | a reset machine sits on state 0 with no values and keeps the count it is given |
| Day3.StepProgress | day3.py:91-116 | one parse keeps the templates as constructed, consumes at most one token, lowers the rank when it consumes none, and never lowers the count |
| Day3.Step | day3.py:91-116 | a successful parse had a token and returns the tokens less the first or unchanged; a failing one keeps the count |
| Day3.StepCounts | day3.py:101-116 | the count changes only when the last template completes: it grows by the product of the first two values and the machine is reset |
| Day3.StateMachine.constructor | day3.py:83-89 | the machine starts on a copy of the first template with index 0, no values and count 0 |
| Day3.StateMachine.Parse | day3.py:91-116 | the object's new state and the tokens returned are exactly one step of the machine: reset on Fail, updated state on PartialSuccess, next template and stored value on FullSuccess, count += values[0] * values[1] and reset past the last template |
| Day3.RunStateMachine | day3.py:119-125 | the loop returns the count of the machine run until no token is left, or the error the first failing parse raises |
| Day3.RunCountGrows | day3.py:119-125 | a finished run never reports less than the count it started from |
| Day3.MulStates | day3.py:171-180 | the eight states of the solver, all templates |
| Day3.RunUnfold | day3.py:122-123 | a run is one parse followed by the run of what is left |
| Day3.CharAccepted | day3.py:101-107 | a CharMatch that is not the last state accepts its character and moves to the next template |
| Day3.CharRejected | day3.py:95-98 | a CharMatch meeting another character consumes it and resets the machine, dropping the values |
| Day3.DigitRead | day3.py:62-70 | a digit that is not the third one of a number is appended and the machine stays in the same state |
| Day3.ThirdDigitRead | day3.py:62-68 | the third digit of a number ends it: its value is stored and the machine moves on |
| Day3.EarlyEnd | day3.py:72-75 | the separator after one or two digits ends the number, stores it and is left for the next state |
| Day3.ReadNumber | day3.py:57-79 | reading a number of one to three digits followed by its separator stores its decimal value and moves to the separator state |
| Day3.MulOpen | day3.py:172-175 | "mul(" takes a reset machine to the first number state |
| Day3.MulFirst | day3.py:176-177 | a one-to-three digit number and its comma store the number and move to the second number state |
| Day3.MulSecond | day3.py:101-115 | the second number and ")" add the product to the count and reset the machine |
| Day3.MulCounted | day3.py:119-125 | `mul(a,b)` with one to three digits per number adds a * b to the count and leaves the machine reset right after the ")" |
| Day3.NoiseSkipped | day3.py:95-98 | outside an instruction a character other than 'm' is dropped and changes nothing |
| Day3.NoMulNoCount | day3.py:119-125 | text without an 'm' adds nothing to the count |
| Day3.MmulMissed | day3.py:95-98 | the failing token is consumed, so the 'm' that restarts an instruction is lost: from any count, "mmul(2,3)" adds nothing |
| Day3.EmptyNumberRaises | day3.py:72-74 | a comma straight after "mul(" reaches `int("")`, which raises ValueError |
| Day3.FirstAt | day3.py:141-151 | the first occurrence of a non-empty pattern: None exactly when it never occurs; otherwise an occurrence with none before it |
| Day3.OccursShift | day3.py:141-151 | occurrences in s[1..] are those in s moved one to the left |
| Day3.Split1 | day3.py:141-151 | `str.split(pat, 1)`: nothing when pat does not occur, else the text before and after its first occurrence, which rebuild the input around pat |
| Day3.FilterUpTo | day3.py:139-157 | before the first switching marker the filter keeps all the text (enabled) or none of it (disabled) |
| Day3.FlattenAppend | day3.py:144-148 | appending a piece appends its text |
| Day3.FlattenCons | day3.py:144-148 | a piece in front puts its text in front |
| Day3.FilterAtMarker | day3.py:141-155 | a switching marker at the front is dropped and flips the filter |
| Day3.FilterAtDont | day3.py:141-146 | at the first "don't()" the filter keeps the text before it and goes on disabled after it |
| Day3.PiecesMeaning | day3.py:139-157 | the pieces the filter keeps, read off the markers, hold exactly the text the character-by-character filter keeps (enabled text kept, "don't()" disabling until the next "do()", markers dropped), and none of them contains "don't()" |
| Day3.PiecesAtDont | day3.py:141-146 | while enabled, the text before the first "don't()" is the next piece and reading goes on disabled after the marker |
| Day3.PiecesAtDo | day3.py:151-155 | while disabled, the text up to and including the first "do()" is dropped and reading goes on enabled |
| Day3.DontFound | day3.py:141-146 | splitting at "don't()" moves the text before it into the list of pieces and leaves a shorter rest that yields the remaining pieces |
| Day3.DontAbsent | day3.py:147-149 | with no "don't()" left the whole rest is the last piece |
| Day3.DoFound | day3.py:151-155 | skipping past "do()" leaves the pieces still to come unchanged, with a shorter rest |
| Day3.DoAbsent | day3.py:156-157 | with no "do()" left no more pieces come |
| Day3.NoDontOnePiece | day3.py:147-149 | an input without "don't()" is one piece |
| Day3.PieceClean | day3.py:144 | the text before the first "don't()" contains none |
| Day3.DoDontFilter | day3.py:128-159 | the result is exactly the marker-read pieces joined with a bar: the text before the first "don't()", then each text after a later "do()" up to the next "don't()"; an input without "don't()" comes back unchanged |
| Day3.FilterKeepsBar | day3.py:139-159 | "adon't()do()b" becomes "a", a bar, then "b": the cut leaves a bar between the pieces |
| Day3.ExamplePieces | day3.py:139-157 | "adon't()do()b" splits into the pieces "a" and "b" |
| Day4.Reverse | day4.py:51 | `s[::-1]`: same length, character k is character len-1-k of the input |
| Day4.XmasOneWay | day4.py:50-51 | XMAS is no palindrome, so one window never counts it both ways round |
| Day4.Ray | day4.py:48-74 | the four characters read from (i, j) in one direction |
| Day4.Window | day4.py:46-78 | one window adds at most 1 |
| Day4.WindowHits | day4.py:46-78 | a window that fits counts XMAS starting at its anchor plus XMAS starting at its far end heading back; one that does not fit counts nothing |
| Day4.CountXmasAtPos | day4.py:36-80 | the count at a cell is between 0 and 4 |
| Day4.CountXmasAtPosMeaning | day4.py:36-80 | the count at a cell is exactly the number of the eight directed occurrences of XMAS whose right, down, down-right or down-left window is anchored at the cell |
| Day4.PyDiagonal | day4.py:96-97 | each diagonal as the source reads it, with Python's negative indexing, has three letters |
| Day4.CountXMasAtPos | day4.py:83-104 | as written: 0 or 1, and 1 only when the cell lies in the grid with room down and right |
| Day4.Diagonal | day4.py:96-97 | the three in-grid letters of a diagonal through (i, j) |
| Day4.CountXMasAtPosFixed | day4.py:83-104 | with the guards 1 <= i and 1 <= j: 1 exactly when two MAS words, each either way round, cross at the cell with every letter inside the grid |
| Day4.CountXMasAtPosAgreesInside | day4.py:83-104 | away from the first row and column the two versions agree |
| Day4.CountXMasAtPosWrapsAround | day4.py:86-97 | in the grid .A. / S.S / M.M the A in the top row counts 1 as written, reading letters of the bottom row through index -1, though no crossing exists there |
| Day4.RowSumBound | day4.py:107-111 | with every cell counting between 0 and b, a partial row sums to between 0 and b times its length |
| Day4.GridSumBound | day4.py:107-111 | the same bound over the first k rows |
| Day4.GridSumBoundAll | day4.py:107-111 | for every per-cell bound b the whole grid sums to between 0 and b times its number of cells |
| Day4.CountXmasAll | day4.py:107-111 | the total over the grid lies between 0 and b per cell for every per-cell bound b |
| Day4.CountXmasAllBound | day4.py:107-126 | part 1 totals at most four per cell |
| Day4.CountXMasAllBound | day4.py:107-128 | with the corrected guards part 2 totals at most one per cell |
| Day4.CountXMasAllAsWrittenBound | day4.py:83-128 | as written, negative indices and all, part 2 is defined on every cell and totals at most one per cell |
| Day5.BreakRules.constructor | day5.py:11-14 | the dictionary lists exactly the rules: a is in the entry of x iff (a, x) is a rule, that is a must come before x; no key has been looked up yet, so no entry is empty |
| Day5.BreakRules.Call | day5.py:16-17 | `rules(x)` holds exactly the pages a that must come before x under some rule; the defaultdict lookup inserts an empty entry for a missing x and changes nothing else |
| Day5.BreakRules.IsIn | day5.py:19-20 | `is_in(x)` holds exactly when some rule has x on its right or x has already been looked up |
| Day5.KeysFrom | day5.py:12-20 | a key of the dictionary comes from a rule or from an earlier lookup, and every such x is a key |
| Day5.Rules | day5.py:16-17 | the value `rules(x)` reads: the entry of x, or the empty set the defaultdict supplies for a missing x |
| Day5.ValidPageObeys | day5.py:46-53 | the dictionary test and the rule test agree: no later page is one that a rule puts before an earlier page |
| Day5.CheckRules | day5.py:46-53 | `check_rules` is true exactly when no page is followed by a page that some rule requires before it; its lookups add keys only for pages of the update and leave the rules unchanged |
| Day5.SumTrueMids | day5.py:56-63 | the sum of the middle pages (index len // 2) of the correct updates, judged by the rules as they stood on entry, which the lookups keep |
| Day5.Insert | day5.py:78 | insertion adds exactly the one entry |
| Day5.SortBy | day5.py:78 | the sort is a permutation of the page |
| Day5.InsertSorted | day5.py:78 | inserting into a sorted list keeps it sorted when "comes first" is a strict order on the entries |
| Day5.InsertInFront | day5.py:78 | an entry that comes before the head can go in front without breaking the order |
| Day5.InsertBehind | day5.py:78 | an entry that does not come before the head keeps the head in front |
| Day5.SortBySorted | day5.py:78 | under a strict order the sort leaves no entry followed by one that comes before it |
| Day5.HeadsEqual | day5.py:78 | under a strict total order two sorted arrangements of the same entries start alike |
| Day5.SortedUnique | day5.py:78 | under a strict total order the sorted arrangement is unique, so any correct sort gives it |
| Day5.FixPage | day5.py:66-78 | `fix_page` returns a permutation of the page |
| Day5.Cmp | day5.py:67-76 | the comparator: -1 exactly when b is in rules(a), 1 exactly when a is in rules(b) and b is not in rules(a), 0 when neither |
| Day5.CmpAntisymmetric | day5.py:67-76 | when no two rules contradict, swapping the arguments negates the answer |
| Day5.LessAsWritten | day5.py:67-78 | the order cmp_to_key gives the sort: a comes first exactly when b is in rules(a) |
| Day5.SameRulesSameFix | day5.py:66-78 | dictionaries listing the same rules give the same reordering, so the empty entries lookups add do not matter |
| Day5.SortByAgree | day5.py:78 | two orders that agree everywhere sort alike |
| Day5.InsertAgree | day5.py:78 | two orders that agree everywhere insert alike |
| Day5.Reverse | day5.py:66-78 | the reversed list, entry by entry |
| Day5.FixPageReversesRuleOrder | day5.py:66-78 | as written the comparator puts a page before the pages that must precede it, so the reverse of the result is a correct update |
| Day5.FixPageCorrected | day5.py:66-78 | with the comparator pointing the intended way the result is a permutation of the page |
| Day5.FixPageCorrectedIsValid | day5.py:66-78 | the corrected reordering is a correct update made of the same pages |
| Day5.FixPageMidOnOddPages | day5.py:81-89 | with the rules a strict total order on the page, the result as written is the corrected one reversed, so on odd-length pages both share the middle page |
| Day5.ReverseMultiset | day5.py:66-78 | reversing keeps the entries |
| Day5.FixAndSumMids | day5.py:81-89 | the sum of the middle pages of the incorrect updates after `fix_page`, with the rules as they stood on entry, which the lookups keep |
| Day5.FixedMidsOddPages | day5.py:81-89 | when every update has odd length and is totally ordered by the rules, the part 2 answer as written equals the corrected one |
| Day5.PartsSplitUpdates | day5.py:56-89 | when every update is correct, part 1 sums all the middle pages and part 2 sums nothing |
| Day5.FixPageKeepsEvenPageBackwards | day5.py:66-89 | with the one rule that 1 comes before 2 the update [2, 1] comes back as [2, 1], still incorrect, with middle page 1; the corrected sort gives [1, 2] with middle page 2 |
| Day6.Delta | day6.py:16-20 | each direction moves one cell along one axis |
| Day6.NextDir | day6.py:22-33 | `next_dir` turns a quarter clockwise: (dr, dc) becomes (dc, -dr) |
| Day6.FourTurns | day6.py:22-33 | four turns bring the guard back to its direction and fewer do not |
| Day6.Move | day6.py:146-157 | one loop iteration: nothing exactly when the cell ahead is off the grid; otherwise a turn in place at a wall or a step onto the cell ahead |
| Day6.WalkCompose | day6.py:146-157 | walking a then b iterations is walking a + b |
| Day6.WalkFirst | day6.py:146-157 | walking n + 1 iterations is one move, then n |
| Day6.Walk | day6.py:146-157 | n iterations of the loop: none is the start; a guard starting inside the grid stays inside, and one starting off a wall never stands on a wall |
| Day6.ExitsFirst | day6.py:146-157 | a guard that leaves after one move leaves from where it stood before |
| Day6.OutStaysOut | day6.py:146-157 | once the guard has left it stays out |
| Day6.Cycle | day6.py:162-178 | a (cell, direction) state that recurs recurs forever: the guard is trapped |
| Day6.PeriodicInside | day6.py:162-178 | a state the walk returns to keeps the guard inside for any number of iterations |
| Day6.RecordWasState | day6.py:77-84 | every turn record is the guard's state right after an earlier turn |
| Day6.DetectIffTrapped | day6.py:162-178 | loop detection is exact: started from the records of the turns so far, it answers true exactly when the guard never leaves the grid |
| Day6.Detect | day6.py:162-178 | loop detection answers false only for a guard that leaves the grid; a true answer has the cell ahead inside the grid |
| Day6.VisitedShift | day6.py:70-72 | one iteration shifts the cells walked by one |
| Day6.TrailIsWalk | day6.py:146-159 | the guard leaves within fuel + 1 iterations exactly when the trail exists, and then the trail is the marked cells plus every cell walked |
| Day6.TrailStep | day6.py:146-159 | the trail property carries over one move |
| Day6.NoVisitAfterExit | day6.py:146-159 | a guard facing the edge walks only its own cell |
| Day6.CellsSet | day6.py:72 | setting one flag of the grid adds its cell and nothing else |
| Day6.Maze.constructor | day6.py:37-38 | the maze holds the given grid of walls |
| Day6.Maze.HasWall | day6.py:40-41 | `has_wall` is true exactly for the wall cells |
| Day6.Tracker.constructor | day6.py:45-49 | the tracker starts on the start cell facing north, only that cell marked, no turn records, on a fresh grid of the maze's shape |
| Day6.Tracker.ResetTracker | day6.py:51-56 | `reset_tracker`: facing north on the start cell, only the start marked, no records, a fresh tracking grid |
| Day6.Tracker.NextPosition | day6.py:58-68 | the cell ahead, or nothing exactly when it is off the grid |
| Day6.Tracker.Forward | day6.py:70-72 | one step ahead, the new cell marked and nothing else changed |
| Day6.Tracker.Turn | day6.py:74-75 | a right turn in place, nothing else changed |
| Day6.Tracker.TurnAndCheckLoop | day6.py:77-84 | a right turn; the answer is whether (cell, new direction) was already recorded, and it is recorded now |
| Day6.Tracker.Count | day6.py:86-87 | the number of marked cells |
| Day6.CountCells | day6.py:86-87 | the row-by-row count equals the number of set cells of the grid |
| Day6.TrailMove | day6.py:146-157 | one iteration of the part 1 loop leaves the trail still to come unchanged |
| Day6.MoveTracker | day6.py:152-157 | the loop body of part 1 is one move of the guard, marking the cell it ends on |
| Day6.WalkStep | day6.py:146-157 | one iteration of the part 1 loop keeps the walls and leaves the same trail still to come, with one iteration less of fuel |
| Day6.WalkToEnd | day6.py:147-157 | the loop ends exactly when the trail exists within fuel iterations, with exactly the trail marked |
| Day6.TrackToEndAndCount | day6.py:146-159 | part 1: the number of distinct cells the guard walks before stepping off, start included; nothing when that takes more than fuel iterations |
| Day6.TrackForLoops | day6.py:162-178 | the answer is the reference loop detection from the tracker's state and records |
| Day6.LoopCellsNext | day6.py:110-124 | row-major counting: the next cell joins when it is a candidate that traps the guard |
| Day6.LoopCellsRow | day6.py:110-124 | a row ends at its last column |
| Day6.LoopCellsAll | day6.py:110-124 | all the rows together make the whole set of trapping candidates |
| Day6.TryWall | day6.py:122-124 | one generated maze: the cell becomes a wall, the guard is checked from a reset tracker, and the cell is cleared; the answer is whether that wall traps the guard and the maze ends as it began |
| Day6.CheckCell | day6.py:114-124 | the body of generate_mazes for one cell keeps the count equal to the trapping candidates seen so far |
| Day6.CountRow | day6.py:114-124 | one row of generate_mazes keeps the same count |
| Day6.CountLoopCells | day6.py:188-190 | the count is the number of cells on the walked path, not walls and not the start, whose becoming a wall traps the guard; the maze ends unchanged |
| Day6.CountPotentialLoops | day6.py:181-192 | part 2: the number of cells on the original path (not walls, not the start) that trap the guard once made a wall; nothing when the first walk exceeds fuel; the maze ends as it began |
| Day7.Concat | day7.py:39 | concatenating the decimal digits of b after those of a is a shifted by the number of digits of b, plus b |
| Day7.IsCalcsTarget | day7.py:27-44 | the evaluation loop returns true exactly when no running value exceeds the target and the final value equals it |
| Day7.ApplyOp | day7.py:33-39 | operator 0 multiplies, 1 adds and any other concatenates the decimal digits, as the reference evaluation of a tuple does |
| Day7.Power | day7.py:48 | a power of a positive base is positive |
| Day7.Decode | day7.py:48 | every decoded index is an operator tuple of the right length over the operator alphabet |
| Day7.BoundStep | day7.py:48 | appending one more digit keeps an encoding below the next power of the base |
| Day7.EncodeDecode | day7.py:48 | every operator tuple is the decoding of some index below base^len, so the enumeration visits all tuples |
| Day7.CheckSolvable | day7.py:47-64 | the search returns true exactly when some operator tuple over the alphabet hits the target |
| Day7.CheckIfSolvable | day7.py:47-54 | true exactly when some choice of * and + hits the target |
| Day7.CheckIfSolvableWithConcat | day7.py:57-64 | true exactly when some choice of *, + and concatenation hits the target |
| Day7.SolvableWithoutConcatIsSolvableWithConcat | day7.py:47-64 | an equation solvable with * and + alone is solvable once concatenation is added |
| Day7.SingleValueSolvable | day7.py:31-44 | a single value is solvable exactly when it is the target |
| Day7.PrefixMonotone | day7.py:32-39 | with every value at least 1 the running value never decreases |
| Day7.MulGrows | day7.py:35 | multiplying by a value of at least 1 never decreases |
| Day7.EarlyExitExact | day7.py:41-44 | with every value at least 1 the early exit loses nothing: a hit is exactly a final value equal to the target |
| Day7.EarlyExitMissesZero | day7.py:41-44 | with a zero value the early exit can reject a tuple whose final value is the target: 5 * 3 * 0 is 0, yet target 0 is rejected |
| Day8.RowFoldMembers | day8.py:44 | the pairs taken with first index a are exactly those with every other second index |
| Day8.ListFoldMembers | day8.py:44 | `permutations(l, 2)` visits exactly the ordered pairs of distinct indices |
| Day8.SimpleListMembers | day8.py:43-51 | one list's antinodes are exactly the points pos1 + (pos1 - pos2) over ordered pairs of distinct antennas: since both orders are used, pos2 - delta adds nothing more |
| Day8.SimpleFoldMembers | day8.py:41-53 | the union over frequencies holds exactly the simple antinodes of some frequency |
| Day8.CreateAntinodePosSet | day8.py:41-53 | the set built by the loops holds exactly the points pos1 + (pos1 - pos2) for two distinct antennas of one frequency |
| Day8.RayMembers | day8.py:64-65 | the forward loop adds exactly pos + i * delta for 0 <= i < n |
| Day8.BackRayIsRay | day8.py:67-68 | walking back by delta is walking forward by -delta |
| Day8.HarmonicPairMembers | day8.py:61-68 | one pair contributes exactly the forward multiples from each of its two antennas |
| Day8.HarmonicListMembers | day8.py:61-68 | one list contributes exactly pos1 + i * (pos1 - pos2), 0 <= i < n, over ordered pairs of distinct antennas |
| Day8.AntennasAreHarmonic | day8.py:70-71 | with n >= 1 every antenna of a frequency with two or more antennas is multiple 0 of some pair, so the update adds nothing new |
| Day8.HarmonicFoldMembers | day8.py:56-73 | with at least one multiple the harmonic set holds exactly the harmonic antinodes of some frequency |
| Day8.CreateAntinodePosHarmonicSet | day8.py:56-73 | the set built by the loops is the harmonic union; with rows + cols >= 1 it holds exactly the points pos1 + i * (pos1 - pos2), 0 <= i < rows + cols, for two distinct antennas of one frequency |
| Day8.AddHarmonics | day8.py:61-67 | the two i-loops for one pair add exactly the rows + cols points from pos1 along pos1 - pos2 and the rows + cols points from pos2 against it |
| Day8.AddHarmonicRow | day8.py:60-67 | the pairs that start with one antenna add exactly the harmonic points of those pairs |
| Day8.HarmonicContainsSimple | day8.py:56-73 | with rows + cols >= 2 the harmonic set contains the simple set |
| Day8.OutOfBounds | day8.py:76-88 | out of bounds exactly when the point lies outside rows x cols |
| Day9.Rep | day9.py:105-106 | n copies of one value have length n |
| Day9.RepAt | day9.py:105-106 | every copy is that value |
| Day9.RepMultiset | day9.py:105-106 | n copies hold the value n times and nothing else |
| Day9.ParityIsHalving | day9.py:14-15 | `is_space` is idx % 2 == 1 and the file id of an entry is idx // 2 |
| Day9.ParityStep | day9.py:34-36 | two entries on, the kind is the same and the id one more |
| Day9.StartMono | day9.py:18-61 | disk positions of map entries never decrease |
| Day9.FreeMono | day9.py:18-61 | the free-block count of a prefix never decreases |
| Day9.Files | day9.py:60 | the file blocks of a prefix, one per block |
| Day9.StartSplit | day9.py:60 | every block is a file block or a free block |
| Day9.FilesPrefix | day9.py:60 | the file blocks of a shorter prefix start those of a longer one |
| Day9.FilesAt | day9.py:60 | block t of file entry i is file block number FileBlocks(i) + t, carrying that entry's id, and lies before n_char |
| Day9.Refill | day9.py:18-59 | each entry keeps its length after compaction |
| Day9.Fill | day9.py:37-44 | a run of free blocks keeps its length |
| Day9.FillAt | day9.py:37-44 | free block k receives file block k counted from the right |
| Day9.Refilled | day9.py:18-59 | the compacted prefix is as long as the original prefix |
| Day9.RefilledAt | day9.py:18-59 | block t of entry i sits at disk position Start(i) + t |
| Day9.Compacted | day9.py:60-61 | the block compaction cut at n_char has exactly n_char blocks |
| Day9.CompactBlocks | day9.py:18-59 | on an odd-length map of non-empty files the loop's output starts with the compacted disk (each free block from the left gets the next file block from the right); as written it raises IndexError exactly when the total free space is less than the last file |
| Day9.FreeRunStep | day9.py:37-47 | a loop iteration at a free run keeps the cursor invariant and makes progress |
| Day9.FileRunStep | day9.py:48-58 | a loop iteration at a file keeps the cursor invariant and makes progress |
| Day9.CursorsStart | day9.py:20-30 | the cursors start on the first and the last entry with an empty output |
| Day9.NextRightFile | day9.py:32-36 | a used-up right file moves the right cursor to the previous file, id one less |
| Day9.MoveBlock | day9.py:37-44 | a block of the right file fills the next free block on the left |
| Day9.SkipSpace | day9.py:45-47 | a filled free run moves the left cursor to the next file |
| Day9.NextLeftEntry | day9.py:53-58 | a finished left file moves the left cursor to the following free run, id one more |
| Day9.KeepBlock | day9.py:48-52 | a block of the left file stays in place |
| Day9.LeftAtEnd | day9.py:53-58 | the left cursor finishes the last file only when the free space is less than the last file, and the output then already holds the compacted disk |
| Day9.Crossed | day9.py:31 | the loop ends with the output holding the compacted disk, and then the last file fits into the free space |
| Day9.AppendMoved | day9.py:37-44 | a block written in a free run lands at the disk position the compaction gives it |
| Day9.MovedFrom | day9.py:37-44 | that block carries the id of the right file it came from |
| Day9.RefillSpaceAt | day9.py:37-44 | free block t of run i holds the matching block from the right |
| Day9.CompactedAt | day9.py:60-61 | the cut result agrees with the refilled disk below n_char |
| Day9.AppendKept | day9.py:48-52 | a block written in a file lands at its own disk position |
| Day9.KeptAt | day9.py:48-52 | that block keeps its file's id |
| Day9.FinalLength | day9.py:31 | once the left cursor has passed the right one, every block of the right file is behind it |
| Day9.CharCompressChecksum | day9.py:18-61 | part 1 as written: the checksum of the compacted disk's first n_char blocks, or IndexError exactly when the free space is less than the last file |
| Day9.CharCompressChecksumGuarded | day9.py:18-61 | with the scan stopping after the last file, always the checksum of the compacted disk |
| Day9.CharCompressFailsWithoutFreeSpace | day9.py:45-58 | for the map "101" there is no free space, so the loop walks past the map's end, while the compacted disk is [0, 1] with checksum 1 |
| Day9.FileSizes | day9.py:70-82 | one size per file, by id |
| Day9.FileSizesAt | day9.py:70-82 | file g's size is map entry 2g |
| Day9.TwiceId | day9.py:14-15 | twice the id is the index of the entry's file |
| Day9.FindFit | day9.py:100-111 | the scan over unseen files from the highest id down returns the reference choice: an unseen file that fits, every unseen file with a higher id not fitting; None means no unseen file fits |
| Day9.Fit | day9.py:100-111 | the file a free run of the given size takes: the highest-id unseen file that fits, or None when none fits |
| Day9.FitBelow | day9.py:100-111 | the same choice among the files below id n |
| Day9.AllUnseen | day9.py:84 | `id_seen_flags` at the start: one False flag per file |
| Day9.UnseenMark | day9.py:108 | marking a file seen lowers the unseen count |
| Day9.UnseenAtMost | day9.py:108 | more flags set means fewer unseen |
| Day9.BlockCompact | day9.py:64-139 | the loop fails (IndexError) exactly for an even-length map; otherwise its output is the reference scan (free runs take the highest-id unseen file that fits, then pad with "."; a file writes its id, or "." once moved) and a whole-file compaction: one cell per block, every file's blocks present exactly once, each file either in place or moved whole into a free run to its left |
| Day9.AsCells | day9.py:141 | a disk of file blocks written as cells |
| Day9.CellChecksumOfFiles | day9.py:61-141 | with no "." the two checksums agree |
| Day9.CellChecksumClear | day9.py:124-141 | clearing a block to "." takes its index times its id off the sum |
| Day9.BlockCompressChecksum | day9.py:64-141 | part 2: the checksum of the reference scan, which is a whole-file compaction, "." adding nothing; IndexError exactly for an even-length map |
| Day9.SpaceStep | day9.py:90-117 | a loop iteration at a free run keeps the scan invariant and makes progress |
| Day9.FileStep | day9.py:119-137 | a loop iteration at a file keeps the scan invariant and makes progress |
| Day9.EvenIsFile | day9.py:14-15 | entry 2g is file g; entry 2g + 1 is the run after it |
| Day9.IdMono | day9.py:14-15 | ids never decrease along the map |
| Day9.StartUnique | day9.py:64-141 | a disk position lies in exactly one entry |
| Day9.WrittenBefore | day9.py:64-141 | a written cell lies at or before the left cursor |
| Day9.ScanStart | day9.py:84-88 | the scan starts with nothing seen, nothing moved and nothing written |
| Day9.ScanSkipSpace | day9.py:90-92 | a full free run moves the scan to the next file |
| Day9.ScanMove | day9.py:103-111 | a fitting file moves whole into the free run, which shrinks by its size |
| Day9.MovePlaced | day9.py:103-111 | the moved blocks land in the free run at the left cursor |
| Day9.MoveCounts | day9.py:103-111 | after a move the output holds every block of the moved file once |
| Day9.ScanPad | day9.py:113-117 | when no file fits, the rest of the free run becomes "." |
| Day9.ScanKeep | day9.py:119-128 | a block of the file at the left is its id, or "." when the file has moved |
| Day9.ScanNextFile | day9.py:129-137 | a finished file is marked seen and can no longer move |
| Day9.ScanDone | day9.py:89 | past the last entry, the map had odd length and the output is a whole-file compaction |
| Day9.ContSkip | day9.py:90-92 | in the reference, a used-up free run hands over to the next entry with its full count |
| Day9.ContFit | day9.py:103-111 | in the reference, a free run with room writes the fitting file's id size times, marks it seen and keeps the rest of the room |
| Day9.ContPad | day9.py:113-117 | in the reference, a free run where nothing fits writes "." for all its room and is used up |
| Day9.ContBlock | day9.py:119-128 | in the reference, a file block writes its id, or "." once the file is seen |
| Day9.ContNextFile | day9.py:129-137 | in the reference, a finished file is marked seen and the next entry starts with its count |
| Day9.RefSkip | day9.py:90-92 | skipping a used-up free run keeps the output on course for the reference |
| Day9.RefFit | day9.py:103-111 | moving a fitting file keeps the output on course for the reference |
| Day9.RefPad | day9.py:113-117 | padding with "." keeps the output on course for the reference |
| Day9.RefBlock | day9.py:119-128 | writing a file block keeps the output on course for the reference |
| Day9.RefNextFile | day9.py:129-137 | finishing a file keeps the output on course for the reference |
| Day9.FileBlock | day9.py:119-128 | the loop body for one block of the file at the left keeps the scan invariant and the output on course for the reference |
| Day9.FileDone | day9.py:129-137 | the loop body for a finished file moves to the next entry, keeping the scan invariant and the output on course for the reference |
| Day10.InTrailList | day10.py:25-35 | true exactly when the row is in [0, rows) and the column in [0, len(first row)) |
| Day10.Succ | day10.py:64-70 | every listed neighbour is in the grid and one unit higher |
| Day10.SuccAlong | day10.py:64-70 | the scan along given directions finds no more neighbours than there are directions |
| Day10.SuccAlongHigher | day10.py:64-70 | every neighbour the scan finds is in the grid and one unit higher |
| Day10.SuccAlongSound | day10.py:64-70 | every neighbour found along given directions is the cell one of them leads to |
| Day10.SuccAlongHas | day10.py:64-70 | every in-grid neighbour one unit higher along a given direction is found |
| Day10.SuccAlongDistinct | day10.py:64-70 | distinct directions give distinct neighbours |
| Day10.NotInSuccAlong | day10.py:64-70 | a direction not scanned contributes nothing |
| Day10.ConsDistinct | day10.py:64-70 | a new entry in front of distinct entries keeps them distinct |
| Day10.SuccMeaning | day10.py:64-70 | `trail_next[pos]` holds exactly the in-grid 4-neighbours one unit higher, each once |
| Day10.SuccSound | day10.py:64-70 | every listed neighbour is a 4-neighbour |
| Day10.SuccComplete | day10.py:64-70 | every 4-neighbour in the grid one unit higher is listed |
| Day10.ClimbsFrom | day10.py:79-93 | every climb from p starts at p |
| Day10.ConsClimb | day10.py:88-89 | a step up in front of a climb is a climb |
| Day10.TailClimb | day10.py:88-89 | a climb of two or more cells is a step up followed by a climb |
| Day10.ClimbsFromMeaning | day10.py:79-93 | the climbs from p are exactly the climbs starting at p |
| Day10.InClimbsIsClimb | day10.py:79-93 | every listed climb is a climb |
| Day10.ClimbIsInClimbs | day10.py:79-93 | every climb from p is listed |
| Day10.PeaksAreClimbEnds | day10.py:79-93 | `work` of part 1 returns exactly the height-9 cells at the end of some climb from p |
| Day10.PeakHasClimb | day10.py:79-93 | each returned cell ends some climb |
| Day10.ClimbEndIsPeak | day10.py:79-93 | each climb's end is returned |
| Day10.ClimbsFromCons | day10.py:87-89 | a climb from a cell below 9 goes through one of its listed neighbours |
| Day10.PeakStep | day10.py:87-89 | a peak reached from a listed neighbour is reached from the cell |
| Day10.PrefixedSize | day10.py:114-116 | putting a cell in front of distinct climbs keeps them distinct |
| Day10.DistinctInit | day10.py:114-116 | dropping the last of distinct cells keeps them distinct and leaves it out |
| Day10.ViaSplit | day10.py:114-116 | the climbs through a list of first steps split into those through all but the last and those through the last |
| Day10.ViaApart | day10.py:114-116 | climbs through different first steps differ |
| Day10.PathsSumCounts | day10.py:114-116 | summing the counts of distinct first steps counts the climbs through them |
| Day10.PathsCountClimbs | day10.py:106-120 | `work` of part 2 is exactly the number of distinct climbs from p to height 9 |
| Day10.SuccAlongSnoc | day10.py:64-70 | scanning one more direction appends what it finds |
| Day10.SuccAlongPrefix | day10.py:64-70 | the scan's first i + 1 directions find the first i's neighbours plus the next one's, if it is higher by one |
| Day10.AddNext | day10.py:64-70 | the DIRS loop for one cell lists exactly its higher neighbours, in DIRS order; a cell with none gets no entry |
| Day10.DoneNext | day10.py:55-57 | one more cell visited in row-major order |
| Day10.ValsStep | day10.py:59 | recording a cell's height keeps every visited cell's height recorded |
| Day10.NextStep | day10.py:64-70 | the neighbour lists stay exact for every visited cell |
| Day10.NextKeysStep | day10.py:64-70 | only visited cells with some higher neighbour have a list |
| Day10.NextValsStep | day10.py:64-70 | every visited cell's list is its higher neighbours |
| Day10.StartsStep | day10.py:61-62 | the starts stay exactly the visited height-0 cells, in row-major order |
| Day10.AddCell | day10.py:57-70 | one cell of the parse keeps everything built exact up to the next cell |
| Day10.RowDone | day10.py:55-56 | a finished row hands over to the next |
| Day10.ParseTrail | day10.py:51-72 | the trail built from a parsed height grid: every cell's height, its exact higher neighbours, and the height-0 cells as starts in row-major order |
| Day10.BuiltAnswers | day10.py:18-22 | a built trail answers `get_val` and `next_pos` correctly for every cell |
| Day10.BuiltStarts | day10.py:61-62 | every start is a height-0 cell |
| Day10.PeaksUnionStep | day10.py:88-89 | the union over one more neighbour adds that neighbour's peaks |
| Day10.HeadsMemoAdd | day10.py:84-91 | remembering a right answer keeps the memo right |
| Day10.HeadsWork | day10.py:79-93 | memoised `work` returns the reachable peaks and keeps every remembered answer right |
| Day10.HeadsUnion | day10.py:87-89 | the loop over listed neighbours returns the union of their peaks |
| Day10.PathsMemoAdd | day10.py:111-118 | remembering a right answer keeps the memo right |
| Day10.PathsWork | day10.py:106-120 | memoised `work` returns the number of climbs and keeps every remembered answer right |
| Day10.PathsAdd | day10.py:114-116 | the loop over listed neighbours returns the sum of their counts |
| Day10.CountTrailHeads | day10.py:75-99 | part 1: the sum over the starts of the number of distinct height-9 cells reachable |
| Day10.CountTrailCombinations | day10.py:102-126 | part 2: the sum over the starts of the number of distinct climbs |
| Day11.StoneUpdate | day11.py:20-32 | one or two stones always come out |
| Day11.StoneUpdateValue | day11.py:21-32 | 0 becomes [1]; a number n with an even digit count d becomes [n mod 10^(d/2), n div 10^(d/2)], the right half first; any other number becomes [2024 n] |
| Day11.SplitHalves | day11.py:26-30 | the two halves of str(n) are digit strings whose values are n mod 10^(d/2) and n div 10^(d/2) |
| Day11.BlinkAppend | day11.py:38-42 | a blink of two rows is the blinks of each, joined |
| Day11.BlinkLength | day11.py:38-42 | when no stone vanishes a blink never shrinks the row |
| Day11.BlinkRespectsMultiset | day11.py:38-42 | a blink depends only on which stones there are, not on their order |
| Day11.Total | day11.py:57 | `sum(stone_dict.values())` is the number of stones the dictionary stands for |
| Day11.RepLength | day11.py:42 | v copies have length v |
| Day11.AddTo | day11.py:42 | `next_stone_dict[s] += v` keeps the keys distinct and adds no key but s |
| Day11.ExpandAppend | day11.py:38 | the stones of two item lists, joined |
| Day11.RepAppend | day11.py:42 | m + n copies are m copies then n |
| Day11.AddToMeaning | day11.py:42 | adding v to the count of s adds exactly v stones numbered s |
| Day11.AddToHit | day11.py:42 | the same when s is the first key |
| Day11.AddToMiss | day11.py:42 | the same when s is not the first key |
| Day11.AddAllDistinct | day11.py:41-42 | the inner loop keeps the keys distinct |
| Day11.RoundDistinct | day11.py:37-44 | every round yields a genuine dictionary: no number twice |
| Day11.AddAllMeaning | day11.py:41-42 | the inner loop adds each new stone v times |
| Day11.MRepAdd | day11.py:41-42 | repeating a sum of multisets is the sum of the repeats |
| Day11.RepMultiset | day11.py:42 | v copies of x as a multiset |
| Day11.MRepEmpty | day11.py:41-42 | repeating nothing gives nothing |
| Day11.RepEachMultiset | day11.py:41-42 | each stone v times is the multiset repeated v times |
| Day11.RepSeqMultiset | day11.py:41-42 | a row v times is its multiset repeated v times |
| Day11.BlinkRep | day11.py:39-42 | v copies of a stone blink into v copies of its update |
| Day11.RoundMeaning | day11.py:37-44 | one round of the dictionary stands for exactly the stones after one blink |
| Day11.ExpandLast | day11.py:38 | the stones of a dictionary are those of all but its last item, then the last item's |
| Day11.NRoundsMeaning | day11.py:35-46 | after n rounds the dictionary stands for exactly the stones after n blinks |
| Day11.NRoundsTotalGrows | day11.py:35-46 | when no stone vanishes the total never decreases |
| Day11.RoundStep | day11.py:38-42 | one more item of the old dictionary is one more pass of the inner loop |
| Day11.RoundTotalGrows | day11.py:37-44 | when every rule yields at least one stone, a round never lowers the total number of stones |
| Day11.StoneDictRounds | day11.py:35-46 | with stone_update, n rounds stand for the stones after n blinks and the total never decreases |
| Day11.AddStones | day11.py:41-42 | the innermost loop adds v to the count of every new stone, in order |
| Day11.BlinkDict | day11.py:37-44 | one round: each old item's update, weighted by its count, added into a fresh dictionary |
| Day11.NUpdateStoneDict | day11.py:35-46 | after n rounds the dictionary stands for exactly the stones after n blinks (n = 0 returns the input), and the total has not decreased |
| Day12.GetPossibleNeighbours | day12.py:14-21 | exactly the 4-neighbours of pos that are in the valid set, each once |
| Day12.GrowRegion | day12.py:37-48 | the inner flood fill returns a region that starts at the popped cell, lists each cell once, in an order where every cell touches an earlier one; its cells and the cells left make up the cells it started from, apart, and no cell left is next to the region |
| Day12.GrowStep | day12.py:40-48 | one pass of the inner loop keeps the region distinct and linked, keeps every cell accounted for, leaves no neighbour of the region behind, and shrinks the cells left plus the queue |
| Day12.PeelRegion | day12.py:37-48 | popping a remaining cell and growing its region extends a partial split of the plant with one more region and strictly fewer cells left |
| Day12.Visit | day12.py:41-42 | popping a cell appends it to the region, keeping every cell linked to an earlier one and every queued cell next to the region |
| Day12.Enqueue | day12.py:46-48 | the neighbours found move from the remaining set to the search list; the two together keep their size |
| Day12.EnqueueKeeps | day12.py:44-48 | moving the newest cell's unvisited neighbours keeps the region, the search list and the remaining set apart and covering the same cells, and leaves no remaining cell next to the region |
| Day12.InAllCells | day12.py:31-52 | a cell is in the regions found exactly when it is in one of them |
| Day12.RegionsAt | day12.py:36 | region k of a plant is labelled (plant, k) and is a good region |
| Day12.RegionsApart | day12.py:35-50 | two different regions share no cell |
| Day12.SplitMeaning | day12.py:31-52 | for one plant every region is labelled in order, non-empty, listed once per cell, 4-connected and closed under neighbours within the plant; regions share no cell; together they hold every cell of the plant |
| Day12.AddRegion | day12.py:35-50 | a finished region keeps the outer loop's invariant and the remaining set shrinks |
| Day12.RegionClosed | day12.py:40-48 | a finished region holds every cell of the plant next to one of its cells |
| Day12.SeparatePlant | day12.py:33-50 | the outer loop for one plant returns its split into regions |
| Day12.LinkedConnected | day12.py:40-48 | a region in flood-fill order is 4-connected: a walk inside it joins its first cell to any other |
| Day12.RegionsNotAdjacent | day12.py:40-48 | no cell of one region of a plant is a 4-neighbour of a cell of another region of that plant |
| Day12.OfPlant | day12.py:31-52 | the regions picked for a plant are regions of that plant |
| Day12.OfPlantAppend | day12.py:31-52 | picking a plant's regions from two lists joins the picks |
| Day12.OfPlantSame | day12.py:31-52 | a list of regions of one plant is all picked for that plant and none for another |
| Day12.SeparatePlants | day12.py:25-52 | for every plant, the regions with its name are its split into regions; every region belongs to a listed plant; no label appears twice |
| Day12.AppendPlant | day12.py:32-50 | adding one plant's regions keeps the earlier plants' splits and the labels distinct |
| Day12.SplitPlant | day12.py:33-50 | one plant's regions carry its name and distinct labels |
| Day12.OfPlantNone | day12.py:31-52 | a list with no region of a plant picks nothing for it |
| Day12.AppendKeys | day12.py:31-52 | labels of different plants never clash |
| Day12.NbFour | day12.py:85 | the neighbour count is the sum over the four directions |
| Day12.NbAddOne | day12.py:72-79 | one more cell adds one neighbour to exactly its 4-neighbours |
| Day12.CountAdjNb | day12.py:72-79 | counting neighbours in a list of distinct cells is counting them in its set |
| Day12.ExposedInAdd | day12.py:72-79 | adding a cell to the region covers one side of each of its neighbours |
| Day12.PerimeterIsExposed | day12.py:67-79 | for distinct cells the running count of gen_perimeter_dict is the number of cell sides facing no region cell, and equals 4 * area - 2 * (adjacent pairs) |
| Day12.Perimeter | day12.py:67-79 | the running edge count is even and at most four per cell |
| Day12.NbSelf | day12.py:72-79 | a cell is not its own neighbour |
| Day12.RegionPerimeter | day12.py:69-79 | the loop for one region returns its running edge count, which for distinct cells is the number of exposed sides and 4 * area - 2 * (adjacent pairs) |
| Day12.CornersCases | day12.py:84-100 | the reference count of boundary corners is 4 for a cell with no neighbour in the region, 2 with exactly one, and otherwise what the loop of corners_at_pos counts |
| Day12.CornerTerm | day12.py:92-99 | one direction pair adds 1 exactly when both neighbours are in or both out, and, when both are in, the diagonal between them is out |
| Day12.CornersUpTo | day12.py:92-99 | the first k pairs add at most k corners, all k when the region is empty |
| Day12.Corners | day12.py:84-100 | at most four corners at a cell, and four against an empty region |
| Day12.UpToFour | day12.py:92-99 | both corner sums written out over the four direction pairs |
| Day12.CornersAtPos | day12.py:84-100 | `corners_at_pos` counts the boundary corners at the cell: convex where both of a perpendicular pair of neighbours are missing, concave where both are present and the diagonal between them is missing |
| Day12.RegionSides | day12.py:106-109 | the loop of gen_side_dict for one region sums the corners at each of its cells |
| Day12.SingleCell | day12.py:67-111 | a single cell has 4 corners and perimeter 4 |
| Day12.GenPerimeterDict | day12.py:67-81 | every region's label maps to its edge count; only labels of non-empty regions are present |
| Day12.GenSideDict | day12.py:103-111 | every region's label maps to its corner count; only labels of non-empty regions are present |
| Day12.CalculatePerimeterCost | day12.py:114-120 | the sum over regions of perimeter times area |
| Day12.CalculateSideCost | day12.py:123-129 | the sum over regions of corner count times area |
| Day14.Wrap | day14.py:31-34 | the position reduced modulo WORLD_DIM per coordinate lies inside the world (Python's % on a positive modulus, as Dafny's) |
| Day14.Robot.constructor | day14.py:21-25 | the robot starts at its initial position with its velocity |
| Day14.Robot.Reset | day14.py:27-28 | `reset` restores the initial position and keeps the velocity |
| Day14.Robot.Step | day14.py:30-35 | `step` moves to (pos + vel) mod WORLD_DIM, inside the world, keeping the velocity and the initial position |
| Day14.StepAfter | day14.py:30-35 | one more step from where t steps lead is where t + 1 steps lead |
| Day14.AfterInWorld | day14.py:30-35 | after at least one step a robot is inside the world |
| Day14.AfterPeriodic | day14.py:30-35 | after rows * cols more steps a robot is back where it was |
| Day14.AfterCompose | day14.py:58-61 | a steps then b steps are a + b steps |
| Day14.StepAll | day14.py:60-61 | one round steps every listed robot once per listing, leaving velocities and initial positions alone |
| Day14.StepListed | day14.py:60-61 | stepping the j-th listed robot extends the stepped prefix by one and leaves every velocity and initial position alone |
| Day14.SimulateNRounds | day14.py:58-61 | after n rounds each robot is at (pos0 + n * vel) mod WORLD_DIM (n times its listings when listed more than once); n = 0 changes nothing |
| Day14.Quadrant | day14.py:68-75 | a position is in one of the four quadrants, or in none exactly when it lies on the middle row or column |
| Day14.QuadCount | day14.py:67-75 | at most as many robots as positions in any quadrant |
| Day14.QuadrantsPartition | day14.py:67-75 | every robot is counted in exactly one quadrant or on a middle line |
| Day14.Positions | day14.py:67 | the robots' current positions, in order |
| Day14.ScoreByQuad | day14.py:64-77 | the product of the four quadrant counts |
| Day15.Delta | day15.py:11-14 | each of the four moves is a unit step along one axis |
| Day15.AheadStep | day15.py:57-58 | one step along a direction goes ahead, and what lies ahead is that step or lies ahead of it |
| Day15.RunEndMeaning | day15.py:56-58 | the scan for the end of the row of boxes stops at the first cell with no box; it stays put exactly when the first cell is free, and every cell it passes holds a box |
| Day15.ShiftRow | day15.py:64-65 | removing the first box of a full row and adding one past its end is the same as shifting every box of the row one step |
| Day15.PushShiftsRow | day15.py:56-66 | a push that is not blocked by a wall shifts the whole row of boxes one step and moves the robot into the first box's cell |
| Day15.NarrowMove | day15.py:44-68 | a move keeps the walls and either changes nothing or puts the robot one step on, never on a wall; the boxes change only when the robot steps into a box, whose cell is then free |
| Day15.NarrowMoveKeeps | day15.py:44-68 | a move keeps the warehouse well formed (no box on a wall, the robot on neither), keeps the number of boxes and never changes the walls |
| Day15.MovesOnly | day15.py:209-219 | the move characters of a string, each one a move |
| Day15.NarrowRunIgnores | day15.py:208-221 | characters other than the four arrows change nothing |
| Day15.NarrowRunKeeps | day15.py:208-221 | a whole move string keeps the warehouse well formed, the number of boxes and the walls |
| Day15.Maze.constructor | day15.py:31-39 | the maze holds the given robot, boxes and walls |
| Day15.Maze.Move | day15.py:44-68 | the in-place move leaves the maze in the state the move function prescribes: blocked by a wall, a step into a free cell, or a push of the row of boxes |
| Day15.ExecuteMoveStr | day15.py:208-221 | the in-place run over a move string ends in the state the functional run prescribes |
| Day15.SetScoreRemove | day15.py:224-229 | the sum of GPS coordinates does not depend on the order the boxes are taken in |
| Day15.PosScore | day15.py:224-229 | the score is the sum of 100 * row + column over the boxes |
| Day15Wide.PushedClosed | day15.py:106-125 | the boxes a push must move form a set closed under "a moved box pushes whatever sits in front of either of its cells" |
| Day15Wide.PushedLeast | day15.py:106-125 | a closed set of boxes inside every closed set is exactly the set of pushed boxes |
| Day15Wide.PushedBlocked | day15.py:123-125 | a box every push must move that would enter a wall blocks the push |
| Day15Wide.ShiftStaysInside | day15.py:131-148 | a moved box only moves into cells that are free or hold another moved box |
| Day15Wide.ShiftKeepsBoxes | day15.py:131-148 | after a successful push the cell dictionary and the box dictionary still agree, every box keeping two distinct cells |
| Day15Wide.MovedCellMoves | day15.py:137-143 | each cell of a moved box reappears one step along the move, owned by the same box |
| Day15Wide.NewCellOwner | day15.py:140-148 | every cell of the new cell dictionary is one of its box's new cells |
| Day15Wide.OldCellStays | day15.py:145-148 | a box that is not pushed keeps both of its cells |
| Day15Wide.WideMoveKeeps | day15.py:90-152 | a move keeps the wide warehouse well formed, keeps the walls and keeps the set of boxes |
| Day15Wide.WideMove | day15.py:90-152 | a wide move keeps the walls and the boxes' names, and either changes nothing or puts the robot one step on, never on a wall; the boxes change only when the robot steps into a box cell |
| Day15Wide.NewCellFree | day15.py:127-148 | when the push is not blocked no moved box lands on a wall |
| Day15Wide.ShiftedMember | day15.py:137-138 | a cell is among the shifted cells exactly when the cell one step back was among the original ones |
| Day15Wide.PopTraced | day15.py:107-108 | popping the shove stack keeps the origin of every remaining entry |
| Day15Wide.PopCovers | day15.py:107-108 | a cell covered by the stack stays covered by the rest of the stack and the popped cell |
| Day15Wide.ShoveDrop | day15.py:108-116 | a free cell, or a box already counted twice, is dropped from the stack keeping the shove invariant |
| Day15Wide.ExpandCounted | day15.py:118-119 | counting a box once more keeps the Counter and move_list in step and uses up one count |
| Day15Wide.ExpandLeast | day15.py:110-121 | the box on the popped cell is one that every push must move |
| Day15Wide.ExpandTraced | day15.py:120-121 | the two cells pushed on the stack come from the expanded box |
| Day15Wide.ExpandCovered | day15.py:120-121 | after an expansion every cell the walk must look at is still on the stack or looked at |
| Day15Wide.ShoveExpand | day15.py:110-121 | expanding a box not yet counted twice keeps the shove invariant |
| Day15Wide.ShoveWall | day15.py:123-125 | a wall popped from the stack means the push is blocked |
| Day15Wide.ShoveDone | day15.py:107-125 | with the stack empty the boxes listed in move_list are exactly the pushed boxes, and the push is not blocked |
| Day15Wide.LargeMaze.constructor | day15.py:72-85 | object_dict is the dictionary the items spell and id_to_pos lists, per box, its cells in insertion order |
| Day15Wide.LargeMaze.Shove | day15.py:101-125 | the check succeeds exactly when the push is not blocked, and then move_list names exactly the pushed boxes |
| Day15Wide.LargeMaze.Move | day15.py:90-152 | the in-place move leaves the maze in the state the move function prescribes |
| Day15Wide.ShiftBoxes | day15.py:127-148 | the box dictionary has every pushed box moved one step and the cell dictionary has their old cells deleted and new cells added |
| Day15Wide.CollectShift | day15.py:131-143 | the loop over the pushed boxes collects their old cells in del_set and their new cells in new_obj_pos |
| Day15Wide.CollectStep | day15.py:131-143 | a box met again is skipped and a new one has its two cells collected |
| Day15Wide.ShiftStep | day15.py:132-143 | shifting one more box adds its two cells to the deleted set and its two moved cells to the new cells |
| Day15Wide.DeleteCells | day15.py:145-146 | each deleted cell is a key (no KeyError) and the result is the dictionary without those cells |
| Day15Wide.ShiftOneBox | day15.py:132-140 | shifting one more box changes only that box's entry and adds its two cells to the moved cells |
| Day15Wide.MergeShifted | day15.py:145-148 | the dictionary with the old cells deleted and the new cells merged in is the shifted dictionary |
| Day15Wide.NewCellsStep | day15.py:142-143 | the new cells after one more box are the old ones plus its two moved cells |
| Day15Wide.ItemsMap | day15.py:75-79 | the keys are the items' cells, and with distinct keys each item's value is kept |
| Day15Wide.IdsOfMember | day15.py:82-84 | a cell is listed under a box exactly when the pair is an item |
| Day15Wide.GroupById | day15.py:82-85 | the grouping loop lists, per box, exactly the cells given to it in insertion order |
| Day15Wide.IdsOfDistinct | day15.py:82-84 | with distinct keys no cell is listed twice under a box |
| Day15Wide.IdsOfMeaning | day15.py:82-85 | the cells listed under a box are exactly the keys mapped to it |
| Day15Wide.GroupedBoxes | day15.py:72-85 | a dictionary whose every box has two cells gives a consistent pair of dictionaries |
| Day15Wide.GroupedBoxOf | day15.py:82-85 | a box with two listed cells has two distinct cells both mapped to it |
| Day15Wide.GroupedCell | day15.py:82-85 | every cell is one of the two cells its box lists |
| Day15Wide.TwoCells | day15.py:112 | a member of a pair is its first or its second element |
| Day15Wide.NarrowWiden | day15.py:232-244 | a narrow cell is recovered from either of its wide cells, and the wide column's parity tells the half |
| Day15Wide.WideSetMember | day15.py:240-243 | a wide cell is a wall exactly when the narrow cell it comes from is |
| Day15Wide.WidenSet | day15.py:240-243 | the wall loop doubles every wall into its two wide cells |
| Day15Wide.WideItems | day15.py:235-238 | two items per box, in enumeration order |
| Day15Wide.IdsOfSnoc | day15.py:82-84 | appending an item appends its cell to its own box's list only |
| Day15Wide.WideItemsIds | day15.py:235-238 | box i gets exactly its two wide cells, left then right, and other numbers get nothing |
| Day15Wide.WidenInjective | day15.py:237-238 | two wide cells coincide only when they come from the same cell and the same half |
| Day15Wide.WideItemsAt | day15.py:236-238 | box i gives the items 2i and 2i + 1 |
| Day15Wide.WideItem | day15.py:236-238 | every item comes from one box and one half |
| Day15Wide.WideItemsDistinct | day15.py:235-238 | distinct narrow boxes give distinct wide cells |
| Day15Wide.WideItemsCover | day15.py:235-238 | the wide box cells are exactly the widened boxes |
| Day15Wide.GroupedWideIds | day15.py:82-85 | id_to_pos built from the wide items gives box i its two wide cells |
| Day15Wide.WidenedBoxes | day15.py:232-244 | the widened dictionaries are consistent |
| Day15Wide.WideIdsHorizontal | day15.py:237-238 | every widened box's second cell is just right of its first |
| Day15Wide.WidenedValid | day15.py:232-244 | to_large_maze turns a well-formed narrow warehouse into a well-formed wide one with horizontal boxes |
| Day15Wide.EnumerateBoxes | day15.py:235-238 | the enumeration loop takes every box exactly once, in some order, and emits its two wide items |
| Day15Wide.ToLargeMaze | day15.py:232-244 | the new maze is the widened warehouse: robot column doubled, each wall and each box split into two cells |
| Day15Wide.WideMoveHorizontal | day15.py:90-152 | a move keeps every box a horizontal pair |
| Day15Wide.WideRunIgnores | day15.py:208-221 | characters other than the four arrows change nothing |
| Day15Wide.WideRunKeeps | day15.py:208-221 | a whole move string keeps the wide warehouse well formed, its walls, its boxes and their horizontality |
| Day15Wide.ExecuteMoveStrWide | day15.py:208-221 | the in-place run over a move string ends in the state the functional run prescribes |
| Day15Wide.FirstCellsRemove | day15.py:87-88 | no two boxes share a first cell |
| Day15Wide.PosScoreWide | day15.py:224-229 | the score is the sum of 100 * row + column over the first cell of every box |
| Day16.Dir | day16.py:12 | each of the four headings is a unit step |
| Day16.Step | day16.py:20-30 | the move relation: a quarter turn either way in place, or one step forward onto a cell that is no wall; every move changes the state |
| Day16.StepWeight | day16.py:25-28 | along a move the weight is 1000 exactly when the heading turns, and 1 exactly when the reindeer steps one cell forward |
| Day16.Moves | day16.py:20-30 | the moves listed are exactly the legal steps (turn either way for 1000, or one step forward for 1 when no wall is ahead), and from an open cell none enters a wall |
| Day16.Finished | day16.py:35-39 | finished exactly when the position is the target |
| Day16.HeapHasMin | day16.py:80 | a non-empty heap holds a node of least cost, the one heappop returns |
| Day16.ChildrenMember | day16.py:93-97 | every node pushed comes from a listed move, carrying its weight plus the current cost and the current state as parent |
| Day16.ChildrenCover | day16.py:93-97 | every listed move is pushed as a node |
| Day16.StepStaysOpen | day16.py:27-28 | a step from an open cell inside the enclosing walls stays on an open cell |
| Day16.SkipHeap | day16.py:83-84 | dropping an already visited node keeps every heap node well formed and above the popped cost |
| Day16.SkipFrontier | day16.py:83-84 | dropping an already visited node keeps every successor of a recorded state recorded or on the heap |
| Day16.RecordBook | day16.py:86-87 | recording a state appends it to the visiting order with a cost no smaller than any before |
| Day16.RecordParents | day16.py:86-87 | recording a state with its parent keeps every recorded parent a legal step of the right weight before it |
| Day16.PushHeap | day16.py:93-97 | the pushed nodes are well formed and cost at least the popped node |
| Day16.PushFrontier | day16.py:93-97 | after expanding a state every successor of a recorded state is recorded or on the heap |
| Day16.PushMoves | day16.py:93-97 | the push loop adds exactly the children of the listed moves to the heap |
| Day16.Kids | day16.py:190-201 | the nodes the push loop adds, at most one per move |
| Day16.KidsWithin | day16.py:190-201 | every pushed node costs at most upper_cost and no less than its parent, and its history is the parent's plus its own cell |
| Day16.KidsSnoc | day16.py:190-201 | one more move adds its node at the end, unless it costs more than upper_cost |
| Day16.PushEvents | day16.py:196-201 | one push event per node, in order |
| Day16.PushBook | day16.py:196-201 | pushing one more node extends the heap and the log by it |
| Day16.PushChild | day16.py:196-201 | pushing the node of one move within upper_cost keeps the search invariant |
| Day16.PushOne | day16.py:190-201 | one iteration of the push loop: the node of move i is pushed on the heap and logged, unless it costs more than upper_cost, and then nothing changes |
| Day16.Init | day16.py:165-172 | the loop starts with the start node alone on the heap, nothing visited and no upper cost |
| Day16.RoundOfPrefix | day16.py:173-201 | one round of the loop depends only on its own events |
| Day16.ReplayAppend | day16.py:173-201 | a log of rounds replays piecewise: the state after it is the state after its first part, replayed on |
| Day16.SkipRound | day16.py:174-178 | popping a cheapest node already visited more cheaply drops it and changes nothing else |
| Day16.ReachRound | day16.py:174-188 | popping a cheapest unbeaten node at the target records its cost as visited and as upper_cost |
| Day16.ExpandRound | day16.py:174-201 | popping a cheapest unbeaten node elsewhere records its cost and replaces it on the heap with its pushed successors |
| Day16.SearchInit | day16.py:73-78 | the search invariant holds with only the start node on the heap |
| Day16.SearchSkip | day16.py:83-84 | skipping a visited state keeps the search invariant |
| Day16.RecordStart | day16.py:86-87 | the start state is recorded first, with no parent |
| Day16.RecordKeys | day16.py:86-87 | recording a new state strictly shrinks the set of unrecorded states inside the walls, so the search terminates |
| Day16.SearchGoal | day16.py:89-91 | stopping at the target leaves parent links for every recorded state, the start without a parent and the target the only finished state recorded |
| Day16.SearchExpand | day16.py:86-97 | expanding a state keeps the search invariant and records one more state |
| Day16.SearchExhausted | day16.py:79-99 | with the heap empty and the target never reached, every recorded state's successors are recorded and none of them is finished |
| Day16.Search | day16.py:70-99 | the result records the start without a parent, every other recorded state with a parent it is one step from, costs in visiting order, and the last state is the only finished one; if it is not finished the recorded states are closed under steps |
| Day16.WalkCostSplit | day16.py:102-141 | a walk's cost is 1000 per turn plus 1 per forward step |
| Day16.WalkSnoc | day16.py:93-97 | a walk extended by a legal step is a walk |
| Day16.Chain | day16.py:105-119 | following the parent links from a recorded state leads back to the start along a legal walk |
| Day16.ChainLink | day16.py:109-119 | the chain to a state is the chain to its parent plus one step of that weight |
| Day16.ChainCost | day16.py:102-121 | the cost of the chain of parent links to a state is the cost the search recorded for it |
| Day16.CalculateCost | day16.py:102-121 | the result is the cost of the parent chain: 1000 per turn plus 1 per forward step, and equal to the recorded cost |
| Day16.CalculateLen | day16.py:124-141 | the result is the number of forward steps on the parent chain |
| Day16.NoGoalReachable | day16.py:79-99 | when the heap empties without reaching the target, no walk from the start reaches it |
| Day16.TracedCells | day16.py:171-199 | a node's history holds the start cell and its own cell |
| Day16.TracedStart | day16.py:170-172 | the start node's history is the start cell |
| Day16.TracedChild | day16.py:190-201 | a pushed child's history is its parent's plus its own cell, along a legal walk of its cost |
| Day16.SnocTraced | day16.py:196-201 | every node in the trace comes with a legal walk from the start |
| Day16.SnocOrdered | day16.py:174 | popped costs never decrease |
| Day16.SnocSkips | day16.py:177-178 | a skipped node costs more than the cost already recorded for its state |
| Day16.SnocGoals | day16.py:185-188 | a node counted as reaching the target is finished |
| Day16.SnocPushes | day16.py:193-194 | no node above the best target cost so far is pushed |
| Day16.Snoc | day16.py:177-188 | one event updates the upper cost, the visited costs and the counted cells exactly as the source does |
| Day16.PopStep | day16.py:174-188 | popping the cheapest node keeps the trace well formed and updates the bookkeeping as the source does |
| Day16.PushStep | day16.py:196-201 | pushing a traced node no cheaper than the last pop and within the upper cost keeps the invariant |
| Day16.SkipStep | day16.py:177-178 | skipping a node costlier than its state's visited cost keeps the invariant |
| Day16.ReachStep | day16.py:182-188 | reaching the target sets the upper cost and adds the node's history to the counted cells |
| Day16.ExpandStep | day16.py:182-190 | expanding a node records its cost and keeps the invariant |
| Day16.PushSuccessors | day16.py:190-201 | the loop over the moves pushes exactly the nodes within upper_cost, in move order, logging each, and keeps the search invariant |
| Day16.SearchAllPaths | day16.py:164-203 | the log of the search replays round by round from the start (each pop a cheapest node, skipped, counted or expanded as the source decides); there is a result exactly when the replayed heap is empty (None when fuel runs out first), the log is well formed, and the result is the number of cells on the histories of the nodes that reached the target |
| Day16.VisitedNeverIncreases | day16.py:177-182 | once a state has a visited cost it stays and never increases |
| Day16.GoalCellsSource | day16.py:185-188 | every counted cell lies on the history of some node that reached the target |
| Day16.GoalCellsCover | day16.py:185-188 | every node that reached the target has its whole history counted |
| Day16.CountedCells | day16.py:164-203 | every counted cell lies on some legal walk from the start to the target |

## Left out

- Input parsing (`parse_*`, `read_*`), the command-line wrapper in `utils.py`, the `timeit` benchmark of day 2 and all printing and debug output (including the prints inside `calculate_cost`, `calculate_len`, `StateMachine.parse` and `block_compress_checksum`): I/O. Solvers take their parsed input as parameters.
- `read_word_array` of day 4 keeps the newline at the end of each row, which makes `n_cols` one larger; the grid is taken as given, so that extra column is whatever the caller passes.
- Day 13 entirely: floating-point matrix inversion with a rounding tolerance.
- Day 14 apart from `Robot`, `simulate_n_rounds` and `score_by_quad`: the entropy, plotting and machine-learning code works on floats and numpy arrays.
- Library internals are modelled by what they promise: `heapq` as a multiset with extraction of a least element (which least node is popped among equal costs is left open), `lru_cache` and memo dictionaries as maps or plain recursion, `itertools.product` as an enumeration of operator tuples by index, `permutations(l, 2)` as the ordered pairs of distinct indices, and dictionaries whose iteration order matters as sequences of items in insertion order.
- Day1.SortedDistance: `list.sort()` is modelled by an in-place sort of an array proved sorted and a permutation; TimSort's particular sequence of moves is not modelled.
- Day3.Int: digits are the ASCII characters '0' to '9', standing for `str.isdigit` and `int`. Other Unicode digits are not modelled, nor characters that `str.isdigit` accepts and `int` rejects with ValueError, such as "²".
- Day3.DigitParseEval: its digit test is the same ASCII test, so a non-ASCII digit token counts here as a character that is not a digit.
- Day3.RunStateMachine: requires at least one state. On an empty list the source raises IndexError at `states[0]` in the constructor (day3.py:83), which is not modelled; the solver always passes the eight `mul(a,b)` states.
- Day5.SumTrueMids: requires every update to be non-empty. An empty update passes `check_rules` and `page[len(page) // 2]` then raises IndexError (day5.py:61), which is not modelled; the parser never yields an empty update, since it skips blank rows. Part 2 (`Day5.FixAndSumMids`) takes empty updates as they are: they pass the check and add nothing.
- Day5.FixPage: `sorted` with `cmp_to_key` and a comparator that need not be a total order is modelled as a stable insertion sort; that it gives Python's order is proved only when the rules totally order the page (`Day5.SortedUnique`).
- Day5.FixAndSumMids: the lookups `rules(a)` inside the comparator also insert empty entries into the defaultdict. Which pairs Python's sort compares is not modelled, so the contract does not say which keys those lookups add. They change no value of `rules(x)` (`Day5.SameRulesSameFix`), only `is_in`, which no solver calls.
- Day6.TrackToEndAndCount: the source loops forever when the guard is trapped; the model takes a fuel bound and returns nothing when it runs out. Day6.CountPotentialLoops takes the same fuel for its first walk.
- Day6.TrackForLoops: the bound of 4 * rows * cols on the number of turns is implied by the termination measure (turn records are distinct (cell, direction) states) and not stated as a number.
- Day6.CountLoopCells: `generate_mazes` is a generator; the model fuses it with its one consumer, `count_potential_loops`, checking each generated maze before the cell is cleared again. The `deepcopy` of `path_to_check` is left out because the model never writes that array.
- Day7.IsCalcsTarget: the target and the values are natural numbers. With a negative value as the right operand of a concatenation the source builds a string such as "5-3", and `int` raises ValueError. Negative values are not modelled, so that error is not modelled either.
- Day7.CheckSolvable: the source fails on an empty list of values (`product` with a negative repeat count raises); the model requires at least one value.
- Day9.CharCompressChecksum: requires an odd-length map whose files are all non-empty. For an even-length map the right id starts at len(code) // 2 (day9.py:22), one more than the id of the last file, on which the right cursor starts (day9.py:27-28), so moved blocks carry the wrong id: "1110" writes the blocks 0, 2 and gives 2, where the compacted disk 0, 1 has checksum 1. Maps with a file of length 0 are not modelled.
- Day9.CompactBlocks: the loop of part 1 is modelled under the same requirement, an odd-length map of non-empty files, for the same reason.
- Day10.CountTrailHeads: the `mem` dictionary is a map threaded through the recursion, and `defaultdict` lookups of a missing key are modelled by their default.
- Day11.StoneUpdate: stones are natural numbers. A negative stone is not modelled. Its `str` carries a minus sign, so -1 splits into "1" and "-", and `int("-")` raises ValueError.
- Day11.NUpdateStoneDict: the number of rounds is a natural number; for a negative n the source runs no round and returns the input, which is not modelled. The stone dictionary is a sequence of distinct (stone, count) items; the `lru_cache` on `stone_update` does not change results and is not modelled.
- Day12.SeparatePlants: `set.pop` returns an arbitrary cell; the model picks any remaining cell (`:|` in `Day12.PeelRegion`), so its contracts hold whichever cell is taken first. The plant dictionary is a sequence of (plant, cells) pairs and the region dictionary is keyed by its (plant, index) label.
- Day14.SimulateNRounds: a robot object listed more than once is stepped once per listing, so the contract counts listings (a multiset); the robots of the real solver are distinct objects.
- Day15.PosScore: the source sums floats (complex parts) and truncates with `int`; the model sums integers. `AbstractMaze` and the `print` methods are not modelled.
- The complex-number directions of day 15 are the four `Day15.Dir` constructors; `Day15.Maze.Move` does not depend on set iteration order.
- Day15Wide.LargeMaze.Move: requires a well-formed wide warehouse (consistent dictionaries, every box two cells); on other dictionaries the source may raise `ValueError` when unpacking a box's cells, which is not modelled.
- Day15Wide.PosScoreWide: requires consistent dictionaries, so that each box has a first cell.
- Day15Wide.ToLargeMaze: set enumeration order is an arbitrary order returned as a ghost sequence; box ids are positions in that order.
- Day16.Search: float costs (1000.0) are integers; `score_to_target` and the `hcost` of `HistNode` (overwritten by `cost` in the source) are not modelled, and nodes are ordered by cost alone. Termination is proved for a maze enclosed by walls inside a known rectangle (a ghost parameter), as every parsed puzzle is.
- Day16.SearchAllPaths: no termination measure is available (equal-cost alternatives are pushed again), so the loop takes a fuel bound and returns nothing when it runs out. That the counted cells are exactly those on minimum-cost paths is not claimed; the model proves that every counted cell lies on a legal walk from the start to the target. `heapq` breaks ties among nodes of equal cost in its own way; the model lets a round pop any cheapest node, so its contracts hold whichever tie-break is used.
- Day16.CalculateCost: it is proved equal to the cost the search recorded for the state; that this cost is the minimum over all walks (Dijkstra optimality) is not proved.

## Findings

| source | as written | input that shows it | evidently intended | confidence | as-written member | corrected member |
|---|---|---|---|---|---|---|
| day2.py:100-101 | a level is negated only when two or more of its steps decrease | [5, 3, 3] with jumps 1 to 3 and one error allowed: removing one 3 leaves the safe [5, 3], but the fast counter walks it unnegated and rejects it | walk both the level and its negation | not executed | Day2.FastIsSafeMissesShortDecreasingLevel | Day2.CorrectedFastIsSafeMatchesBrute |
| day4.py:86-93 | the guards test only 0 <= i and 0 <= j, so i - 1 and j - 1 can be -1 and read the last row or column | grid .A. / S.S / M.M, cell (0, 1): counted 1 although no crossing exists | guards 1 <= i and 1 <= j | not executed | Day4.CountXMasAtPosWrapsAround | Day4.CountXMasAtPosFixed |
| day5.py:67-78 | the comparator puts a page before the pages that must come before it, so the sort reverses rule order | the one rule that 1 comes before 2, update [2, 1]: returned as [2, 1] with middle page 1 | a comparator in rule order, returning [1, 2] with middle page 2 | not executed | Day5.FixPageKeepsEvenPageBackwards | Day5.FixPageCorrectedIsValid |
| day9.py:45-58 | the left cursor walks on past the last file when the free space is less than the last file's size | disk map "101": `code[left_idx]` is read past the end and raises IndexError | stop the scan after the last file | not executed | Day9.CharCompressFailsWithoutFreeSpace | Day9.CharCompressChecksumGuarded |

=== FILE: common.dfy ===
/** Small shared vocabulary for the daily solvers: optional values, results
    with an error, and integer grid coordinates (the source uses complex
    numbers or numpy pairs for these; every use is integer valued). */
module Common {

  datatype Option<T> = None | Some(value: T)

  datatype Result<T, E> = Ok(value: T) | Err(error: E)

  /** The Python exceptions a solver can raise on input it does not expect. */
  datatype PyError = IndexError | ValueError

  /** A grid coordinate: (row, column). */
  type Pos = (int, int)

  function Add(a: Pos, b: Pos): Pos { (a.0 + b.0, a.1 + b.1) }

  function Sub(a: Pos, b: Pos): Pos { (a.0 - b.0, a.1 - b.1) }

  function Scale(k: int, a: Pos): Pos { (k * a.0, k * a.1) }

  /** The four unit steps. */
  predicate IsUnit(d: Pos)
  {
    d == (1, 0) || d == (-1, 0) || d == (0, 1) || d == (0, -1)
  }

  predicate Adjacent(a: Pos, b: Pos)
  {
    IsUnit(Sub(b, a))
  }

  predicate InBox(p: Pos, rows: int, cols: int)
  {
    0 <= p.0 < rows && 0 <= p.1 < cols
  }

  /** Euclidean division is determined by quotient and remainder, for any
      sign of the quotient. */
  lemma DivModOf(n: int, q: int, r: int, w: int)
    requires w > 0 && n == q * w + r && 0 <= r < w
    ensures n / w == q && n % w == r
  {
    var q', r' := n / w, n % w;
    assert n == q' * w + r' && 0 <= r' < w;
    assert (q - q') * w == r' - r;
    if q > q' {
      MulAtLeastOne(q - q', w);
    } else if q < q' {
      assert (q' - q) * w == r - r';
      MulAtLeastOne(q' - q, w);
    }
  }

  lemma MulAtLeastOne(a: int, b: int)
    requires a >= 1 && b >= 1
    ensures a * b >= b
  {
  }

  /** Adding a multiple of w does not change the remainder. */
  lemma ModAddMultiple(x: int, k: int, w: int)
    requires w > 0
    ensures (x + k * w) % w == x % w
  {
    DivModOf(x + k * w, x / w + k, x % w, w);
  }

  /** Reducing the left summand first does not change the remainder. */
  lemma ModAddLeft(a: int, b: int, w: int)
    requires w > 0
    ensures (a % w + b) % w == (a + b) % w
  {
    ModAddMultiple(a % w + b, a / w, w);
  }
}

=== FILE: day1.dfy ===
/** Day 1: two location lists. Part 1 sorts both lists in place and sums the
    distances of the paired-up entries; part 2 weights each entry of the
    first list by how often it occurs in the second. */
module Day1 {

  predicate Sorted(s: seq<int>)
  {
    forall i, j :: 0 <= i < j < |s| ==> s[i] <= s[j]
  }

  function Abs(x: int): int { if x < 0 then -x else x }

  /** Sum of |s[k] - t[k]| over the first n pairs. */
  function PrefixDistance(s: seq<int>, t: seq<int>, n: nat): int
    requires n <= |s| && n <= |t|
  {
    if n == 0 then 0 else PrefixDistance(s, t, n - 1) + Abs(s[n - 1] - t[n - 1])
  }

  /** Python's zip stops at the shorter list. */
  function ZipDistance(s: seq<int>, t: seq<int>): int
  {
    PrefixDistance(s, t, if |s| < |t| then |s| else |t|)
  }

  method Swap(a: array<int>, i: nat, j: nat)
    requires i < a.Length && j < a.Length
    modifies a
    ensures a[..] == old(a[..])[i := old(a[j])][j := old(a[i])]
    ensures multiset(a[..]) == multiset(old(a[..]))
  {
    a[i], a[j] := a[j], a[i];
  }

  /** list.sort(): in place, ascending, a permutation of the old contents. */
  method Sort(a: array<int>)
    modifies a
    ensures Sorted(a[..])
    ensures multiset(a[..]) == multiset(old(a[..]))
  {
    var i := 0;
    while i < a.Length
      invariant 0 <= i <= a.Length
      invariant Sorted(a[..i])
      invariant forall k, l :: 0 <= k < i <= l < a.Length ==> a[k] <= a[l]
      invariant multiset(a[..]) == multiset(old(a[..]))
    {
      var m := i;
      var j := i + 1;
      while j < a.Length
        invariant i <= m < a.Length && i + 1 <= j <= a.Length
        invariant forall l :: i <= l < j ==> a[m] <= a[l]
      {
        if a[j] < a[m] { m := j; }
        j := j + 1;
      }
      Swap(a, i, m);
      i := i + 1;
    }
  }

  /** sorted_distance: sorts both caller lists in place, then sums the
      distances of the zipped pairs. */
  method SortedDistance(list1: array<int>, list2: array<int>) returns (d: int)
    modifies list1, list2
    ensures Sorted(list1[..]) && Sorted(list2[..])
    ensures multiset(list1[..]) == multiset(old(list1[..]))
    ensures multiset(list2[..]) == multiset(old(list2[..]))
    ensures d == ZipDistance(list1[..], list2[..])
    ensures d >= 0
    ensures multiset(old(list1[..])) == multiset(old(list2[..])) ==> d == 0
  {
    Sort(list1);
    Sort(list2);
    var n := if list1.Length < list2.Length then list1.Length else list2.Length;
    d := 0;
    var k := 0;
    while k < n
      invariant 0 <= k <= n
      invariant d == PrefixDistance(list1[..], list2[..], k)
    {
      d := d + Abs(list1[k] - list2[k]);
      k := k + 1;
    }
    ZipDistanceNonNegative(list1[..], list2[..]);
    if multiset(list1[..]) == multiset(list2[..]) {
      ZipDistanceOfSortedPermutations(list1[..], list2[..]);
    }
  }

  lemma {:induction false} PrefixDistanceNonNegative(s: seq<int>, t: seq<int>, n: nat)
    requires n <= |s| && n <= |t|
    ensures PrefixDistance(s, t, n) >= 0
  {
    if n > 0 { PrefixDistanceNonNegative(s, t, n - 1); }
  }

  /** The distance is never negative. */
  lemma ZipDistanceNonNegative(s: seq<int>, t: seq<int>)
    ensures ZipDistance(s, t) >= 0
  {
    PrefixDistanceNonNegative(s, t, if |s| < |t| then |s| else |t|);
  }

  /** Two sorted lists holding the same values are the same list. */
  lemma {:induction false} SortedPermutationsEqual(s: seq<int>, t: seq<int>)
    requires Sorted(s) && Sorted(t) && multiset(s) == multiset(t)
    ensures s == t
  {
    if s != [] {
      HeadsAgree(s, t);
      SortedTail(s);
      SortedTail(t);
      SortedPermutationsEqual(s[1..], t[1..]);
      assert s == [s[0]] + s[1..] && t == [t[0]] + t[1..];
    } else {
      assert |t| == |multiset(t)| == 0;
    }
  }

  /** Two sorted lists with the same values start alike, and the rest
      holds the same values. */
  lemma HeadsAgree(s: seq<int>, t: seq<int>)
    requires s != [] && Sorted(s) && Sorted(t) && multiset(s) == multiset(t)
    ensures t != [] && s[0] == t[0] && multiset(s[1..]) == multiset(t[1..])
  {
    assert |t| == |multiset(t)| == |multiset(s)| == |s|;
    HeadIsLeast(s, t[0]);
    HeadIsLeast(t, s[0]);
    HeadAndTail(s);
    HeadAndTail(t);
  }

  /** The head of a sorted list is no larger than anything in it. */
  lemma HeadIsLeast(s: seq<int>, y: int)
    requires Sorted(s) && y in multiset(s)
    ensures s[0] <= y
  {
    assert y in s;
  }

  lemma HeadAndTail(s: seq<int>)
    requires s != []
    ensures multiset(s[1..]) == multiset(s) - multiset{s[0]}
  {
    assert s == [s[0]] + s[1..];
  }

  lemma SortedTail(s: seq<int>)
    requires s != [] && Sorted(s)
    ensures Sorted(s[1..])
  {
  }

  lemma {:induction false} PrefixDistanceSelf(s: seq<int>, n: nat)
    requires n <= |s|
    ensures PrefixDistance(s, s, n) == 0
  {
    if n > 0 { PrefixDistanceSelf(s, n - 1); }
  }

  /** Sorting two lists that hold the same values leaves nothing to pay. */
  lemma ZipDistanceOfSortedPermutations(s: seq<int>, t: seq<int>)
    requires Sorted(s) && Sorted(t) && multiset(s) == multiset(t)
    ensures ZipDistance(s, t) == 0
  {
    SortedPermutationsEqual(s, t);
    PrefixDistanceSelf(s, |s|);
  }

  /** similarity_score: each value of list1 weighted by its number of
      occurrences in list2 (Counter(list2)[v]). */
  function SimilarityScore(list1: seq<int>, list2: seq<int>): (r: int)
    ensures (forall i :: 0 <= i < |list1| ==> list1[i] !in list2) ==> r == 0
  {
    if list1 == [] then 0
    else list1[0] * multiset(list2)[list1[0]] + SimilarityScore(list1[1..], list2)
  }

  lemma {:induction false} SimilarityWithEmpty(l: seq<int>)
    ensures SimilarityScore(l, []) == 0
  {
    if l != [] { SimilarityWithEmpty(l[1..]); }
  }

  /** Prepending x to the second list adds x times its count in the first. */
  lemma {:induction false} SimilarityConsRight(l: seq<int>, x: int, r: seq<int>)
    ensures SimilarityScore(l, [x] + r) == SimilarityScore(l, r) + x * multiset(l)[x]
  {
    if l != [] {
      var y := l[0];
      SimilarityConsRight(l[1..], x, r);
      assert l == [y] + l[1..];
      var cr, cl := multiset(r)[y], multiset(l[1..])[x];
      var rest1, rest2 := SimilarityScore(l[1..], [x] + r), SimilarityScore(l[1..], r);
      assert rest1 == rest2 + x * cl;
      if x == y {
        assert multiset([x] + r)[y] == cr + 1;
        assert multiset(l)[x] == cl + 1;
        assert SimilarityScore(l, [x] + r) == y * (cr + 1) + rest1;
        assert SimilarityScore(l, r) == y * cr + rest2;
        Distribute(y, cr);
        Distribute(x, cl);
      } else {
        assert multiset([x] + r)[y] == cr;
        assert multiset(l)[x] == cl;
      }
    }
  }

  lemma Distribute(a: int, b: int)
    ensures a * (b + 1) == a * b + a
  {
  }

  /** Swapping the two lists gives the same score: both equal the sum over
      values v of v * count1(v) * count2(v). */
  lemma {:induction false} SimilaritySymmetric(list1: seq<int>, list2: seq<int>)
    ensures SimilarityScore(list1, list2) == SimilarityScore(list2, list1)
  {
    if list1 == [] {
      SimilarityWithEmpty(list2);
    } else {
      SimilaritySymmetric(list1[1..], list2);
      SimilarityConsRight(list2, list1[0], list1[1..]);
      assert list1 == [list1[0]] + list1[1..];
    }
  }
}

=== FILE: day10.dfy ===
/** Day 10: hoof it. A height grid; a trail climbs from a height-0 cell
    through 4-neighbours one unit higher at each step up to height 9. Part 1
    sums, over the start cells, how many height-9 cells each reaches; part 2
    sums how many distinct climbs each starts. */
module Day10 {
  import opened Common

  /** The parsed height grid: a digit's value, or -2 for any other character. */
  type Grid = seq<seq<int>>

  function Cols(grid: Grid): nat
  {
    if |grid| == 0 then 0 else |grid[0]|
  }

  /** Every row as long as the first, every height at most 9. */
  predicate Heights(grid: Grid)
  {
    (forall i :: 0 <= i < |grid| ==> |grid[i]| == Cols(grid)) &&
    (forall i, j :: 0 <= i < |grid| && 0 <= j < |grid[i]| ==> grid[i][j] <= 9)
  }

  predicate Cell(grid: Grid, p: Pos)
  {
    InBox(p, |grid|, Cols(grid))
  }

  function Height(grid: Grid, p: Pos): int
    requires Heights(grid) && Cell(grid, p)
  {
    grid[p.0][p.1]
  }

  /** in_trail_list: the bounds test, rows against the row count and
      columns against the first row's length. */
  function InTrailList(pos: Pos, grid: Grid): (r: bool)
    ensures r <==> Cell(grid, pos)
  {
    if pos.0 < 0 then false
    else if pos.0 >= |grid| then false
    else if pos.1 < 0 then false
    else if pos.1 >= |grid[0]| then false
    else true
  }

  /** DIRS: right, left, down, up. */
  const Dirs: seq<Pos> := [(0, 1), (0, -1), (1, 0), (-1, 0)]

  /** The neighbours of p one unit higher, in DIRS order. */
  function SuccAlong(grid: Grid, p: Pos, ds: seq<Pos>): (r: seq<Pos>)
    requires Heights(grid) && Cell(grid, p)
    ensures |r| <= |ds|
  {
    if ds == [] then []
    else
      var n := Add(p, ds[0]);
      (if InTrailList(n, grid) && grid[n.0][n.1] == grid[p.0][p.1] + 1 then [n] else []) +
      SuccAlong(grid, p, ds[1..])
  }

  function Succ(grid: Grid, p: Pos): (r: seq<Pos>)
    requires Heights(grid) && Cell(grid, p)
    ensures forall n :: n in r ==> Cell(grid, n) && Height(grid, n) == Height(grid, p) + 1
  {
    SuccAlongHigher(grid, p, Dirs);
    SuccAlong(grid, p, Dirs)
  }

  /** Every neighbour found is in the grid and one unit higher. */
  lemma {:induction false} SuccAlongHigher(grid: Grid, p: Pos, ds: seq<Pos>)
    requires Heights(grid) && Cell(grid, p)
    ensures forall n :: n in SuccAlong(grid, p, ds) ==> Cell(grid, n) && Height(grid, n) == Height(grid, p) + 1
  {
    if ds != [] {
      SuccAlongHigher(grid, p, ds[1..]);
    }
  }

  /** Every neighbour found lies along one of the given directions. */
  lemma {:induction false} SuccAlongSound(grid: Grid, p: Pos, ds: seq<Pos>)
    requires Heights(grid) && Cell(grid, p)
    ensures forall n :: n in SuccAlong(grid, p, ds) ==> exists d :: d in ds && n == Add(p, d)
  {
    if ds != [] {
      SuccAlongSound(grid, p, ds[1..]);
    }
  }

  lemma {:induction false} SuccAlongHas(grid: Grid, p: Pos, ds: seq<Pos>, n: Pos)
    requires Heights(grid) && Cell(grid, p)
    requires (exists d :: d in ds && n == Add(p, d)) && Cell(grid, n) && Height(grid, n) == Height(grid, p) + 1
    ensures n in SuccAlong(grid, p, ds)
  {
    if Add(p, ds[0]) != n {
      SuccAlongHas(grid, p, ds[1..], n);
    }
  }

  predicate Distinct(s: seq<Pos>)
  {
    forall i, j :: 0 <= i < j < |s| ==> s[i] != s[j]
  }

  lemma {:induction false} SuccAlongDistinct(grid: Grid, p: Pos, ds: seq<Pos>)
    requires Heights(grid) && Cell(grid, p) && Distinct(ds)
    ensures Distinct(SuccAlong(grid, p, ds))
  {
    if ds != [] {
      var r := SuccAlong(grid, p, ds[1..]);
      assert Distinct(ds[1..]) by {
        forall i, j | 0 <= i < j < |ds[1..]|
          ensures ds[1..][i] != ds[1..][j]
        {
          assert ds[1..][i] == ds[i + 1] && ds[1..][j] == ds[j + 1];
        }
      }
      SuccAlongDistinct(grid, p, ds[1..]);
      var n := Add(p, ds[0]);
      if InTrailList(n, grid) && grid[n.0][n.1] == grid[p.0][p.1] + 1 {
        assert ds[0] !in ds[1..] by {
          forall k | 0 <= k < |ds[1..]|
            ensures ds[1..][k] != ds[0]
          {
            assert ds[1..][k] == ds[k + 1];
          }
        }
        NotInSuccAlong(grid, p, ds[1..], ds[0]);
        ConsDistinct(n, r);
      }
    }
  }

  lemma {:induction false} NotInSuccAlong(grid: Grid, p: Pos, ds: seq<Pos>, d: Pos)
    requires Heights(grid) && Cell(grid, p) && d !in ds
    ensures Add(p, d) !in SuccAlong(grid, p, ds)
  {
    if ds != [] {
      NotInSuccAlong(grid, p, ds[1..], d);
    }
  }

  lemma ConsDistinct(n: Pos, r: seq<Pos>)
    requires Distinct(r) && n !in r
    ensures Distinct([n] + r)
  {
    var full := [n] + r;
    forall i, j | 0 <= i < j < |full|
      ensures full[i] != full[j]
    {
      assert full[j] == r[j - 1] && r[j - 1] in r;
      if i > 0 {
        assert full[i] == r[i - 1];
      }
    }
  }

  /** trail_next[p] is exactly the in-grid 4-neighbours one unit higher,
      each once. */
  lemma SuccMeaning(grid: Grid, p: Pos)
    requires Heights(grid) && Cell(grid, p)
    ensures forall n :: n in Succ(grid, p) <==>
      Adjacent(p, n) && Cell(grid, n) && Height(grid, n) == Height(grid, p) + 1
    ensures Distinct(Succ(grid, p))
  {
    SuccSound(grid, p);
    SuccComplete(grid, p);
    SuccAlongDistinct(grid, p, Dirs);
  }

  lemma SuccSound(grid: Grid, p: Pos)
    requires Heights(grid) && Cell(grid, p)
    ensures forall n :: n in Succ(grid, p) ==> Adjacent(p, n)
  {
    SuccAlongSound(grid, p, Dirs);
    forall n | n in Succ(grid, p)
      ensures Adjacent(p, n)
    {
      var d :| d in Dirs && n == Add(p, d);
      assert Sub(n, p) == d;
    }
  }

  lemma SuccComplete(grid: Grid, p: Pos)
    requires Heights(grid) && Cell(grid, p)
    ensures forall n :: Adjacent(p, n) && Cell(grid, n) && Height(grid, n) == Height(grid, p) + 1 ==> n in Succ(grid, p)
  {
    forall n | Adjacent(p, n) && Cell(grid, n) && Height(grid, n) == Height(grid, p) + 1
      ensures n in Succ(grid, p)
    {
      assert Sub(n, p) in Dirs && n == Add(p, Sub(n, p));
      SuccAlongHas(grid, p, Dirs, n);
    }
  }

  /** The reference reading of count_trail_heads' work: {p} at height 9,
      otherwise the union over the higher neighbours. */
  function Peaks(grid: Grid, p: Pos): set<Pos>
    requires Heights(grid) && Cell(grid, p)
    decreases 10 - Height(grid, p), 0
  {
    if Height(grid, p) == 9 then {p}
    else PeaksUnion(grid, Succ(grid, p), Height(grid, p) + 1)
  }

  /** The cells of height 9 reachable from any of ns, all of height h. */
  function PeaksUnion(grid: Grid, ns: seq<Pos>, h: int): set<Pos>
    requires Heights(grid) && h <= 9
    requires forall n :: n in ns ==> Cell(grid, n) && Height(grid, n) == h
    decreases 10 - h, 1
  {
    set n, q | n in ns && q in Peaks(grid, n) :: q
  }

  /** The reference reading of count_trail_combinations' work: 1 at height
      9, otherwise the sum over the higher neighbours. */
  function Paths(grid: Grid, p: Pos): nat
    requires Heights(grid) && Cell(grid, p)
    decreases 10 - Height(grid, p), 0
  {
    if Height(grid, p) == 9 then 1
    else PathsSum(grid, Succ(grid, p), Height(grid, p) + 1)
  }

  function PathsSum(grid: Grid, ns: seq<Pos>, h: int): nat
    requires Heights(grid) && h <= 9
    requires forall n :: n in ns ==> Cell(grid, n) && Height(grid, n) == h
    decreases 10 - h, |ns|
  {
    if ns == [] then 0
    else PathsSum(grid, ns[..|ns| - 1], h) + Paths(grid, ns[|ns| - 1])
  }

  /** One step of a climb: to a 4-neighbour one unit higher. */
  predicate ClimbStep(grid: Grid, a: Pos, b: Pos)
    requires Heights(grid)
  {
    Cell(grid, a) && Cell(grid, b) && Adjacent(a, b) && Height(grid, b) == Height(grid, a) + 1
  }

  /** A climb: steps one unit up between 4-neighbours, ending at height 9. */
  ghost predicate IsClimb(grid: Grid, c: seq<Pos>)
    requires Heights(grid)
  {
    |c| >= 1 && Cell(grid, c[|c| - 1]) &&
    (forall i :: 0 <= i < |c| - 1 ==> ClimbStep(grid, c[i], c[i + 1])) &&
    Height(grid, c[|c| - 1]) == 9
  }

  /** Every climb from p. */
  ghost function ClimbsFrom(grid: Grid, p: Pos): (cs: set<seq<Pos>>)
    requires Heights(grid) && Cell(grid, p)
    ensures forall c :: c in cs ==> |c| >= 1 && c[0] == p
    decreases 9 - Height(grid, p)
  {
    if Height(grid, p) == 9 then {[p]}
    else set n, c | n in Succ(grid, p) && c in ClimbsFrom(grid, n) :: [p] + c
  }

  /** A step up in front of a climb is a climb, and a climb longer than one
      cell is a step up followed by a climb. */
  lemma ConsClimb(grid: Grid, p: Pos, c: seq<Pos>)
    requires Heights(grid) && IsClimb(grid, c) && ClimbStep(grid, p, c[0])
    ensures IsClimb(grid, [p] + c)
  {
    var full := [p] + c;
    forall i | 0 <= i < |full| - 1
      ensures ClimbStep(grid, full[i], full[i + 1])
    {
      if i > 0 {
        assert full[i] == c[i - 1] && full[i + 1] == c[i];
      }
    }
  }

  lemma TailClimb(grid: Grid, c: seq<Pos>)
    requires Heights(grid) && IsClimb(grid, c) && |c| > 1
    ensures IsClimb(grid, c[1..]) && ClimbStep(grid, c[0], c[1]) && c == [c[0]] + c[1..]
  {
    var t := c[1..];
    forall i | 0 <= i < |t| - 1
      ensures ClimbStep(grid, t[i], t[i + 1])
    {
      assert t[i] == c[i + 1] && t[i + 1] == c[i + 2];
    }
  }

  /** ClimbsFrom holds the climbs from p and nothing else. */
  lemma ClimbsFromMeaning(grid: Grid, p: Pos, c: seq<Pos>)
    requires Heights(grid) && Cell(grid, p)
    ensures c in ClimbsFrom(grid, p) <==> IsClimb(grid, c) && c[0] == p
  {
    if c in ClimbsFrom(grid, p) {
      InClimbsIsClimb(grid, p, c);
    }
    if IsClimb(grid, c) && c[0] == p {
      ClimbIsInClimbs(grid, p, c);
    }
  }

  lemma {:induction false} InClimbsIsClimb(grid: Grid, p: Pos, c: seq<Pos>)
    requires Heights(grid) && Cell(grid, p) && c in ClimbsFrom(grid, p)
    ensures IsClimb(grid, c)
    decreases 9 - Height(grid, p)
  {
    if Height(grid, p) != 9 {
      var n, c' :| n in Succ(grid, p) && c' in ClimbsFrom(grid, n) && c == [p] + c';
      InClimbsIsClimb(grid, n, c');
      SuccMeaning(grid, p);
      ConsClimb(grid, p, c');
    }
  }

  lemma {:induction false} ClimbIsInClimbs(grid: Grid, p: Pos, c: seq<Pos>)
    requires Heights(grid) && Cell(grid, p) && IsClimb(grid, c) && c[0] == p
    ensures c in ClimbsFrom(grid, p)
    decreases 9 - Height(grid, p)
  {
    if Height(grid, p) == 9 {
      assert |c| > 1 ==> ClimbStep(grid, c[0], c[1]);
      assert c == [p];
    } else {
      TailClimb(grid, c);
      SuccMeaning(grid, p);
      ClimbIsInClimbs(grid, c[1], c[1..]);
    }
  }

  function Last(c: seq<Pos>): Pos
    requires |c| >= 1
  {
    c[|c| - 1]
  }

  /** count_trail_heads' work returns the height-9 cells reachable by a
      climb from p. */
  lemma PeaksAreClimbEnds(grid: Grid, p: Pos, q: Pos)
    requires Heights(grid) && Cell(grid, p)
    ensures q in Peaks(grid, p) <==> exists c :: c in ClimbsFrom(grid, p) && Last(c) == q
  {
    if q in Peaks(grid, p) {
      PeakHasClimb(grid, p, q);
    }
    if exists c :: c in ClimbsFrom(grid, p) && Last(c) == q {
      var c :| c in ClimbsFrom(grid, p) && Last(c) == q;
      ClimbEndIsPeak(grid, p, c);
    }
  }

  lemma {:induction false} PeakHasClimb(grid: Grid, p: Pos, q: Pos)
    requires Heights(grid) && Cell(grid, p) && q in Peaks(grid, p)
    ensures exists c :: c in ClimbsFrom(grid, p) && Last(c) == q
    decreases 9 - Height(grid, p)
  {
    if Height(grid, p) == 9 {
      assert [p] in ClimbsFrom(grid, p);
    } else {
      var n :| n in Succ(grid, p) && q in Peaks(grid, n);
      PeakHasClimb(grid, n, q);
      var c :| c in ClimbsFrom(grid, n) && Last(c) == q;
      assert [p] + c in ClimbsFrom(grid, p);
      assert Last([p] + c) == q;
    }
  }

  lemma {:induction false} ClimbEndIsPeak(grid: Grid, p: Pos, c: seq<Pos>)
    requires Heights(grid) && Cell(grid, p) && c in ClimbsFrom(grid, p)
    ensures Last(c) in Peaks(grid, p)
    decreases 9 - Height(grid, p)
  {
    if Height(grid, p) != 9 {
      ClimbsFromCons(grid, p, c);
      ClimbEndIsPeak(grid, c[1], c[1..]);
      PeakStep(grid, p, c[1], Last(c[1..]));
    }
  }

  /** A climb from a cell below 9 is a step up followed by a climb. */
  lemma ClimbsFromCons(grid: Grid, p: Pos, c: seq<Pos>)
    requires Heights(grid) && Cell(grid, p) && Height(grid, p) != 9 && c in ClimbsFrom(grid, p)
    ensures |c| >= 2 && c[1] in Succ(grid, p) && Cell(grid, c[1]) && c[1..] in ClimbsFrom(grid, c[1])
    ensures Last(c) == Last(c[1..])
  {
    var n, c' := ClimbsFromSplit(grid, p, c);
    assert |c'| >= 1 && c'[0] == n;
    ConsParts(p, c');
  }

  lemma ConsParts(p: Pos, t: seq<Pos>)
    requires |t| >= 1
    ensures |[p] + t| >= 2 && ([p] + t)[1] == t[0] && ([p] + t)[1..] == t
    ensures Last([p] + t) == Last(t)
  {
    assert ([p] + t)[1..] == t;
  }

  /** The step and the climb a climb from a cell below 9 is made of. */
  lemma ClimbsFromSplit(grid: Grid, p: Pos, c: seq<Pos>) returns (n: Pos, c': seq<Pos>)
    requires Heights(grid) && Cell(grid, p) && Height(grid, p) != 9 && c in ClimbsFrom(grid, p)
    ensures n in Succ(grid, p) && c' in ClimbsFrom(grid, n) && c == [p] + c'
  {
    n, c' :| n in Succ(grid, p) && c' in ClimbsFrom(grid, n) && c == [p] + c';
  }

  lemma PeakStep(grid: Grid, p: Pos, n: Pos, q: Pos)
    requires Heights(grid) && Cell(grid, p) && Height(grid, p) != 9
    requires n in Succ(grid, p) && q in Peaks(grid, n)
    ensures q in Peaks(grid, p)
  {
  }

  /** The climbs that start with p, then a climb from one of ns. */
  ghost function ClimbsVia(grid: Grid, p: Pos, ns: seq<Pos>): set<seq<Pos>>
    requires Heights(grid) && forall n :: n in ns ==> Cell(grid, n)
  {
    set n, c | n in ns && c in ClimbsFrom(grid, n) :: [p] + c
  }

  ghost function Prefixed(p: Pos, cs: set<seq<Pos>>): set<seq<Pos>>
  {
    set c | c in cs :: [p] + c
  }

  /** Putting p in front is one to one. */
  lemma {:induction false} PrefixedSize(p: Pos, cs: set<seq<Pos>>)
    ensures |Prefixed(p, cs)| == |cs|
    decreases |cs|
  {
    if cs != {} {
      var x :| x in cs;
      var rest := cs - {x};
      PrefixedSize(p, rest);
      assert Prefixed(p, cs) == Prefixed(p, rest) + {[p] + x};
      assert [p] + x !in Prefixed(p, rest) by {
        forall c | c in rest
          ensures [p] + c != [p] + x
        {
          assert ([p] + c)[1..] == c && ([p] + x)[1..] == x;
        }
      }
    }
  }

  lemma DistinctInit(ns: seq<Pos>)
    requires Distinct(ns) && ns != []
    ensures Distinct(ns[..|ns| - 1]) && ns[|ns| - 1] !in ns[..|ns| - 1]
  {
    var ns' := ns[..|ns| - 1];
    forall k | 0 <= k < |ns'|
      ensures ns'[k] != ns[|ns| - 1]
    {
      assert ns'[k] == ns[k];
    }
  }

  lemma ViaSplit(grid: Grid, p: Pos, ns: seq<Pos>)
    requires Heights(grid) && ns != [] && forall n :: n in ns ==> Cell(grid, n)
    ensures ClimbsVia(grid, p, ns) ==
      ClimbsVia(grid, p, ns[..|ns| - 1]) + Prefixed(p, ClimbsFrom(grid, ns[|ns| - 1]))
  {
    assert ns == ns[..|ns| - 1] + [ns[|ns| - 1]];
  }

  lemma ViaApart(grid: Grid, p: Pos, ns: seq<Pos>, m: Pos)
    requires Heights(grid) && Cell(grid, m) && m !in ns && forall n :: n in ns ==> Cell(grid, n)
    ensures ClimbsVia(grid, p, ns) * Prefixed(p, ClimbsFrom(grid, m)) == {}
  {
    forall c | c in ClimbsVia(grid, p, ns)
      ensures c !in Prefixed(p, ClimbsFrom(grid, m))
    {
      var n, c' :| n in ns && c' in ClimbsFrom(grid, n) && c == [p] + c';
      assert c[1] == n;
    }
  }

  /** Climbs through distinct first steps are told apart by that step, so
      their number is the sum. */
  lemma {:induction false} PathsSumCounts(grid: Grid, p: Pos, ns: seq<Pos>, h: int)
    requires Heights(grid) && h <= 9 && Distinct(ns)
    requires forall n :: n in ns ==> Cell(grid, n) && Height(grid, n) == h
    requires forall n :: n in ns ==> Paths(grid, n) == |ClimbsFrom(grid, n)|
    ensures PathsSum(grid, ns, h) == |ClimbsVia(grid, p, ns)|
    decreases |ns|
  {
    if ns != [] {
      var ns', m := ns[..|ns| - 1], ns[|ns| - 1];
      DistinctInit(ns);
      PathsSumCounts(grid, p, ns', h);
      ViaSplit(grid, p, ns);
      ViaApart(grid, p, ns', m);
      PrefixedSize(p, ClimbsFrom(grid, m));
    }
  }

  /** count_trail_combinations' work counts the distinct climbs from p. */
  lemma {:induction false} PathsCountClimbs(grid: Grid, p: Pos)
    requires Heights(grid) && Cell(grid, p)
    ensures Paths(grid, p) == |ClimbsFrom(grid, p)|
    decreases 9 - Height(grid, p)
  {
    if Height(grid, p) != 9 {
      forall n | n in Succ(grid, p)
        ensures Paths(grid, n) == |ClimbsFrom(grid, n)|
      {
        PathsCountClimbs(grid, n);
      }
      SuccMeaning(grid, p);
      PathsSumCounts(grid, p, Succ(grid, p), Height(grid, p) + 1);
      assert ClimbsFrom(grid, p) == ClimbsVia(grid, p, Succ(grid, p));
    }
  }

  /** Trail: the start cells, each cell's listed higher neighbours
      (trail_next, a dictionary defaulting to no neighbours) and each
      cell's height (trail_val). */
  datatype Trail = Trail(start: seq<Pos>, trailNext: map<Pos, seq<Pos>>, trailVal: map<Pos, int>)

  /** next_pos: the listed neighbours, none for a cell never listed. */
  function NextPos(t: Trail, pos: Pos): seq<Pos>
  {
    NextOf(t.trailNext, pos)
  }

  function NextOf(next: map<Pos, seq<Pos>>, pos: Pos): seq<Pos>
  {
    if pos in next then next[pos] else []
  }

  /** Row-major order of the cells, as the parse visits them. */
  predicate Before(a: Pos, b: Pos)
  {
    a.0 < b.0 || (a.0 == b.0 && a.1 < b.1)
  }

  /** The cells the parse has visited when it reaches row r, column c. */
  predicate Done(grid: Grid, p: Pos, r: int, c: int)
  {
    Cell(grid, p) && Before(p, (r, c))
  }

  /** What parse_trail has built after visiting the cells before (r, c):
      the heights, the neighbour lists and the starts of those cells. */
  ghost predicate ValsUpTo(grid: Grid, vals: map<Pos, int>, r: int, c: int)
    requires Heights(grid)
  {
    (forall p :: p in vals <==> Done(grid, p, r, c)) &&
    (forall p :: p in vals ==> vals[p] == Height(grid, p))
  }

  ghost predicate NextUpTo(grid: Grid, next: map<Pos, seq<Pos>>, r: int, c: int)
    requires Heights(grid)
  {
    (forall p :: p in next ==> Done(grid, p, r, c) && next[p] != []) &&
    (forall p :: Done(grid, p, r, c) ==> NextOf(next, p) == Succ(grid, p))
  }

  ghost predicate StartsUpTo(grid: Grid, start: seq<Pos>, r: int, c: int)
    requires Heights(grid)
  {
    (forall p :: p in start <==> Done(grid, p, r, c) && Height(grid, p) == 0) &&
    (forall i, j :: 0 <= i < j < |start| ==> Before(start[i], start[j]))
  }

  ghost predicate BuiltUpTo(grid: Grid, t: Trail, r: int, c: int)
    requires Heights(grid)
  {
    ValsUpTo(grid, t.trailVal, r, c) && NextUpTo(grid, t.trailNext, r, c) && StartsUpTo(grid, t.start, r, c)
  }

  /** The trail of a whole grid: every cell's height, its exact higher
      neighbours, and the height-0 cells in row-major order. */
  ghost predicate Built(grid: Grid, t: Trail)
  {
    Heights(grid) && BuiltUpTo(grid, t, |grid|, 0)
  }

  lemma SuccAlongSnoc(grid: Grid, p: Pos, ds: seq<Pos>, d: Pos)
    requires Heights(grid) && Cell(grid, p)
    ensures SuccAlong(grid, p, ds + [d]) == SuccAlong(grid, p, ds) + SuccAlong(grid, p, [d])
  {
    if ds != [] {
      SuccAlongSnoc(grid, p, ds[1..], d);
      assert (ds + [d])[1..] == ds[1..] + [d];
    }
  }

  lemma SuccAlongPrefix(grid: Grid, p: Pos, i: nat)
    requires Heights(grid) && Cell(grid, p) && i < |Dirs|
    ensures var n := Add(p, Dirs[i]);
      SuccAlong(grid, p, Dirs[..i + 1]) == SuccAlong(grid, p, Dirs[..i]) +
        (if InTrailList(n, grid) && grid[n.0][n.1] == grid[p.0][p.1] + 1 then [n] else [])
  {
    SuccAlongSnoc(grid, p, Dirs[..i], Dirs[i]);
    assert Dirs[..i + 1] == Dirs[..i] + [Dirs[i]];
  }

  /** The DIRS loop of parse_trail for one cell: its higher neighbours are
      appended to its (so far absent) trail_next entry. */
  method AddNext(grid: Grid, pos: Pos, next: map<Pos, seq<Pos>>) returns (next': map<Pos, seq<Pos>>)
    requires Heights(grid) && Cell(grid, pos) && pos !in next
    ensures next' == if Succ(grid, pos) == [] then next else next[pos := Succ(grid, pos)]
  {
    next' := next;
    var v := grid[pos.0][pos.1];
    ghost var listed: seq<Pos> := [];
    for i := 0 to |Dirs|
      invariant listed == SuccAlong(grid, pos, Dirs[..i])
      invariant next' == if listed == [] then next else next[pos := listed]
    {
      var n := Add(pos, Dirs[i]);
      SuccAlongPrefix(grid, pos, i);
      if InTrailList(n, grid) && grid[n.0][n.1] == v + 1 {
        next' := next'[pos := (if pos in next' then next'[pos] else []) + [n]];
        listed := listed + [n];
      }
    }
    assert Dirs[..|Dirs|] == Dirs;
  }

  lemma DoneNext(grid: Grid, p: Pos, r: int, c: int)
    requires Cell(grid, (r, c))
    ensures Done(grid, p, r, c + 1) <==> Done(grid, p, r, c) || p == (r, c)
  {
  }

  lemma ValsStep(grid: Grid, vals: map<Pos, int>, r: int, c: int)
    requires Heights(grid) && Cell(grid, (r, c)) && ValsUpTo(grid, vals, r, c)
    ensures ValsUpTo(grid, vals[(r, c) := grid[r][c]], r, c + 1)
  {
    forall p
      ensures Done(grid, p, r, c + 1) <==> Done(grid, p, r, c) || p == (r, c)
    {
      DoneNext(grid, p, r, c);
    }
  }

  lemma NextStep(grid: Grid, next: map<Pos, seq<Pos>>, r: int, c: int, sp: seq<Pos>, next': map<Pos, seq<Pos>>)
    requires Heights(grid) && Cell(grid, (r, c)) && NextUpTo(grid, next, r, c)
    requires sp == Succ(grid, (r, c)) && next' == if sp == [] then next else next[(r, c) := sp]
    ensures NextUpTo(grid, next', r, c + 1)
  {
    NextKeysStep(grid, next, r, c, sp, next');
    NextValsStep(grid, next, r, c, sp, next');
  }

  lemma NextKeysStep(grid: Grid, next: map<Pos, seq<Pos>>, r: int, c: int, sp: seq<Pos>, next': map<Pos, seq<Pos>>)
    requires Heights(grid) && Cell(grid, (r, c))
    requires forall p :: p in next ==> Done(grid, p, r, c) && next[p] != []
    requires next' == if sp == [] then next else next[(r, c) := sp]
    ensures forall p :: p in next' ==> Done(grid, p, r, c + 1) && next'[p] != []
  {
    forall p | p in next'
      ensures Done(grid, p, r, c + 1) && next'[p] != []
    {
      DoneNext(grid, p, r, c);
    }
  }

  lemma NextValsStep(grid: Grid, next: map<Pos, seq<Pos>>, r: int, c: int, sp: seq<Pos>, next': map<Pos, seq<Pos>>)
    requires Heights(grid) && Cell(grid, (r, c))
    requires forall p :: Done(grid, p, r, c) ==> NextOf(next, p) == Succ(grid, p)
    requires (r, c) !in next && sp == Succ(grid, (r, c)) && next' == if sp == [] then next else next[(r, c) := sp]
    ensures forall p :: Done(grid, p, r, c + 1) ==> NextOf(next', p) == Succ(grid, p)
  {
    forall p | Done(grid, p, r, c + 1)
      ensures NextOf(next', p) == Succ(grid, p)
    {
      DoneNext(grid, p, r, c);
      if p != (r, c) {
        assert NextOf(next', p) == NextOf(next, p);
      }
    }
  }

  lemma StartsStep(grid: Grid, start: seq<Pos>, r: int, c: int)
    requires Heights(grid) && Cell(grid, (r, c)) && StartsUpTo(grid, start, r, c)
    ensures StartsUpTo(grid, if grid[r][c] == 0 then start + [(r, c)] else start, r, c + 1)
  {
    var start' := if grid[r][c] == 0 then start + [(r, c)] else start;
    forall p
      ensures p in start' <==> Done(grid, p, r, c + 1) && Height(grid, p) == 0
    {
      DoneNext(grid, p, r, c);
    }
    forall i, j | 0 <= i < j < |start'|
      ensures Before(start'[i], start'[j])
    {
      if j < |start| {
        assert start'[i] == start[i] && start'[j] == start[j];
      } else {
        assert start'[i] == start[i] && start[i] in start;
      }
    }
  }

  /** One cell of parse_trail: record its height, list it as a start when
      it is 0, and list its higher neighbours. */
  method AddCell(grid: Grid, r: nat, c: nat, t: Trail) returns (t': Trail)
    requires Heights(grid) && Cell(grid, (r, c)) && BuiltUpTo(grid, t, r, c)
    ensures BuiltUpTo(grid, t', r, c + 1)
  {
    var pos := (r, c);
    var v := grid[r][c];
    var start := t.start;
    if v == 0 {
      start := start + [pos];
    }
    assert pos !in t.trailNext;
    var next := AddNext(grid, pos, t.trailNext);
    NextStep(grid, t.trailNext, r, c, Succ(grid, pos), next);
    ValsStep(grid, t.trailVal, r, c);
    StartsStep(grid, t.start, r, c);
    t' := Trail(start, next, t.trailVal[pos := v]);
  }

  lemma RowDone(grid: Grid, t: Trail, r: int)
    requires Heights(grid) && 0 <= r < |grid| && BuiltUpTo(grid, t, r, |grid[r]|)
    ensures BuiltUpTo(grid, t, r + 1, 0)
  {
    DoneRowEnd(grid, r);
    assert ValsUpTo(grid, t.trailVal, r + 1, 0);
    assert NextUpTo(grid, t.trailNext, r + 1, 0);
    assert StartsUpTo(grid, t.start, r + 1, 0);
  }

  /** The cells visited up to the end of row r are those before row r + 1. */
  lemma DoneRowEnd(grid: Grid, r: int)
    requires Heights(grid) && 0 <= r < |grid|
    ensures forall p :: Done(grid, p, r, |grid[r]|) <==> Done(grid, p, r + 1, 0)
  {
    forall p
      ensures Done(grid, p, r, |grid[r]|) <==> Done(grid, p, r + 1, 0)
    {
    }
  }

  /** The adjacency building of parse_trail over an already parsed grid. */
  method ParseTrail(grid: Grid) returns (t: Trail)
    requires Heights(grid)
    ensures Built(grid, t)
  {
    t := Trail([], map[], map[]);
    for r := 0 to |grid|
      invariant BuiltUpTo(grid, t, r, 0)
    {
      for c := 0 to |grid[r]|
        invariant BuiltUpTo(grid, t, r, c)
      {
        t := AddCell(grid, r, c, t);
      }
      RowDone(grid, t, r);
    }
  }

  /** What work reads of a trail: get_val and next_pos give every cell's
      height and its higher neighbours. */
  ghost predicate Answers(grid: Grid, t: Trail)
    requires Heights(grid)
  {
    (forall p :: Cell(grid, p) ==> p in t.trailVal && t.trailVal[p] == Height(grid, p)) &&
    (forall p {:trigger NextPos(t, p)} :: Cell(grid, p) ==> NextPos(t, p) == Succ(grid, p))
  }

  /** A built trail answers for every cell of the grid. */
  lemma BuiltAnswers(grid: Grid, t: Trail)
    requires Built(grid, t)
    ensures Answers(grid, t)
  {
    forall p | Cell(grid, p)
      ensures p in t.trailVal && t.trailVal[p] == Height(grid, p) && NextPos(t, p) == Succ(grid, p)
    {
      assert Done(grid, p, |grid|, 0);
    }
  }

  /** Every start of a built trail is a cell of height 0. */
  lemma BuiltStarts(grid: Grid, t: Trail)
    requires Built(grid, t)
    ensures forall s :: s in t.start ==> Cell(grid, s) && Height(grid, s) == 0
  {
  }

  /** The union over one more neighbour. */
  lemma PeaksUnionStep(grid: Grid, ns: seq<Pos>, h: int, i: nat)
    requires Heights(grid) && h <= 9 && i < |ns|
    requires forall n :: n in ns ==> Cell(grid, n) && Height(grid, n) == h
    ensures PeaksUnion(grid, ns[..i], h) + Peaks(grid, ns[i]) == PeaksUnion(grid, ns[..i + 1], h)
  {
    assert ns[..i + 1] == ns[..i] + [ns[i]];
  }

  /** Every remembered answer of count_trail_heads' work is the right one. */
  ghost predicate HeadsMemo(grid: Grid, mem: map<Pos, set<Pos>>)
    requires Heights(grid)
  {
    forall p :: p in mem ==> Cell(grid, p) && mem[p] == Peaks(grid, p)
  }

  /** Remembering a right answer keeps the memo right. */
  lemma HeadsMemoAdd(grid: Grid, mem: map<Pos, set<Pos>>, pos: Pos, v: set<Pos>)
    requires Heights(grid) && HeadsMemo(grid, mem) && Cell(grid, pos) && v == Peaks(grid, pos)
    ensures HeadsMemo(grid, mem[pos := v])
  {
  }

  /** work of count_trail_heads: the remembered answer if any; {pos} at
      height 9; otherwise the union over the listed neighbours, remembered.
      Memoisation does not change the answer. */
  method HeadsWork(t: Trail, ghost grid: Grid, pos: Pos, mem: map<Pos, set<Pos>>)
    returns (r: set<Pos>, mem': map<Pos, set<Pos>>)
    requires Heights(grid) && Answers(grid, t) && Cell(grid, pos) && HeadsMemo(grid, mem)
    ensures r == Peaks(grid, pos) && HeadsMemo(grid, mem')
    decreases 9 - Height(grid, pos), 1
  {
    if pos in mem {
      return mem[pos], mem;
    }
    if t.trailVal[pos] == 9 {
      assert Peaks(grid, pos) == {pos};
      HeadsMemoAdd(grid, mem, pos, {pos});
      return {pos}, mem[pos := {pos}];
    }
    var ns := NextPos(t, pos);
    var inner;
    inner, mem' := HeadsUnion(t, grid, ns, Height(grid, pos) + 1, mem);
    assert ns == Succ(grid, pos);
    HeadsMemoAdd(grid, mem', pos, inner);
    return inner, mem'[pos := inner];
  }

  /** The loop of work in count_trail_heads: the union of the answers for
      the neighbours ns, all of height h. */
  method HeadsUnion(t: Trail, ghost grid: Grid, ns: seq<Pos>, ghost h: int, mem: map<Pos, set<Pos>>)
    returns (inner: set<Pos>, mem': map<Pos, set<Pos>>)
    requires Heights(grid) && Answers(grid, t) && HeadsMemo(grid, mem) && h <= 9
    requires forall n :: n in ns ==> Cell(grid, n) && Height(grid, n) == h
    ensures inner == PeaksUnion(grid, ns, h) && HeadsMemo(grid, mem')
    decreases 9 - h + 1, 0
  {
    inner := {};
    mem' := mem;
    for i := 0 to |ns|
      invariant HeadsMemo(grid, mem')
      invariant inner == PeaksUnion(grid, ns[..i], h)
    {
      var sub;
      sub, mem' := HeadsWork(t, grid, ns[i], mem');
      PeaksUnionStep(grid, ns, h, i);
      inner := inner + sub;
    }
    assert ns[..|ns|] == ns;
  }

  /** Every remembered answer of count_trail_combinations' work is right. */
  ghost predicate PathsMemo(grid: Grid, mem: map<Pos, nat>)
    requires Heights(grid)
  {
    forall p :: p in mem ==> Cell(grid, p) && mem[p] == Paths(grid, p)
  }

  /** Remembering a right answer keeps the memo right. */
  lemma PathsMemoAdd(grid: Grid, mem: map<Pos, nat>, pos: Pos, v: nat)
    requires Heights(grid) && PathsMemo(grid, mem) && Cell(grid, pos) && v == Paths(grid, pos)
    ensures PathsMemo(grid, mem[pos := v])
  {
  }

  /** work of count_trail_combinations: the remembered answer if any; 1 at
      height 9; otherwise the sum over the listed neighbours, remembered. */
  method PathsWork(t: Trail, ghost grid: Grid, pos: Pos, mem: map<Pos, nat>)
    returns (r: nat, mem': map<Pos, nat>)
    requires Heights(grid) && Answers(grid, t) && Cell(grid, pos) && PathsMemo(grid, mem)
    ensures r == Paths(grid, pos) && PathsMemo(grid, mem')
    decreases 9 - Height(grid, pos), 1
  {
    if pos in mem {
      return mem[pos], mem;
    }
    if t.trailVal[pos] == 9 {
      assert Paths(grid, pos) == 1;
      PathsMemoAdd(grid, mem, pos, 1);
      return 1, mem[pos := 1];
    }
    var ns := NextPos(t, pos);
    var inner;
    inner, mem' := PathsAdd(t, grid, ns, Height(grid, pos) + 1, mem);
    assert ns == Succ(grid, pos);
    PathsMemoAdd(grid, mem', pos, inner);
    return inner, mem'[pos := inner];
  }

  /** The loop of work in count_trail_combinations: the sum of the answers
      for the neighbours ns, all of height h. */
  method PathsAdd(t: Trail, ghost grid: Grid, ns: seq<Pos>, ghost h: int, mem: map<Pos, nat>)
    returns (inner: nat, mem': map<Pos, nat>)
    requires Heights(grid) && Answers(grid, t) && PathsMemo(grid, mem) && h <= 9
    requires forall n :: n in ns ==> Cell(grid, n) && Height(grid, n) == h
    ensures inner == PathsSum(grid, ns, h) && PathsMemo(grid, mem')
    decreases 9 - h + 1, 0
  {
    inner := 0;
    mem' := mem;
    for i := 0 to |ns|
      invariant PathsMemo(grid, mem')
      invariant inner == PathsSum(grid, ns[..i], h)
    {
      var sub;
      sub, mem' := PathsWork(t, grid, ns[i], mem');
      assert ns[..i + 1][..i] == ns[..i];
      inner := inner + sub;
    }
    assert ns[..|ns|] == ns;
  }

  /** The part 1 total: the number of height-9 cells each start reaches. */
  function PeakTotal(grid: Grid, starts: seq<Pos>): int
    requires Heights(grid) && forall s :: s in starts ==> Cell(grid, s)
  {
    if starts == [] then 0
    else PeakTotal(grid, starts[..|starts| - 1]) + |Peaks(grid, starts[|starts| - 1])|
  }

  /** The part 2 total: the number of climbs each start begins. */
  function PathTotal(grid: Grid, starts: seq<Pos>): int
    requires Heights(grid) && forall s :: s in starts ==> Cell(grid, s)
  {
    if starts == [] then 0
    else PathTotal(grid, starts[..|starts| - 1]) + Paths(grid, starts[|starts| - 1])
  }

  /** count_trail_heads: the sum over the starts, one memo for all. */
  method CountTrailHeads(t: Trail, ghost grid: Grid) returns (count: int)
    requires Heights(grid) && Answers(grid, t)
    requires forall s :: s in t.start ==> Cell(grid, s)
    ensures count == PeakTotal(grid, t.start)
  {
    var mem: map<Pos, set<Pos>> := map[];
    count := 0;
    for k := 0 to |t.start|
      invariant HeadsMemo(grid, mem)
      invariant count == PeakTotal(grid, t.start[..k])
    {
      var score;
      score, mem := HeadsWork(t, grid, t.start[k], mem);
      assert t.start[..k + 1][..k] == t.start[..k];
      count := count + |score|;
    }
    assert t.start[..|t.start|] == t.start;
  }

  /** count_trail_combinations: the sum over the starts, one memo for all. */
  method CountTrailCombinations(t: Trail, ghost grid: Grid) returns (count: int)
    requires Heights(grid) && Answers(grid, t)
    requires forall s :: s in t.start ==> Cell(grid, s)
    ensures count == PathTotal(grid, t.start)
  {
    var mem: map<Pos, nat> := map[];
    count := 0;
    for k := 0 to |t.start|
      invariant PathsMemo(grid, mem)
      invariant count == PathTotal(grid, t.start[..k])
    {
      var score;
      score, mem := PathsWork(t, grid, t.start[k], mem);
      assert t.start[..k + 1][..k] == t.start[..k];
      count := count + score;
    }
    assert t.start[..|t.start|] == t.start;
  }
}

=== FILE: day11.dfy ===
/** Day 11: plutonian pebbles. Every blink replaces each stone by one or two
    stones; the solver tracks how many stones carry each number rather than
    the stones themselves. The stone dictionary is kept as its sequence of
    (number, count) items, in the insertion order Python gives a dict. */
module Day11 {
  import opened Decimal
  import Common

  /** stone_update: 0 becomes 1; a number with an even count of digits is
      split into its two halves, the right half first; anything else is
      multiplied by 2024. */
  function StoneUpdate(stone: nat): (r: seq<nat>)
    ensures 1 <= |r| <= 2
  {
    var s := ToDecimal(stone);
    if stone == 0 then [1]
    else if |s| % 2 == 0 then
      FromToDecimal(stone);
      [FromDecimal(s[|s| / 2..]), FromDecimal(s[..|s| / 2])]
    else [stone * 2024]
  }

  /** The three rules in numbers: splitting str(n) in halves is dividing
      n by 10^(digits/2), with the remainder (the right half) first. */
  lemma StoneUpdateValue(stone: nat)
    ensures stone == 0 ==> StoneUpdate(stone) == [1]
    ensures stone != 0 && |ToDecimal(stone)| % 2 == 0 ==>
      var half := Pow10(|ToDecimal(stone)| / 2);
      StoneUpdate(stone) == [stone % half, stone / half]
    ensures stone != 0 && |ToDecimal(stone)| % 2 == 1 ==> StoneUpdate(stone) == [stone * 2024]
  {
    if stone != 0 && |ToDecimal(stone)| % 2 == 0 {
      SplitHalves(stone);
    }
  }

  /** Reading the two halves of str(n) splits n at 10^(digits/2). */
  lemma SplitHalves(n: nat)
    requires |ToDecimal(n)| % 2 == 0
    ensures var s := ToDecimal(n);
      var half := Pow10(|s| / 2);
      AllDigits(s[|s| / 2..]) && AllDigits(s[..|s| / 2])
      && FromDecimal(s[|s| / 2..]) == n % half && FromDecimal(s[..|s| / 2]) == n / half
  {
    var s := ToDecimal(n);
    var h := |s| / 2;
    var left, right := s[..h], s[h..];
    assert s == left + right;
    FromDecimalAppend(left, right);
    FromToDecimal(n);
    Common.DivModOf(FromDecimal(left) * Pow10(h) + FromDecimal(right), FromDecimal(left), FromDecimal(right), Pow10(h));
  }

  // ---------------------------------------------------------------------
  // The stones themselves
  // ---------------------------------------------------------------------

  /** What one stone becomes in one blink. The row and dictionary theory
      below holds for any such rule; the solver uses StoneUpdate. */
  type Rule = nat -> seq<nat>

  /** One blink over a row of stones. */
  function Blink(stones: seq<nat>, rule: Rule): seq<nat>
  {
    if stones == [] then [] else rule(stones[0]) + Blink(stones[1..], rule)
  }

  function BlinkN(stones: seq<nat>, rule: Rule, n: nat): seq<nat>
  {
    if n == 0 then stones else Blink(BlinkN(stones, rule, n - 1), rule)
  }

  lemma {:induction false} BlinkAppend(a: seq<nat>, b: seq<nat>, rule: Rule)
    ensures Blink(a + b, rule) == Blink(a, rule) + Blink(b, rule)
  {
    if a != [] {
      BlinkAppend(a[1..], b, rule);
      assert (a + b)[0] == a[0] && (a + b)[1..] == a[1..] + b;
    } else {
      assert a + b == b;
    }
  }

  /** A blink never shrinks the row when no stone vanishes. */
  lemma {:induction false} BlinkLength(stones: seq<nat>, rule: Rule)
    requires forall x :: |rule(x)| >= 1
    ensures |Blink(stones, rule)| >= |stones|
  {
    if stones != [] { BlinkLength(stones[1..], rule); }
  }

  /** A blink depends only on which stones there are, not on their order. */
  lemma {:induction false} BlinkRespectsMultiset(a: seq<nat>, b: seq<nat>, rule: Rule)
    requires multiset(a) == multiset(b)
    ensures multiset(Blink(a, rule)) == multiset(Blink(b, rule))
    decreases |a|
  {
    if a != [] {
      var x := a[0];
      assert x in multiset(b);
      var i :| 0 <= i < |b| && b[i] == x;
      var rest := b[..i] + b[i + 1..];
      RemoveMatched(a, b, i);
      BlinkRespectsMultiset(a[1..], rest, rule);
      BlinkWithout(b, i, rule);
    }
  }

  /** Taking the head of a and a matching entry of b out of two lists with
      the same stones leaves lists with the same stones. */
  lemma RemoveMatched(a: seq<nat>, b: seq<nat>, i: nat)
    requires multiset(a) == multiset(b) && a != [] && i < |b| && b[i] == a[0]
    ensures multiset(a[1..]) == multiset(b[..i] + b[i + 1..])
  {
    var x := a[0];
    assert a == [x] + a[1..];
    assert b == b[..i] + [x] + b[i + 1..];
    assert multiset(a[1..]) == multiset(a) - multiset{x};
    assert multiset(b[..i] + b[i + 1..]) == multiset(b) - multiset{x};
  }

  /** Blinking b gives the update of b[i] and the blink of the others. */
  lemma BlinkWithout(b: seq<nat>, i: nat, rule: Rule)
    requires i < |b|
    ensures multiset(Blink(b, rule)) == multiset(rule(b[i])) + multiset(Blink(b[..i] + b[i + 1..], rule))
  {
    var b1, b2 := b[..i], b[i + 1..];
    var c := [b[i]] + b2;
    assert b == b1 + c;
    BlinkAppend(b1, c, rule);
    BlinkCons(b[i], b2, rule);
    BlinkAppend(b1, b2, rule);
    MiddleOut(Blink(b1, rule), rule(b[i]), Blink(b2, rule));
  }

  lemma BlinkCons(x: nat, s: seq<nat>, rule: Rule)
    ensures Blink([x] + s, rule) == rule(x) + Blink(s, rule)
  {
    assert ([x] + s)[0] == x && ([x] + s)[1..] == s;
  }

  lemma MiddleOut(a: seq<nat>, m: seq<nat>, c: seq<nat>)
    ensures multiset(a + (m + c)) == multiset(m) + multiset(a + c)
  {
  }

  // ---------------------------------------------------------------------
  // The stone dictionary
  // ---------------------------------------------------------------------

  type StoneDict = seq<(nat, nat)>

  predicate DistinctKeys(d: StoneDict)
  {
    forall i, j :: 0 <= i < j < |d| ==> d[i].0 != d[j].0
  }

  /** count copies of the stone. */
  function Rep(stone: nat, count: nat): seq<nat>
  {
    if count == 0 then [] else [stone] + Rep(stone, count - 1)
  }

  /** The stones a dictionary stands for. */
  function Expand(d: StoneDict): seq<nat>
  {
    if d == [] then [] else Rep(d[0].0, d[0].1) + Expand(d[1..])
  }

  /** The number of stones: sum(stone_dict.values()). */
  function Total(d: StoneDict): (t: nat)
    ensures t == |Expand(d)|
  {
    if d == [] then 0 else RepLength(d[0].0, d[0].1); d[0].1 + Total(d[1..])
  }

  lemma {:induction false} RepLength(stone: nat, count: nat)
    ensures |Rep(stone, count)| == count
  {
    if count > 0 { RepLength(stone, count - 1); }
  }

  /** next_stone_dict[s] += v on a defaultdict(int): bump an existing key
      in place, or append a new one. */
  function AddTo(d: StoneDict, s: nat, v: nat): (r: StoneDict)
    ensures DistinctKeys(d) ==> DistinctKeys(r)
    ensures forall i :: 0 <= i < |r| ==> r[i].0 == s || exists j :: 0 <= j < |d| && d[j].0 == r[i].0
  {
    if d == [] then [(s, v)]
    else if d[0].0 == s then [(s, d[0].1 + v)] + d[1..]
    else [d[0]] + AddTo(d[1..], s, v)
  }

  lemma {:induction false} ExpandAppend(a: StoneDict, b: StoneDict)
    ensures Expand(a + b) == Expand(a) + Expand(b)
  {
    if a != [] {
      ExpandAppend(a[1..], b);
      assert (a + b)[0] == a[0] && (a + b)[1..] == a[1..] + b;
    } else {
      assert a + b == b;
    }
  }

  lemma {:induction false} RepAppend(s: nat, m: nat, n: nat)
    ensures Rep(s, m + n) == Rep(s, m) + Rep(s, n)
  {
    if m > 0 { RepAppend(s, m - 1, n); }
  }

  /** Adding v stones numbered s to the dictionary adds v copies of s. */
  lemma {:induction false} AddToMeaning(d: StoneDict, s: nat, v: nat)
    ensures multiset(Expand(AddTo(d, s, v))) == multiset(Expand(d)) + multiset(Rep(s, v))
  {
    if d == [] {
      assert Expand([(s, v)]) == Rep(s, v) + Expand([]);
    } else if d[0].0 == s {
      AddToHit(d, s, v);
    } else {
      AddToMeaning(d[1..], s, v);
      AddToMiss(d, s, v);
    }
  }

  lemma AddToHit(d: StoneDict, s: nat, v: nat)
    requires d != [] && d[0].0 == s
    ensures multiset(Expand(AddTo(d, s, v))) == multiset(Expand(d)) + multiset(Rep(s, v))
  {
    var r := AddTo(d, s, v);
    var c: nat := d[0].1;
    var tail := Expand(d[1..]);
    assert r[0] == (s, c + v) && r[1..] == d[1..];
    assert Expand(r) == Rep(s, c + v) + tail;
    assert Expand(d) == Rep(s, c) + tail;
    RepAppend(s, c, v);
  }

  lemma AddToMiss(d: StoneDict, s: nat, v: nat)
    requires d != [] && d[0].0 != s
    requires multiset(Expand(AddTo(d[1..], s, v))) == multiset(Expand(d[1..])) + multiset(Rep(s, v))
    ensures multiset(Expand(AddTo(d, s, v))) == multiset(Expand(d)) + multiset(Rep(s, v))
  {
    var r := AddTo(d, s, v);
    assert r[0] == d[0] && r[1..] == AddTo(d[1..], s, v);
    ExpandFront(r);
    ExpandFront(d);
  }

  lemma ExpandFront(d: StoneDict)
    requires d != []
    ensures multiset(Expand(d)) == multiset(Rep(d[0].0, d[0].1)) + multiset(Expand(d[1..]))
  {
  }

  /** The inner `for s in new_stones` loop, over the first stones. */
  function AddAll(d: StoneDict, stones: seq<nat>, v: nat): StoneDict
  {
    if stones == [] then d
    else AddTo(AddAll(d, stones[..|stones| - 1], v), stones[|stones| - 1], v)
  }

  /** One round of n_update_stone_dict: the items of the old dictionary
      in order, each spreading its count over its updated stones. */
  function Round(d: StoneDict, rule: Rule): StoneDict
  {
    if d == [] then []
    else
      var k := d[|d| - 1];
      AddAll(Round(d[..|d| - 1], rule), rule(k.0), k.1)
  }

  function NRounds(d: StoneDict, rule: Rule, n: nat): StoneDict
  {
    if n == 0 then d else Round(NRounds(d, rule, n - 1), rule)
  }

  lemma {:induction false} AddAllDistinct(d: StoneDict, stones: seq<nat>, v: nat)
    requires DistinctKeys(d)
    ensures DistinctKeys(AddAll(d, stones, v))
  {
    if stones != [] { AddAllDistinct(d, stones[..|stones| - 1], v); }
  }

  /** Every round yields a genuine dictionary: no number twice. */
  lemma {:induction false} RoundDistinct(d: StoneDict, rule: Rule)
    ensures DistinctKeys(Round(d, rule))
  {
    if d != [] {
      RoundDistinct(d[..|d| - 1], rule);
      AddAllDistinct(Round(d[..|d| - 1], rule), rule(d[|d| - 1].0), d[|d| - 1].1);
    }
  }

  /** Each of the stones, v times over, in order. */
  function RepEach(stones: seq<nat>, v: nat): seq<nat>
  {
    if stones == [] then [] else RepEach(stones[..|stones| - 1], v) + Rep(stones[|stones| - 1], v)
  }

  /** The sequence s, v times over. */
  function RepSeq(s: seq<nat>, v: nat): seq<nat>
  {
    if v == 0 then [] else s + RepSeq(s, v - 1)
  }

  /** The multiset m, v times over. */
  function MRep(m: multiset<nat>, v: nat): multiset<nat>
  {
    if v == 0 then multiset{} else m + MRep(m, v - 1)
  }

  lemma {:induction false} AddAllMeaning(d: StoneDict, stones: seq<nat>, v: nat)
    ensures multiset(Expand(AddAll(d, stones, v))) == multiset(Expand(d)) + multiset(RepEach(stones, v))
  {
    if stones != [] {
      var front := stones[..|stones| - 1];
      var x := stones[|stones| - 1];
      AddAllMeaning(d, front, v);
      AddToMeaning(AddAll(d, front, v), x, v);
      assert RepEach(stones, v) == RepEach(front, v) + Rep(x, v);
    }
  }

  lemma {:induction false} MRepAdd(a: multiset<nat>, b: multiset<nat>, v: nat)
    ensures MRep(a + b, v) == MRep(a, v) + MRep(b, v)
  {
    if v > 0 {
      MRepAdd(a, b, v - 1);
      var ra, rb := MRep(a, v - 1), MRep(b, v - 1);
      assert MRep(a + b, v) == (a + b) + (ra + rb);
      assert (a + b) + (ra + rb) == (a + ra) + (b + rb);
    }
  }

  lemma {:induction false} RepMultiset(x: nat, v: nat)
    ensures multiset(Rep(x, v)) == MRep(multiset{x}, v)
  {
    if v > 0 {
      RepMultiset(x, v - 1);
      assert Rep(x, v) == [x] + Rep(x, v - 1);
    }
  }

  lemma {:induction false} MRepEmpty(v: nat)
    ensures MRep(multiset{}, v) == multiset{}
  {
    if v > 0 { MRepEmpty(v - 1); }
  }

  lemma {:induction false} RepEachMultiset(stones: seq<nat>, v: nat)
    ensures multiset(RepEach(stones, v)) == MRep(multiset(stones), v)
  {
    if stones == [] {
      MRepEmpty(v);
    } else {
      var front := stones[..|stones| - 1];
      var x := stones[|stones| - 1];
      RepEachMultiset(front, v);
      RepMultiset(x, v);
      MRepAdd(multiset(front), multiset{x}, v);
      LastSplit(stones);
      RepEachLast(stones, v);
    }
  }

  lemma LastSplit(stones: seq<nat>)
    requires stones != []
    ensures multiset(stones) == multiset(stones[..|stones| - 1]) + multiset{stones[|stones| - 1]}
  {
    assert stones == stones[..|stones| - 1] + [stones[|stones| - 1]];
  }

  lemma RepEachLast(stones: seq<nat>, v: nat)
    requires stones != []
    ensures multiset(RepEach(stones, v))
         == multiset(RepEach(stones[..|stones| - 1], v)) + multiset(Rep(stones[|stones| - 1], v))
  {
  }

  lemma {:induction false} RepSeqMultiset(s: seq<nat>, v: nat)
    ensures multiset(RepSeq(s, v)) == MRep(multiset(s), v)
  {
    if v > 0 { RepSeqMultiset(s, v - 1); }
  }

  /** v copies of a stone blink into v copies of its update. */
  lemma {:induction false} BlinkRep(k: nat, v: nat, rule: Rule)
    ensures Blink(Rep(k, v), rule) == RepSeq(rule(k), v)
  {
    if v > 0 {
      BlinkRep(k, v - 1, rule);
      var r := Rep(k, v);
      assert r[0] == k && r[1..] == Rep(k, v - 1);
    }
  }

  /** One round of the dictionary is one blink of the stones it stands for. */
  lemma {:induction false} RoundMeaning(d: StoneDict, rule: Rule)
    ensures multiset(Expand(Round(d, rule))) == multiset(Blink(Expand(d), rule))
  {
    if d != [] {
      var front, k := d[..|d| - 1], d[|d| - 1];
      var a, s, v := Expand(front), rule(k.0), k.1;
      RoundMeaning(front, rule);
      ExpandLast(d);
      BlinkAppend(a, Rep(k.0, v), rule);
      BlinkRep(k.0, v, rule);
      RepSeqMultiset(s, v);
      AddAllMeaning(Round(front, rule), s, v);
      RepEachMultiset(s, v);
      calc {
        multiset(Expand(Round(d, rule)));
        multiset(Expand(AddAll(Round(front, rule), s, v)));
        multiset(Expand(Round(front, rule))) + multiset(RepEach(s, v));
        multiset(Blink(a, rule)) + MRep(multiset(s), v);
        multiset(Blink(a, rule)) + multiset(RepSeq(s, v));
        multiset(Blink(a, rule) + Blink(Rep(k.0, v), rule));
        multiset(Blink(Expand(d), rule));
      }
    }
  }

  lemma ExpandLast(d: StoneDict)
    requires d != []
    ensures Expand(d) == Expand(d[..|d| - 1]) + Rep(d[|d| - 1].0, d[|d| - 1].1)
  {
    var front, k := d[..|d| - 1], d[|d| - 1];
    assert d == front + [k];
    ExpandAppend(front, [k]);
    assert Expand([k]) == Rep(k.0, k.1) + Expand([]);
  }

  /** After n rounds the dictionary stands for exactly the stones after n
      blinks (as a multiset; the order of stones carries no meaning). */
  lemma {:induction false} NRoundsMeaning(d: StoneDict, rule: Rule, n: nat)
    ensures multiset(Expand(NRounds(d, rule, n))) == multiset(BlinkN(Expand(d), rule, n))
  {
    if n > 0 {
      NRoundsMeaning(d, rule, n - 1);
      RoundMeaning(NRounds(d, rule, n - 1), rule);
      BlinkRespectsMultiset(Expand(NRounds(d, rule, n - 1)), BlinkN(Expand(d), rule, n - 1), rule);
    }
  }

  /** When no stone vanishes, the total never decreases round by round. */
  lemma {:induction false} NRoundsTotalGrows(d: StoneDict, rule: Rule, n: nat)
    requires forall x :: |rule(x)| >= 1
    ensures Total(NRounds(d, rule, n)) >= Total(d)
  {
    if n > 0 {
      NRoundsTotalGrows(d, rule, n - 1);
      NRoundsStep(d, rule, n);
    }
  }

  lemma NRoundsStep(d: StoneDict, rule: Rule, n: nat)
    requires forall x :: |rule(x)| >= 1
    requires n > 0
    ensures Total(NRounds(d, rule, n)) >= Total(NRounds(d, rule, n - 1))
  {
    RoundTotalGrows(NRounds(d, rule, n - 1), rule);
  }

  /** One round never lowers the total when no stone vanishes. */
  lemma RoundTotalGrows(d: StoneDict, rule: Rule)
    requires forall x :: |rule(x)| >= 1
    ensures Total(Round(d, rule)) >= Total(d)
  {
    var blinked := Blink(Expand(d), rule);
    RoundMeaning(d, rule);
    BlinkLength(Expand(d), rule);
    assert |multiset(Expand(Round(d, rule)))| == |multiset(blinked)|;
  }

  lemma RoundStep(d: StoneDict, i: nat, rule: Rule)
    requires i < |d|
    ensures Round(d[..i + 1], rule) == AddAll(Round(d[..i], rule), rule(d[i].0), d[i].1)
  {
    assert d[..i + 1][..i] == d[..i];
  }

  /** The blinking rule of the puzzle in dictionary form: after n rounds
      the dictionary holds exactly the stones of n blinks, and no fewer
      stones than at the start. */
  lemma StoneDictRounds(d: StoneDict, n: nat)
    ensures multiset(Expand(NRounds(d, StoneUpdate, n))) == multiset(BlinkN(Expand(d), StoneUpdate, n))
    ensures Total(NRounds(d, StoneUpdate, n)) >= Total(d)
  {
    NRoundsMeaning(d, StoneUpdate, n);
    NRoundsTotalGrows(d, StoneUpdate, n);
  }

  /** The innermost loop of n_update_stone_dict: every new stone gets the
      count v of the stone it came from added to its entry. */
  method AddStones(d: StoneDict, newStones: seq<nat>, v: nat) returns (r: StoneDict)
    ensures r == AddAll(d, newStones, v)
  {
    r := d;
    for j := 0 to |newStones|
      invariant r == AddAll(d, newStones[..j], v)
    {
      assert newStones[..j + 1][..j] == newStones[..j];
      r := AddTo(r, newStones[j], v);
    }
    assert newStones[..|newStones|] == newStones;
  }

  /** One round of n_update_stone_dict: every entry of the dictionary is
      replaced by the stones it turns into, with its count carried over. */
  method BlinkDict(d: StoneDict) returns (next: StoneDict)
    ensures next == Round(d, StoneUpdate)
  {
    var rule: Rule := StoneUpdate;
    next := [];
    for i := 0 to |d|
      invariant next == Round(d[..i], rule)
    {
      RoundStep(d, i, rule);
      var (k, v) := d[i];
      next := AddStones(next, rule(k), v);
    }
    assert d[..|d|] == d;
  }

  /** n_update_stone_dict */
  method NUpdateStoneDict(stoneDict: StoneDict, n: nat) returns (r: StoneDict)
    ensures r == NRounds(stoneDict, StoneUpdate, n)
    ensures multiset(Expand(r)) == multiset(BlinkN(Expand(stoneDict), StoneUpdate, n))
    ensures Total(r) >= Total(stoneDict)
  {
    r := stoneDict;
    for round := 0 to n
      invariant r == NRounds(stoneDict, StoneUpdate, round)
    {
      r := BlinkDict(r);
    }
    StoneDictRounds(stoneDict, n);
  }
}

=== FILE: day12.dfy ===
/** Day 12: garden groups. Each plant's cells are split into 4-connected
    regions by a worklist flood fill; a region is priced by its perimeter
    (part 1) or by its number of corners, which is its number of sides
    (part 2), times its area. */
module Day12 {
  import opened Common

  /** DIRS: the unit steps 1, 1j, -1, -1j as (row, column) offsets. */
  const Dirs: seq<Pos> := [(1, 0), (0, 1), (-1, 0), (0, -1)]

  /** R1_DIRS: each of DIRS turned a quarter, paired with it in corners_at_pos. */
  const R1Dirs: seq<Pos> := [(0, 1), (-1, 0), (0, -1), (1, 0)]

  predicate Distinct(s: seq<Pos>)
  {
    forall i, j :: 0 <= i < j < |s| ==> s[i] != s[j]
  }

  function Elems(s: seq<Pos>): set<Pos>
  {
    set p | p in s
  }

  // ---------------------------------------------------------------------
  // get_possible_neighbours

  /** get_possible_neighbours: the 4-neighbours of pos that are in valid,
      each once. */
  method GetPossibleNeighbours(pos: Pos, valid: set<Pos>) returns (res: seq<Pos>)
    ensures forall n :: n in res <==> n in valid && Adjacent(pos, n)
    ensures Distinct(res)
  {
    res := [];
    for k := 0 to |Dirs|
      invariant forall n :: n in res <==> n in valid && exists i :: 0 <= i < k && n == Add(pos, Dirs[i])
      invariant Distinct(res)
      invariant forall n :: n in res ==> exists i :: 0 <= i < k && n == Add(pos, Dirs[i])
    {
      if Add(pos, Dirs[k]) in valid {
        res := res + [Add(pos, Dirs[k])];
      }
    }
    forall n
      ensures (exists i :: 0 <= i < 4 && n == Add(pos, Dirs[i])) <==> Adjacent(pos, n)
    {
      if Adjacent(pos, n) {
        var d := Sub(n, pos);
        assert d == Dirs[0] || d == Dirs[1] || d == Dirs[2] || d == Dirs[3];
      }
    }
  }

  // ---------------------------------------------------------------------
  // separate_plants

  /** A region's key: f"{c}_{counter}", the plant and the region's number
      among that plant's regions. */
  datatype Label = Label(plant: string, index: nat)

  datatype Region = Region(key: Label, cells: seq<Pos>)

  /** Some cell of s is a 4-neighbour of p. */
  ghost predicate Touches(s: seq<Pos>, p: Pos)
  {
    exists j :: 0 <= j < |s| && Adjacent(s[j], p)
  }

  /** Every cell after the first is a 4-neighbour of an earlier one: the
      order in which the flood fill reaches the cells of a region. */
  ghost predicate Linked(s: seq<Pos>)
  {
    forall i :: 0 < i < |s| ==> TouchesBefore(s, i)
  }

  /** The cell at index i is a 4-neighbour of a cell before it. */
  ghost predicate TouchesBefore(s: seq<Pos>, i: int)
    requires 0 <= i < |s|
  {
    exists j :: 0 <= j < i && Adjacent(s[j], s[i])
  }

  /** No 4-neighbour of a cell of r inside all lies outside r. */
  ghost predicate Closed(r: seq<Pos>, all: set<Pos>)
  {
    forall x, n :: x in r && Adjacent(x, n) && n in all ==> n in r
  }

  /** The inner while loop of separate_plants: grow one region from start,
      taking the cells it reaches out of rest. */
  method GrowRegion(start: Pos, rest: set<Pos>) returns (region: seq<Pos>, rest': set<Pos>)
    requires start !in rest
    ensures |region| > 0 && region[0] == start && Distinct(region) && Linked(region)
    ensures Elems(region) !! rest' && Elems(region) + rest' == rest + {start}
    ensures forall x, n :: x in region && Adjacent(x, n) ==> n !in rest'
  {
    var searchList := [start];
    region := [];
    rest' := rest;
    GrowingStart(start, rest);
    while |searchList| > 0
      invariant Growing(start, rest, region, searchList, rest')
      decreases |rest'| + |searchList|
    {
      region, searchList, rest' := GrowStep(start, rest, region, searchList, rest');
    }
    GrowingDone(start, rest, region, rest');
  }

  lemma GrowingStart(start: Pos, rest: set<Pos>)
    requires start !in rest
    ensures Growing(start, rest, [], [start], rest)
  {
    assert [] + [start] == [start];
  }

  lemma GrowingDone(start: Pos, rest: set<Pos>, region: seq<Pos>, rest': set<Pos>)
    requires Growing(start, rest, region, [], rest')
    ensures |region| > 0 && region[0] == start && Distinct(region) && Linked(region)
    ensures Elems(region) !! rest' && Elems(region) + rest' == rest + {start}
    ensures forall x, n :: x in region && Adjacent(x, n) ==> n !in rest'
  {
    assert region + [] == region;
  }

  /** The invariant of the inner loop of separate_plants: the region and
      the search list are distinct cells linked to start, together with
      what is left they make the cells at hand, and no neighbour of the
      region is left behind. */
  ghost predicate Growing(start: Pos, rest: set<Pos>, region: seq<Pos>, searchList: seq<Pos>, rest': set<Pos>)
  {
    (region == [] ==> searchList == [start]) &&
    (region != [] ==> region[0] == start) &&
    Distinct(region + searchList) &&
    Elems(region + searchList) !! rest' &&
    Elems(region + searchList) + rest' == rest + {start} &&
    Linked(region) &&
    (region != [] ==> forall w :: w in searchList ==> Touches(region, w)) &&
    (forall x, n :: x in region && Adjacent(x, n) ==> n !in rest')
  }

  /** One iteration of the inner loop: pop curNode into the region and
      queue its neighbours still left. */
  method GrowStep(ghost start: Pos, ghost rest: set<Pos>, region: seq<Pos>, searchList: seq<Pos>, rest': set<Pos>)
    returns (region2: seq<Pos>, searchList2: seq<Pos>, rest2: set<Pos>)
    requires Growing(start, rest, region, searchList, rest') && |searchList| > 0
    ensures Growing(start, rest, region2, searchList2, rest2)
    ensures |rest2| + |searchList2| < |rest'| + |searchList|
  {
    var curNode := searchList[|searchList| - 1];
    PopSplit(region, searchList);
    var popped := searchList[..|searchList| - 1];
    var visited, queue := Visit(start, region, popped, curNode, rest');
    var nextNodes := GetPossibleNeighbours(curNode, rest');
    searchList2, rest2 := Enqueue(queue, rest', nextNodes);
    EnqueueKeeps(visited, queue, rest', nextNodes, searchList2, rest2);
    region2 := visited;
  }

  lemma PopSplit(region: seq<Pos>, searchList: seq<Pos>)
    requires |searchList| > 0
    ensures region + searchList
         == region + searchList[..|searchList| - 1] + [searchList[|searchList| - 1]]
  {
    assert searchList == searchList[..|searchList| - 1] + [searchList[|searchList| - 1]];
  }

  /** Popping curNode and appending it to the region. */
  method Visit(ghost start: Pos, region: seq<Pos>, searchList: seq<Pos>, curNode: Pos, ghost rest: set<Pos>)
    returns (region': seq<Pos>, searchList': seq<Pos>)
    requires region == [] ==> searchList == [] && curNode == start
    requires region != [] ==> region[0] == start
    requires Distinct(region + searchList + [curNode])
    requires Linked(region)
    requires region != [] ==> forall w :: w in searchList + [curNode] ==> Touches(region, w)
    ensures region' == region + [curNode] && searchList' == searchList && region'[..|region|] == region
    ensures region'[0] == start && Linked(region')
    ensures forall w :: w in searchList' ==> Touches(region', w)
    ensures Distinct(region' + searchList')
    ensures Elems(region' + searchList') == Elems(region + searchList + [curNode])
  {
    region' := region + [curNode];
    searchList' := searchList;
    assert region'[..|region|] == region;
    var a, b := region + searchList + [curNode], region' + searchList';
    forall i, j | 0 <= i < j < |b|
      ensures b[i] != b[j]
    {
      var pi := if i < |region| then i else if i == |region| then |a| - 1 else i - 1;
      var pj := if j < |region| then j else if j == |region| then |a| - 1 else j - 1;
      assert b[i] == a[pi] && b[j] == a[pj];
    }
    assert Elems(b) == Elems(a) by {
      forall p | p in a ensures p in b {
        var i :| 0 <= i < |a| && a[i] == p;
        if i < |region| { assert b[i] == p; }
        else if i == |a| - 1 { assert b[|region|] == p; }
        else { assert b[i + 1] == p; }
      }
    }
    forall i | 0 < i < |region'|
      ensures TouchesBefore(region', i)
    {
      if i < |region| {
        assert TouchesBefore(region, i);
        var j :| 0 <= j < i && Adjacent(region[j], region[i]);
        assert Adjacent(region'[j], region'[i]);
      } else {
        assert curNode in searchList + [curNode];
        var j :| 0 <= j < |region| && Adjacent(region[j], curNode);
        assert Adjacent(region'[j], region'[i]);
      }
    }
    forall w | w in searchList'
      ensures Touches(region', w)
    {
      assert region != [] && w in searchList + [curNode];
      var j :| 0 <= j < |region| && Adjacent(region[j], w);
      assert region'[j] == region[j];
    }
  }

  /** The for loop over next_nodes: each is appended to the search list and
      removed from the remaining cells. */
  method Enqueue(searchList: seq<Pos>, rest: set<Pos>, nextNodes: seq<Pos>)
    returns (searchList': seq<Pos>, rest': set<Pos>)
    requires Distinct(nextNodes) && Elems(nextNodes) <= rest
    ensures searchList' == searchList + nextNodes && rest' == rest - Elems(nextNodes)
    ensures |rest'| + |searchList'| == |rest| + |searchList|
  {
    searchList' := searchList;
    rest' := rest;
    for k := 0 to |nextNodes|
      invariant searchList' == searchList + nextNodes[..k] && rest' == rest - Elems(nextNodes[..k])
      invariant |rest'| + |searchList'| == |rest| + |searchList|
    {
      assert nextNodes[..k + 1] == nextNodes[..k] + [nextNodes[k]];
      assert nextNodes[k] in rest' by {
        assert nextNodes[k] in nextNodes;
        forall i | 0 <= i < k ensures nextNodes[i] != nextNodes[k] { }
      }
      searchList' := searchList' + [nextNodes[k]];
      rest' := rest' - {nextNodes[k]};
    }
    assert nextNodes[..|nextNodes|] == nextNodes;
  }

  /** Moving the unvisited neighbours of the newest region cell from the
      remaining cells to the search list keeps the search list and region
      apart from the remaining cells, each cell listed once, every listed
      cell next to the region, and every region cell's neighbours out of
      the remaining cells. */
  lemma EnqueueKeeps(region: seq<Pos>, searchList: seq<Pos>, rest: set<Pos>, nextNodes: seq<Pos>,
                     searchList': seq<Pos>, rest': set<Pos>)
    requires |region| > 0
    requires forall n :: n in nextNodes <==> n in rest && Adjacent(region[|region| - 1], n)
    requires Distinct(nextNodes) && Distinct(region + searchList)
    requires Elems(region + searchList) !! rest
    requires forall w :: w in searchList ==> Touches(region, w)
    requires forall x, n :: x in region[..|region| - 1] && Adjacent(x, n) ==> n !in rest
    requires searchList' == searchList + nextNodes && rest' == rest - Elems(nextNodes)
    ensures Distinct(region + searchList')
    ensures Elems(region + searchList') !! rest'
    ensures Elems(region + searchList') + rest' == Elems(region + searchList) + rest
    ensures forall w :: w in searchList' ==> Touches(region, w)
    ensures forall x, n :: x in region && Adjacent(x, n) ==> n !in rest'
  {
    var s := region + searchList;
    var b := region + searchList';
    assert b == s + nextNodes;
    forall i, j | 0 <= i < j < |b|
      ensures b[i] != b[j]
    {
      if j >= |s| && i < |s| {
        assert b[i] == s[i] && s[i] in Elems(s) && b[j] in nextNodes;
      } else if i >= |s| {
        assert b[i] == nextNodes[i - |s|] && b[j] == nextNodes[j - |s|];
      } else {
        assert b[i] == s[i] && b[j] == s[j];
      }
    }
    forall w | w in searchList'
      ensures Touches(region, w)
    {
      if w in nextNodes {
        assert Adjacent(region[|region| - 1], w);
      }
    }
    forall x, n | x in region && Adjacent(x, n)
      ensures n !in rest'
    {
      var i :| 0 <= i < |region| && region[i] == x;
      if i < |region| - 1 {
        assert region[..|region| - 1][i] == x;
      }
    }
  }

  /** A region: non-empty, each cell once, in flood-fill order, inside all
      and closed there. */
  ghost predicate GoodRegion(r: seq<Pos>, all: set<Pos>)
  {
    |r| > 0 && Distinct(r) && Linked(r) && Elems(r) <= all && Closed(r, all)
  }

  function AllCells(regs: seq<Region>): set<Pos>
  {
    if regs == [] then {} else AllCells(regs[..|regs| - 1]) + Elems(regs[|regs| - 1].cells)
  }

  /** The regions found so far for plant c with cells all: numbered in
      order, each a good region, each apart from the ones before it. */
  ghost predicate Regions(c: string, all: set<Pos>, regs: seq<Region>)
  {
    regs == [] ||
    (Regions(c, all, regs[..|regs| - 1]) &&
     regs[|regs| - 1].key == Label(c, |regs| - 1) &&
     GoodRegion(regs[|regs| - 1].cells, all) &&
     Elems(regs[|regs| - 1].cells) !! AllCells(regs[..|regs| - 1]))
  }

  /** What the outer loop of separate_plants keeps for one plant: the
      regions so far and the cells still left make up all, apart. */
  ghost predicate SplitSoFar(c: string, all: set<Pos>, regs: seq<Region>, rest: set<Pos>)
  {
    Regions(c, all, regs) && AllCells(regs) !! rest && AllCells(regs) + rest == all
  }

  /** The regions of one plant: the result of separate_plants for it. */
  ghost predicate Split(c: string, all: set<Pos>, regs: seq<Region>)
  {
    SplitSoFar(c, all, regs, {})
  }

  lemma {:induction false} InAllCells(regs: seq<Region>, p: Pos)
    ensures p in AllCells(regs) <==> exists i :: 0 <= i < |regs| && p in regs[i].cells
  {
    if regs != [] {
      InAllCells(regs[..|regs| - 1], p);
      if p in AllCells(regs[..|regs| - 1]) {
        var i :| 0 <= i < |regs| - 1 && p in regs[..|regs| - 1][i].cells;
        assert regs[i] == regs[..|regs| - 1][i];
      }
      if exists i :: 0 <= i < |regs| && p in regs[i].cells {
        var i :| 0 <= i < |regs| && p in regs[i].cells;
        if i < |regs| - 1 {
          assert regs[..|regs| - 1][i] == regs[i];
        }
      }
    }
  }

  /** Every region found is numbered by its place and is a good region. */
  lemma {:induction false} RegionsAt(c: string, all: set<Pos>, regs: seq<Region>, i: int)
    requires Regions(c, all, regs) && 0 <= i < |regs|
    ensures regs[i].key == Label(c, i) && GoodRegion(regs[i].cells, all)
  {
    if i < |regs| - 1 {
      RegionsAt(c, all, regs[..|regs| - 1], i);
      assert regs[..|regs| - 1][i] == regs[i];
    }
  }

  /** Two different regions found share no cell. */
  lemma {:induction false} RegionsApart(c: string, all: set<Pos>, regs: seq<Region>, i: int, j: int)
    requires Regions(c, all, regs) && 0 <= i < j < |regs|
    ensures Elems(regs[i].cells) !! Elems(regs[j].cells)
  {
    var init := regs[..|regs| - 1];
    if j < |regs| - 1 {
      RegionsApart(c, all, init, i, j);
      assert init[i] == regs[i] && init[j] == regs[j];
    } else {
      forall p | p in regs[i].cells
        ensures p in AllCells(init)
      {
        assert init[i] == regs[i];
        InAllCells(init, p);
      }
    }
  }

  /** The result of separate_plants for one plant whose cells are all:
      region k is labelled (c, k), is non-empty, lists each cell once, in an
      order where every cell touches an earlier one (so the region is
      4-connected), and holds every cell of all next to one of its cells;
      different regions share no cell, and together they hold all. */
  lemma SplitMeaning(c: string, all: set<Pos>, regs: seq<Region>)
    requires Split(c, all, regs)
    ensures forall k :: 0 <= k < |regs| ==> regs[k].key == Label(c, k) && GoodRegion(regs[k].cells, all)
    ensures forall i, j :: 0 <= i < j < |regs| ==> Elems(regs[i].cells) !! Elems(regs[j].cells)
    ensures forall p :: p in all <==> exists k :: 0 <= k < |regs| && p in regs[k].cells
  {
    forall k | 0 <= k < |regs|
      ensures regs[k].key == Label(c, k) && GoodRegion(regs[k].cells, all)
    {
      RegionsAt(c, all, regs, k);
    }
    forall i, j | 0 <= i < j < |regs|
      ensures Elems(regs[i].cells) !! Elems(regs[j].cells)
    {
      RegionsApart(c, all, regs, i, j);
    }
    forall p
      ensures p in all <==> exists k :: 0 <= k < |regs| && p in regs[k].cells
    {
      InAllCells(regs, p);
    }
  }

  /** Adding a finished region keeps the loop's invariant, and the cells
      left shrink. */
  lemma AddRegion(c: string, all: set<Pos>, regs: seq<Region>, rest: set<Pos>, start: Pos,
                  region: seq<Pos>, rest': set<Pos>)
    requires SplitSoFar(c, all, regs, rest) && start in rest
    requires |region| > 0 && region[0] == start && Distinct(region) && Linked(region)
    requires Elems(region) !! rest' && Elems(region) + rest' == rest
    requires forall x, n :: x in region && Adjacent(x, n) ==> n !in rest'
    ensures SplitSoFar(c, all, regs + [Region(Label(c, |regs|), region)], rest')
    ensures |rest'| < |rest|
  {
    assert rest' < rest by {
      assert start in Elems(region) && start !in rest';
    }
    var regs' := regs + [Region(Label(c, |regs|), region)];
    assert regs'[..|regs|] == regs;
    RegionClosed(c, all, regs, rest, region, rest');
  }

  /** A finished region is closed inside all: a neighbour of one of its
      cells is not left over, and is not in an earlier region (earlier
      regions are closed and apart from this one), so it is in the region. */
  lemma RegionClosed(c: string, all: set<Pos>, regs: seq<Region>, rest: set<Pos>,
                     region: seq<Pos>, rest': set<Pos>)
    requires SplitSoFar(c, all, regs, rest)
    requires Elems(region) !! rest' && Elems(region) + rest' == rest
    requires forall x, n :: x in region && Adjacent(x, n) ==> n !in rest'
    ensures Closed(region, all)
  {
    forall x, n | x in region && Adjacent(x, n) && n in all
      ensures n in region
    {
      if n in AllCells(regs) {
        InAllCells(regs, n);
        var i :| 0 <= i < |regs| && n in regs[i].cells;
        RegionsAt(c, all, regs, i);
        assert Adjacent(n, x);
        assert x in regs[i].cells;
        assert x in Elems(region) && x in rest;
        InAllCells(regs, x);
        assert false;
      }
    }
  }

  /** separate_plants for one plant: pop any remaining cell and grow a
      region from it, until no cell is left. */
  method SeparatePlant(c: string, cells: seq<Pos>) returns (regs: seq<Region>)
    ensures Split(c, Elems(cells), regs)
  {
    var posSet := Elems(cells);
    var counter: nat := 0;
    regs := [];
    while |posSet| > 0
      invariant counter == |regs|
      invariant SplitSoFar(c, Elems(cells), regs, posSet)
      decreases |posSet|
    {
      var region, rest' := PeelRegion(c, Elems(cells), regs, posSet);
      regs := regs + [Region(Label(c, counter), region)];
      posSet := rest';
      counter := counter + 1;
    }
  }

  /** One round of separate_plants for one plant: pop any remaining cell
      and grow its region out of the cells left. */
  method PeelRegion(ghost c: string, ghost all: set<Pos>, ghost regs: seq<Region>, posSet: set<Pos>)
    returns (region: seq<Pos>, rest': set<Pos>)
    requires SplitSoFar(c, all, regs, posSet) && |posSet| > 0
    ensures SplitSoFar(c, all, regs + [Region(Label(c, |regs|), region)], rest')
    ensures |rest'| < |posSet|
  {
    NonEmptyHas(posSet);
    var startElem :| startElem in posSet;
    var rest := posSet - {startElem};
    region, rest' := GrowRegion(startElem, rest);
    AddRegion(c, all, regs, posSet, startElem, region, rest');
  }

  lemma NonEmptyHas<T>(s: set<T>)
    requires |s| > 0
    ensures exists x :: x in s
  {
    assert s != {};
  }

  /** A walk inside cells: consecutive cells are 4-neighbours. */
  ghost predicate WalkIn(path: seq<Pos>, cells: set<Pos>)
  {
    |path| > 0 && (forall k :: 0 <= k < |path| ==> path[k] in cells) &&
    (forall k :: 0 < k < |path| ==> Adjacent(path[k - 1], path[k]))
  }

  /** A region in flood-fill order is 4-connected: every cell is reached
      from the first by a walk inside the region. */
  lemma {:induction false} LinkedConnected(s: seq<Pos>, i: int)
    requires Linked(s) && 0 <= i < |s|
    ensures exists path :: WalkIn(path, Elems(s)) && path[0] == s[0] && path[|path| - 1] == s[i]
    decreases i
  {
    if i == 0 {
      assert WalkIn([s[0]], Elems(s));
    } else {
      assert TouchesBefore(s, i);
      var j :| 0 <= j < i && Adjacent(s[j], s[i]);
      LinkedConnected(s, j);
      var path :| WalkIn(path, Elems(s)) && path[0] == s[0] && path[|path| - 1] == s[j];
      var path' := path + [s[i]];
      assert WalkIn(path', Elems(s));
    }
  }

  /** No cell of one region of a plant is a 4-neighbour of a cell of
      another region of the same plant. */
  lemma RegionsNotAdjacent(c: string, all: set<Pos>, regs: seq<Region>, i: int, j: int, x: Pos, y: Pos)
    requires Split(c, all, regs) && 0 <= i < |regs| && 0 <= j < |regs| && i != j
    requires x in regs[i].cells && y in regs[j].cells
    ensures !Adjacent(x, y)
  {
    RegionsAt(c, all, regs, i);
    RegionsAt(c, all, regs, j);
    if i < j {
      RegionsApart(c, all, regs, i, j);
    } else {
      RegionsApart(c, all, regs, j, i);
    }
    assert y in Elems(regs[j].cells) && y !in Elems(regs[i].cells);
  }

  // ---------------------------------------------------------------------
  // separate_plants over all plants

  /** The regions of plant c, in order. */
  function OfPlant(regs: seq<Region>, c: string): (r: seq<Region>)
    ensures forall x :: x in r ==> x in regs && x.key.plant == c
  {
    if regs == [] then []
    else OfPlant(regs[..|regs| - 1], c) + (if regs[|regs| - 1].key.plant == c then [regs[|regs| - 1]] else [])
  }

  lemma {:induction false} OfPlantAppend(a: seq<Region>, b: seq<Region>, c: string)
    ensures OfPlant(a + b, c) == OfPlant(a, c) + OfPlant(b, c)
    decreases |b|
  {
    if b != [] {
      assert (a + b)[..|a + b| - 1] == a + b[..|b| - 1];
      OfPlantAppend(a, b[..|b| - 1], c);
    } else {
      assert a + b == a;
    }
  }

  /** A list of regions all of plant c' has none of another plant, and is
      all of its own. */
  lemma {:induction false} OfPlantSame(b: seq<Region>, c: string, c': string)
    requires forall x :: x in b ==> x.key.plant == c'
    ensures OfPlant(b, c) == if c == c' then b else []
  {
    if b != [] {
      var init, last := b[..|b| - 1], b[|b| - 1];
      assert b == init + [last];
      forall x | x in init
        ensures x.key.plant == c'
      {
        assert x in b;
      }
      OfPlantSame(init, c, c');
      assert last in b;
      assert OfPlant(b, c) == OfPlant(init, c) + (if last.key.plant == c then [last] else []);
    }
  }

  /** Every region has its own label. */
  predicate DistinctKeys(regs: seq<Region>)
  {
    forall i, j :: 0 <= i < j < |regs| ==> regs[i].key != regs[j].key
  }

  /** The plants whose cells are listed, in the dictionary's order; a
      dictionary lists each plant once. */
  predicate DistinctPlants(plants: seq<(string, seq<Pos>)>)
  {
    forall i, j :: 0 <= i < j < |plants| ==> plants[i].0 != plants[j].0
  }

  /** Garden.__init__ / separate_plants: the regions of every plant, one
      plant after the other. Each plant's regions split its cells as
      Split says; every region belongs to a listed plant; no two regions
      share a label. */
  method SeparatePlants(plants: seq<(string, seq<Pos>)>) returns (regs: seq<Region>)
    requires DistinctPlants(plants)
    ensures forall k :: 0 <= k < |plants| ==> Split(plants[k].0, Elems(plants[k].1), OfPlant(regs, plants[k].0))
    ensures forall x :: x in regs ==> exists k :: 0 <= k < |plants| && x.key.plant == plants[k].0
    ensures DistinctKeys(regs)
  {
    regs := [];
    for k := 0 to |plants|
      invariant forall j :: 0 <= j < k ==> Split(plants[j].0, Elems(plants[j].1), OfPlant(regs, plants[j].0))
      invariant forall x :: x in regs ==> exists j :: 0 <= j < k && x.key.plant == plants[j].0
      invariant DistinctKeys(regs)
    {
      var more := SeparatePlant(plants[k].0, plants[k].1);
      AppendPlant(plants, k, regs, more);
      regs := regs + more;
    }
  }

  lemma AppendPlant(plants: seq<(string, seq<Pos>)>, k: int, regs: seq<Region>, more: seq<Region>)
    requires DistinctPlants(plants) && 0 <= k < |plants|
    requires forall j :: 0 <= j < k ==> Split(plants[j].0, Elems(plants[j].1), OfPlant(regs, plants[j].0))
    requires forall x :: x in regs ==> exists j :: 0 <= j < k && x.key.plant == plants[j].0
    requires DistinctKeys(regs)
    requires Split(plants[k].0, Elems(plants[k].1), more)
    ensures forall j :: 0 <= j < k + 1 ==> Split(plants[j].0, Elems(plants[j].1), OfPlant(regs + more, plants[j].0))
    ensures forall x :: x in regs + more ==> exists j :: 0 <= j < k + 1 && x.key.plant == plants[j].0
    ensures DistinctKeys(regs + more)
  {
    var c := plants[k].0;
    SplitPlant(c, Elems(plants[k].1), more);
    forall x | x in regs
      ensures x.key.plant != c
    {
      var j :| 0 <= j < k && x.key.plant == plants[j].0;
    }
    forall j | 0 <= j < k + 1
      ensures Split(plants[j].0, Elems(plants[j].1), OfPlant(regs + more, plants[j].0))
    {
      OfPlantAppend(regs, more, plants[j].0);
      OfPlantSame(more, plants[j].0, c);
      if j == k {
        OfPlantNone(regs, c);
        assert OfPlant(regs + more, c) == [] + more == more;
      } else {
        assert OfPlant(regs + more, plants[j].0) == OfPlant(regs, plants[j].0) + [] == OfPlant(regs, plants[j].0);
      }
    }
    AppendKeys(regs, more, c);
  }

  /** The regions found for plant c are all of plant c. */
  lemma SplitPlant(c: string, all: set<Pos>, more: seq<Region>)
    requires Split(c, all, more)
    ensures forall x :: x in more ==> x.key.plant == c
    ensures DistinctKeys(more)
  {
    forall x | x in more
      ensures x.key.plant == c
    {
      var i :| 0 <= i < |more| && more[i] == x;
      RegionsAt(c, all, more, i);
    }
    forall i, j | 0 <= i < j < |more|
      ensures more[i].key != more[j].key
    {
      RegionsAt(c, all, more, i);
      RegionsAt(c, all, more, j);
    }
  }

  lemma {:induction false} OfPlantNone(b: seq<Region>, c: string)
    requires forall x :: x in b ==> x.key.plant != c
    ensures OfPlant(b, c) == []
  {
    if b != [] {
      OfPlantNone(b[..|b| - 1], c);
      assert b[|b| - 1] in b;
    }
  }

  lemma AppendKeys(regs: seq<Region>, more: seq<Region>, c: string)
    requires DistinctKeys(regs) && DistinctKeys(more)
    requires forall x :: x in regs ==> x.key.plant != c
    requires forall x :: x in more ==> x.key.plant == c
    ensures DistinctKeys(regs + more)
  {
    var all := regs + more;
    forall i, j | 0 <= i < j < |all|
      ensures all[i].key != all[j].key
    {
      if i < |regs| && j >= |regs| {
        assert all[i] in regs && all[j] in more;
      } else if i >= |regs| {
        assert all[i] == more[i - |regs|] && all[j] == more[j - |regs|];
      } else {
        assert all[i] == regs[i] && all[j] == regs[j];
      }
    }
  }

  // ---------------------------------------------------------------------
  // perimeter

  function In(p: Pos, cells: set<Pos>): nat
  {
    if p in cells then 1 else 0
  }

  /** How many of the first k steps of DIRS lead from x into cells. */
  function NbUpTo(x: Pos, cells: set<Pos>, k: nat): nat
    requires k <= |Dirs|
  {
    if k == 0 then 0 else NbUpTo(x, cells, k - 1) + In(Add(x, Dirs[k - 1]), cells)
  }

  /** The number of 4-neighbours of x in cells. */
  function Nb(x: Pos, cells: set<Pos>): nat
  {
    NbUpTo(x, cells, 4)
  }

  lemma NbFour(x: Pos, cells: set<Pos>)
    ensures Nb(x, cells) == In(Add(x, (1, 0)), cells) + In(Add(x, (0, 1)), cells)
                          + In(Add(x, (-1, 0)), cells) + In(Add(x, (0, -1)), cells)
  {
    assert Dirs[0] == (1, 0) && Dirs[1] == (0, 1) && Dirs[2] == (-1, 0) && Dirs[3] == (0, -1);
    assert NbUpTo(x, cells, 1) == In(Add(x, (1, 0)), cells);
    assert NbUpTo(x, cells, 2) == NbUpTo(x, cells, 1) + In(Add(x, (0, 1)), cells);
    assert NbUpTo(x, cells, 3) == NbUpTo(x, cells, 2) + In(Add(x, (-1, 0)), cells);
  }

  /** One more cell adds one neighbour to exactly its 4-neighbours. */
  lemma NbAddOne(y: Pos, cells: set<Pos>, x: Pos)
    requires x !in cells
    ensures Nb(y, cells + {x}) == Nb(y, cells) + (if Adjacent(y, x) then 1 else 0)
  {
    NbFour(y, cells);
    NbFour(y, cells + {x});
  }

  /** The number of cells of s that are 4-neighbours of x, with repeats. */
  function CountAdj(s: seq<Pos>, x: Pos): nat
  {
    if s == [] then 0 else CountAdj(s[..|s| - 1], x) + (if Adjacent(s[|s| - 1], x) then 1 else 0)
  }

  /** The number of index pairs i < j whose cells are 4-neighbours. */
  function AdjacentPairs(cells: seq<Pos>): nat
  {
    if cells == [] then 0
    else AdjacentPairs(cells[..|cells| - 1]) + CountAdj(cells[..|cells| - 1], cells[|cells| - 1])
  }

  /** For each cell, its 4-neighbours among the cells before it: what
      gen_perimeter_dict finds in seen. */
  function EarlierNb(cells: seq<Pos>): nat
  {
    if cells == [] then 0
    else EarlierNb(cells[..|cells| - 1]) + Nb(cells[|cells| - 1], Elems(cells[..|cells| - 1]))
  }

  /** The edge count gen_perimeter_dict gives a region: +1 for every side
      of a cell whose neighbour is not an earlier cell, -1 for every side
      whose neighbour is. */
  function Perimeter(cells: seq<Pos>): (r: int)
    ensures r <= 4 * |cells| && r % 2 == 0
  {
    4 * |cells| - 2 * EarlierNb(cells)
  }

  /** The sides of the cells of s that face no cell of all. */
  function ExposedIn(s: seq<Pos>, all: set<Pos>): int
  {
    if s == [] then 0 else ExposedIn(s[..|s| - 1], all) + 4 - Nb(s[|s| - 1], all)
  }

  /** The perimeter of a region: the number of cell sides on its boundary. */
  function Exposed(cells: seq<Pos>): int
  {
    ExposedIn(cells, Elems(cells))
  }

  lemma {:induction false} CountAdjNb(s: seq<Pos>, x: Pos)
    requires Distinct(s)
    ensures CountAdj(s, x) == Nb(x, Elems(s))
  {
    if s == [] {
      assert Elems(s) == {};
      NbFour(x, {});
    } else {
      var init, y := s[..|s| - 1], s[|s| - 1];
      CountAdjNb(init, x);
      assert Elems(s) == Elems(init) + {y} by {
        assert s == init + [y];
      }
      NbAddOne(x, Elems(init), y);
    }
  }

  lemma {:induction false} ExposedInAdd(s: seq<Pos>, all: set<Pos>, x: Pos)
    requires x !in all
    ensures ExposedIn(s, all + {x}) == ExposedIn(s, all) - CountAdj(s, x)
  {
    if s != [] {
      ExposedInAdd(s[..|s| - 1], all, x);
      NbAddOne(s[|s| - 1], all, x);
    }
  }

  /** For a region whose cells are listed once each, the edge count of
      gen_perimeter_dict is its boundary length, and equals 4 per cell less
      2 per pair of 4-neighbouring cells. */
  lemma {:induction false} PerimeterIsExposed(cells: seq<Pos>)
    requires Distinct(cells)
    ensures Perimeter(cells) == Exposed(cells)
    ensures Perimeter(cells) == 4 * |cells| - 2 * AdjacentPairs(cells)
  {
    if cells != [] {
      var init, x := cells[..|cells| - 1], cells[|cells| - 1];
      PerimeterIsExposed(init);
      assert Elems(cells) == Elems(init) + {x} by {
        assert cells == init + [x];
      }
      assert x !in Elems(init);
      ExposedInAdd(init, Elems(init), x);
      CountAdjNb(init, x);
      NbSelf(x, Elems(init));
    }
  }

  /** A cell is not its own neighbour. */
  lemma NbSelf(x: Pos, cells: set<Pos>)
    requires x !in cells
    ensures Nb(x, cells + {x}) == Nb(x, cells)
  {
    NbAddOne(x, cells, x);
  }

  /** gen_perimeter_dict for one region: the running edge count over its
      cells, with seen the cells already visited. */
  method RegionPerimeter(cells: seq<Pos>) returns (p: int)
    ensures p == Perimeter(cells)
    ensures Distinct(cells) ==> p == Exposed(cells) && p == 4 * |cells| - 2 * AdjacentPairs(cells)
  {
    p := 0;
    var seen: set<Pos> := {};
    for j := 0 to |cells|
      invariant seen == Elems(cells[..j])
      invariant p == Perimeter(cells[..j])
    {
      var pos := cells[j];
      ghost var before := Elems(cells[..j]);
      for k := 0 to |Dirs|
        invariant seen == before + (if k > 0 then {pos} else {})
        invariant p == Perimeter(cells[..j]) + k - 2 * NbUpTo(pos, before, k)
      {
        var npos := Add(pos, Dirs[k]);
        assert npos != pos;
        if npos in seen {
          p := p - 1;
        } else {
          p := p + 1;
        }
        seen := seen + {pos};
      }
      assert cells[..j + 1] == cells[..j] + [pos];
      assert Elems(cells[..j + 1]) == before + {pos};
    }
    assert cells[..|cells|] == cells;
    if Distinct(cells) {
      PerimeterIsExposed(cells);
    }
  }

  // ---------------------------------------------------------------------
  // corners_at_pos

  /** The corners of the region's boundary at a cell, for the k-th pair of
      perpendicular steps d1 = DIRS[k], d2 = R1_DIRS[k]: a convex corner
      when neither neighbour is in the region, a concave one when both are
      and the diagonal cell between them is not. */
  function CornerTerm(pos: Pos, cells: set<Pos>, k: nat): (r: nat)
    requires k < 4
    ensures r <= 1
    ensures r == 1 <==>
      ((Add(pos, Dirs[k]) in cells <==> Add(pos, R1Dirs[k]) in cells)
       && (Add(pos, Dirs[k]) in cells ==> Add(Add(pos, Dirs[k]), R1Dirs[k]) !in cells))
  {
    var a, b := Add(pos, Dirs[k]), Add(pos, R1Dirs[k]);
    (if a !in cells && b !in cells then 1 else 0) +
    (if a in cells && b in cells && Add(a, R1Dirs[k]) !in cells then 1 else 0)
  }

  function CornersUpTo(pos: Pos, cells: set<Pos>, k: nat): (r: nat)
    requires k <= 4
    ensures r <= k
    ensures cells == {} ==> r == k
  {
    if k == 0 then 0 else CornersUpTo(pos, cells, k - 1) + CornerTerm(pos, cells, k - 1)
  }

  /** The number of boundary corners at a cell: the reference count. */
  function Corners(pos: Pos, cells: set<Pos>): (r: nat)
    ensures r <= 4
    ensures cells == {} ==> r == 4
  {
    CornersUpTo(pos, cells, 4)
  }

  /** What the loop of corners_at_pos adds for the k-th pair: only when
      both neighbours are present, one for a missing diagonal and one when
      both opposite neighbours are missing. */
  function LoopTerm(pos: Pos, cells: set<Pos>, k: nat): nat
    requires k < 4
  {
    var d1, d2 := Dirs[k], R1Dirs[k];
    if Add(pos, d1) in cells && Add(pos, d2) in cells then
      (if Add(Add(pos, d1), d2) !in cells then 1 else 0) +
      (if Sub(pos, d1) !in cells && Sub(pos, d2) !in cells then 1 else 0)
    else 0
  }

  function LoopUpTo(pos: Pos, cells: set<Pos>, k: nat): nat
    requires k <= 4
  {
    if k == 0 then 0 else LoopUpTo(pos, cells, k - 1) + LoopTerm(pos, cells, k - 1)
  }

  /** The reference count at a cell with no neighbour in the region is 4,
      with exactly one it is 2; with two or more it is what the loop of
      corners_at_pos counts, which attributes each convex corner to the
      opposite pair of present neighbours. */
  lemma CornersCases(pos: Pos, cells: set<Pos>)
    ensures Nb(pos, cells) == 0 ==> Corners(pos, cells) == 4
    ensures Nb(pos, cells) == 1 ==> Corners(pos, cells) == 2
    ensures Nb(pos, cells) >= 2 ==> LoopUpTo(pos, cells, 4) == Corners(pos, cells)
  {
    NbFour(pos, cells);
    assert Dirs[0] == (1, 0) && Dirs[1] == (0, 1) && Dirs[2] == (-1, 0) && Dirs[3] == (0, -1);
    assert R1Dirs[0] == (0, 1) && R1Dirs[1] == (-1, 0) && R1Dirs[2] == (0, -1) && R1Dirs[3] == (1, 0);
    UpToFour(pos, cells);
  }

  /** Both sums written out over the four pairs. */
  lemma UpToFour(pos: Pos, cells: set<Pos>)
    ensures CornersUpTo(pos, cells, 4) ==
      CornerTerm(pos, cells, 0) + CornerTerm(pos, cells, 1) + CornerTerm(pos, cells, 2) + CornerTerm(pos, cells, 3)
    ensures LoopUpTo(pos, cells, 4) ==
      LoopTerm(pos, cells, 0) + LoopTerm(pos, cells, 1) + LoopTerm(pos, cells, 2) + LoopTerm(pos, cells, 3)
  {
    assert CornersUpTo(pos, cells, 1) == CornerTerm(pos, cells, 0);
    assert CornersUpTo(pos, cells, 2) == CornersUpTo(pos, cells, 1) + CornerTerm(pos, cells, 1);
    assert CornersUpTo(pos, cells, 3) == CornersUpTo(pos, cells, 2) + CornerTerm(pos, cells, 2);
    assert LoopUpTo(pos, cells, 1) == LoopTerm(pos, cells, 0);
    assert LoopUpTo(pos, cells, 2) == LoopUpTo(pos, cells, 1) + LoopTerm(pos, cells, 1);
    assert LoopUpTo(pos, cells, 3) == LoopUpTo(pos, cells, 2) + LoopTerm(pos, cells, 2);
  }

  /** corners_at_pos: 4 for a cell with no neighbour in the region, 2 for a
      cell with one; otherwise the pair loop. In every case the number of
      boundary corners at the cell. */
  method CornersAtPos(pos: Pos, posSet: set<Pos>) returns (corners: nat)
    ensures corners == Corners(pos, posSet)
  {
    CornersCases(pos, posSet);
    var condCount := 4 - Nb(pos, posSet);
    if condCount == 4 {
      return 4;
    } else if condCount == 3 {
      return 2;
    }
    corners := 0;
    for k := 0 to 4
      invariant corners == LoopUpTo(pos, posSet, k)
    {
      var d1, d2 := Dirs[k], R1Dirs[k];
      if Add(pos, d1) in posSet && Add(pos, d2) in posSet {
        if Add(Add(pos, d1), d2) !in posSet {
          corners := corners + 1;
        }
        if Sub(pos, d1) !in posSet && Sub(pos, d2) !in posSet {
          corners := corners + 1;
        }
      }
    }
  }

  /** The corners of all cells of s with respect to the region all. */
  function CornerSum(s: seq<Pos>, all: set<Pos>): nat
  {
    if s == [] then 0 else CornerSum(s[..|s| - 1], all) + Corners(s[|s| - 1], all)
  }

  /** gen_side_dict for one region: the corners at each of its cells. */
  method RegionSides(cells: seq<Pos>) returns (sides: nat)
    ensures sides == CornerSum(cells, Elems(cells))
  {
    var posSet := Elems(cells);
    sides := 0;
    for j := 0 to |cells|
      invariant sides == CornerSum(cells[..j], posSet)
    {
      var c := CornersAtPos(cells[j], posSet);
      assert cells[..j + 1][..j] == cells[..j];
      sides := sides + c;
    }
    assert cells[..|cells|] == cells;
  }

  /** A single cell has 4 sides and perimeter 4. */
  lemma SingleCell(p: Pos)
    ensures CornerSum([p], Elems([p])) == 4 && Perimeter([p]) == 4
  {
    assert Elems([p]) == {p};
    NbFour(p, {p});
    assert [p][..0] == [];
    assert Elems([]) == {};
    NbFour(p, {});
    assert EarlierNb([p]) == EarlierNb([]) + Nb(p, Elems([]));
    CornersCases(p, {p});
  }

  // ---------------------------------------------------------------------
  // per-region measures and the two prices

  /** A defaultdict(int) read: 0 for a label never written. */
  function Get(m: map<Label, int>, l: Label): int
  {
    if l in m then m[l] else 0
  }

  /** gen_perimeter_dict: each region's edge count under its label; a
      region without cells never writes its label. */
  method GenPerimeterDict(regs: seq<Region>) returns (m: map<Label, int>)
    requires DistinctKeys(regs)
    ensures forall i :: 0 <= i < |regs| ==> Get(m, regs[i].key) == Perimeter(regs[i].cells)
    ensures forall l :: l in m ==> exists i :: 0 <= i < |regs| && regs[i].key == l && regs[i].cells != []
  {
    m := map[];
    for k := 0 to |regs|
      invariant forall i :: 0 <= i < k ==> Get(m, regs[i].key) == Perimeter(regs[i].cells)
      invariant forall i :: k <= i < |regs| ==> regs[i].key !in m
      invariant forall l :: l in m ==> exists i :: 0 <= i < k && regs[i].key == l && regs[i].cells != []
    {
      var p := RegionPerimeter(regs[k].cells);
      if |regs[k].cells| > 0 {
        m := m[regs[k].key := Get(m, regs[k].key) + p];
      }
    }
  }

  /** gen_side_dict: each region's corner count under its label. */
  method GenSideDict(regs: seq<Region>) returns (m: map<Label, int>)
    requires DistinctKeys(regs)
    ensures forall i :: 0 <= i < |regs| ==> Get(m, regs[i].key) == CornerSum(regs[i].cells, Elems(regs[i].cells))
    ensures forall l :: l in m ==> exists i :: 0 <= i < |regs| && regs[i].key == l && regs[i].cells != []
  {
    m := map[];
    for k := 0 to |regs|
      invariant forall i :: 0 <= i < k ==> Get(m, regs[i].key) == CornerSum(regs[i].cells, Elems(regs[i].cells))
      invariant forall i :: k <= i < |regs| ==> regs[i].key !in m
      invariant forall l :: l in m ==> exists i :: 0 <= i < k && regs[i].key == l && regs[i].cells != []
    {
      var s := RegionSides(regs[k].cells);
      if |regs[k].cells| > 0 {
        m := m[regs[k].key := Get(m, regs[k].key) + s];
      }
    }
  }

  /** The part 1 price: each region's perimeter times its area. */
  function PerimeterPrice(regs: seq<Region>): int
  {
    if regs == [] then 0
    else PerimeterPrice(regs[..|regs| - 1]) + Perimeter(regs[|regs| - 1].cells) * |regs[|regs| - 1].cells|
  }

  /** The part 2 price: each region's number of sides (corners) times its area. */
  function SidePrice(regs: seq<Region>): int
  {
    if regs == [] then 0
    else SidePrice(regs[..|regs| - 1]) + CornerSum(regs[|regs| - 1].cells, Elems(regs[|regs| - 1].cells)) * |regs[|regs| - 1].cells|
  }

  /** calculate_perimeter_cost. */
  method CalculatePerimeterCost(regs: seq<Region>) returns (cost: int)
    requires DistinctKeys(regs)
    ensures cost == PerimeterPrice(regs)
  {
    cost := 0;
    var perimeterDict := GenPerimeterDict(regs);
    for k := 0 to |regs|
      invariant cost == PerimeterPrice(regs[..k])
    {
      assert regs[..k + 1][..k] == regs[..k];
      cost := cost + Get(perimeterDict, regs[k].key) * |regs[k].cells|;
    }
    assert regs[..|regs|] == regs;
  }

  /** calculate_side_cost. */
  method CalculateSideCost(regs: seq<Region>) returns (cost: int)
    requires DistinctKeys(regs)
    ensures cost == SidePrice(regs)
  {
    cost := 0;
    var sideDict := GenSideDict(regs);
    for k := 0 to |regs|
      invariant cost == SidePrice(regs[..k])
    {
      assert regs[..k + 1][..k] == regs[..k];
      cost := cost + Get(sideDict, regs[k].key) * |regs[k].cells|;
    }
    assert regs[..|regs|] == regs;
  }
}

=== FILE: day14.dfy ===
/** Day 14: restroom redoubt. Robots move on a torus of WORLD_DIM cells,
    each by its own velocity per second, wrapping around at the edges; the
    safety score multiplies the robot counts of the four quadrants, leaving
    out robots on the middle row or column. */
module Day14 {
  import opened Common

  /** WORLD_DIM: the extent along the first and the second coordinate. */
  const WorldDim: (int, int) := (101, 103)

  /** (pos + vel) reduced into the world, coordinate by coordinate; Python's
      % by a positive modulus is Dafny's Euclidean %. */
  function Wrap(p: Pos): (r: Pos)
    ensures InBox(r, WorldDim.0, WorldDim.1)
  {
    (p.0 % WorldDim.0, p.1 % WorldDim.1)
  }

  /** Where a robot starting at p with velocity v is after t steps. */
  function After(p: Pos, v: Pos, t: nat): Pos
  {
    if t == 0 then p else Wrap(Add(p, Scale(t, v)))
  }

  class Robot {
    var initPos: Pos
    var pos: Pos
    var vel: Pos

    constructor(pos: Pos, vel: Pos)
      ensures this.initPos == pos && this.pos == pos && this.vel == vel
    {
      this.initPos := pos;
      this.pos := pos;
      this.vel := vel;
    }

    /** reset: back to the initial position; the velocity is kept. */
    method Reset()
      modifies this
      ensures pos == initPos && initPos == old(initPos) && vel == old(vel)
    {
      pos := initPos;
    }

    /** step: one second of movement, wrapped into the world. */
    method Step()
      modifies this
      ensures pos == Wrap(Add(old(pos), vel))
      ensures InBox(pos, WorldDim.0, WorldDim.1)
      ensures initPos == old(initPos) && vel == old(vel)
    {
      var newPos := Add(pos, vel);
      pos := (newPos.0 % WorldDim.0, newPos.1 % WorldDim.1);
    }
  }

  /** One more step from where t steps lead is where t + 1 steps lead. */
  lemma StepAfter(p: Pos, v: Pos, t: nat)
    ensures Wrap(Add(After(p, v, t), v)) == After(p, v, t + 1)
  {
    if t > 0 {
      var q := Add(p, Scale(t, v));
      ModAddLeft(q.0, v.0, WorldDim.0);
      ModAddLeft(q.1, v.1, WorldDim.1);
      ScaleNext(t, v);
    }
  }

  /** t + 1 steps of velocity v are t steps and one more. */
  lemma ScaleNext(t: int, v: Pos)
    ensures Scale(t + 1, v) == Add(Scale(t, v), v)
  {
    assert (t + 1) * v.0 == t * v.0 + v.0 && (t + 1) * v.1 == t * v.1 + v.1;
  }

  /** After at least one step a robot is inside the world. */
  lemma AfterInWorld(p: Pos, v: Pos, t: nat)
    requires t >= 1
    ensures InBox(After(p, v, t), WorldDim.0, WorldDim.1)
  {
  }

  /** Moving the whole world period along a coordinate changes nothing:
      the robots return after WorldDim.0 * WorldDim.1 steps. */
  lemma AfterPeriodic(p: Pos, v: Pos, t: nat)
    requires t >= 1
    ensures After(p, v, t + WorldDim.0 * WorldDim.1) == After(p, v, t)
  {
    var q := Add(p, Scale(t, v));
    assert Add(p, Scale(t + WorldDim.0 * WorldDim.1, v))
      == (q.0 + (WorldDim.1 * v.0) * WorldDim.0, q.1 + (WorldDim.0 * v.1) * WorldDim.1);
    ModAddMultiple(q.0, WorldDim.1 * v.0, WorldDim.0);
    ModAddMultiple(q.1, WorldDim.0 * v.1, WorldDim.1);
  }

  /** Steps taken one after the other add up. */
  lemma {:induction false} AfterCompose(p: Pos, v: Pos, a: nat, b: nat)
    ensures After(After(p, v, a), v, b) == After(p, v, a + b)
  {
    if b > 0 {
      AfterCompose(p, v, a, b - 1);
      StepAfter(After(p, v, a), v, b - 1);
      StepAfter(p, v, a + b - 1);
    }
  }

  /** How often robot x occurs among the first j listed. */
  function Listed(robots: seq<Robot>, j: nat, x: Robot): nat
    requires j <= |robots|
  {
    multiset(robots[..j])[x]
  }

  /** Taking one more robot of the list counts it once more. */
  lemma ListedSnoc(robots: seq<Robot>, j: nat)
    requires j < |robots|
    ensures forall x :: Listed(robots, j + 1, x) == Listed(robots, j, x) + (if x == robots[j] then 1 else 0)
  {
    assert robots[..j + 1] == robots[..j] + [robots[j]];
  }

  /** The whole list counts every robot as often as it is listed. */
  lemma ListedAll(robots: seq<Robot>)
    ensures forall x :: Listed(robots, |robots|, x) == multiset(robots)[x]
  {
    assert robots[..|robots|] == robots;
  }

  /** Where every listed robot stands once the first j listings have been
      stepped, from the positions p0 they started the round at. */
  ghost predicate SteppedUpTo(robots: seq<Robot>, p0: seq<Pos>, j: nat)
    requires j <= |robots| && |p0| == |robots|
    reads set r | r in robots
  {
    forall i :: 0 <= i < |robots| ==> robots[i].pos == After(p0[i], robots[i].vel, Listed(robots, j, robots[i]))
  }

  /** The body of the inner loop of simulate_n_rounds: step listing j. */
  method StepListed(robots: seq<Robot>, j: nat, ghost p0: seq<Pos>)
    requires j < |robots| && |p0| == |robots| && SteppedUpTo(robots, p0, j)
    modifies robots[j]
    ensures SteppedUpTo(robots, p0, j + 1)
    ensures forall i :: 0 <= i < |robots| ==>
      robots[i].vel == old(robots[i].vel) && robots[i].initPos == old(robots[i].initPos)
  {
    var r := robots[j];
    r.Step();
    ListedSnoc(robots, j);
    forall i | 0 <= i < |robots|
      ensures robots[i].pos == After(p0[i], robots[i].vel, Listed(robots, j + 1, robots[i]))
    {
      if robots[i] == r {
        StepAfter(p0[i], r.vel, Listed(robots, j, r));
      }
    }
  }

  /** One round of simulate_n_rounds: every listed robot is stepped once
      per listing. */
  method StepAll(robots: seq<Robot>)
    modifies set r | r in robots
    ensures forall i :: 0 <= i < |robots| ==>
      robots[i].pos == After(old(robots[i].pos), robots[i].vel, multiset(robots)[robots[i]])
    ensures forall i :: 0 <= i < |robots| ==>
      robots[i].vel == old(robots[i].vel) && robots[i].initPos == old(robots[i].initPos)
  {
    ghost var p0 := seq(|robots|, i requires 0 <= i < |robots| reads set r | r in robots => robots[i].pos);
    for j := 0 to |robots|
      invariant SteppedUpTo(robots, p0, j)
      invariant forall i :: 0 <= i < |robots| ==>
        robots[i].vel == old(robots[i].vel) && robots[i].initPos == old(robots[i].initPos)
    {
      StepListed(robots, j, p0);
    }
    ListedAll(robots);
  }

  /** simulate_n_rounds: n rounds, each stepping every listed robot once.
      A robot listed k times is stepped k times per round. */
  method SimulateNRounds(robots: seq<Robot>, n: nat)
    modifies set r | r in robots
    ensures forall i :: 0 <= i < |robots| ==>
      robots[i].pos == After(old(robots[i].pos), robots[i].vel, n * multiset(robots)[robots[i]])
    ensures forall i :: 0 <= i < |robots| ==>
      robots[i].vel == old(robots[i].vel) && robots[i].initPos == old(robots[i].initPos)
  {
    for round := 0 to n
      invariant forall i :: 0 <= i < |robots| ==>
        robots[i].pos == After(old(robots[i].pos), robots[i].vel, round * multiset(robots)[robots[i]])
      invariant forall i :: 0 <= i < |robots| ==>
        robots[i].vel == old(robots[i].vel) && robots[i].initPos == old(robots[i].initPos)
    {
      StepAll(robots);
      forall i | 0 <= i < |robots|
        ensures robots[i].pos == After(old(robots[i].pos), robots[i].vel, (round + 1) * multiset(robots)[robots[i]])
      {
        var k := multiset(robots)[robots[i]];
        AfterCompose(old(robots[i].pos), robots[i].vel, round * k, k);
        assert round * k + k == (round + 1) * k;
      }
    }
  }

  /** The quadrant score_by_quad puts a position in: 1 to 4, or 0 on a
      middle row or column. */
  function Quadrant(p: Pos): (q: int)
    ensures 0 <= q <= 4
    ensures q == 0 <==> p.0 == WorldDim.0 / 2 || p.1 == WorldDim.1 / 2
  {
    if p.0 < WorldDim.0 / 2 && p.1 < WorldDim.1 / 2 then 1
    else if p.0 < WorldDim.0 / 2 && p.1 > WorldDim.1 / 2 then 2
    else if p.0 > WorldDim.0 / 2 && p.1 < WorldDim.1 / 2 then 3
    else if p.0 > WorldDim.0 / 2 && p.1 > WorldDim.1 / 2 then 4
    else 0
  }

  /** How many of the positions lie in quadrant q. */
  function QuadCount(ps: seq<Pos>, q: int): (c: nat)
    ensures c <= |ps|
  {
    if ps == [] then 0
    else QuadCount(ps[..|ps| - 1], q) + (if Quadrant(ps[|ps| - 1]) == q then 1 else 0)
  }

  /** Every position is in exactly one quadrant or on a middle line. */
  lemma {:induction false} QuadrantsPartition(ps: seq<Pos>)
    ensures QuadCount(ps, 1) + QuadCount(ps, 2) + QuadCount(ps, 3) + QuadCount(ps, 4) + QuadCount(ps, 0) == |ps|
  {
    if ps != [] {
      QuadrantsPartition(ps[..|ps| - 1]);
    }
  }

  function Positions(robots: seq<Robot>): (ps: seq<Pos>)
    reads set r | r in robots
    ensures |ps| == |robots| && forall i :: 0 <= i < |robots| ==> ps[i] == robots[i].pos
  {
    if robots == [] then [] else Positions(robots[..|robots| - 1]) + [robots[|robots| - 1].pos]
  }

  function Product(a: int, b: int, c: int, d: int): int { a * b * c * d }

  /** score_by_quad: the product of the four quadrant counts. */
  method ScoreByQuad(robots: seq<Robot>) returns (score: int)
    ensures var ps := Positions(robots);
      score == Product(QuadCount(ps, 1), QuadCount(ps, 2), QuadCount(ps, 3), QuadCount(ps, 4))
  {
    ghost var ps := Positions(robots);
    var q1, q2, q3, q4 := 0, 0, 0, 0;
    for k := 0 to |robots|
      invariant q1 == QuadCount(ps[..k], 1) && q2 == QuadCount(ps[..k], 2)
      invariant q3 == QuadCount(ps[..k], 3) && q4 == QuadCount(ps[..k], 4)
    {
      var p := robots[k].pos;
      assert ps[..k + 1][..k] == ps[..k] && ps[..k + 1][k] == p;
      if p.0 < WorldDim.0 / 2 && p.1 < WorldDim.1 / 2 {
        q1 := q1 + 1;
      } else if p.0 < WorldDim.0 / 2 && p.1 > WorldDim.1 / 2 {
        q2 := q2 + 1;
      } else if p.0 > WorldDim.0 / 2 && p.1 < WorldDim.1 / 2 {
        q3 := q3 + 1;
      } else if p.0 > WorldDim.0 / 2 && p.1 > WorldDim.1 / 2 {
        q4 := q4 + 1;
      }
    }
    assert ps[..|robots|] == ps;
    return Product(q1, q2, q3, q4);
  }
}

=== FILE: day15.dfy ===
/** Day 15: warehouse woes. A robot walks a warehouse of walls and boxes;
    walking into a box pushes the whole row of boxes in front of it, unless
    a wall stops the row. The narrow warehouse keeps single-cell boxes; the
    wide one (module Day15Wide) keeps two-cell boxes. */
module Day15 {
  import opened Common

  /** The four moves; the source uses the complex numbers -1, +1, -1j and
      +1j, with the row as the real and the column as the imaginary part. */
  datatype Dir = Up | Down | Left | Right

  function Delta(d: Dir): (v: Pos)
    ensures IsUnit(v)
  {
    match d
    case Up => (-1, 0)
    case Down => (1, 0)
    case Left => (0, -1)
    case Right => (0, 1)
  }

  /** b lies strictly further than a along direction d, on the same line. */
  predicate Ahead(d: Dir, a: Pos, b: Pos)
  {
    match d
    case Up => b.1 == a.1 && b.0 < a.0
    case Down => b.1 == a.1 && b.0 > a.0
    case Left => b.0 == a.0 && b.1 < a.1
    case Right => b.0 == a.0 && b.1 > a.1
  }

  /** One step along d goes ahead, and whatever lies ahead of a is that step
      or lies ahead of it. */
  lemma AheadStep(d: Dir, a: Pos, q: Pos)
    ensures Ahead(d, a, Add(a, Delta(d)))
    ensures Ahead(d, a, q) <==> q == Add(a, Delta(d)) || Ahead(d, Add(a, Delta(d)), q)
  {
  }

  // ---------------------------------------------------------------------
  // The narrow warehouse

  /** The first cell at or after p, walking along d, that holds no box. */
  function RunEnd(objects: set<Pos>, p: Pos, d: Dir): Pos
    decreases |objects|
  {
    if p in objects then RunEnd(objects - {p}, Add(p, Delta(d)), d) else p
  }

  /** RunEnd is the end of the row of boxes starting at p: it holds no box,
      it is p exactly when p holds none, and every cell from p up to it
      holds a box. */
  lemma {:induction false} RunEndMeaning(objects: set<Pos>, p: Pos, d: Dir)
    ensures RunEnd(objects, p, d) !in objects
    ensures RunEnd(objects, p, d) == p <==> p !in objects
    ensures RunEnd(objects, p, d) != p ==> Ahead(d, p, RunEnd(objects, p, d))
    ensures forall q :: q == p || (Ahead(d, p, q) && Ahead(d, q, RunEnd(objects, p, d))) ==>
      q == RunEnd(objects, p, d) || q in objects
    decreases |objects|
  {
    if p in objects {
      var n := Add(p, Delta(d));
      var r := RunEnd(objects - {p}, n, d);
      RunEndMeaning(objects - {p}, n, d);
      forall q | q == p || (Ahead(d, p, q) && Ahead(d, q, r))
        ensures q == r || q in objects
      {
        AheadStep(d, p, q);
      }
      AheadStep(d, p, r);
    }
  }

  /** The narrow warehouse as a value: the robot, the boxes, the walls. */
  datatype Narrow = Narrow(sub: Pos, objects: set<Pos>, walls: set<Pos>)

  /** A well-formed warehouse: no box on a wall, the robot on neither. */
  predicate NarrowValid(s: Narrow)
  {
    s.objects !! s.walls && s.sub !in s.walls && s.sub !in s.objects
  }

  /** Maze.move as a function: a wall ahead stops the robot; a free cell
      ahead takes it; a box ahead is pushed together with the row behind
      it, the first box of the row reappearing past its last box, unless
      that cell is a wall. */
  function NarrowMove(s: Narrow, d: Dir): (r: Narrow)
    ensures r.walls == s.walls
    ensures r == s || r.sub == Add(s.sub, Delta(d))
    ensures r.sub != s.sub ==> r.sub !in s.walls
    ensures r.objects != s.objects ==> r.sub in s.objects && r.sub !in r.objects
  {
    var next := Add(s.sub, Delta(d));
    if next in s.walls then s
    else if next !in s.objects then s.(sub := next)
    else
      var e := RunEnd(s.objects, next, d);
      if e in s.walls then s
      else s.(sub := next, objects := s.objects - {next} + {e})
  }

  /** The boxes from next up to, not including, e along d. */
  function Row(objects: set<Pos>, next: Pos, e: Pos, d: Dir): set<Pos>
  {
    set q | q in objects && (q == next || (Ahead(d, next, q) && Ahead(d, q, e)))
  }

  /** Every cell of a set moved one step along d. */
  function Shifted(cells: set<Pos>, d: Dir): set<Pos>
  {
    set q | q in cells :: Add(q, Delta(d))
  }

  /** Taking the first box of a full row and putting it past the row's end
      is the same as moving every box of the row one step. */
  lemma ShiftRow(objects: set<Pos>, next: Pos, e: Pos, d: Dir)
    requires next in objects && e !in objects && Ahead(d, next, e)
    requires forall q :: q == next || (Ahead(d, next, q) && Ahead(d, q, e)) ==> q == e || q in objects
    ensures objects - {next} + {e} == (objects - Row(objects, next, e, d)) + Shifted(Row(objects, next, e, d), d)
  {
    var row := Row(objects, next, e, d);
    var shifted := Shifted(row, d);
    assert next in row && e !in row;
    forall q | q in shifted
      ensures q == e || q in row
    {
      var q' :| q' in row && q == Add(q', Delta(d));
      AheadStep(d, next, q);
      AheadStep(d, q', e);
    }
    forall q | q in row - {next}
      ensures q in shifted
    {
      var q' := Sub(q, Delta(d));
      assert q == Add(q', Delta(d));
      AheadStep(d, q', q);
      AheadStep(d, next, q);
      AheadStep(d, next, q');
    }
    assert e in shifted by {
      var last := Sub(e, Delta(d));
      assert e == Add(last, Delta(d));
      AheadStep(d, last, e);
      AheadStep(d, next, e);
      AheadStep(d, next, last);
    }
    assert next !in shifted by {
      if next in shifted {
        var q' :| q' in row && next == Add(q', Delta(d));
        AheadStep(d, next, q');
      }
    }
  }

  /** A successful push moves every box of the row ahead of the robot one
      step along d and no other box, and the robot steps into the cell the
      first box left. */
  lemma PushShiftsRow(s: Narrow, d: Dir)
    requires Add(s.sub, Delta(d)) in s.objects
    requires Add(s.sub, Delta(d)) !in s.walls
    requires RunEnd(s.objects, Add(s.sub, Delta(d)), d) !in s.walls
    ensures var next := Add(s.sub, Delta(d));
      var row := Row(s.objects, next, RunEnd(s.objects, next, d), d);
      NarrowMove(s, d).objects == (s.objects - row) + Shifted(row, d)
    ensures NarrowMove(s, d).sub == Add(s.sub, Delta(d))
  {
    var next := Add(s.sub, Delta(d));
    RunEndMeaning(s.objects, next, d);
    ShiftRow(s.objects, next, RunEnd(s.objects, next, d), d);
  }

  /** Maze.move keeps the warehouse well formed and never changes the
      number of boxes or the walls. */
  lemma NarrowMoveKeeps(s: Narrow, d: Dir)
    requires NarrowValid(s)
    ensures NarrowValid(NarrowMove(s, d))
    ensures |NarrowMove(s, d).objects| == |s.objects|
    ensures NarrowMove(s, d).walls == s.walls
  {
    var next := Add(s.sub, Delta(d));
    if next !in s.walls && next in s.objects {
      var e := RunEnd(s.objects, next, d);
      RunEndMeaning(s.objects, next, d);
      if e !in s.walls {
        assert e != next;
        assert |s.objects - {next}| == |s.objects| - 1;
      }
    }
  }

  /** The moves a move string spells, in order; execute_move_str ignores
      every other character. */
  function CharDir(c: char): Option<Dir>
  {
    match c
    case '^' => Some(Up)
    case '<' => Some(Left)
    case '>' => Some(Right)
    case 'v' => Some(Down)
    case _ => None
  }

  /** execute_move_str on the narrow warehouse, as a function. */
  function NarrowRun(s: Narrow, moves: string): Narrow
  {
    if moves == [] then s
    else
      var s' := NarrowRun(s, moves[..|moves| - 1]);
      match CharDir(moves[|moves| - 1])
      case Some(d) => NarrowMove(s', d)
      case None => s'
  }

  /** Only the move characters of a string count. */
  function MovesOnly(moves: string): (r: string)
    ensures forall k :: 0 <= k < |r| ==> CharDir(r[k]).Some?
  {
    if moves == [] then []
    else MovesOnly(moves[..|moves| - 1]) + (if CharDir(moves[|moves| - 1]).Some? then [moves[|moves| - 1]] else [])
  }

  /** Characters other than ^ < > v change nothing. */
  lemma {:induction false} NarrowRunIgnores(s: Narrow, moves: string)
    ensures NarrowRun(s, moves) == NarrowRun(s, MovesOnly(moves))
  {
    if moves != [] {
      var init, c := moves[..|moves| - 1], moves[|moves| - 1];
      NarrowRunIgnores(s, init);
      if CharDir(c).Some? {
        var m := MovesOnly(init) + [c];
        assert MovesOnly(moves) == m;
        assert m[..|m| - 1] == MovesOnly(init) && m[|m| - 1] == c;
        assert NarrowRun(s, m) == NarrowMove(NarrowRun(s, MovesOnly(init)), CharDir(c).value);
      } else {
        assert MovesOnly(moves) == MovesOnly(init);
      }
    }
  }

  /** A whole run keeps the warehouse well formed, the walls and the number
      of boxes. */
  lemma {:induction false} NarrowRunKeeps(s: Narrow, moves: string)
    requires NarrowValid(s)
    ensures NarrowValid(NarrowRun(s, moves))
    ensures |NarrowRun(s, moves).objects| == |s.objects|
    ensures NarrowRun(s, moves).walls == s.walls
  {
    if moves != [] {
      NarrowRunKeeps(s, moves[..|moves| - 1]);
      var s' := NarrowRun(s, moves[..|moves| - 1]);
      if CharDir(moves[|moves| - 1]).Some? {
        NarrowMoveKeeps(s', CharDir(moves[|moves| - 1]).value);
      }
    }
  }

  /** Maze: the narrow warehouse, updated in place. */
  class Maze {
    var sub: Pos
    var objects: set<Pos>
    var walls: set<Pos>

    constructor(sub: Pos, objects: set<Pos>, walls: set<Pos>)
      ensures this.sub == sub && this.objects == objects && this.walls == walls
    {
      this.sub := sub;
      this.objects := objects;
      this.walls := walls;
    }

    function State(): Narrow
      reads this
    {
      Narrow(sub, objects, walls)
    }

    /** Maze.move: the row of boxes ahead is scanned to its end; if that end
        is free, the first box goes there and the robot advances. */
    method Move(d: Dir)
      modifies this
      ensures State() == NarrowMove(old(State()), d)
    {
      var next := Add(sub, Delta(d));
      if next in walls {
        return;
      }
      if next !in objects {
        sub := next;
        return;
      }
      var check := next;
      ghost var scanned: set<Pos> := {};
      while check in objects
        invariant scanned <= objects
        invariant forall q :: q in scanned ==> Ahead(d, q, check)
        invariant RunEnd(objects - scanned, check, d) == RunEnd(objects, next, d)
        decreases |objects - scanned|
      {
        var n := Add(check, Delta(d));
        assert check !in scanned;
        assert objects - (scanned + {check}) == (objects - scanned) - {check};
        forall q | q in scanned + {check}
          ensures Ahead(d, q, n)
        {
          AheadStep(d, q, n);
        }
        scanned := scanned + {check};
        check := n;
      }
      if check in walls {
        return;
      }
      objects := objects - {next};
      objects := objects + {check};
      sub := next;
    }
  }

  /** execute_move_str on a Maze: each move character moves the robot. */
  method ExecuteMoveStr(maze: Maze, moves: string)
    modifies maze
    ensures maze.State() == NarrowRun(old(maze.State()), moves)
  {
    for k := 0 to |moves|
      invariant maze.State() == NarrowRun(old(maze.State()), moves[..k])
    {
      assert moves[..k + 1][..k] == moves[..k];
      match moves[k]
      case '^' => maze.Move(Up);
      case '<' => maze.Move(Left);
      case '>' => maze.Move(Right);
      case 'v' => maze.Move(Down);
      case _ =>
    }
    assert moves[..|moves|] == moves;
  }

  // ---------------------------------------------------------------------
  // pos_score

  /** A box's GPS coordinate: 100 per row plus the column. */
  function Score(p: Pos): int { 100 * p.0 + p.1 }

  /** The sum of the coordinates of a set of cells. */
  ghost function SetScore(s: set<Pos>): int
  {
    if s == {} then 0 else var x :| x in s; Score(x) + SetScore(s - {x})
  }

  /** The sum does not depend on the order the cells are taken in. */
  lemma {:induction false} SetScoreRemove(s: set<Pos>, y: Pos)
    requires y in s
    ensures SetScore(s) == Score(y) + SetScore(s - {y})
    decreases |s|
  {
    var x :| x in s && SetScore(s) == Score(x) + SetScore(s - {x});
    if x != y {
      SetScoreRemove(s - {x}, y);
      SetScoreRemove(s - {y}, x);
      assert s - {x} - {y} == s - {y} - {x};
    }
  }

  /** pos_score on a Maze: the sum of the coordinates of the boxes, taken
      in whatever order the set yields them. */
  method PosScore(maze: Maze) returns (score: int)
    ensures score == SetScore(maze.objects)
  {
    score := 0;
    var rest := maze.objects;
    while rest != {}
      invariant rest <= maze.objects
      invariant score + SetScore(rest) == SetScore(maze.objects)
      decreases |rest|
    {
      var o :| o in rest;
      SetScoreRemove(rest, o);
      score := score + Score(o);
      rest := rest - {o};
    }
  }
}

=== FILE: day15_wide.dfy ===
/** Day 15, the wide warehouse: every box covers two cells side by side, so
    a push up or down can fan out across several boxes, and the whole
    cascade moves or nothing does. */
module Day15Wide {
  import opened Common
  import opened Day15

  /** The wide warehouse as a value: the robot, the cell-to-box dictionary
      (object_dict), the box-to-cells dictionary (id_to_pos), the walls. */
  datatype Wide = Wide(sub: Pos, objs: map<Pos, int>, ids: map<int, seq<Pos>>, walls: set<Pos>)

  /** The two dictionaries agree: every box has two distinct cells, each
      mapped back to the box, and every mapped cell is one of its box's. */
  predicate Boxes(objs: map<Pos, int>, ids: map<int, seq<Pos>>)
  {
    (forall id :: id in ids ==>
      |ids[id]| == 2 && ids[id][0] != ids[id][1] &&
      ids[id][0] in objs && objs[ids[id][0]] == id &&
      ids[id][1] in objs && objs[ids[id][1]] == id) &&
    (forall p :: p in objs ==> objs[p] in ids && (p == ids[objs[p]][0] || p == ids[objs[p]][1]))
  }

  /** A well-formed wide warehouse: consistent dictionaries, no box on a
      wall, the robot on neither. */
  predicate WideValid(s: Wide)
  {
    Boxes(s.objs, s.ids) && s.objs.Keys !! s.walls && s.sub !in s.walls && s.sub !in s.objs
  }

  /** Pushing into cell c moves the box there, if any, so it must be in D. */
  predicate Pushes(objs: map<Pos, int>, D: set<int>, c: Pos)
  {
    c in objs ==> objs[c] in D
  }

  /** D is a set of boxes a push starting at cell start can move on its
      own: it holds the box at start, and with every box the boxes that its
      two cells, moved along d, run into. */
  predicate Closed(objs: map<Pos, int>, ids: map<int, seq<Pos>>, d: Dir, start: Pos, D: set<int>)
  {
    Pushes(objs, D, start) &&
    forall id :: id in D ==>
      id in ids && |ids[id]| == 2 &&
      Pushes(objs, D, Add(ids[id][0], Delta(d))) && Pushes(objs, D, Add(ids[id][1], Delta(d)))
  }

  /** The boxes a push from start moves: those in every closed set. */
  ghost function Pushed(objs: map<Pos, int>, ids: map<int, seq<Pos>>, d: Dir, start: Pos): set<int>
  {
    set id | id in ids && forall D :: Closed(objs, ids, d, start, D) ==> id in D
  }

  /** Some box of D would move into a wall. */
  predicate Blocked(ids: map<int, seq<Pos>>, walls: set<Pos>, d: Dir, D: set<int>)
  {
    exists id :: id in D && id in ids && |ids[id]| == 2 &&
      (Add(ids[id][0], Delta(d)) in walls || Add(ids[id][1], Delta(d)) in walls)
  }

  /** The cells of the boxes in C. */
  function MovedCells(objs: map<Pos, int>, C: set<int>): set<Pos>
  {
    set q | q in objs && objs[q] in C
  }

  /** object_dict after the push: the cells of the moved boxes are deleted,
      then each reappears one step along d, mapped to the same box. */
  function ShiftObjs(objs: map<Pos, int>, C: set<int>, d: Dir): map<Pos, int>
  {
    var moved := MovedCells(objs, C);
    map p | p in (objs.Keys - moved) + Shifted(moved, d) ::
      if Sub(p, Delta(d)) in moved then objs[Sub(p, Delta(d))] else objs[p]
  }

  /** id_to_pos after the push: the boxes in C have both cells moved. */
  function ShiftIds(ids: map<int, seq<Pos>>, C: set<int>, d: Dir): map<int, seq<Pos>>
  {
    map id | id in ids ::
      if id in C && |ids[id]| == 2 then [Add(ids[id][0], Delta(d)), Add(ids[id][1], Delta(d))]
      else ids[id]
  }

  /** LargeMaze.move as a function: a wall ahead stops the robot, a free
      cell takes it; a box ahead starts a push of every box it reaches,
      which happens in full when none of them meets a wall and not at all
      otherwise. */
  ghost function WideMove(s: Wide, d: Dir): (r: Wide)
    ensures r.walls == s.walls && r.ids.Keys == s.ids.Keys
    ensures r == s || r.sub == Add(s.sub, Delta(d))
    ensures r.sub != s.sub ==> r.sub !in s.walls
    ensures r.objs != s.objs ==> r.sub in s.objs
  {
    var next := Add(s.sub, Delta(d));
    if next in s.walls then s
    else if next !in s.objs then s.(sub := next)
    else
      var C := Pushed(s.objs, s.ids, d, next);
      if Blocked(s.ids, s.walls, d, C) then s
      else Wide(next, ShiftObjs(s.objs, C, d), ShiftIds(s.ids, C, d), s.walls)
  }

  /** The pushed boxes are themselves closed: the least closed set. */
  lemma PushedClosed(objs: map<Pos, int>, ids: map<int, seq<Pos>>, d: Dir, start: Pos)
    requires Boxes(objs, ids)
    ensures Closed(objs, ids, d, start, Pushed(objs, ids, d, start))
  {
    var P := Pushed(objs, ids, d, start);
    if start in objs {
      forall D | Closed(objs, ids, d, start, D)
        ensures objs[start] in D
      {
      }
      assert objs[start] in P;
    }
    forall id | id in P
      ensures id in ids && |ids[id]| == 2
      ensures Pushes(objs, P, Add(ids[id][0], Delta(d))) && Pushes(objs, P, Add(ids[id][1], Delta(d)))
    {
      var c0, c1 := Add(ids[id][0], Delta(d)), Add(ids[id][1], Delta(d));
      if c0 in objs {
        assert objs[c0] in P;
      }
      if c1 in objs {
        assert objs[c1] in P;
      }
    }
  }

  /** A closed set of boxes inside every closed set is the pushed set. */
  lemma PushedLeast(objs: map<Pos, int>, ids: map<int, seq<Pos>>, d: Dir, start: Pos, E: set<int>)
    requires Closed(objs, ids, d, start, E)
    requires forall D :: Closed(objs, ids, d, start, D) ==> E <= D
    ensures Pushed(objs, ids, d, start) == E
  {
    forall id | id in E
      ensures id in Pushed(objs, ids, d, start)
    {
      forall D | Closed(objs, ids, d, start, D)
        ensures id in D
      {
      }
    }
  }

  /** A box that every push from start must move and that meets a wall
      blocks the push. */
  lemma PushedBlocked(objs: map<Pos, int>, ids: map<int, seq<Pos>>, walls: set<Pos>, d: Dir, start: Pos, id: int)
    requires id in ids && |ids[id]| == 2
    requires forall D :: Closed(objs, ids, d, start, D) ==> id in D
    requires Add(ids[id][0], Delta(d)) in walls || Add(ids[id][1], Delta(d)) in walls
    ensures Blocked(ids, walls, d, Pushed(objs, ids, d, start))
  {
    assert id in Pushed(objs, ids, d, start);
  }

  /** A cell moved into by a box of C that holds a box holds one of C. */
  lemma ShiftStaysInside(s: Wide, d: Dir, C: set<int>, q: Pos)
    requires Boxes(s.objs, s.ids)
    requires Closed(s.objs, s.ids, d, Add(s.sub, Delta(d)), C)
    requires q in MovedCells(s.objs, C)
    ensures Add(q, Delta(d)) in s.objs ==> s.objs[Add(q, Delta(d))] in C
  {
    var id := s.objs[q];
    assert q == s.ids[id][0] || q == s.ids[id][1];
  }

  /** After a successful push the dictionaries still agree. */
  lemma ShiftKeepsBoxes(s: Wide, d: Dir, C: set<int>)
    requires Boxes(s.objs, s.ids)
    requires Closed(s.objs, s.ids, d, Add(s.sub, Delta(d)), C)
    ensures Boxes(ShiftObjs(s.objs, C, d), ShiftIds(s.ids, C, d))
  {
    var objs', ids' := ShiftObjs(s.objs, C, d), ShiftIds(s.ids, C, d);
    forall id | id in ids'
      ensures |ids'[id]| == 2 && ids'[id][0] != ids'[id][1]
      ensures ids'[id][0] in objs' && objs'[ids'[id][0]] == id
      ensures ids'[id][1] in objs' && objs'[ids'[id][1]] == id
    {
      if id in C {
        MovedCellMoves(s, d, C, id, 0);
        MovedCellMoves(s, d, C, id, 1);
      } else {
        OldCellStays(s, d, C, id, 0);
        OldCellStays(s, d, C, id, 1);
      }
    }
    forall p | p in objs'
      ensures objs'[p] in ids' && (p == ids'[objs'[p]][0] || p == ids'[objs'[p]][1])
    {
      NewCellOwner(s, d, C, p);
    }
  }

  /** A cell of a moved box reappears one step along d, with its box. */
  lemma MovedCellMoves(s: Wide, d: Dir, C: set<int>, id: int, k: int)
    requires Boxes(s.objs, s.ids)
    requires id in s.ids && id in C && 0 <= k < 2
    ensures Add(s.ids[id][k], Delta(d)) in ShiftObjs(s.objs, C, d)
    ensures ShiftObjs(s.objs, C, d)[Add(s.ids[id][k], Delta(d))] == id
  {
    var q := s.ids[id][k];
    assert q in MovedCells(s.objs, C);
    assert Sub(Add(q, Delta(d)), Delta(d)) == q;
  }

  /** Every cell of the new dictionary belongs to its box's new cells. */
  lemma NewCellOwner(s: Wide, d: Dir, C: set<int>, p: Pos)
    requires Boxes(s.objs, s.ids)
    requires p in ShiftObjs(s.objs, C, d)
    ensures ShiftObjs(s.objs, C, d)[p] in ShiftIds(s.ids, C, d)
    ensures var id := ShiftObjs(s.objs, C, d)[p];
      p == ShiftIds(s.ids, C, d)[id][0] || p == ShiftIds(s.ids, C, d)[id][1]
  {
    var q := Sub(p, Delta(d));
    if q in MovedCells(s.objs, C) {
      var id := s.objs[q];
      assert q == s.ids[id][0] || q == s.ids[id][1];
      assert p == Add(q, Delta(d));
    }
  }

  /** A cell of a box that does not move keeps its box. */
  lemma OldCellStays(s: Wide, d: Dir, C: set<int>, id: int, k: int)
    requires Boxes(s.objs, s.ids)
    requires Closed(s.objs, s.ids, d, Add(s.sub, Delta(d)), C)
    requires id in s.ids && id !in C && 0 <= k < 2
    ensures s.ids[id][k] in ShiftObjs(s.objs, C, d)
    ensures ShiftObjs(s.objs, C, d)[s.ids[id][k]] == id
  {
    var p := s.ids[id][k];
    var q := Sub(p, Delta(d));
    if q in MovedCells(s.objs, C) {
      ShiftStaysInside(s, d, C, q);
    }
  }

  /** LargeMaze.move keeps the warehouse well formed, the walls and the
      set of boxes. */
  lemma WideMoveKeeps(s: Wide, d: Dir)
    requires WideValid(s)
    ensures WideValid(WideMove(s, d))
    ensures WideMove(s, d).walls == s.walls
    ensures WideMove(s, d).ids.Keys == s.ids.Keys
  {
    var next := Add(s.sub, Delta(d));
    if next !in s.walls && next in s.objs {
      var C := Pushed(s.objs, s.ids, d, next);
      if !Blocked(s.ids, s.walls, d, C) {
        PushedClosed(s.objs, s.ids, d, next);
        ShiftKeepsBoxes(s, d, C);
        forall p | p in ShiftObjs(s.objs, C, d)
          ensures p !in s.walls
        {
          NewCellFree(s, d, C, p);
        }
        VacatedAhead(s, d, C);
      }
    }
  }

  /** The robot's target cell is free after the push: its box moved on,
      and nothing moved in from the robot's own cell. */
  lemma VacatedAhead(s: Wide, d: Dir, C: set<int>)
    requires WideValid(s)
    requires Add(s.sub, Delta(d)) in s.objs && s.objs[Add(s.sub, Delta(d))] in C
    ensures Add(s.sub, Delta(d)) !in ShiftObjs(s.objs, C, d)
  {
    var next := Add(s.sub, Delta(d));
    assert next in MovedCells(s.objs, C);
    ShiftedMember(MovedCells(s.objs, C), d, next);
    assert Sub(next, Delta(d)) == s.sub;
  }

  /** No cell of the new dictionary is a wall when the push is not blocked. */
  lemma NewCellFree(s: Wide, d: Dir, C: set<int>, p: Pos)
    requires WideValid(s)
    requires !Blocked(s.ids, s.walls, d, C)
    requires p in ShiftObjs(s.objs, C, d)
    ensures p !in s.walls
  {
    var q := Sub(p, Delta(d));
    if q in MovedCells(s.objs, C) {
      var id := s.objs[q];
      assert q == s.ids[id][0] || q == s.ids[id][1];
      assert p == Add(q, Delta(d));
    }
  }

  /** Shifted in terms of one cell: p is a moved cell exactly when the cell
      one step back is in the set. */
  lemma ShiftedMember(cells: set<Pos>, d: Dir, p: Pos)
    ensures p in Shifted(cells, d) <==> Sub(p, Delta(d)) in cells
  {
    if Sub(p, Delta(d)) in cells {
      assert p == Add(Sub(p, Delta(d)), Delta(d));
    }
  }

  /** A Counter read: a missing key counts 0. */
  function Get(ms: map<int, int>, id: int): int
  {
    if id in ms then ms[id] else 0
  }

  /** Where a cell on the shove stack came from: the start cell, or one of
      the two cells of an already expanded box moved along d. */
  predicate Origin(ids: map<int, seq<Pos>>, E: set<int>, d: Dir, start: Pos, o: Option<int>, c: Pos)
  {
    match o
    case None => c == start
    case Some(id) =>
      (id in E && id in ids && |ids[id]| == 2 &&
       (c == Add(ids[id][0], Delta(d)) || c == Add(ids[id][1], Delta(d))))
  }

  /** Every box and count pair a shove can record. */
  ghost function AllPairs(ids: map<int, seq<Pos>>): set<(int, int)>
  {
    set id, k | id in ids && 1 <= k <= 2 :: (id, k)
  }

  /** The bookkeeping of a shove: move_list holds the expanded boxes E, the
      Counter move_set counts each one's expansions (at most two), and done
      holds the pairs (box, expansion) used so far. */
  ghost predicate Counted(ids: map<int, seq<Pos>>, moveSet: map<int, int>, moveList: seq<int>, E: set<int>, done: set<(int, int)>)
  {
    (forall x :: x in moveList <==> x in E) && E <= ids.Keys &&
    (forall id :: id in moveSet ==> id in E && 1 <= moveSet[id] <= 2) &&
    (forall id :: id in E ==> id in moveSet) &&
    (forall pr :: pr in done <==> pr.0 in moveSet && 1 <= pr.1 <= moveSet[pr.0]) &&
    done <= AllPairs(ids)
  }

  /** E lies inside every closed set: every expanded box must move. */
  ghost predicate Least(objs: map<Pos, int>, ids: map<int, seq<Pos>>, d: Dir, start: Pos, E: set<int>)
  {
    forall D :: Closed(objs, ids, d, start, D) ==> E <= D
  }

  predicate Covers(stack: seq<Pos>, checked: set<Pos>, c: Pos)
  {
    c in stack || c in checked
  }

  /** Every cell the walk must look at is on the stack or already looked
      at: the start, and the cells every expanded box is pushed into. */
  predicate Covered(ids: map<int, seq<Pos>>, d: Dir, start: Pos, stack: seq<Pos>, checked: set<Pos>, E: set<int>)
  {
    Covers(stack, checked, start) &&
    forall id :: id in E && id in ids && |ids[id]| == 2 ==>
      Covers(stack, checked, Add(ids[id][0], Delta(d))) && Covers(stack, checked, Add(ids[id][1], Delta(d)))
  }

  /** A cell already taken off the stack: not a wall, and its box, if any,
      is expanded. */
  predicate Checked(objs: map<Pos, int>, walls: set<Pos>, E: set<int>, c: Pos)
  {
    c !in walls && Pushes(objs, E, c)
  }

  /** The invariant of the shove loop. */
  ghost predicate ShoveInv(s: Wide, d: Dir, next: Pos, stack: seq<Pos>, from: seq<Option<int>>,
                           moveSet: map<int, int>, moveList: seq<int>, E: set<int>, checked: set<Pos>, done: set<(int, int)>)
  {
    Counted(s.ids, moveSet, moveList, E, done) &&
    Least(s.objs, s.ids, d, next, E) &&
    |from| == |stack| &&
    (forall k :: 0 <= k < |stack| ==> Origin(s.ids, E, d, next, from[k], stack[k])) &&
    Covered(s.ids, d, next, stack, checked, E) &&
    (forall c :: c in checked ==> Checked(s.objs, s.walls, E, c))
  }

  /** Popping the top of the stack keeps the origins of the rest. */
  lemma PopTraced(s: Wide, d: Dir, next: Pos, stack: seq<Pos>, from: seq<Option<int>>, E: set<int>,
                  rest: seq<Pos>, fromRest: seq<Option<int>>)
    requires stack != [] && |from| == |stack|
    requires rest == stack[..|stack| - 1] && fromRest == from[..|from| - 1]
    requires forall k :: 0 <= k < |stack| ==> Origin(s.ids, E, d, next, from[k], stack[k])
    ensures forall k :: 0 <= k < |rest| ==> Origin(s.ids, E, d, next, fromRest[k], rest[k])
  {
    forall k | 0 <= k < |rest|
      ensures Origin(s.ids, E, d, next, fromRest[k], rest[k])
    {
      assert fromRest[k] == from[k] && rest[k] == stack[k];
    }
  }

  /** Whatever the stack covered, the rest of it and the popped cell cover. */
  lemma PopCovers(stack: seq<Pos>, checked: set<Pos>, x: Pos)
    requires stack != [] && Covers(stack, checked, x)
    ensures Covers(stack[..|stack| - 1], checked + {stack[|stack| - 1]}, x)
  {
    if x in stack && x != stack[|stack| - 1] {
      var k :| 0 <= k < |stack| && stack[k] == x;
      assert stack[..|stack| - 1][k] == x;
    }
  }

  /** The top of the stack is looked at and dropped: a cell whose box has
      been expanded twice, or a free cell. */
  lemma ShoveDrop(s: Wide, d: Dir, next: Pos, stack: seq<Pos>, from: seq<Option<int>>,
                  moveSet: map<int, int>, moveList: seq<int>, E: set<int>, checked: set<Pos>, done: set<(int, int)>)
    requires WideValid(s)
    requires ShoveInv(s, d, next, stack, from, moveSet, moveList, E, checked, done)
    requires stack != []
    requires Checked(s.objs, s.walls, E, stack[|stack| - 1])
    ensures ShoveInv(s, d, next, stack[..|stack| - 1], from[..|from| - 1], moveSet, moveList, E,
                     checked + {stack[|stack| - 1]}, done)
  {
    PopTraced(s, d, next, stack, from, E, stack[..|stack| - 1], from[..|from| - 1]);
    forall x | Covers(stack, checked, x)
      ensures Covers(stack[..|stack| - 1], checked + {stack[|stack| - 1]}, x)
    {
      PopCovers(stack, checked, x);
    }
  }

  /** Expanding one more box keeps the bookkeeping and uses up one pair. */
  lemma ExpandCounted(ids: map<int, seq<Pos>>, moveSet: map<int, int>, moveList: seq<int>, E: set<int>, done: set<(int, int)>, id: int)
    requires Counted(ids, moveSet, moveList, E, done)
    requires id in ids && Get(moveSet, id) != 2
    ensures var n := Get(moveSet, id) + 1;
      Counted(ids, moveSet[id := n], moveList + [id], E + {id}, done + {(id, n)}) &&
      AllPairs(ids) - (done + {(id, n)}) < AllPairs(ids) - done
  {
    var n := Get(moveSet, id) + 1;
    assert (id, n) in AllPairs(ids) && (id, n) !in done;
  }

  /** The box on the top cell of the stack must move with every push. */
  lemma ExpandLeast(s: Wide, d: Dir, next: Pos, c: Pos, o: Option<int>, E: set<int>)
    requires Least(s.objs, s.ids, d, next, E)
    requires Origin(s.ids, E, d, next, o, c) && c in s.objs
    ensures Least(s.objs, s.ids, d, next, E + {s.objs[c]})
  {
    forall D | Closed(s.objs, s.ids, d, next, D)
      ensures E + {s.objs[c]} <= D
    {
    }
  }

  /** The stack after an expansion: the old entries keep their origins,
      the two new cells come from the expanded box. */
  lemma ExpandTraced(s: Wide, d: Dir, next: Pos, stack: seq<Pos>, from: seq<Option<int>>, E: set<int>, id: int)
    requires stack != [] && |from| == |stack|
    requires forall k :: 0 <= k < |stack| ==> Origin(s.ids, E, d, next, from[k], stack[k])
    requires id in s.ids && |s.ids[id]| == 2
    ensures var stack' := stack[..|stack| - 1] + [Add(s.ids[id][0], Delta(d)), Add(s.ids[id][1], Delta(d))];
      var from' := from[..|from| - 1] + [Some(id), Some(id)];
      |from'| == |stack'| &&
      forall k :: 0 <= k < |stack'| ==> Origin(s.ids, E + {id}, d, next, from'[k], stack'[k])
  {
    var rest, fromRest := stack[..|stack| - 1], from[..|from| - 1];
    var stack' := rest + [Add(s.ids[id][0], Delta(d)), Add(s.ids[id][1], Delta(d))];
    var from' := fromRest + [Some(id), Some(id)];
    PopTraced(s, d, next, stack, from, E, rest, fromRest);
    forall k | 0 <= k < |stack'|
      ensures Origin(s.ids, E + {id}, d, next, from'[k], stack'[k])
    {
      if k < |rest| {
        assert from'[k] == fromRest[k] && stack'[k] == rest[k];
        assert Origin(s.ids, E, d, next, fromRest[k], rest[k]);
      }
    }
  }

  /** After an expansion everything covered stays covered, and the two new
      cells cover the expanded box's pushes. */
  lemma ExpandCovered(s: Wide, d: Dir, next: Pos, stack: seq<Pos>, checked: set<Pos>, E: set<int>, id: int)
    requires stack != []
    requires Covered(s.ids, d, next, stack, checked, E)
    requires id in s.ids && |s.ids[id]| == 2
    ensures Covered(s.ids, d, next,
      stack[..|stack| - 1] + [Add(s.ids[id][0], Delta(d)), Add(s.ids[id][1], Delta(d))],
      checked + {stack[|stack| - 1]}, E + {id})
  {
    var c := stack[|stack| - 1];
    var rest := stack[..|stack| - 1];
    var c0, c1 := Add(s.ids[id][0], Delta(d)), Add(s.ids[id][1], Delta(d));
    var stack' := rest + [c0, c1];
    forall x | Covers(stack, checked, x)
      ensures Covers(stack', checked + {c}, x)
    {
      PopCovers(stack, checked, x);
      if x in rest {
        var k :| 0 <= k < |rest| && rest[k] == x;
        assert stack'[k] == x;
      }
    }
    assert stack'[|rest|] == c0 && stack'[|rest| + 1] == c1;
  }

  /** A cell holding a box not yet expanded twice expands the box: the box
      joins E and its two cells moved along d go on the stack. */
  lemma ShoveExpand(s: Wide, d: Dir, next: Pos, stack: seq<Pos>, from: seq<Option<int>>,
                    moveSet: map<int, int>, moveList: seq<int>, E: set<int>, checked: set<Pos>, done: set<(int, int)>)
    requires WideValid(s)
    requires ShoveInv(s, d, next, stack, from, moveSet, moveList, E, checked, done)
    requires stack != [] && stack[|stack| - 1] in s.objs && Get(moveSet, s.objs[stack[|stack| - 1]]) != 2
    ensures var c := stack[|stack| - 1];
      var id := s.objs[c];
      var n := Get(moveSet, id) + 1;
      ShoveInv(s, d, next, stack[..|stack| - 1] + [Add(s.ids[id][0], Delta(d)), Add(s.ids[id][1], Delta(d))],
               from[..|from| - 1] + [Some(id), Some(id)],
               moveSet[id := n], moveList + [id], E + {id}, checked + {c}, done + {(id, n)}) &&
      AllPairs(s.ids) - (done + {(id, n)}) < AllPairs(s.ids) - done
  {
    var c := stack[|stack| - 1];
    var id := s.objs[c];
    ExpandCounted(s.ids, moveSet, moveList, E, done, id);
    ExpandLeast(s, d, next, c, from[|from| - 1], E);
    ExpandTraced(s, d, next, stack, from, E, id);
    ExpandCovered(s, d, next, stack, checked, E, id);
    ExpandChecked(s, checked, E, c);
  }

  /** The cells checked so far stay checked once the box at c joins E,
      and c itself is checked then. */
  lemma ExpandChecked(s: Wide, checked: set<Pos>, E: set<int>, c: Pos)
    requires WideValid(s) && c in s.objs
    requires forall x :: x in checked ==> Checked(s.objs, s.walls, E, x)
    ensures forall x :: x in checked + {c} ==> Checked(s.objs, s.walls, E + {s.objs[c]}, x)
  {
  }

  /** A wall reached from an expanded box blocks the push. */
  lemma ShoveWall(s: Wide, d: Dir, next: Pos, stack: seq<Pos>, from: seq<Option<int>>,
                  moveSet: map<int, int>, moveList: seq<int>, E: set<int>, checked: set<Pos>, done: set<(int, int)>)
    requires next !in s.walls
    requires ShoveInv(s, d, next, stack, from, moveSet, moveList, E, checked, done)
    requires stack != [] && stack[|stack| - 1] in s.walls
    ensures Blocked(s.ids, s.walls, d, Pushed(s.objs, s.ids, d, next))
  {
    var o := from[|from| - 1];
    assert Origin(s.ids, E, d, next, o, stack[|stack| - 1]);
    PushedBlocked(s.objs, s.ids, s.walls, d, next, o.value);
  }

  /** With the stack empty, E is closed and unblocked: the pushed set. */
  lemma ShoveDone(s: Wide, d: Dir, next: Pos, from: seq<Option<int>>,
                  moveSet: map<int, int>, moveList: seq<int>, E: set<int>, checked: set<Pos>, done: set<(int, int)>)
    requires WideValid(s)
    requires ShoveInv(s, d, next, [], from, moveSet, moveList, E, checked, done)
    ensures Pushed(s.objs, s.ids, d, next) == (set id | id in moveList)
    ensures !Blocked(s.ids, s.walls, d, Pushed(s.objs, s.ids, d, next))
  {
    assert Checked(s.objs, s.walls, E, next);
    forall id | id in E
      ensures id in s.ids && |s.ids[id]| == 2
      ensures Checked(s.objs, s.walls, E, Add(s.ids[id][0], Delta(d)))
      ensures Checked(s.objs, s.walls, E, Add(s.ids[id][1], Delta(d)))
    {
    }
    assert Closed(s.objs, s.ids, d, next, E);
    PushedLeast(s.objs, s.ids, d, next, E);
    forall x | x in E
      ensures x in (set id | id in moveList)
    {
    }
    forall x | x in (set id | id in moveList)
      ensures x in E
    {
    }
  }

  /** LargeMaze: the wide warehouse, updated in place. */
  class LargeMaze {
    var sub: Pos
    var objectDict: map<Pos, int>
    var walls: set<Pos>
    var idToPos: map<int, seq<Pos>>

    /** LargeMaze.__init__: object_dict is given by its items in insertion
        order; id_to_pos lists the cells of each box in that order. */
    constructor(sub: Pos, items: seq<(Pos, int)>, walls: set<Pos>)
      ensures this.sub == sub && objectDict == ItemsMap(items) && this.walls == walls
      ensures forall id :: id in idToPos <==> IdsOf(items, id) != []
      ensures forall id :: id in idToPos ==> idToPos[id] == IdsOf(items, id)
    {
      this.sub := sub;
      objectDict := ItemsMap(items);
      this.walls := walls;
      var g := GroupById(items);
      idToPos := g;
    }

    function State(): Wide
      reads this
    {
      Wide(sub, objectDict, idToPos, walls)
    }

    /** The check half of LargeMaze.move: a depth-first walk from the box
        at next over the cells the boxes would be pushed into. It succeeds
        exactly when the push is not blocked, and then lists every pushed
        box. */
    method Shove(next: Pos, d: Dir) returns (ok: bool, moveList: seq<int>)
      requires WideValid(State()) && next in objectDict && next !in walls
      ensures ok <==> !Blocked(idToPos, walls, d, Pushed(objectDict, idToPos, d, next))
      ensures ok ==> (set id | id in moveList) == Pushed(objectDict, idToPos, d, next)
    {
      ghost var s := State();
      var stack := [next];
      var moveSet: map<int, int> := map[];
      moveList := [];
      ghost var E: set<int> := {};
      ghost var checked: set<Pos> := {};
      ghost var from: seq<Option<int>> := [None];
      ghost var done: set<(int, int)> := {};
      while stack != []
        invariant ShoveInv(s, d, next, stack, from, moveSet, moveList, E, checked, done)
        decreases AllPairs(s.ids) - done, |stack|
      {
        var c := stack[|stack| - 1];
        if c in objectDict {
          var id := objectDict[c];
          var p1, p2 := idToPos[id][0], idToPos[id][1];
          if Get(moveSet, id) == 2 {
            ShoveDrop(s, d, next, stack, from, moveSet, moveList, E, checked, done);
            stack, from, checked := stack[..|stack| - 1], from[..|from| - 1], checked + {c};
            continue;
          }
          ShoveExpand(s, d, next, stack, from, moveSet, moveList, E, checked, done);
          stack := stack[..|stack| - 1] + [Add(p1, Delta(d)), Add(p2, Delta(d))];
          from := from[..|from| - 1] + [Some(id), Some(id)];
          done := done + {(id, Get(moveSet, id) + 1)};
          moveSet := moveSet[id := Get(moveSet, id) + 1];
          moveList := moveList + [id];
          E, checked := E + {id}, checked + {c};
        } else if c in walls {
          ShoveWall(s, d, next, stack, from, moveSet, moveList, E, checked, done);
          return false, moveList;
        } else {
          ShoveDrop(s, d, next, stack, from, moveSet, moveList, E, checked, done);
          stack, from, checked := stack[..|stack| - 1], from[..|from| - 1], checked + {c};
        }
      }
      ShoveDone(s, d, next, from, moveSet, moveList, E, checked, done);
      return true, moveList;
    }

    /** LargeMaze.move: a wall ahead stops the robot, a free cell takes it;
        a box ahead is shoved with every box it reaches, all of them or
        none. */
    method Move(d: Dir)
      requires WideValid(State())
      modifies this
      ensures State() == WideMove(old(State()), d)
    {
      var next := Add(sub, Delta(d));
      if next in walls {
        return;
      }
      if next !in objectDict {
        sub := next;
        return;
      }
      var ok, moveList := Shove(next, d);
      if !ok {
        return;
      }
      forall id | id in moveList
        ensures id in idToPos
      {
        assert id in (set x | x in moveList);
        assert id in Pushed(objectDict, idToPos, d, next);
      }
      objectDict, idToPos := ShiftBoxes(objectDict, idToPos, moveList, d);
      sub := next;
    }
  }

  /** The move half of LargeMaze.move: every box of moved gets both cells
      shifted along d in id_to_pos; their old cells are deleted from
      object_dict and the new cells merged in. */
  method ShiftBoxes(m0: map<Pos, int>, t0: map<int, seq<Pos>>, moveList: seq<int>, d: Dir)
    returns (objs': map<Pos, int>, ids': map<int, seq<Pos>>)
    requires Boxes(m0, t0) && forall id :: id in moveList ==> id in t0
    ensures ids' == ShiftIds(t0, (set id | id in moveList), d)
    ensures objs' == ShiftObjs(m0, (set id | id in moveList), d)
  {
    ghost var moved := set id | id in moveList;
    var delSet, newObjPos;
    ids', delSet, newObjPos := CollectShift(m0, t0, moveList, d);
    assert delSet <= m0.Keys;
    var objs := DeleteCells(m0, delSet);
    MergeShifted(m0, moved, d, delSet, newObjPos);
    objs' := objs + newObjPos;
  }

  /** What the loop over the moved boxes has built once the boxes of P are
      done: id_to_pos with those boxes shifted, their old cells, and their
      new cells mapped to their boxes. */
  ghost predicate ShiftedSoFar(m0: map<Pos, int>, t0: map<int, seq<Pos>>, d: Dir, P: set<int>,
                         ids: map<int, seq<Pos>>, delSet: set<Pos>, newObjPos: map<Pos, int>)
  {
    ids == ShiftIds(t0, P, d) &&
    delSet == MovedCells(m0, P) &&
    (forall p :: p in newObjPos <==> Sub(p, Delta(d)) in MovedCells(m0, P)) &&
    (forall p :: p in newObjPos ==> newObjPos[p] == m0[Sub(p, Delta(d))])
  }

  /** The loop over list(set(move_list)): each listed box once, in the
      order of its first listing; id_to_pos updated in place, the old cells
      gathered in del_set, the new cells in new_obj_pos. */
  method CollectShift(m0: map<Pos, int>, t0: map<int, seq<Pos>>, moveList: seq<int>, d: Dir)
    returns (ids: map<int, seq<Pos>>, delSet: set<Pos>, newObjPos: map<Pos, int>)
    requires Boxes(m0, t0) && forall id :: id in moveList ==> id in t0
    ensures ShiftedSoFar(m0, t0, d, (set id | id in moveList), ids, delSet, newObjPos)
  {
    ids, delSet, newObjPos := t0, {}, map[];
    var done: set<int> := {};
    assert ShiftIds(t0, {}, d) == t0;
    for k := 0 to |moveList|
      invariant CollectInv(m0, t0, d, moveList[..k], done, ids, delSet, newObjPos)
    {
      var id := moveList[k];
      assert moveList[..k + 1] == moveList[..k] + [id];
      CollectStep(m0, t0, d, moveList[..k], id, done, ids, delSet, newObjPos);
      if id !in done {
        var p1, p2 := ids[id][0], ids[id][1];
        delSet := delSet + {p1, p2};
        var n1, n2 := Add(p1, Delta(d)), Add(p2, Delta(d));
        ids := ids[id := [n1, n2]];
        newObjPos := newObjPos[n1 := id][n2 := id];
        done := done + {id};
      }
    }
    assert moveList[..|moveList|] == moveList;
  }

  /** The loop over the moved boxes has handled the boxes listed in ml,
      each once. */
  ghost predicate CollectInv(m0: map<Pos, int>, t0: map<int, seq<Pos>>, d: Dir, ml: seq<int>, done: set<int>,
                             ids: map<int, seq<Pos>>, delSet: set<Pos>, newObjPos: map<Pos, int>)
  {
    done == (set id | id in ml) && ShiftedSoFar(m0, t0, d, done, ids, delSet, newObjPos)
  }

  /** One round of the loop: a box seen before is skipped, a new one is
      shifted. */
  lemma CollectStep(m0: map<Pos, int>, t0: map<int, seq<Pos>>, d: Dir, ml: seq<int>, id: int, done: set<int>,
                    ids: map<int, seq<Pos>>, delSet: set<Pos>, newObjPos: map<Pos, int>)
    requires Boxes(m0, t0) && id in t0
    requires CollectInv(m0, t0, d, ml, done, ids, delSet, newObjPos)
    ensures id in done ==> CollectInv(m0, t0, d, ml + [id], done, ids, delSet, newObjPos)
    ensures id !in done ==> (id in ids && |ids[id]| == 2 &&
      var p1, p2 := ids[id][0], ids[id][1];
      CollectInv(m0, t0, d, ml + [id], done + {id}, ids[id := [Add(p1, Delta(d)), Add(p2, Delta(d))]], delSet + {p1, p2},
                 newObjPos[Add(p1, Delta(d)) := id][Add(p2, Delta(d)) := id]))
  {
    assert (set x | x in ml + [id]) == (set x | x in ml) + {id};
    if id !in done {
      ShiftStep(m0, t0, d, done, id, ids, delSet, newObjPos);
    }
  }

  /** One round of the loop over the moved boxes. */
  lemma ShiftStep(m0: map<Pos, int>, t0: map<int, seq<Pos>>, d: Dir, P: set<int>, id: int,
                  ids: map<int, seq<Pos>>, delSet: set<Pos>, newObjPos: map<Pos, int>)
    requires Boxes(m0, t0) && id in t0 && id !in P
    requires ShiftedSoFar(m0, t0, d, P, ids, delSet, newObjPos)
    ensures id in ids && |ids[id]| == 2
    ensures var p1, p2 := ids[id][0], ids[id][1];
      ShiftedSoFar(m0, t0, d, P + {id}, ids[id := [Add(p1, Delta(d)), Add(p2, Delta(d))]], delSet + {p1, p2},
                   newObjPos[Add(p1, Delta(d)) := id][Add(p2, Delta(d)) := id])
  {
    ShiftOneBox(m0, t0, P, id, d);
    NewCellsStep(m0, t0, P, id, d, newObjPos);
  }

  /** The deletion loop: every cell of delSet is a key (no KeyError) and
      is removed. */
  method DeleteCells(objs: map<Pos, int>, delSet: set<Pos>) returns (objs': map<Pos, int>)
    requires delSet <= objs.Keys
    ensures objs' == objs - delSet
  {
    objs' := objs;
    var dels := delSet;
    while dels != {}
      invariant dels <= delSet
      invariant objs' == objs - (delSet - dels)
      decreases |dels|
    {
      var p :| p in dels;
      assert p in objs';
      assert objs - (delSet - (dels - {p})) == (objs - (delSet - dels)) - {p};
      objs' := objs' - {p};
      dels := dels - {p};
    }
    assert delSet - dels == delSet;
  }

  /** Shifting one more box: id_to_pos, the deleted cells and the new cells
      each grow by that box. */
  lemma ShiftOneBox(m0: map<Pos, int>, t0: map<int, seq<Pos>>, P: set<int>, id: int, d: Dir)
    requires Boxes(m0, t0) && id in t0 && id !in P
    ensures ShiftIds(t0, P + {id}, d) == ShiftIds(t0, P, d)[id := [Add(t0[id][0], Delta(d)), Add(t0[id][1], Delta(d))]]
    ensures MovedCells(m0, P + {id}) == MovedCells(m0, P) + {t0[id][0], t0[id][1]}
    ensures t0[id] == ShiftIds(t0, P, d)[id]
  {
    forall q | q in m0 && m0[q] == id
      ensures q == t0[id][0] || q == t0[id][1]
    {
    }
  }

  /** object_dict with the old cells deleted and the new cells merged in
      is the shifted dictionary. */
  lemma MergeShifted(m0: map<Pos, int>, moved: set<int>, d: Dir, delSet: set<Pos>, newObjPos: map<Pos, int>)
    requires delSet == MovedCells(m0, moved)
    requires forall p :: p in newObjPos <==> Sub(p, Delta(d)) in MovedCells(m0, moved)
    requires forall p :: p in newObjPos ==> newObjPos[p] == m0[Sub(p, Delta(d))]
    ensures (m0 - delSet) + newObjPos == ShiftObjs(m0, moved, d)
  {
    var moved' := MovedCells(m0, moved);
    forall p
      ensures p in (m0 - delSet) + newObjPos <==> p in ShiftObjs(m0, moved, d)
    {
      ShiftedMember(moved', d, p);
    }
  }

  /** The new cells after shifting one more box: its two cells moved
      along d, mapped to it. */
  lemma NewCellsStep(m0: map<Pos, int>, t0: map<int, seq<Pos>>, P: set<int>, id: int, d: Dir, newObjPos: map<Pos, int>)
    requires Boxes(m0, t0) && id in t0 && id !in P
    requires forall p :: p in newObjPos <==> Sub(p, Delta(d)) in MovedCells(m0, P)
    requires forall p :: p in newObjPos ==> newObjPos[p] == m0[Sub(p, Delta(d))]
    ensures var n := newObjPos[Add(t0[id][0], Delta(d)) := id][Add(t0[id][1], Delta(d)) := id];
      (forall p :: p in n <==> Sub(p, Delta(d)) in MovedCells(m0, P + {id})) &&
      (forall p :: p in n ==> n[p] == m0[Sub(p, Delta(d))])
  {
    ShiftOneBox(m0, t0, P, id, d);
    assert Sub(Add(t0[id][0], Delta(d)), Delta(d)) == t0[id][0];
    assert Sub(Add(t0[id][1], Delta(d)), Delta(d)) == t0[id][1];
  }

  // ---------------------------------------------------------------------
  // Building id_to_pos

  /** A dictionary given by its items in insertion order has no key twice. */
  predicate DistinctKeys(items: seq<(Pos, int)>)
  {
    forall i, j :: 0 <= i < j < |items| ==> items[i].0 != items[j].0
  }

  /** The dictionary the items spell; a later item wins. */
  function ItemsMap(items: seq<(Pos, int)>): (m: map<Pos, int>)
    ensures m.Keys == set x | x in items :: x.0
    ensures DistinctKeys(items) ==> forall x :: x in items ==> m[x.0] == x.1
  {
    if items == [] then map[]
    else ItemsMap(items[..|items| - 1])[items[|items| - 1].0 := items[|items| - 1].1]
  }

  /** The cells the items give box id, in insertion order. */
  function IdsOf(items: seq<(Pos, int)>, id: int): seq<Pos>
  {
    if items == [] then []
    else IdsOf(items[..|items| - 1], id) + (if items[|items| - 1].1 == id then [items[|items| - 1].0] else [])
  }

  /** A cell is listed under id exactly when the pair is an item. */
  lemma {:induction false} IdsOfMember(items: seq<(Pos, int)>, id: int, p: Pos)
    ensures p in IdsOf(items, id) <==> (p, id) in items
  {
    if items != [] {
      var init := items[..|items| - 1];
      IdsOfMember(init, id, p);
      assert items == init + [items[|items| - 1]];
    }
  }

  /** The grouping loop of LargeMaze.__init__: each cell appended to the
      list of its box. */
  method GroupById(items: seq<(Pos, int)>) returns (g: map<int, seq<Pos>>)
    ensures forall id :: id in g <==> IdsOf(items, id) != []
    ensures forall id :: id in g ==> g[id] == IdsOf(items, id)
  {
    g := map[];
    for k := 0 to |items|
      invariant forall id :: id in g <==> IdsOf(items[..k], id) != []
      invariant forall id :: id in g ==> g[id] == IdsOf(items[..k], id)
    {
      var (pos, id) := items[k];
      assert items[..k + 1][..k] == items[..k];
      var poses := if id in g then g[id] else [];
      g := g[id := poses + [pos]];
    }
    assert items[..|items|] == items;
  }

  /** With distinct keys no cell is listed twice under a box. */
  lemma {:induction false} IdsOfDistinct(items: seq<(Pos, int)>, id: int)
    requires DistinctKeys(items)
    ensures forall i, j :: 0 <= i < j < |IdsOf(items, id)| ==> IdsOf(items, id)[i] != IdsOf(items, id)[j]
  {
    if items != [] {
      var init, last := items[..|items| - 1], items[|items| - 1];
      IdsOfDistinct(init, id);
      if last.1 == id {
        IdsOfMember(init, id, last.0);
      }
    }
  }

  /** The cells listed under id are exactly the keys mapped to id. */
  lemma IdsOfMeaning(items: seq<(Pos, int)>, id: int, p: Pos)
    requires DistinctKeys(items)
    ensures p in IdsOf(items, id) <==> p in ItemsMap(items) && ItemsMap(items)[p] == id
  {
    IdsOfMember(items, id, p);
    if p in ItemsMap(items) {
      var x :| x in items && x.0 == p;
      assert x == (p, ItemsMap(items)[p]);
    }
  }

  /** A dictionary whose every box has two cells gives consistent
      dictionaries once grouped. */
  lemma GroupedBoxes(items: seq<(Pos, int)>, g: map<int, seq<Pos>>)
    requires DistinctKeys(items)
    requires forall id :: id in g <==> IdsOf(items, id) != []
    requires forall id :: id in g ==> g[id] == IdsOf(items, id) && |g[id]| == 2
    ensures Boxes(ItemsMap(items), g)
  {
    forall id | id in g
      ensures GroupedBox(ItemsMap(items), g, id)
    {
      GroupedBoxOf(items, g, id);
    }
    forall p | p in ItemsMap(items)
      ensures ItemsMap(items)[p] in g
      ensures p == g[ItemsMap(items)[p]][0] || p == g[ItemsMap(items)[p]][1]
    {
      IdsOfMeaning(items, ItemsMap(items)[p], p);
      GroupedCell(items, g, p);
    }
  }

  /** One box of Boxes: two distinct cells, both mapped back to it. */
  predicate GroupedBox(m: map<Pos, int>, g: map<int, seq<Pos>>, id: int)
  {
    id in g && |g[id]| == 2 && g[id][0] != g[id][1] &&
    g[id][0] in m && m[g[id][0]] == id && g[id][1] in m && m[g[id][1]] == id
  }

  lemma GroupedBoxOf(items: seq<(Pos, int)>, g: map<int, seq<Pos>>, id: int)
    requires DistinctKeys(items) && id in g
    requires g[id] == IdsOf(items, id) && |g[id]| == 2
    ensures GroupedBox(ItemsMap(items), g, id)
  {
    IdsOfDistinct(items, id);
    IdsOfMeaning(items, id, g[id][0]);
    IdsOfMeaning(items, id, g[id][1]);
  }

  lemma GroupedCell(items: seq<(Pos, int)>, g: map<int, seq<Pos>>, p: Pos)
    requires DistinctKeys(items) && p in ItemsMap(items)
    requires var id := ItemsMap(items)[p]; id in g && g[id] == IdsOf(items, id) && |g[id]| == 2
    ensures var id := ItemsMap(items)[p]; p == g[id][0] || p == g[id][1]
  {
    var id := ItemsMap(items)[p];
    IdsOfMeaning(items, id, p);
    TwoCells(g[id], p);
  }

  lemma TwoCells(c: seq<Pos>, p: Pos)
    requires |c| == 2 && p in c
    ensures p == c[0] || p == c[1]
  {
    assert c == [c[0], c[1]];
  }

  // ---------------------------------------------------------------------
  // to_large_maze

  /** Cell k (0 or 1) of the wide pair that replaces cell o. */
  function Widen(o: Pos, k: int): Pos { (o.0, 2 * o.1 + k) }

  /** The narrow cell a wide cell comes from. */
  function Narrowed(q: Pos): Pos { (q.0, q.1 / 2) }

  lemma NarrowWiden(o: Pos, k: int)
    requires 0 <= k < 2
    ensures Narrowed(Widen(o, k)) == o && Widen(o, k).1 % 2 == k
  {
    DivModOf(2 * o.1 + k, o.1, k, 2);
  }

  /** Every cell of a set replaced by its two wide cells. */
  function WideSet(cells: set<Pos>): set<Pos>
  {
    (set o | o in cells :: Widen(o, 0)) + (set o | o in cells :: Widen(o, 1))
  }

  /** A wide cell belongs to the widened set exactly when the narrow cell
      it comes from belongs to the set. */
  lemma WideSetMember(cells: set<Pos>, q: Pos)
    ensures q in WideSet(cells) <==> Narrowed(q) in cells
  {
    NarrowWiden(Narrowed(q), q.1 % 2);
    assert q == Widen(Narrowed(q), q.1 % 2);
    if q in WideSet(cells) {
      var o, k :| o in cells && 0 <= k < 2 && q == Widen(o, k);
      NarrowWiden(o, k);
    }
  }

  /** The wall loop of to_large_maze. */
  method WidenSet(cells: set<Pos>) returns (w: set<Pos>)
    ensures w == WideSet(cells)
  {
    w := {};
    var rest := cells;
    while rest != {}
      invariant rest <= cells
      invariant w == WideSet(cells - rest)
      decreases |rest|
    {
      var o :| o in rest;
      assert WideSet(cells - (rest - {o})) == WideSet(cells - rest) + {Widen(o, 0), Widen(o, 1)};
      w := w + {Widen(o, 0), Widen(o, 1)};
      rest := rest - {o};
    }
  }

  /** No position listed twice. */
  predicate Distinct(order: seq<Pos>)
  {
    forall i, j :: 0 <= i < j < |order| ==> order[i] != order[j]
  }

  /** The items to_large_maze puts into object_dict when it enumerates the
      boxes in the given order: box i covers the two wide cells of
      order[i]. */
  function WideItems(order: seq<Pos>): (items: seq<(Pos, int)>)
    ensures |items| == 2 * |order|
  {
    if order == [] then []
    else
      var n := |order| - 1;
      WideItems(order[..n]) + [(Widen(order[n], 0), n), (Widen(order[n], 1), n)]
  }

  /** id_to_pos as to_large_maze leaves it: box i holds the two wide cells
      of order[i]. */
  function WideIds(order: seq<Pos>): map<int, seq<Pos>>
  {
    map id | 0 <= id < |order| :: [Widen(order[id], 0), Widen(order[id], 1)]
  }

  /** to_large_maze as a function, for the boxes enumerated in order. */
  function Widened(s: Narrow, order: seq<Pos>): Wide
  {
    Wide(Widen(s.sub, 0), ItemsMap(WideItems(order)), WideIds(order), WideSet(s.walls))
  }

  lemma IdsOfSnoc(items: seq<(Pos, int)>, x: (Pos, int), id: int)
    ensures IdsOf(items + [x], id) == IdsOf(items, id) + (if x.1 == id then [x.0] else [])
  {
    assert (items + [x])[..|items|] == items;
  }

  /** Grouping the wide items by box gives each box its two cells, left
      first. */
  lemma {:induction false} WideItemsIds(order: seq<Pos>, id: int)
    ensures IdsOf(WideItems(order), id) == if 0 <= id < |order| then [Widen(order[id], 0), Widen(order[id], 1)] else []
  {
    if order != [] {
      var n := |order| - 1;
      var w := WideItems(order[..n]);
      var a, b := (Widen(order[n], 0), n), (Widen(order[n], 1), n);
      WideItemsIds(order[..n], id);
      assert WideItems(order) == (w + [a]) + [b];
      IdsOfSnoc(w + [a], b, id);
      IdsOfSnoc(w, a, id);
    }
  }

  /** Two wide cells coincide only when they come from the same cell and
      are the same half. */
  lemma WidenInjective(o: Pos, k: int, o': Pos, k': int)
    requires 0 <= k < 2 && 0 <= k' < 2 && Widen(o, k) == Widen(o', k')
    ensures o == o' && k == k'
  {
    NarrowWiden(o, k);
    NarrowWiden(o', k');
  }

  /** Box i of the enumeration gives items 2i and 2i + 1. */
  lemma {:induction false} WideItemsAt(order: seq<Pos>, i: int)
    requires 0 <= i < |order|
    ensures WideItems(order)[2 * i] == (Widen(order[i], 0), i)
    ensures WideItems(order)[2 * i + 1] == (Widen(order[i], 1), i)
  {
    var n := |order| - 1;
    if i < n {
      WideItemsAt(order[..n], i);
    }
  }

  /** Each item of WideItems comes from one box and one half: item i is
      half k of box a, where i == 2a + k. */
  lemma {:induction false} WideItem(order: seq<Pos>, i: int) returns (a: int, k: int)
    requires 0 <= i < 2 * |order|
    ensures 0 <= a < |order| && 0 <= k < 2 && i == 2 * a + k
    ensures WideItems(order)[i] == (Widen(order[a], k), a)
  {
    var n := |order| - 1;
    if i < 2 * n {
      a, k := WideItem(order[..n], i);
    } else {
      a, k := n, i - 2 * n;
    }
  }

  /** Distinct narrow boxes give distinct wide cells. */
  lemma WideItemsDistinct(order: seq<Pos>)
    requires Distinct(order)
    ensures DistinctKeys(WideItems(order))
  {
    var items := WideItems(order);
    forall i, j | 0 <= i < j < |items|
      ensures items[i].0 != items[j].0
    {
      var a, k := WideItem(order, i);
      var a', k' := WideItem(order, j);
      if items[i].0 == items[j].0 {
        WidenInjective(order[a], k, order[a'], k');
      }
    }
  }

  /** The wide cells are exactly the widened boxes. */
  lemma WideItemsCover(order: seq<Pos>, objects: set<Pos>)
    requires forall o :: o in order <==> o in objects
    ensures ItemsMap(WideItems(order)).Keys == WideSet(objects)
  {
    var items := WideItems(order);
    forall q | q in ItemsMap(items)
      ensures q in WideSet(objects)
    {
      var x :| x in items && x.0 == q;
      var i :| 0 <= i < |items| && items[i] == x;
      var a, k := WideItem(order, i);
      WideSetMember(objects, q);
      NarrowWiden(order[a], k);
    }
    forall q | q in WideSet(objects)
      ensures q in ItemsMap(items)
    {
      WideSetMember(objects, q);
      var a :| 0 <= a < |order| && order[a] == Narrowed(q);
      NarrowWiden(Narrowed(q), q.1 % 2);
      assert q == Widen(order[a], q.1 % 2);
      WideItemsAt(order, a);
      assert items[2 * a + q.1 % 2].0 == q;
    }
  }

  /** id_to_pos built from the wide items is WideIds. */
  lemma GroupedWideIds(order: seq<Pos>, g: map<int, seq<Pos>>)
    requires forall id :: id in g <==> IdsOf(WideItems(order), id) != []
    requires forall id :: id in g ==> g[id] == IdsOf(WideItems(order), id)
    ensures g == WideIds(order)
  {
    forall id | id in g
      ensures id in WideIds(order) && g[id] == WideIds(order)[id]
    {
      WideItemsIds(order, id);
    }
    forall id | id in WideIds(order)
      ensures id in g
    {
      WideItemsIds(order, id);
    }
  }

  /** The widened dictionaries are consistent. */
  lemma WidenedBoxes(order: seq<Pos>)
    requires Distinct(order)
    ensures Boxes(ItemsMap(WideItems(order)), WideIds(order))
  {
    var items, g := WideItems(order), WideIds(order);
    WideItemsDistinct(order);
    forall id | IdsOf(items, id) != []
      ensures id in g
    {
      WideItemsIds(order, id);
    }
    forall id | id in g
      ensures IdsOf(items, id) != [] && g[id] == IdsOf(items, id) && |g[id]| == 2
    {
      WideItemsIds(order, id);
    }
    GroupedBoxes(items, g);
  }

  /** Every box's second cell is just right of its first. */
  predicate Horizontal(ids: map<int, seq<Pos>>)
  {
    forall id :: id in ids ==> |ids[id]| == 2 && ids[id][1] == Add(ids[id][0], (0, 1))
  }

  lemma WideIdsHorizontal(order: seq<Pos>)
    ensures Horizontal(WideIds(order))
  {
    forall id | id in WideIds(order)
      ensures WideIds(order)[id][1] == Add(WideIds(order)[id][0], (0, 1))
    {
      assert WideIds(order)[id] == [Widen(order[id], 0), Widen(order[id], 1)];
    }
  }

  /** to_large_maze turns a well-formed narrow warehouse into a well-formed
      wide one, each box a horizontal pair over the cells of one narrow
      box. */
  lemma WidenedValid(s: Narrow, order: seq<Pos>)
    requires NarrowValid(s)
    requires Distinct(order) && forall o :: o in order <==> o in s.objects
    ensures var w := Widened(s, order);
      WideValid(w) && Horizontal(w.ids) && w.objs.Keys == WideSet(s.objects)
  {
    var w := Widened(s, order);
    WideIdsHorizontal(order);
    WidenedBoxes(order);
    WideItemsCover(order, s.objects);
    forall q | q in w.objs
      ensures q !in w.walls
    {
      WideSetMember(s.objects, q);
      WideSetMember(s.walls, q);
    }
    NarrowWiden(s.sub, 0);
    WideSetMember(s.objects, w.sub);
    WideSetMember(s.walls, w.sub);
  }

  /** The enumeration loop of to_large_maze: the boxes taken in set order,
      box i giving the items of its two wide cells. */
  method EnumerateBoxes(objects: set<Pos>) returns (items: seq<(Pos, int)>, ghost order: seq<Pos>)
    ensures items == WideItems(order)
    ensures Distinct(order) && forall o :: o in order <==> o in objects
  {
    items := [];
    var rest := objects;
    var i := 0;
    order := [];
    while rest != {}
      invariant rest <= objects
      invariant i == |order| && items == WideItems(order)
      invariant Distinct(order) && forall o :: o in order <==> o in objects - rest
      decreases |rest|
    {
      var o :| o in rest;
      assert (order + [o])[..i] == order;
      assert o !in order;
      items := items + [(Widen(o, 0), i), (Widen(o, 1), i)];
      order := order + [o];
      i := i + 1;
      rest := rest - {o};
    }
  }

  /** to_large_maze: the robot's column doubles, each wall becomes two, and
      the boxes, enumerated in set order, become pairs numbered from 0. */
  method ToLargeMaze(maze: Maze) returns (lm: LargeMaze, ghost order: seq<Pos>)
    ensures fresh(lm)
    ensures Distinct(order) && forall o :: o in order <==> o in maze.objects
    ensures lm.State() == Widened(maze.State(), order)
  {
    var items;
    items, order := EnumerateBoxes(maze.objects);
    var wallSet := WidenSet(maze.walls);
    lm := new LargeMaze(Widen(maze.sub, 0), items, wallSet);
    GroupedWideIds(order, lm.idToPos);
  }

  /** LargeMaze.move keeps every box a horizontal pair. */
  lemma WideMoveHorizontal(s: Wide, d: Dir)
    requires WideValid(s) && Horizontal(s.ids)
    ensures Horizontal(WideMove(s, d).ids)
  {
  }

  // ---------------------------------------------------------------------
  // execute_move_str and pos_score on the wide warehouse

  /** execute_move_str on the wide warehouse, as a function. */
  ghost function WideRun(s: Wide, moves: string): Wide
  {
    if moves == [] then s
    else
      var s' := WideRun(s, moves[..|moves| - 1]);
      match CharDir(moves[|moves| - 1])
      case Some(d) => WideMove(s', d)
      case None => s'
  }

  /** Characters other than ^ < > v change nothing. */
  lemma {:induction false} WideRunIgnores(s: Wide, moves: string)
    ensures WideRun(s, moves) == WideRun(s, MovesOnly(moves))
  {
    if moves != [] {
      var init, c := moves[..|moves| - 1], moves[|moves| - 1];
      WideRunIgnores(s, init);
      if CharDir(c).Some? {
        var m := MovesOnly(init) + [c];
        assert MovesOnly(moves) == m;
        assert m[..|m| - 1] == MovesOnly(init) && m[|m| - 1] == c;
        assert WideRun(s, m) == WideMove(WideRun(s, MovesOnly(init)), CharDir(c).value);
      } else {
        assert MovesOnly(moves) == MovesOnly(init);
      }
    }
  }

  /** A whole run keeps the wide warehouse well formed, its walls, its
      boxes and their horizontal shape. */
  lemma {:induction false} WideRunKeeps(s: Wide, moves: string)
    requires WideValid(s)
    ensures WideValid(WideRun(s, moves))
    ensures WideRun(s, moves).walls == s.walls && WideRun(s, moves).ids.Keys == s.ids.Keys
    ensures Horizontal(s.ids) ==> Horizontal(WideRun(s, moves).ids)
  {
    if moves != [] {
      WideRunKeeps(s, moves[..|moves| - 1]);
      var s' := WideRun(s, moves[..|moves| - 1]);
      if CharDir(moves[|moves| - 1]).Some? {
        WideMoveKeeps(s', CharDir(moves[|moves| - 1]).value);
        if Horizontal(s.ids) {
          WideMoveHorizontal(s', CharDir(moves[|moves| - 1]).value);
        }
      }
    }
  }

  /** execute_move_str on a LargeMaze. */
  method ExecuteMoveStrWide(maze: LargeMaze, moves: string)
    requires WideValid(maze.State())
    modifies maze
    ensures maze.State() == WideRun(old(maze.State()), moves)
  {
    for k := 0 to |moves|
      invariant maze.State() == WideRun(old(maze.State()), moves[..k])
    {
      WideRunKeeps(old(maze.State()), moves[..k]);
      assert moves[..k + 1][..k] == moves[..k];
      match moves[k]
      case '^' => maze.Move(Up);
      case '<' => maze.Move(Left);
      case '>' => maze.Move(Right);
      case 'v' => maze.Move(Down);
      case _ =>
    }
    assert moves[..|moves|] == moves;
  }

  /** The first cell of every box among the items of id_to_pos: what
      object_loc_list lists. */
  function FirstCells(items: set<(int, seq<Pos>)>): set<Pos>
  {
    set x | x in items && |x.1| > 0 :: x.1[0]
  }

  /** With consistent dictionaries, no two boxes share a first cell. */
  lemma FirstCellsRemove(objs: map<Pos, int>, ids: map<int, seq<Pos>>, rest: set<(int, seq<Pos>)>, x: (int, seq<Pos>))
    requires Boxes(objs, ids) && rest <= ids.Items && x in rest
    ensures |x.1| > 0 && FirstCells(rest - {x}) == FirstCells(rest) - {x.1[0]}
  {
    var a := x.0;
    assert a in ids && ids[a] == x.1;
    assert |ids[a]| == 2;
    forall y | y in rest - {x}
      ensures |y.1| > 0 && y.1[0] != x.1[0]
    {
      var b := y.0;
      assert b in ids && ids[b] == y.1;
      assert |ids[b]| == 2;
    }
  }

  /** pos_score on a LargeMaze: the sum of the coordinates of the first
      cell of every box, the boxes taken in dictionary order. */
  method PosScoreWide(maze: LargeMaze) returns (score: int)
    requires Boxes(maze.objectDict, maze.idToPos)
    ensures score == SetScore(FirstCells(maze.idToPos.Items))
  {
    score := 0;
    var rest := maze.idToPos.Items;
    while rest != {}
      invariant rest <= maze.idToPos.Items
      invariant score + SetScore(FirstCells(rest)) == SetScore(FirstCells(maze.idToPos.Items))
      decreases |rest|
    {
      var x :| x in rest;
      FirstCellsRemove(maze.objectDict, maze.idToPos, rest, x);
      SetScoreRemove(FirstCells(rest), x.1[0]);
      score := score + Score(x.1[0]);
      rest := rest - {x};
    }
  }
}

=== FILE: day16.dfy ===
/** Day 16: reindeer maze. A reindeer stands on a cell facing one of four
    directions; turning a quarter either way costs 1000, stepping forward
    onto a cell that is no wall costs 1. A uniform-cost search finds the
    target, the parent chain it records gives the cost back, and a second
    search gathers the cells of the goal-reaching paths it meets. */
module Day16 {
  import opened Common

  /** An orientation: an index into DIRS. */
  type Rot = r: int | 0 <= r < 4

  /** A search state: position and orientation. */
  datatype State = State(pos: Pos, rot: Rot)

  /** DIRS as (row, column) steps: east, south, west, north (the source's
      1j is one column, 1 is one row). */
  function Dir(r: Rot): (d: Pos)
    ensures IsUnit(d)
  {
    if r == 0 then (0, 1) else if r == 1 then (1, 0) else if r == 2 then (0, -1) else (-1, 0)
  }

  /** The maze: the target cell and the walls. */
  datatype Maze = Maze(target: Pos, walls: set<Pos>)

  /** The moves of the maze as a relation: a quarter turn either way in
      place, or one step forward onto a cell that is no wall. */
  predicate Step(m: Maze, s: State, t: State)
    ensures Step(m, s, t) ==> t != s
  {
    (t.pos == s.pos && (t.rot == (s.rot + 1) % 4 || t.rot == (s.rot + 3) % 4)) ||
    (t == State(Add(s.pos, Dir(s.rot)), s.rot) && t.pos !in m.walls)
  }

  /** What a move costs: 1000 for a turn, 1 for a step. */
  function Weight(s: State, t: State): nat
  {
    if s.pos == t.pos then 1000 else 1
  }

  /** Along a move, a turn costs 1000 and keeps the cell, a step costs 1 and
      keeps the heading. */
  lemma StepWeight(m: Maze, s: State, t: State)
    requires Step(m, s, t)
    ensures Weight(s, t) == 1000 <==> t.rot != s.rot
    ensures Weight(s, t) == 1 <==> t.pos == Add(s.pos, Dir(s.rot))
  {
  }

  /** Maze.moves: exactly the moves of Step, each with its weight. Python's
      (r - 1) % 4 is Dafny's Euclidean %, 3 for r = 0. */
  function Moves(m: Maze, s: State): (ms: seq<(State, nat)>)
    ensures forall e :: e in ms ==> Step(m, s, e.0) && e.1 == Weight(s, e.0)
    ensures forall t :: Step(m, s, t) ==> exists e :: e in ms && e.0 == t
    ensures s.pos !in m.walls ==> forall e :: e in ms ==> e.0.pos !in m.walls
  {
    var ahead := Add(s.pos, Dir(s.rot));
    [(State(s.pos, (s.rot + 1) % 4), 1000), (State(s.pos, (s.rot - 1) % 4), 1000)]
    + (if ahead !in m.walls then [(State(ahead, s.rot), 1)] else [])
  }

  /** Maze.finished: the position is the target, whatever the orientation. */
  predicate Finished(m: Maze, s: State): (f: bool)
    ensures f <==> s.pos == m.target
  {
    s.pos.0 == m.target.0 && s.pos.1 == m.target.1
  }

  // ---------------------------------------------------------------------
  // search

  /** A heap entry of search: a state, the cost it was reached with, and
      the state it was reached from (None for the start). */
  datatype Node = Node(state: State, cost: nat, parent: Option<State>)

  /** n is a cheapest entry of the heap under cost: what heappop returns,
      the heap's entries being ordered by cost alone. */
  predicate Least<T>(heap: multiset<T>, cost: T -> nat, n: T)
  {
    n in heap && forall k :: k in heap ==> cost(n) <= cost(k)
  }

  /** A non-empty heap has a cheapest entry. */
  lemma HeapHasMin<T>(heap: multiset<T>, cost: T -> nat)
    requires heap != multiset{}
    ensures exists n :: Least(heap, cost, n)
    decreases |heap|
  {
    var x :| x in heap;
    var rest := heap - multiset{x};
    if rest == multiset{} {
      assert heap == multiset{x};
      assert Least(heap, cost, x);
    } else {
      HeapHasMin(rest, cost);
      var y :| Least(rest, cost, y);
      if cost(x) < cost(y) {
        assert Least(heap, cost, x);
      } else {
        assert Least(heap, cost, y);
      }
    }
  }

  /** The order of search's heap: Node.__lt__ compares costs. */
  function NodeCost(n: Node): nat
  {
    n.cost
  }

  /** n is a cheapest node of search's heap. */
  predicate IsMin(heap: multiset<Node>, n: Node)
  {
    Least(heap, NodeCost, n)
  }

  /** The nodes pushed for the moves ms of a state reached at cost. */
  function Children(ms: seq<(State, nat)>, cost: nat, parent: State): multiset<Node>
  {
    if ms == [] then multiset{}
    else Children(ms[..|ms| - 1], cost, parent) + multiset{Node(ms[|ms| - 1].0, ms[|ms| - 1].1 + cost, Some(parent))}
  }

  /** Each pushed node is one of the moves, at the cost so far plus its
      weight. */
  lemma {:induction false} ChildrenMember(ms: seq<(State, nat)>, cost: nat, parent: State, n: Node)
    requires n in Children(ms, cost, parent)
    ensures exists e :: e in ms && n == Node(e.0, e.1 + cost, Some(parent))
  {
    var init := ms[..|ms| - 1];
    if n in Children(init, cost, parent) {
      ChildrenMember(init, cost, parent, n);
      var e :| e in init && n == Node(e.0, e.1 + cost, Some(parent));
      assert e in ms;
    } else {
      assert ms[|ms| - 1] in ms;
    }
  }

  /** Every move has its node. */
  lemma {:induction false} ChildrenCover(ms: seq<(State, nat)>, cost: nat, parent: State, e: (State, nat))
    requires e in ms
    ensures Node(e.0, e.1 + cost, Some(parent)) in Children(ms, cost, parent)
  {
    var init := ms[..|ms| - 1];
    if e != ms[|ms| - 1] {
      assert ms == init + [ms[|ms| - 1]];
      assert e in init;
      ChildrenCover(init, cost, parent, e);
    }
  }

  /** The walls close off the box of rows by cols cells: every border cell
      is a wall. */
  predicate Enclosed(walls: set<Pos>, rows: int, cols: int)
  {
    forall r, c :: 0 <= r < rows && 0 <= c < cols && (r == 0 || r == rows - 1 || c == 0 || c == cols - 1) ==>
      (r, c) in walls
  }

  /** A cell of the box that is no wall. */
  predicate Open(walls: set<Pos>, rows: int, cols: int, p: Pos)
  {
    InBox(p, rows, cols) && p !in walls
  }

  /** Every state inside the box. */
  function BoxStates(rows: int, cols: int): set<State>
  {
    set r, c, k: Rot | 0 <= r < rows && 0 <= c < cols :: State((r, c), k)
  }

  /** In an enclosed maze a move from an open cell stays on open cells. */
  lemma StepStaysOpen(m: Maze, rows: int, cols: int, s: State, t: State)
    requires Enclosed(m.walls, rows, cols) && Open(m.walls, rows, cols, s.pos) && Step(m, s, t)
    ensures Open(m.walls, rows, cols, t.pos)
  {
  }

  /** States listed at most once. */
  predicate DistinctStates(order: seq<State>)
  {
    forall i, j :: 0 <= i < j < |order| ==> order[i] != order[j]
  }

  /** The bookkeeping of the finalised states: recorded in path_dict and
      dist alike, listed once each in order, at non-decreasing costs. */
  ghost predicate Book(pd: map<State, Option<State>>, dist: map<State, nat>, order: seq<State>)
  {
    pd.Keys == dist.Keys && (forall s :: s in pd <==> s in order) && DistinctStates(order) &&
    forall i, j :: 0 <= i < j < |order| ==> dist[order[i]] <= dist[order[j]]
  }

  /** One recorded parent link: the state is recorded; the start has no
      parent and cost 0; any other state was reached by one move from its
      recorded parent, at the parent's cost plus the move's weight. */
  predicate Link(m: Maze, start: State, pd: map<State, Option<State>>, dist: map<State, nat>, s: State)
  {
    s in pd && s in dist &&
    (pd[s] == None ==> s == start && dist[s] == 0) &&
    (pd[s].Some? ==> pd[s].value in pd && pd[s].value in dist && Step(m, pd[s].value, s) &&
                     dist[s] == dist[pd[s].value] + Weight(pd[s].value, s))
  }

  /** Every recorded state has a consistent parent link. */
  ghost predicate Parents(m: Maze, start: State, pd: map<State, Option<State>>, dist: map<State, nat>)
  {
    (forall s :: s in pd ==> s in dist) &&
    forall s {:trigger Link(m, start, pd, dist, s)} :: s in pd ==> Link(m, start, pd, dist, s)
  }

  /** A heap node is sound: the start at cost 0, or a move from a
      recorded state at its cost plus the weight. */
  predicate NodeOk(m: Maze, start: State, pd: map<State, Option<State>>, dist: map<State, nat>, n: Node)
  {
    (n.parent == None ==> n.state == start && n.cost == 0) &&
    (n.parent.Some? ==> n.parent.value in pd && n.parent.value in dist && Step(m, n.parent.value, n.state) &&
                        n.cost == dist[n.parent.value] + Weight(n.parent.value, n.state))
  }

  /** The heap: every node is consistent, no cheaper than floor, and on an
      open cell of the box. */
  ghost predicate HeapOk(m: Maze, start: State, rows: int, cols: int, pd: map<State, Option<State>>,
                         dist: map<State, nat>, heap: multiset<Node>, floor: nat)
  {
    forall n :: n in heap ==> NodeOk(m, start, pd, dist, n) && floor <= n.cost && Open(m.walls, rows, cols, n.state.pos)
  }

  /** Every finalised cost is at most floor, the cost last popped. */
  ghost predicate Below(dist: map<State, nat>, floor: nat)
  {
    forall s :: s in dist ==> dist[s] <= floor
  }

  /** Before the first pop the heap holds just the start; afterwards the
      start is recorded, without parent. */
  ghost predicate StartOk(start: State, heap: multiset<Node>, pd: map<State, Option<State>>, order: seq<State>)
  {
    (order == [] ==> heap == multiset{Node(start, 0, None)} && pd == map[]) &&
    (order != [] ==> start in pd && pd[start] == None)
  }

  /** Every recorded state stands on an open cell of the box. */
  ghost predicate OpenKeys(m: Maze, rows: int, cols: int, pd: map<State, Option<State>>)
  {
    forall s :: s in pd ==> Open(m.walls, rows, cols, s.pos)
  }

  /** No finalised state is the goal. */
  ghost predicate NoGoal(m: Maze, pd: map<State, Option<State>>)
  {
    forall s :: s in pd ==> !Finished(m, s)
  }

  /** Some node of the heap is for state t. */
  predicate InHeap(heap: multiset<Node>, t: State)
  {
    exists n :: n in heap && n.state == t
  }

  /** Every move from a finalised state leads to a finalised state or to
      one waiting in the heap. */
  ghost predicate Frontier(m: Maze, heap: multiset<Node>, pd: map<State, Option<State>>)
  {
    forall s, t :: s in pd && Step(m, s, t) ==> t in pd || InHeap(heap, t)
  }

  /** Popping a node whose state is already finalised: the heap loses it
      and the floor rises to its cost. */
  lemma SkipHeap(m: Maze, start: State, rows: int, cols: int, pd: map<State, Option<State>>,
                 dist: map<State, nat>, heap: multiset<Node>, floor: nat, node: Node)
    requires HeapOk(m, start, rows, cols, pd, dist, heap, floor) && Below(dist, floor) && IsMin(heap, node)
    ensures HeapOk(m, start, rows, cols, pd, dist, heap - multiset{node}, node.cost)
    ensures Below(dist, node.cost)
  {
  }

  /** The frontier survives dropping a node whose state is finalised. */
  lemma SkipFrontier(m: Maze, heap: multiset<Node>, pd: map<State, Option<State>>, node: Node)
    requires Frontier(m, heap, pd) && node in heap && node.state in pd
    ensures Frontier(m, heap - multiset{node}, pd)
  {
    var heap' := heap - multiset{node};
    forall s, t | s in pd && Step(m, s, t)
      ensures t in pd || InHeap(heap', t)
    {
      if t !in pd {
        var n :| n in heap && n.state == t;
        assert n != node;
        assert n in heap';
      }
    }
  }

  /** Finalising a new state at the cost just popped keeps the bookkeeping. */
  lemma RecordBook(pd: map<State, Option<State>>, dist: map<State, nat>, order: seq<State>, s: State, p: Option<State>, cost: nat)
    requires Book(pd, dist, order) && Below(dist, cost) && s !in pd
    ensures Book(pd[s := p], dist[s := cost], order + [s]) && Below(dist[s := cost], cost)
  {
    var dist', order' := dist[s := cost], order + [s];
    forall i, j | 0 <= i < j < |order'|
      ensures dist'[order'[i]] <= dist'[order'[j]] && order'[i] != order'[j]
    {
      if j == |order| {
        assert order'[i] in order;
        assert order'[i] in dist;
      } else {
        assert order'[i] == order[i] && order'[j] == order[j];
      }
    }
  }

  /** Finalising the popped node records a consistent parent link, and the
      heap's claims carry over to the larger record. */
  lemma RecordParents(m: Maze, start: State, rows: int, cols: int, pd: map<State, Option<State>>,
                      dist: map<State, nat>, heap: multiset<Node>, floor: nat, node: Node)
    requires Parents(m, start, pd, dist) && HeapOk(m, start, rows, cols, pd, dist, heap, floor)
    requires IsMin(heap, node) && node.state !in pd && node.state !in dist
    ensures Parents(m, start, pd[node.state := node.parent], dist[node.state := node.cost])
    ensures HeapOk(m, start, rows, cols, pd[node.state := node.parent], dist[node.state := node.cost],
                   heap - multiset{node}, node.cost)
  {
    var s := node.state;
    var pd', dist' := pd[s := node.parent], dist[s := node.cost];
    assert NodeOk(m, start, pd, dist, node);
    forall x | x in pd'
      ensures Link(m, start, pd', dist', x)
    {
      if x != s {
        assert Link(m, start, pd, dist, x);
        if pd[x].Some? {
          assert pd[x].value != s;
        }
      }
    }
    forall n | n in heap - multiset{node}
      ensures NodeOk(m, start, pd', dist', n)
    {
      assert NodeOk(m, start, pd, dist, n);
      if n.parent.Some? {
        assert n.parent.value != s;
      }
    }
  }

  /** Pushing the moves of the newly finalised state: the new nodes are
      consistent, no cheaper than it, and on open cells. */
  lemma PushHeap(m: Maze, start: State, rows: int, cols: int, pd: map<State, Option<State>>,
                 dist: map<State, nat>, heap: multiset<Node>, s: State)
    requires Enclosed(m.walls, rows, cols) && Open(m.walls, rows, cols, s.pos)
    requires s in pd && s in dist && HeapOk(m, start, rows, cols, pd, dist, heap, dist[s])
    ensures HeapOk(m, start, rows, cols, pd, dist, heap + Children(Moves(m, s), dist[s], s), dist[s])
  {
    var ms := Moves(m, s);
    var kids := Children(ms, dist[s], s);
    forall n | n in kids
      ensures NodeOk(m, start, pd, dist, n) && dist[s] <= n.cost && Open(m.walls, rows, cols, n.state.pos)
    {
      ChildrenMember(ms, dist[s], s, n);
      var e :| e in ms && n == Node(e.0, e.1 + dist[s], Some(s));
      StepStaysOpen(m, rows, cols, s, n.state);
    }
  }

  /** Popping a new state and pushing its moves restores the frontier. */
  lemma PushFrontier(m: Maze, heap: multiset<Node>, pd: map<State, Option<State>>, node: Node, cost: nat)
    requires Frontier(m, heap, pd) && node in heap && node.state !in pd
    ensures Frontier(m, heap - multiset{node} + Children(Moves(m, node.state), cost, node.state), pd[node.state := node.parent])
  {
    var s := node.state;
    var ms := Moves(m, s);
    var heap' := heap - multiset{node} + Children(ms, cost, s);
    forall x, t | x in pd[s := node.parent] && Step(m, x, t)
      ensures t in pd[s := node.parent] || InHeap(heap', t)
    {
      if x == s {
        var e :| e in ms && e.0 == t;
        ChildrenCover(ms, cost, s, e);
        assert Node(e.0, e.1 + cost, Some(s)) in heap';
      } else if t !in pd && t != s {
        var n :| n in heap && n.state == t;
        assert n != node;
        assert n in heap';
      }
    }
  }

  /** The inner loop of search: push a node for each move, at the cost so
      far plus the move's weight. */
  method PushMoves(heap: multiset<Node>, ms: seq<(State, nat)>, cost: nat, parent: State) returns (heap': multiset<Node>)
    ensures heap' == heap + Children(ms, cost, parent)
  {
    heap' := heap;
    for i := 0 to |ms|
      invariant heap' == heap + Children(ms[..i], cost, parent)
    {
      assert ms[..i + 1][..i] == ms[..i];
      heap' := heap' + multiset{Node(ms[i].0, ms[i].1 + cost, Some(parent))};
    }
    assert ms[..|ms|] == ms;
  }

  /** The invariant of search's loop. */
  ghost predicate SearchInv(m: Maze, start: State, rows: int, cols: int, heap: multiset<Node>,
                            pd: map<State, Option<State>>, dist: map<State, nat>, order: seq<State>, floor: nat, last: State)
  {
    Enclosed(m.walls, rows, cols) &&
    Book(pd, dist, order) && Parents(m, start, pd, dist) &&
    HeapOk(m, start, rows, cols, pd, dist, heap, floor) && Below(dist, floor) &&
    StartOk(start, heap, pd, order) && OpenKeys(m, rows, cols, pd) &&
    NoGoal(m, pd) && Frontier(m, heap, pd) &&
    (order != [] ==> last in pd) &&
    pd.Keys <= BoxStates(rows, cols)
  }

  /** The loop starts with just the start in the heap. */
  lemma SearchInit(m: Maze, start: State, rows: int, cols: int)
    requires Enclosed(m.walls, rows, cols) && Open(m.walls, rows, cols, start.pos)
    ensures SearchInv(m, start, rows, cols, multiset{Node(start, 0, None)}, map[], map[], [], 0, start)
  {
  }

  /** A popped state seen before is skipped. */
  lemma SearchSkip(m: Maze, start: State, rows: int, cols: int, heap: multiset<Node>,
                   pd: map<State, Option<State>>, dist: map<State, nat>, order: seq<State>, floor: nat, last: State, node: Node)
    requires SearchInv(m, start, rows, cols, heap, pd, dist, order, floor, last)
    requires IsMin(heap, node) && node.state in pd
    ensures SearchInv(m, start, rows, cols, heap - multiset{node}, pd, dist, order, node.cost, node.state)
  {
    SkipHeap(m, start, rows, cols, pd, dist, heap, floor, node);
    SkipFrontier(m, heap, pd, node);
  }

  /** After the first finalisation the start is recorded without parent. */
  lemma RecordStart(start: State, heap: multiset<Node>, pd: map<State, Option<State>>, order: seq<State>, node: Node)
    requires StartOk(start, heap, pd, order) && node in heap && node.state !in pd
    requires node.parent == None ==> node.state == start
    ensures StartOk(start, heap - multiset{node}, pd[node.state := node.parent], order + [node.state])
  {
    if order == [] {
      assert node == Node(start, 0, None);
    }
  }

  /** Finalising a state on an open cell keeps the recorded states on open
      cells of the box, and leaves one state fewer of the box to finalise. */
  lemma RecordKeys(m: Maze, rows: int, cols: int, pd: map<State, Option<State>>, s: State, p: Option<State>)
    requires OpenKeys(m, rows, cols, pd) && pd.Keys <= BoxStates(rows, cols)
    requires Open(m.walls, rows, cols, s.pos) && s !in pd
    ensures OpenKeys(m, rows, cols, pd[s := p]) && pd[s := p].Keys <= BoxStates(rows, cols)
    ensures |BoxStates(rows, cols) - pd[s := p].Keys| < |BoxStates(rows, cols) - pd.Keys|
  {
    var (r, c) := s.pos;
    assert s == State((r, c), s.rot);
    assert s in BoxStates(rows, cols);
    assert BoxStates(rows, cols) - pd[s := p].Keys == (BoxStates(rows, cols) - pd.Keys) - {s};
  }

  /** Finalising a goal state ends the search with its outcome. */
  lemma SearchGoal(m: Maze, start: State, rows: int, cols: int, heap: multiset<Node>,
                   pd: map<State, Option<State>>, dist: map<State, nat>, order: seq<State>, floor: nat, last: State, node: Node)
    requires SearchInv(m, start, rows, cols, heap, pd, dist, order, floor, last)
    requires IsMin(heap, node) && node.state !in pd && Finished(m, node.state)
    ensures Book(pd[node.state := node.parent], dist[node.state := node.cost], order + [node.state])
    ensures Parents(m, start, pd[node.state := node.parent], dist[node.state := node.cost])
    ensures start in pd[node.state := node.parent] && pd[node.state := node.parent][start] == None
    ensures forall s :: s in pd[node.state := node.parent] && Finished(m, s) ==> s == node.state
  {
    SkipHeap(m, start, rows, cols, pd, dist, heap, floor, node);
    RecordBook(pd, dist, order, node.state, node.parent, node.cost);
    RecordParents(m, start, rows, cols, pd, dist, heap, floor, node);
    RecordStart(start, heap, pd, order, node);
  }

  /** Finalising a state that is no goal and pushing its moves keeps the
      invariant, with one more state of the box finalised. */
  lemma SearchExpand(m: Maze, start: State, rows: int, cols: int, heap: multiset<Node>,
                     pd: map<State, Option<State>>, dist: map<State, nat>, order: seq<State>, floor: nat, last: State, node: Node)
    requires SearchInv(m, start, rows, cols, heap, pd, dist, order, floor, last)
    requires IsMin(heap, node) && node.state !in pd && !Finished(m, node.state)
    ensures SearchInv(m, start, rows, cols, heap - multiset{node} + Children(Moves(m, node.state), node.cost, node.state),
                      pd[node.state := node.parent], dist[node.state := node.cost], order + [node.state], node.cost, node.state)
    ensures |BoxStates(rows, cols) - pd[node.state := node.parent].Keys| < |BoxStates(rows, cols) - pd.Keys|
  {
    var s := node.state;
    var heap', pd', dist' := heap - multiset{node}, pd[s := node.parent], dist[s := node.cost];
    SkipHeap(m, start, rows, cols, pd, dist, heap, floor, node);
    RecordBook(pd, dist, order, s, node.parent, node.cost);
    RecordParents(m, start, rows, cols, pd, dist, heap, floor, node);
    RecordStart(start, heap, pd, order, node);
    assert dist'[s] == node.cost;
    PushHeap(m, start, rows, cols, pd', dist', heap', s);
    PushFrontier(m, heap, pd, node, node.cost);
    RecordKeys(m, rows, cols, pd, s, node.parent);
  }

  /** An emptied heap ends the search with every move from a finalised
      state leading to a finalised state. */
  lemma SearchExhausted(m: Maze, start: State, rows: int, cols: int,
                        pd: map<State, Option<State>>, dist: map<State, nat>, order: seq<State>, floor: nat, last: State)
    requires SearchInv(m, start, rows, cols, multiset{}, pd, dist, order, floor, last)
    ensures start in pd && pd[start] == None && last in pd
    ensures forall s :: s in pd ==> !Finished(m, s)
    ensures forall s, t :: s in pd && Step(m, s, t) ==> t in pd
  {
  }

  /** search: a uniform-cost search from start. Each popped state not seen
      before is finalised once, with the state it was reached from; the
      search stops at the first finalised goal, and otherwise runs until
      the heap is empty, returning the last popped state either way.
      Termination rests on the walls enclosing a box around the start. */
  method Search(start: State, m: Maze, ghost rows: int, ghost cols: int)
    returns (pathDict: map<State, Option<State>>, last: State, ghost order: seq<State>, ghost dist: map<State, nat>)
    requires Enclosed(m.walls, rows, cols) && Open(m.walls, rows, cols, start.pos)
    ensures Book(pathDict, dist, order) && Parents(m, start, pathDict, dist)
    ensures start in pathDict && pathDict[start] == None
    ensures last in pathDict && forall s :: s in pathDict && Finished(m, s) ==> s == last
    ensures !Finished(m, last) ==> forall s, t :: s in pathDict && Step(m, s, t) ==> t in pathDict
  {
    var heap := multiset{Node(start, 0, None)};
    pathDict, last, order, dist := map[], start, [], map[];
    ghost var floor: nat := 0;
    SearchInit(m, start, rows, cols);
    while heap != multiset{}
      invariant SearchInv(m, start, rows, cols, heap, pathDict, dist, order, floor, last)
      decreases |BoxStates(rows, cols) - pathDict.Keys|, |heap|
    {
      HeapHasMin(heap, NodeCost);
      var node :| Least(heap, NodeCost, node);
      if node.state in pathDict {
        SearchSkip(m, start, rows, cols, heap, pathDict, dist, order, floor, last, node);
        heap, floor, last := heap - multiset{node}, node.cost, node.state;
        continue;
      }
      if Finished(m, node.state) {
        SearchGoal(m, start, rows, cols, heap, pathDict, dist, order, floor, last, node);
        pathDict, dist, order, last := pathDict[node.state := node.parent], dist[node.state := node.cost], order + [node.state], node.state;
        return;
      }
      SearchExpand(m, start, rows, cols, heap, pathDict, dist, order, floor, last, node);
      last := node.state;
      pathDict, dist, order, floor := pathDict[last := node.parent], dist[last := node.cost], order + [last], node.cost;
      heap := PushMoves(heap - multiset{node}, Moves(m, last), node.cost, last);
    }
    SearchExhausted(m, start, rows, cols, pathDict, dist, order, floor, last);
  }

  // ---------------------------------------------------------------------
  // walks and the parent chain

  /** Consecutive states of w are moves of the maze. */
  predicate IsWalk(m: Maze, w: seq<State>)
  {
    forall i :: 0 <= i < |w| - 1 ==> Step(m, w[i], w[i + 1])
  }

  /** What a walk costs: the weights of its moves. */
  function WalkCost(w: seq<State>): nat
  {
    if |w| < 2 then 0 else WalkCost(w[..|w| - 1]) + Weight(w[|w| - 2], w[|w| - 1])
  }

  /** How many moves of a walk change position. */
  function Forwards(w: seq<State>): nat
  {
    if |w| < 2 then 0 else Forwards(w[..|w| - 1]) + (if w[|w| - 2].pos != w[|w| - 1].pos then 1 else 0)
  }

  /** A walk's cost is 1000 per move that keeps the position (a turn) and
      1 per move that changes it. */
  lemma {:induction false} WalkCostSplit(w: seq<State>)
    ensures |w| >= 1 ==> Forwards(w) <= |w| - 1
    ensures |w| >= 1 ==> WalkCost(w) == 1000 * (|w| - 1 - Forwards(w)) + Forwards(w)
  {
    if |w| >= 2 {
      WalkCostSplit(w[..|w| - 1]);
    }
  }

  /** Extending a walk by one move. */
  lemma WalkSnoc(m: Maze, w: seq<State>, t: State)
    requires IsWalk(m, w) && |w| >= 1 && Step(m, w[|w| - 1], t)
    ensures IsWalk(m, w + [t])
  {
  }

  /** The chain of recorded parents from start to s, as a walk. */
  ghost function Chain(m: Maze, start: State, pd: map<State, Option<State>>, dist: map<State, nat>, s: State): (c: seq<State>)
    requires Parents(m, start, pd, dist) && s in pd
    ensures |c| >= 1 && c[0] == start && c[|c| - 1] == s && IsWalk(m, c)
    decreases dist[s]
  {
    assert Link(m, start, pd, dist, s);
    match pd[s]
    case None => [s]
    case Some(p) =>
      var c := Chain(m, start, pd, dist, p);
      WalkSnoc(m, c, s);
      c + [s]
  }

  /** One link of the chain: its cost and its forward moves. */
  lemma ChainLink(m: Maze, start: State, pd: map<State, Option<State>>, dist: map<State, nat>, s: State)
    requires Parents(m, start, pd, dist) && s in pd && pd[s].Some?
    ensures pd[s].value in pd
    ensures WalkCost(Chain(m, start, pd, dist, s)) == WalkCost(Chain(m, start, pd, dist, pd[s].value)) + Weight(pd[s].value, s)
    ensures Forwards(Chain(m, start, pd, dist, s)) ==
            Forwards(Chain(m, start, pd, dist, pd[s].value)) + (if pd[s].value.pos != s.pos then 1 else 0)
  {
    assert Link(m, start, pd, dist, s);
    var c := Chain(m, start, pd, dist, pd[s].value);
    assert Chain(m, start, pd, dist, s) == c + [s];
    assert (c + [s])[..|c|] == c;
  }

  /** The chain's cost is the cost search recorded for its end. */
  lemma {:induction false} ChainCost(m: Maze, start: State, pd: map<State, Option<State>>, dist: map<State, nat>, s: State)
    requires Parents(m, start, pd, dist) && s in pd
    ensures WalkCost(Chain(m, start, pd, dist, s)) == dist[s]
    decreases dist[s]
  {
    assert Link(m, start, pd, dist, s);
    if pd[s].Some? {
      ChainCost(m, start, pd, dist, pd[s].value);
      ChainLink(m, start, pd, dist, s);
    }
  }

  /** calculate_cost: follows the parents from last back to the start,
      adding 1000 for each link that keeps the position and 1 for each that
      moves; that is the cost of the chain, and the cost search recorded. */
  method CalculateCost(last: State, pathDict: map<State, Option<State>>, ghost m: Maze, ghost start: State, ghost dist: map<State, nat>)
    returns (cost: nat)
    requires Parents(m, start, pathDict, dist) && last in pathDict
    ensures cost == WalkCost(Chain(m, start, pathDict, dist, last)) && cost == dist[last]
    ensures var c := Chain(m, start, pathDict, dist, last); cost == 1000 * (|c| - 1 - Forwards(c)) + Forwards(c)
  {
    var cur := last;
    cost := 0;
    while true
      invariant cur in pathDict
      invariant cost + WalkCost(Chain(m, start, pathDict, dist, cur)) == WalkCost(Chain(m, start, pathDict, dist, last))
      decreases dist[cur]
    {
      assert Link(m, start, pathDict, dist, cur);
      var prev := pathDict[cur];
      if prev == None {
        break;
      }
      ChainLink(m, start, pathDict, dist, cur);
      if cur.pos == prev.value.pos {
        cost := cost + 1000;
      } else {
        cost := cost + 1;
      }
      cur := prev.value;
    }
    ChainCost(m, start, pathDict, dist, last);
    WalkCostSplit(Chain(m, start, pathDict, dist, last));
  }

  /** calculate_len: counts the links from last back to the start that
      change position, the forward moves of the chain. */
  method CalculateLen(last: State, pathDict: map<State, Option<State>>, ghost m: Maze, ghost start: State, ghost dist: map<State, nat>)
    returns (plen: nat)
    requires Parents(m, start, pathDict, dist) && last in pathDict
    ensures plen == Forwards(Chain(m, start, pathDict, dist, last))
  {
    var cur := last;
    plen := 0;
    while true
      invariant cur in pathDict
      invariant plen + Forwards(Chain(m, start, pathDict, dist, cur)) == Forwards(Chain(m, start, pathDict, dist, last))
      decreases dist[cur]
    {
      assert Link(m, start, pathDict, dist, cur);
      var prev := pathDict[cur];
      if prev == None {
        break;
      }
      ChainLink(m, start, pathDict, dist, cur);
      if cur.pos != prev.value.pos {
        plen := plen + 1;
      }
      cur := prev.value;
    }
  }

  /** When search ends without reaching the goal, no walk from the start
      reaches it: the finalised states are closed under moves and none is
      the goal. */
  lemma {:induction false} NoGoalReachable(m: Maze, pd: map<State, Option<State>>, w: seq<State>)
    requires forall s, t :: s in pd && Step(m, s, t) ==> t in pd
    requires forall s :: s in pd ==> !Finished(m, s)
    requires IsWalk(m, w) && |w| >= 1 && w[0] in pd
    ensures w[|w| - 1] in pd && !Finished(m, w[|w| - 1])
  {
    if |w| >= 2 {
      var init := w[..|w| - 1];
      assert IsWalk(m, init);
      NoGoalReachable(m, pd, init);
      assert Step(m, w[|w| - 2], w[|w| - 1]);
    }
  }

  // ---------------------------------------------------------------------
  // search_all_paths

  /** A heap entry of search_all_paths: a state, the cost it was reached
      with, and the cells of the path that reached it. The heuristic cost
      is overwritten by cost, so entries are ordered by cost alone. */
  datatype HistNode = HistNode(state: State, cost: nat, hist: set<Pos>)

  /** The order of search_all_paths' heap: HistNode.__lt__ compares hcost,
      which always equals cost. */
  function HistCost(n: HistNode): nat
  {
    n.cost
  }

  /** The cells a walk visits. */
  function Cells(w: seq<State>): set<Pos>
  {
    set s | s in w :: s.pos
  }

  /** Some walk from the start reaches n's state at n's cost through
      exactly n's cells. */
  ghost predicate Traced(m: Maze, start: State, n: HistNode)
  {
    exists w :: IsWalk(m, w) && |w| >= 1 && w[0] == start && w[|w| - 1] == n.state &&
                WalkCost(w) == n.cost && Cells(w) == n.hist
  }

  /** Each node's hist holds the start cell and its own cell. */
  lemma TracedCells(m: Maze, start: State, n: HistNode)
    requires Traced(m, start, n)
    ensures start.pos in n.hist && n.state.pos in n.hist
  {
    var w :| IsWalk(m, w) && |w| >= 1 && w[0] == start && w[|w| - 1] == n.state &&
             WalkCost(w) == n.cost && Cells(w) == n.hist;
    assert w[0] in w && w[|w| - 1] in w;
  }

  /** The start node is traced by the one-state walk. */
  lemma TracedStart(m: Maze, start: State)
    ensures Traced(m, start, HistNode(start, 0, {start.pos}))
  {
    var w := [start];
    assert Cells(w) == {start.pos};
  }

  /** A successor pushed for a move is traced by the walk extended by it. */
  lemma TracedChild(m: Maze, start: State, n: HistNode, e: (State, nat))
    requires Traced(m, start, n) && Step(m, n.state, e.0) && e.1 == Weight(n.state, e.0)
    ensures Traced(m, start, HistNode(e.0, e.1 + n.cost, n.hist + {e.0.pos}))
  {
    var w :| IsWalk(m, w) && |w| >= 1 && w[0] == start && w[|w| - 1] == n.state &&
             WalkCost(w) == n.cost && Cells(w) == n.hist;
    var w' := w + [e.0];
    WalkSnoc(m, w, e.0);
    assert w'[..|w|] == w;
    assert Cells(w') == Cells(w) + {e.0.pos};
  }

  /** One step of search_all_paths: a popped node skipped, expanded or
      found to be a goal, or a successor pushed. */
  datatype Event = Skipped(node: HistNode) | Expanded(node: HistNode) | Reached(node: HistNode) | Pushed(node: HistNode)

  /** The node was popped from the heap. */
  predicate Popped(e: Event)
  {
    !e.Pushed?
  }

  /** The node was popped and not skipped: its cost went into visited_cost. */
  predicate Settled(e: Event)
  {
    e.Expanded? || e.Reached?
  }

  /** upper_cost after the events: the cost of the latest goal popped,
      None (infinity) before any. */
  function Upper(t: seq<Event>): Option<nat>
  {
    if t == [] then None
    else if t[|t| - 1].Reached? then Some(t[|t| - 1].node.cost)
    else Upper(t[..|t| - 1])
  }

  /** visited_cost after the events: each settled node overwrites its
      state's entry; a missing state stands for infinity. */
  function Best(t: seq<Event>): map<State, nat>
  {
    if t == [] then map[]
    else if Settled(t[|t| - 1]) then Best(t[..|t| - 1])[t[|t| - 1].node.state := t[|t| - 1].node.cost]
    else Best(t[..|t| - 1])
  }

  /** in_min_path after the events: the union of the goal nodes' hists. */
  function GoalCells(t: seq<Event>): set<Pos>
  {
    if t == [] then {}
    else if t[|t| - 1].Reached? then GoalCells(t[..|t| - 1]) + t[|t| - 1].node.hist
    else GoalCells(t[..|t| - 1])
  }

  /** Every logged node is traced by a walk. */
  ghost predicate AllTraced(m: Maze, start: State, t: seq<Event>)
  {
    forall i :: 0 <= i < |t| ==> Traced(m, start, t[i].node)
  }

  /** Popped costs never decrease. */
  ghost predicate PopsOrdered(t: seq<Event>)
  {
    forall i, j :: 0 <= i < j < |t| && Popped(t[i]) && Popped(t[j]) ==> t[i].node.cost <= t[j].node.cost
  }

  /** A popped node is skipped when visited_cost holds a smaller cost for
      its state, and settled when it holds none or one at least as large. */
  ghost predicate SkipsJustified(t: seq<Event>)
  {
    (forall j :: 0 <= j < |t| && t[j].Skipped? ==>
       t[j].node.state in Best(t[..j]) && Best(t[..j])[t[j].node.state] < t[j].node.cost) &&
    (forall j :: 0 <= j < |t| && Settled(t[j]) && t[j].node.state in Best(t[..j]) ==>
       t[j].node.cost <= Best(t[..j])[t[j].node.state])
  }

  /** Of the nodes not skipped, the goals are exactly the finished ones. */
  ghost predicate GoalsFinished(m: Maze, t: seq<Event>)
  {
    forall j :: 0 <= j < |t| && Settled(t[j]) ==> (t[j].Reached? <==> Finished(m, t[j].node.state))
  }

  /** No successor costs more than upper_cost at its push. */
  ghost predicate PushesBounded(t: seq<Event>)
  {
    forall j :: 0 <= j < |t| && t[j].Pushed? && Upper(t[..j]).Some? ==> t[j].node.cost <= Upper(t[..j]).value
  }

  /** What the run of search_all_paths promises, event by event. */
  ghost predicate TraceOk(m: Maze, start: State, t: seq<Event>)
  {
    AllTraced(m, start, t) && PopsOrdered(t) && SkipsJustified(t) && GoalsFinished(m, t) && PushesBounded(t)
  }

  /** Every popped cost is at most floor. */
  ghost predicate PopsBelow(t: seq<Event>, floor: nat)
  {
    forall i :: 0 <= i < |t| && Popped(t[i]) ==> t[i].node.cost <= floor
  }

  /** Prefixes of t + [e] short of e are prefixes of t. */
  lemma Prefixes(t: seq<Event>, e: Event)
    ensures (t + [e])[..|t|] == t
    ensures forall j :: 0 <= j < |t| ==> (t + [e])[..j] == t[..j]
  {
    forall j | 0 <= j < |t|
      ensures (t + [e])[..j] == t[..j]
    {
    }
  }

  lemma SnocTraced(m: Maze, start: State, t: seq<Event>, e: Event)
    requires AllTraced(m, start, t) && Traced(m, start, e.node)
    ensures AllTraced(m, start, t + [e])
  {
  }

  lemma SnocOrdered(t: seq<Event>, floor: nat, e: Event)
    requires PopsOrdered(t) && PopsBelow(t, floor) && (Popped(e) ==> floor <= e.node.cost)
    ensures PopsOrdered(t + [e]) && PopsBelow(t + [e], if Popped(e) then e.node.cost else floor)
  {
  }

  lemma SnocSkips(t: seq<Event>, e: Event)
    requires SkipsJustified(t)
    requires e.Skipped? ==> e.node.state in Best(t) && Best(t)[e.node.state] < e.node.cost
    requires Settled(e) && e.node.state in Best(t) ==> e.node.cost <= Best(t)[e.node.state]
    ensures SkipsJustified(t + [e])
  {
    Prefixes(t, e);
  }

  lemma SnocGoals(m: Maze, t: seq<Event>, e: Event)
    requires GoalsFinished(m, t) && (Settled(e) ==> (e.Reached? <==> Finished(m, e.node.state)))
    ensures GoalsFinished(m, t + [e])
  {
  }

  lemma SnocPushes(t: seq<Event>, e: Event)
    requires PushesBounded(t) && (e.Pushed? && Upper(t).Some? ==> e.node.cost <= Upper(t).value)
    ensures PushesBounded(t + [e])
  {
    Prefixes(t, e);
  }

  /** What appending an event does to upper_cost, visited_cost and
      in_min_path. */
  lemma Snoc(t: seq<Event>, e: Event)
    ensures Upper(t + [e]) == if e.Reached? then Some(e.node.cost) else Upper(t)
    ensures Best(t + [e]) == if Settled(e) then Best(t)[e.node.state := e.node.cost] else Best(t)
    ensures GoalCells(t + [e]) == if e.Reached? then GoalCells(t) + e.node.hist else GoalCells(t)
  {
    assert (t + [e])[..|t|] == t;
  }

  /** The heap: every node traced, none cheaper than floor. */
  ghost predicate HistHeapOk(m: Maze, start: State, heap: multiset<HistNode>, floor: nat)
  {
    forall n :: n in heap ==> Traced(m, start, n) && floor <= n.cost
  }

  /** The invariant of search_all_paths' loop. */
  ghost predicate AllInv(m: Maze, start: State, heap: multiset<HistNode>, t: seq<Event>, floor: nat,
                         visitedCost: map<State, nat>, upper: Option<nat>, inMinPath: set<Pos>)
  {
    TraceOk(m, start, t) && PopsBelow(t, floor) && HistHeapOk(m, start, heap, floor) &&
    visitedCost == Best(t) && upper == Upper(t) && inMinPath == GoalCells(t)
  }

  /** The cheapest node of a sound heap is traced, at least floor, and
      no node left behind it is cheaper. */
  lemma PopHist(m: Maze, start: State, heap: multiset<HistNode>, floor: nat, n: HistNode)
    requires HistHeapOk(m, start, heap, floor) && Least(heap, HistCost, n)
    ensures Traced(m, start, n) && floor <= n.cost
    ensures HistHeapOk(m, start, heap - multiset{n}, n.cost)
  {
    forall k | k in heap - multiset{n}
      ensures Traced(m, start, k) && n.cost <= k.cost
    {
      assert HistCost(n) <= HistCost(k);
    }
  }

  /** Popping a cheapest node and logging what happens to it: skipped,
      settled as a goal, or settled and expanded. */
  lemma PopStep(m: Maze, start: State, heap: multiset<HistNode>, t: seq<Event>, floor: nat,
                visitedCost: map<State, nat>, upper: Option<nat>, inMinPath: set<Pos>, e: Event)
    requires AllInv(m, start, heap, t, floor, visitedCost, upper, inMinPath)
    requires Popped(e) && Least(heap, HistCost, e.node) && (Settled(e) ==> (e.Reached? <==> Finished(m, e.node.state)))
    requires e.Skipped? <==> e.node.state in visitedCost && visitedCost[e.node.state] < e.node.cost
    ensures TraceOk(m, start, t + [e]) && PopsBelow(t + [e], e.node.cost)
    ensures HistHeapOk(m, start, heap - multiset{e.node}, e.node.cost)
    ensures Upper(t + [e]) == if e.Reached? then Some(e.node.cost) else Upper(t)
    ensures Best(t + [e]) == if Settled(e) then Best(t)[e.node.state := e.node.cost] else Best(t)
    ensures GoalCells(t + [e]) == if e.Reached? then GoalCells(t) + e.node.hist else GoalCells(t)
  {
    PopHist(m, start, heap, floor, e.node);
    SnocTraced(m, start, t, e);
    SnocOrdered(t, floor, e);
    SnocSkips(t, e);
    SnocGoals(m, t, e);
    SnocPushes(t, e);
    Snoc(t, e);
  }

  /** A traced node at least floor keeps a sound heap sound. */
  lemma PushHist(m: Maze, start: State, heap: multiset<HistNode>, floor: nat, n: HistNode)
    requires HistHeapOk(m, start, heap, floor) && Traced(m, start, n) && floor <= n.cost
    ensures HistHeapOk(m, start, heap + multiset{n}, floor)
  {
  }

  /** Pushing a successor within upper_cost and logging it. */
  lemma PushStep(m: Maze, start: State, heap: multiset<HistNode>, t: seq<Event>, floor: nat,
                 visitedCost: map<State, nat>, upper: Option<nat>, inMinPath: set<Pos>, n: HistNode)
    requires AllInv(m, start, heap, t, floor, visitedCost, upper, inMinPath)
    requires Traced(m, start, n) && floor <= n.cost && (upper.Some? ==> n.cost <= upper.value)
    ensures AllInv(m, start, heap + multiset{n}, t + [Pushed(n)], floor, visitedCost, upper, inMinPath)
  {
    PushHist(m, start, heap, floor, n);
    SnocTraced(m, start, t, Pushed(n));
    SnocOrdered(t, floor, Pushed(n));
    SnocSkips(t, Pushed(n));
    SnocGoals(m, t, Pushed(n));
    SnocPushes(t, Pushed(n));
    Snoc(t, Pushed(n));
  }

  /** A popped node whose state visited_cost holds at a smaller cost is
      skipped. */
  lemma SkipStep(m: Maze, start: State, heap: multiset<HistNode>, t: seq<Event>, floor: nat,
                 visitedCost: map<State, nat>, upper: Option<nat>, inMinPath: set<Pos>, node: HistNode)
    requires AllInv(m, start, heap, t, floor, visitedCost, upper, inMinPath) && Least(heap, HistCost, node)
    requires node.state in visitedCost && visitedCost[node.state] < node.cost
    ensures AllInv(m, start, heap - multiset{node}, t + [Skipped(node)], node.cost, visitedCost, upper, inMinPath)
  {
    PopStep(m, start, heap, t, floor, visitedCost, upper, inMinPath, Skipped(node));
  }

  /** A popped goal node sets upper_cost and adds its cells. */
  lemma ReachStep(m: Maze, start: State, heap: multiset<HistNode>, t: seq<Event>, floor: nat,
                  visitedCost: map<State, nat>, upper: Option<nat>, inMinPath: set<Pos>, node: HistNode)
    requires AllInv(m, start, heap, t, floor, visitedCost, upper, inMinPath) && Least(heap, HistCost, node)
    requires !(node.state in visitedCost && visitedCost[node.state] < node.cost) && Finished(m, node.state)
    ensures AllInv(m, start, heap - multiset{node}, t + [Reached(node)], node.cost,
                   visitedCost[node.state := node.cost], Some(node.cost), inMinPath + node.hist)
  {
    PopStep(m, start, heap, t, floor, visitedCost, upper, inMinPath, Reached(node));
  }

  /** A popped node that is no goal is settled, ready for its successors. */
  lemma ExpandStep(m: Maze, start: State, heap: multiset<HistNode>, t: seq<Event>, floor: nat,
                   visitedCost: map<State, nat>, upper: Option<nat>, inMinPath: set<Pos>, node: HistNode)
    requires AllInv(m, start, heap, t, floor, visitedCost, upper, inMinPath) && Least(heap, HistCost, node)
    requires !(node.state in visitedCost && visitedCost[node.state] < node.cost) && !Finished(m, node.state)
    ensures AllInv(m, start, heap - multiset{node}, t + [Expanded(node)], node.cost,
                   visitedCost[node.state := node.cost], upper, inMinPath)
    ensures Traced(m, start, node)
  {
    PopStep(m, start, heap, t, floor, visitedCost, upper, inMinPath, Expanded(node));
  }

  /** The successors search_all_paths pushes for node, in move order: one
      per move costing at most upper_cost, carrying node's cells and its
      own. */
  function Kids(node: HistNode, ms: seq<(State, nat)>, upper: Option<nat>): (ks: seq<HistNode>)
    ensures |ks| <= |ms|
  {
    if ms == [] then []
    else
      var e := ms[|ms| - 1];
      var cost := e.1 + node.cost;
      Kids(node, ms[..|ms| - 1], upper) +
      (if upper.Some? && cost > upper.value then [] else [HistNode(e.0, cost, node.hist + {e.0.pos})])
  }

  /** Every pushed successor costs at most upper_cost and no less than its
      parent, and carries the parent's cells and its own. */
  lemma {:induction false} KidsWithin(node: HistNode, ms: seq<(State, nat)>, upper: Option<nat>)
    ensures forall k :: k in Kids(node, ms, upper) ==> upper.Some? ==> k.cost <= upper.value
    ensures forall k :: k in Kids(node, ms, upper) ==> node.cost <= k.cost && k.hist == node.hist + {k.state.pos}
  {
    if ms != [] {
      KidsWithin(node, ms[..|ms| - 1], upper);
    }
  }

  /** The push events of a list of successors, in order. */
  function PushEvents(ks: seq<HistNode>): (es: seq<Event>)
    ensures |es| == |ks| && forall i :: 0 <= i < |ks| ==> es[i] == Pushed(ks[i])
  {
    seq(|ks|, i requires 0 <= i < |ks| => Pushed(ks[i]))
  }

  /** One more move adds its successor, if within upper_cost, at the end. */
  lemma KidsSnoc(node: HistNode, ms: seq<(State, nat)>, upper: Option<nat>, i: nat)
    requires i < |ms|
    ensures var cost := ms[i].1 + node.cost;
      Kids(node, ms[..i + 1], upper) ==
      Kids(node, ms[..i], upper) + (if upper.Some? && cost > upper.value then [] else [HistNode(ms[i].0, cost, node.hist + {ms[i].0.pos})])
  {
    assert ms[..i + 1][..i] == ms[..i];
  }

  /** Pushing one more successor extends the heap and the log by it. */
  lemma PushBook(heap: multiset<HistNode>, t: seq<Event>, ks: seq<HistNode>, k: HistNode)
    ensures heap + multiset(ks) + multiset{k} == heap + multiset(ks + [k])
    ensures t + PushEvents(ks) + [Pushed(k)] == t + PushEvents(ks + [k])
  {
    assert PushEvents(ks + [k]) == PushEvents(ks) + [Pushed(k)];
  }

  /** The loop state of search_all_paths between rounds: the heap,
      visited_cost (a missing state standing for infinity) and upper_cost
      (None for infinity). */
  datatype Cfg = Cfg(heap: multiset<HistNode>, visited: map<State, nat>, upper: Option<nat>)

  /** Before the loop: the start node alone in the heap, nothing visited. */
  function Init(start: State): (c: Cfg)
    ensures |c.heap| == 1 && c.visited == map[] && c.upper == None
  {
    Cfg(multiset{HistNode(start, 0, {start.pos})}, map[], None)
  }

  /** The first round of a log, read from loop state c: it pops a cheapest
      node of the heap, which is skipped when visited_cost holds a smaller
      cost for its state, a goal when its state is finished, and otherwise
      expanded, its successors within upper_cost pushed right after it in
      move order. The round's length and the state after it, or None when
      the log does not start with such a round. */
  ghost function RoundOf(m: Maze, c: Cfg, t: seq<Event>): (r: Option<(nat, Cfg)>)
    requires t != []
    ensures r.Some? ==> 1 <= r.value.0 <= |t|
  {
    var e := t[0];
    var n := e.node;
    if !Popped(e) || !Least(c.heap, HistCost, n) then None
    else
      var rest := c.heap - multiset{n};
      if n.state in c.visited && c.visited[n.state] < n.cost then
        if e.Skipped? then Some((1, c.(heap := rest))) else None
      else if e.Skipped? then None
      else if Finished(m, n.state) then
        if e.Reached? then Some((1, Cfg(rest, c.visited[n.state := n.cost], Some(n.cost)))) else None
      else if !e.Expanded? then None
      else
        var kids := Kids(n, Moves(m, n.state), c.upper);
        if |t| < 1 + |kids| || t[1..1 + |kids|] != PushEvents(kids) then None
        else Some((1 + |kids|, Cfg(rest + multiset(kids), c.visited[n.state := n.cost], c.upper)))
  }

  /** Replays a log round by round from c: the loop state after it, or
      None when it is not a run of search_all_paths' loop. */
  ghost function Replay(m: Maze, c: Cfg, t: seq<Event>): Option<Cfg>
    decreases |t|
  {
    if t == [] then Some(c)
    else match RoundOf(m, c, t)
      case None => None
      case Some(r) => Replay(m, r.1, t[r.0..])
  }

  /** A round depends only on its own events. */
  lemma RoundOfPrefix(m: Maze, c: Cfg, t: seq<Event>, u: seq<Event>)
    requires t != [] && RoundOf(m, c, t).Some?
    ensures RoundOf(m, c, t + u) == RoundOf(m, c, t)
  {
    var k := RoundOf(m, c, t).value.0;
    assert (t + u)[0] == t[0];
    assert (t + u)[1..k] == t[1..k];
  }

  /** A log that replays can be continued from where it ends. */
  lemma {:induction false} ReplayAppend(m: Maze, c: Cfg, t: seq<Event>, u: seq<Event>)
    requires Replay(m, c, t).Some?
    ensures Replay(m, c, t + u) == Replay(m, Replay(m, c, t).value, u)
    decreases |t|
  {
    if t == [] {
      assert t + u == u;
    } else {
      var r := RoundOf(m, c, t).value;
      RoundOfPrefix(m, c, t, u);
      assert (t + u)[r.0..] == t[r.0..] + u;
      ReplayAppend(m, r.1, t[r.0..], u);
    }
  }

  /** A round that pops a node already settled more cheaply. */
  lemma SkipRound(m: Maze, c: Cfg, n: HistNode)
    requires Least(c.heap, HistCost, n) && n.state in c.visited && c.visited[n.state] < n.cost
    ensures Replay(m, c, [Skipped(n)]) == Some(c.(heap := c.heap - multiset{n}))
  {
    assert RoundOf(m, c, [Skipped(n)]) == Some((1, c.(heap := c.heap - multiset{n})));
    assert [Skipped(n)][1..] == [];
  }

  /** A round that pops a goal node. */
  lemma ReachRound(m: Maze, c: Cfg, n: HistNode)
    requires Least(c.heap, HistCost, n) && !(n.state in c.visited && c.visited[n.state] < n.cost)
    requires Finished(m, n.state)
    ensures Replay(m, c, [Reached(n)]) ==
      Some(Cfg(c.heap - multiset{n}, c.visited[n.state := n.cost], Some(n.cost)))
  {
    assert RoundOf(m, c, [Reached(n)]) == Some((1, Cfg(c.heap - multiset{n}, c.visited[n.state := n.cost], Some(n.cost))));
    assert [Reached(n)][1..] == [];
  }

  /** A round that pops and expands a node: the node, then its pushes. */
  lemma ExpandRound(m: Maze, c: Cfg, n: HistNode)
    requires Least(c.heap, HistCost, n) && !(n.state in c.visited && c.visited[n.state] < n.cost)
    requires !Finished(m, n.state)
    ensures var kids := Kids(n, Moves(m, n.state), c.upper);
      Replay(m, c, [Expanded(n)] + PushEvents(kids)) ==
      Some(Cfg(c.heap - multiset{n} + multiset(kids), c.visited[n.state := n.cost], c.upper))
  {
    var kids := Kids(n, Moves(m, n.state), c.upper);
    var t := [Expanded(n)] + PushEvents(kids);
    assert t[0] == Expanded(n);
    assert t[1..1 + |kids|] == PushEvents(kids);
    assert RoundOf(m, c, t) == Some((1 + |kids|, Cfg(c.heap - multiset{n} + multiset(kids), c.visited[n.state := n.cost], c.upper)));
    assert t[1 + |kids|..] == [];
  }

  lemma AppendAssoc<T>(a: seq<T>, b: seq<T>, c: seq<T>)
    ensures a + b + c == a + (b + c)
  {
  }

  /** Pushing the successor of node for move i, within upper_cost, keeps the
      loop invariant. */
  lemma PushChild(m: Maze, start: State, node: HistNode, ms: seq<(State, nat)>, i: nat,
                  heap: multiset<HistNode>, t: seq<Event>, visitedCost: map<State, nat>, upper: Option<nat>, inMinPath: set<Pos>)
    requires AllInv(m, start, heap, t, node.cost, visitedCost, upper, inMinPath)
    requires Traced(m, start, node) && ms == Moves(m, node.state) && i < |ms|
    requires upper.Some? ==> ms[i].1 + node.cost <= upper.value
    ensures var child := HistNode(ms[i].0, ms[i].1 + node.cost, node.hist + {ms[i].0.pos});
      AllInv(m, start, heap + multiset{child}, t + [Pushed(child)], node.cost, visitedCost, upper, inMinPath)
  {
    var child := HistNode(ms[i].0, ms[i].1 + node.cost, node.hist + {ms[i].0.pos});
    assert ms[i] in ms;
    TracedChild(m, start, node, ms[i]);
    PushStep(m, start, heap, t, node.cost, visitedCost, upper, inMinPath, child);
  }

  /** The inner loop of search_all_paths: push each successor of node that
      costs at most upper_cost, with node's cells and its own. */
  method PushSuccessors(ghost m: Maze, ghost start: State, node: HistNode, ms: seq<(State, nat)>, upper: Option<nat>,
                        heap: multiset<HistNode>, ghost t: seq<Event>, ghost visitedCost: map<State, nat>, ghost inMinPath: set<Pos>)
    returns (heap': multiset<HistNode>, ghost t': seq<Event>)
    requires AllInv(m, start, heap, t, node.cost, visitedCost, upper, inMinPath)
    requires Traced(m, start, node) && ms == Moves(m, node.state)
    ensures heap' == heap + multiset(Kids(node, ms, upper))
    ensures t' == t + PushEvents(Kids(node, ms, upper))
    ensures AllInv(m, start, heap', t', node.cost, visitedCost, upper, inMinPath)
  {
    heap', t' := heap, t;
    ghost var ks: seq<HistNode> := [];
    for i := 0 to |ms|
      invariant ks == Kids(node, ms[..i], upper)
      invariant heap' == heap + multiset(ks) && t' == t + PushEvents(ks)
      invariant AllInv(m, start, heap', t', node.cost, visitedCost, upper, inMinPath)
    {
      if !(upper.Some? && ms[i].1 + node.cost > upper.value) {
        PushChild(m, start, node, ms, i, heap', t', visitedCost, upper, inMinPath);
      }
      heap', t', ks := PushOne(node, ms, i, upper, heap, t, heap', t', ks);
    }
    assert ms[..|ms|] == ms;
  }

  /** One iteration of the inner loop: move i's successor is pushed unless
      it costs more than upper_cost. */
  method PushOne(node: HistNode, ms: seq<(State, nat)>, i: nat, upper: Option<nat>,
                 ghost heap0: multiset<HistNode>, ghost t0: seq<Event>,
                 heap: multiset<HistNode>, ghost t: seq<Event>, ghost ks: seq<HistNode>)
    returns (heap': multiset<HistNode>, ghost t': seq<Event>, ghost ks': seq<HistNode>)
    requires i < |ms| && ks == Kids(node, ms[..i], upper)
    requires heap == heap0 + multiset(ks) && t == t0 + PushEvents(ks)
    ensures ks' == Kids(node, ms[..i + 1], upper)
    ensures heap' == heap0 + multiset(ks') && t' == t0 + PushEvents(ks')
    ensures var cost := ms[i].1 + node.cost;
      if upper.Some? && cost > upper.value then heap' == heap && t' == t
      else var child := HistNode(ms[i].0, cost, node.hist + {ms[i].0.pos});
        heap' == heap + multiset{child} && t' == t + [Pushed(child)]
  {
    KidsSnoc(node, ms, upper, i);
    var nextCost := ms[i].1 + node.cost;
    if upper.Some? && nextCost > upper.value {
      assert ks + [] == ks;
      return heap, t, ks;
    }
    var child := HistNode(ms[i].0, nextCost, node.hist + {ms[i].0.pos});
    PushBook(heap0, t0, ks, child);
    heap', t', ks' := heap + multiset{child}, t + [Pushed(child)], ks + [child];
  }

  /** search_all_paths: a uniform-cost search that keeps, with every node,
      the cells of its path. A node whose state was already settled at a
      smaller cost is skipped; one at equal or smaller cost is settled again.
      A goal node sets upper_cost to its cost and adds its cells to the
      answer; any other node pushes its successors that cost at most
      upper_cost. The answer is the number of cells gathered once the heap
      is empty; the loop has no bound of its own, so the model runs at most
      fuel rounds and answers None when they run out. The ghost trace logs
      every event. */
  method SearchAllPaths(start: State, m: Maze, fuel: nat) returns (r: Option<nat>, ghost trace: seq<Event>)
    ensures Replay(m, Init(start), trace).Some?
    ensures r.Some? <==> Replay(m, Init(start), trace).value.heap == multiset{}
    ensures TraceOk(m, start, trace)
    ensures r.Some? ==> r.value == |GoalCells(trace)|
  {
    var heap := multiset{HistNode(start, 0, {start.pos})};
    var visitedCost: map<State, nat> := map[];
    var upper: Option<nat> := None;
    var inMinPath: set<Pos> := {};
    trace := [];
    ghost var floor: nat := 0;
    TracedStart(m, start);
    var rounds := 0;
    while rounds < fuel && heap != multiset{}
      invariant AllInv(m, start, heap, trace, floor, visitedCost, upper, inMinPath)
      invariant Replay(m, Init(start), trace) == Some(Cfg(heap, visitedCost, upper))
      decreases fuel - rounds
    {
      rounds := rounds + 1;
      HeapHasMin(heap, HistCost);
      var node :| Least(heap, HistCost, node);
      var state := node.state;
      ghost var before := trace;
      if state in visitedCost && visitedCost[state] < node.cost {
        SkipStep(m, start, heap, trace, floor, visitedCost, upper, inMinPath, node);
        SkipRound(m, Cfg(heap, visitedCost, upper), node);
        ReplayAppend(m, Init(start), trace, [Skipped(node)]);
        heap, trace, floor := heap - multiset{node}, trace + [Skipped(node)], node.cost;
        continue;
      }
      if Finished(m, state) {
        ReachStep(m, start, heap, trace, floor, visitedCost, upper, inMinPath, node);
        ReachRound(m, Cfg(heap, visitedCost, upper), node);
        ReplayAppend(m, Init(start), trace, [Reached(node)]);
        heap, trace, floor := heap - multiset{node}, trace + [Reached(node)], node.cost;
        visitedCost, upper, inMinPath := visitedCost[state := node.cost], Some(node.cost), inMinPath + node.hist;
        continue;
      }
      ExpandStep(m, start, heap, trace, floor, visitedCost, upper, inMinPath, node);
      ExpandRound(m, Cfg(heap, visitedCost, upper), node);
      ghost var kids := Kids(node, Moves(m, state), upper);
      ReplayAppend(m, Init(start), trace, [Expanded(node)] + PushEvents(kids));
      heap, trace, floor := heap - multiset{node}, trace + [Expanded(node)], node.cost;
      visitedCost := visitedCost[state := node.cost];
      heap, trace := PushSuccessors(m, start, node, Moves(m, state), upper, heap, trace, visitedCost, inMinPath);
      AppendAssoc(before, [Expanded(node)], PushEvents(kids));
    }
    if heap == multiset{} {
      r := Some(|inMinPath|);
    } else {
      r := None;
    }
  }

  /** visited_cost never increases: once a state has an entry, later
      entries for it are no larger. */
  lemma {:induction false} VisitedNeverIncreases(t: seq<Event>, i: nat, j: nat, s: State)
    requires SkipsJustified(t) && i <= j <= |t| && s in Best(t[..i])
    ensures s in Best(t[..j]) && Best(t[..j])[s] <= Best(t[..i])[s]
    decreases j
  {
    if j > i {
      VisitedNeverIncreases(t, i, j - 1, s);
      var e := t[j - 1];
      assert t[..j] == t[..j - 1] + [e];
      Snoc(t[..j - 1], e);
      if Settled(e) && e.node.state == s {
        assert e.node.cost <= Best(t[..j - 1])[s];
      }
    }
  }

  /** Each cell counted in in_min_path comes from some goal node's hist. */
  lemma {:induction false} GoalCellsSource(t: seq<Event>, p: Pos) returns (i: nat)
    requires p in GoalCells(t)
    ensures i < |t| && t[i].Reached? && p in t[i].node.hist
  {
    var init := t[..|t| - 1];
    if t[|t| - 1].Reached? && p in t[|t| - 1].node.hist {
      i := |t| - 1;
    } else {
      i := GoalCellsSource(init, p);
      assert t[i] == init[i];
    }
  }

  /** Every goal node's hist is counted in in_min_path. */
  lemma {:induction false} GoalCellsCover(t: seq<Event>, i: nat)
    requires i < |t| && t[i].Reached?
    ensures t[i].node.hist <= GoalCells(t)
  {
    var init := t[..|t| - 1];
    if i < |t| - 1 {
      assert t[i] == init[i];
      GoalCellsCover(init, i);
    }
  }

  /** The cells search_all_paths counts are exactly cells of walks from
      the start that end on the target: each counted cell lies on such a
      walk, and the cells of every goal node's walk are all counted. */
  lemma CountedCells(m: Maze, start: State, t: seq<Event>, p: Pos)
    requires TraceOk(m, start, t) && p in GoalCells(t)
    ensures exists w :: IsWalk(m, w) && |w| >= 1 && w[0] == start && Finished(m, w[|w| - 1]) && p in Cells(w)
  {
    var i := GoalCellsSource(t, p);
    var n := t[i].node;
    assert Traced(m, start, n);
    var w :| IsWalk(m, w) && |w| >= 1 && w[0] == start && w[|w| - 1] == n.state &&
             WalkCost(w) == n.cost && Cells(w) == n.hist;
    assert Finished(m, w[|w| - 1]);
  }
}

=== FILE: day2.dfy ===
/** Day 2: reactor reports. A level (report) is safe when it is monotone and
    every step has a size in [minJump, maxJump]; with one error allowed it
    may also become safe by dropping a single entry. The brute-force checker
    tries every removal; the fast checker walks the level once with two
    indices and, at the first bad step, retries with either end skipped. */
module Day2 {
  import opened Common

  function Abs(x: int): int { if x < 0 then -x else x }

  /** next_idx: the index after idx, jumping over the skipped one. */
  function NextIdx(idx: int, skip: Option<int>): (n: int)
    ensures n == idx + 1 || n == idx + 2
    ensures n == idx + 2 <==> skip == Some(idx + 1)
    ensures skip != Some(n)
  {
    if skip == Some(idx + 1) then idx + 2 else idx + 1
  }

  /** The i-th difference b - a of zip(level, level[1:]). */
  function Diff(level: seq<int>, i: nat): int
    requires i + 1 < |level|
  {
    level[i + 1] - level[i]
  }

  /** level[:i] + level[i + 1:] */
  function RemoveAt(level: seq<int>, i: nat): (r: seq<int>)
    requires i < |level|
    ensures |r| == |level| - 1
    ensures forall j :: 0 <= j < i ==> r[j] == level[j]
    ensures forall j :: i <= j < |r| ==> r[j] == level[j + 1]
  {
    level[..i] + level[i + 1..]
  }

  // ---------------------------------------------------------------------
  // Brute force: level_is_safe
  // ---------------------------------------------------------------------

  /** All differences >= 0 or all <= 0, and every |difference| in bounds. */
  predicate StrictSafe(level: seq<int>, minJump: int, maxJump: int)
  {
    ((forall i :: 0 <= i < |level| - 1 ==> Diff(level, i) >= 0)
     || (forall i :: 0 <= i < |level| - 1 ==> Diff(level, i) <= 0))
    && (forall i :: 0 <= i < |level| - 1 ==> minJump <= Abs(Diff(level, i)) <= maxJump)
  }

  /** The `for i in range(len(level))` search, from index `from` on. */
  function AnyRemovalSafe(level: seq<int>, minJump: int, maxJump: int, from: nat): (r: bool)
    requires from <= |level|
    ensures r <==> exists j :: from <= j < |level| && StrictSafe(RemoveAt(level, j), minJump, maxJump)
    decreases |level| - from
  {
    if from == |level| then false
    else (StrictSafe(RemoveAt(level, from), minJump, maxJump)
          || AnyRemovalSafe(level, minJump, maxJump, from + 1))
  }

  /** level_is_safe: safe as it stands, or (when an error is allowed) safe
      after removing exactly one entry. */
  function LevelIsSafe(level: seq<int>, minJump: int, maxJump: int, errorAllowed: bool): (r: bool)
    ensures r <==> (StrictSafe(level, minJump, maxJump)
                    || (errorAllowed && exists i :: 0 <= i < |level| && StrictSafe(RemoveAt(level, i), minJump, maxJump)))
    ensures StrictSafe(level, minJump, maxJump) ==> r
  {
    if StrictSafe(level, minJump, maxJump) then true
    else if errorAllowed then AnyRemovalSafe(level, minJump, maxJump, 0)
    else false
  }

  // ---------------------------------------------------------------------
  // Fast single pass: fast_level_is_safe
  // ---------------------------------------------------------------------

  /** The step test of the fast walk: strictly increasing and in bounds. */
  predicate StepOk(d: int, minJump: int, maxJump: int)
  {
    d > 0 && minJump <= d <= maxJump
  }

  predicate Increasing(s: seq<int>, minJump: int, maxJump: int)
  {
    forall i :: 0 <= i < |s| - 1 ==> StepOk(Diff(s, i), minJump, maxJump)
  }

  /** The entries the walk visits: the level without the skipped index. */
  function Kept(level: seq<int>, skip: Option<int>): seq<int>
  {
    if skip.Some? && 0 <= skip.value < |level| then RemoveAt(level, skip.value) else level
  }

  /** The level index of the p-th visited entry. */
  function Orig(skip: Option<int>, p: int): int
  {
    if skip.Some? && 0 <= skip.value <= p then p + 1 else p
  }

  lemma KeptIndex(level: seq<int>, skip: Option<int>, p: nat)
    ensures Orig(skip, p) < |level| <==> p < |Kept(level, skip)|
    ensures p < |Kept(level, skip)| ==> Kept(level, skip)[p] == level[Orig(skip, p)]
  {
  }

  lemma NextIdxOrig(skip: Option<int>, p: int)
    requires p >= -1
    ensures NextIdx(Orig(skip, p), skip) == Orig(skip, p + 1)
  {
  }

  /** The first bad step at or after `from`, if any. */
  function FirstBad(s: seq<int>, minJump: int, maxJump: int, from: nat): (r: Option<nat>)
    ensures r.None? <==> forall i :: from <= i < |s| - 1 ==> StepOk(Diff(s, i), minJump, maxJump)
    ensures r.Some? ==> from <= r.value < |s| - 1
    ensures r.Some? ==> !StepOk(Diff(s, r.value), minJump, maxJump)
    ensures r.Some? ==> forall i :: from <= i < r.value ==> StepOk(Diff(s, i), minJump, maxJump)
    decreases |s| - from
  {
    if from + 1 >= |s| then None
    else if !StepOk(Diff(s, from), minJump, maxJump) then Some(from)
    else FirstBad(s, minJump, maxJump, from + 1)
  }

  /** What fast_level_is_safe decides: true when no visited step is bad;
      otherwise, with an error allowed, the second entry of the first bad
      step is skipped and the walk retried, then the first entry. */
  function FastVerdict(level: seq<int>, minJump: int, maxJump: int, skip: Option<int>, errorAllowed: bool): (r: bool)
    ensures Increasing(Kept(level, skip), minJump, maxJump) ==> r
    ensures !errorAllowed ==> (r <==> Increasing(Kept(level, skip), minJump, maxJump))
  {
    match FirstBad(Kept(level, skip), minJump, maxJump, 0)
    case None => true
    case Some(p) => errorAllowed && Rescued(level, minJump, maxJump, skip, p)
  }

  /** After the first bad step p, dropping one of the two entries of that step
      leaves an increasing level. */
  predicate Rescued(level: seq<int>, minJump: int, maxJump: int, skip: Option<int>, p: nat)
  {
    Increasing(Kept(level, Some(Orig(skip, p + 1))), minJump, maxJump)
    || Increasing(Kept(level, Some(Orig(skip, p))), minJump, maxJump)
  }

  lemma FirstBadAdvance(s: seq<int>, minJump: int, maxJump: int, p: nat)
    requires p + 1 < |s| && StepOk(Diff(s, p), minJump, maxJump)
    ensures FirstBad(s, minJump, maxJump, p) == FirstBad(s, minJump, maxJump, p + 1)
  {
  }

  /** Without an error allowance the walk accepts exactly the levels whose
      visited entries increase in bounds. */
  lemma FastVerdictNoError(level: seq<int>, minJump: int, maxJump: int, skip: Option<int>)
    ensures FastVerdict(level, minJump, maxJump, skip, false) <==> Increasing(Kept(level, skip), minJump, maxJump)
  {
  }

  lemma FastVerdictAtBadStep(level: seq<int>, minJump: int, maxJump: int, skip: Option<int>, errorAllowed: bool, p: nat)
    requires FirstBad(Kept(level, skip), minJump, maxJump, 0) == Some(p)
    ensures FastVerdict(level, minJump, maxJump, skip, errorAllowed) ==
      (errorAllowed && Rescued(level, minJump, maxJump, skip, p))
  {
  }

  method FastLevelIsSafe(level: seq<int>, minJump: int, maxJump: int, skip: Option<int>, errorAllowed: bool)
    returns (safe: bool)
    ensures safe == FastVerdict(level, minJump, maxJump, skip, errorAllowed)
    ensures !errorAllowed ==> (safe <==> Increasing(Kept(level, skip), minJump, maxJump))
    decreases if errorAllowed then 2 else 0
  {
    FastVerdictNoError(level, minJump, maxJump, skip);
    ghost var k := Kept(level, skip);
    var idx1 := NextIdx(-1, skip);
    var idx2 := NextIdx(idx1, skip);
    NextIdxOrig(skip, -1);
    NextIdxOrig(skip, 0);
    ghost var p: nat := 0;
    while idx2 < |level| && StepOk(level[idx2] - level[idx1], minJump, maxJump)
      invariant idx1 == Orig(skip, p) && idx2 == Orig(skip, p + 1)
      invariant FirstBad(k, minJump, maxJump, 0) == FirstBad(k, minJump, maxJump, p)
      decreases |level| - idx2
    {
      KeptDiff(level, skip, p);
      FirstBadAdvance(k, minJump, maxJump, p);
      NextIdxOrig(skip, p);
      NextIdxOrig(skip, p + 1);
      idx1, idx2 := NextIdx(idx1, skip), NextIdx(idx2, skip);
      p := p + 1;
    }
    if idx2 >= |level| {
      KeptIndex(level, skip, p + 1);
      FirstBadEnd(k, minJump, maxJump, p);
      return true;
    }
    KeptDiff(level, skip, p);
    FirstBadHere(k, minJump, maxJump, p);
    FastVerdictAtBadStep(level, minJump, maxJump, skip, errorAllowed, p);
    if errorAllowed {
      safe := Retry(level, minJump, maxJump, skip, p, idx1, idx2);
    } else {
      safe := false;
    }
  }

  /** At the first bad step p the walk retries without the later entry of the
      step, then without the earlier one, with no error allowed. */
  method Retry(level: seq<int>, minJump: int, maxJump: int, skip: Option<int>, ghost p: nat, idx1: int, idx2: int)
    returns (safe: bool)
    requires idx1 == Orig(skip, p) && idx2 == Orig(skip, p + 1)
    ensures safe == Rescued(level, minJump, maxJump, skip, p)
    decreases 1
  {
    var a := FastLevelIsSafe(level, minJump, maxJump, Some(idx2), false);
    if a {
      return true;
    }
    safe := FastLevelIsSafe(level, minJump, maxJump, Some(idx1), false);
  }

  /** The difference the loop computes is the p-th difference of the kept
      entries. */
  lemma KeptDiff(level: seq<int>, skip: Option<int>, p: nat)
    requires Orig(skip, p + 1) < |level|
    ensures p + 1 < |Kept(level, skip)|
    ensures Diff(Kept(level, skip), p) == level[Orig(skip, p + 1)] - level[Orig(skip, p)]
  {
    KeptIndex(level, skip, p);
    KeptIndex(level, skip, p + 1);
  }

  /** A bad step with none before it is the first bad step. */
  lemma FirstBadHere(s: seq<int>, minJump: int, maxJump: int, p: nat)
    requires p + 1 < |s| && !StepOk(Diff(s, p), minJump, maxJump)
    requires FirstBad(s, minJump, maxJump, 0) == FirstBad(s, minJump, maxJump, p)
    ensures FirstBad(s, minJump, maxJump, 0) == Some(p)
  {
  }

  /** Past the last step there is no bad one. */
  lemma FirstBadEnd(s: seq<int>, minJump: int, maxJump: int, p: nat)
    requires p + 1 >= |s|
    ensures FirstBad(s, minJump, maxJump, p) == None
  {
  }

  /** Only the two entries of the first bad step are worth removing: the
      fast walk with one error allowed accepts exactly the levels that are
      increasing-in-bounds as they stand or after one removal. */
  lemma FastVerdictWithError(level: seq<int>, minJump: int, maxJump: int)
    ensures FastVerdict(level, minJump, maxJump, None, true) <==>
      (Increasing(level, minJump, maxJump)
       || exists i :: 0 <= i < |level| && Increasing(RemoveAt(level, i), minJump, maxJump))
  {
    assert Kept(level, None) == level;
    var fb := FirstBad(level, minJump, maxJump, 0);
    if fb.Some? {
      var p := fb.value;
      FastVerdictAtBadStep(level, minJump, maxJump, None, true, p);
      assert Kept(level, Some(p + 1)) == RemoveAt(level, p + 1);
      assert Kept(level, Some(p)) == RemoveAt(level, p);
      OnlyBadStepRemovals(level, minJump, maxJump, p);
    }
  }

  /** With a bad step at p, some single removal makes the level increasing
      iff removing entry p or entry p + 1 does. */
  lemma OnlyBadStepRemovals(level: seq<int>, minJump: int, maxJump: int, p: nat)
    requires p + 1 < |level| && !StepOk(Diff(level, p), minJump, maxJump)
    ensures (exists i :: 0 <= i < |level| && Increasing(RemoveAt(level, i), minJump, maxJump))
        <==> (Increasing(RemoveAt(level, p), minJump, maxJump)
              || Increasing(RemoveAt(level, p + 1), minJump, maxJump))
  {
    if exists i :: 0 <= i < |level| && Increasing(RemoveAt(level, i), minJump, maxJump) {
      var i :| 0 <= i < |level| && Increasing(RemoveAt(level, i), minJump, maxJump);
      if i != p && i != p + 1 {
        BadStepSurvives(level, minJump, maxJump, p, i);
      }
    }
  }

  /** Removing an entry away from a bad step leaves that step in place. */
  lemma BadStepSurvives(level: seq<int>, minJump: int, maxJump: int, p: nat, i: nat)
    requires p + 1 < |level| && !StepOk(Diff(level, p), minJump, maxJump)
    requires i < |level| && i != p && i != p + 1
    ensures !Increasing(RemoveAt(level, i), minJump, maxJump)
  {
    var r := RemoveAt(level, i);
    if i < p {
      assert r[p - 1] == level[p] && r[p] == level[p + 1];
      assert !StepOk(Diff(r, p - 1), minJump, maxJump);
    } else {
      assert r[p] == level[p] && r[p + 1] == level[p + 1];
      assert !StepOk(Diff(r, p), minJump, maxJump);
    }
  }

  // ---------------------------------------------------------------------
  // Counting safe levels
  // ---------------------------------------------------------------------

  /** [-v for v in level] */
  function Negate(level: seq<int>): (r: seq<int>)
    ensures |r| == |level| && forall i :: 0 <= i < |level| ==> r[i] == -level[i]
  {
    seq(|level|, i requires 0 <= i < |level| => -level[i])
  }

  /** sum(b - a < 0 for a, b in zip(level, level[1:])) */
  function DecreasingSteps(level: seq<int>): (r: nat)
    ensures |level| >= 1 ==> r <= |level| - 1
    ensures r == 0 <==> forall i :: 0 <= i < |level| - 1 ==> level[i] <= level[i + 1]
  {
    if |level| < 2 then 0
    else DecreasingSteps(level[..|level| - 1]) + (if level[|level| - 1] < level[|level| - 2] then 1 else 0)
  }

  /** The fast counter's per-level verdict: a level with at least two
      decreasing steps is negated, then walked as an increasing one. */
  predicate FastIsSafe(level: seq<int>, minJump: int, maxJump: int, errorAllowed: bool)
    ensures FastIsSafe(level, minJump, maxJump, errorAllowed) ==> LevelIsSafe(level, minJump, maxJump, errorAllowed)
  {
    var oriented := if 2 <= DecreasingSteps(level) then Negate(level) else level;
    if FastVerdict(oriented, minJump, maxJump, None, errorAllowed) then
      OrientedWalkSound(level, oriented, minJump, maxJump, errorAllowed);
      true
    else false
  }

  function FastCount(levels: seq<seq<int>>, minJump: int, maxJump: int, errorAllowed: bool): (r: nat)
    ensures r <= |levels|
  {
    if levels == [] then 0
    else (FastCount(levels[..|levels| - 1], minJump, maxJump, errorAllowed)
          + if FastIsSafe(levels[|levels| - 1], minJump, maxJump, errorAllowed) then 1 else 0)
  }

  function BruteCount(levels: seq<seq<int>>, minJump: int, maxJump: int, errorAllowed: bool): (r: nat)
    ensures r <= |levels|
  {
    if levels == [] then 0
    else (BruteCount(levels[..|levels| - 1], minJump, maxJump, errorAllowed)
          + if LevelIsSafe(levels[|levels| - 1], minJump, maxJump, errorAllowed) then 1 else 0)
  }

  /** fast_monotonic_within_jump_num_sat */
  method FastMonotonicWithinJumpNumSat(levels: seq<seq<int>>, minJump: int, maxJump: int, errorAllowed: bool)
    returns (count: nat)
    ensures count == FastCount(levels, minJump, maxJump, errorAllowed)
    ensures count <= |levels|
  {
    count := 0;
    for n := 0 to |levels|
      invariant count == FastCount(levels[..n], minJump, maxJump, errorAllowed)
    {
      assert levels[..n + 1][..n] == levels[..n];
      var level := levels[n];
      if 2 <= DecreasingSteps(level) {
        level := Negate(level);
      }
      var isSafe := FastLevelIsSafe(level, minJump, maxJump, None, errorAllowed);
      count := count + (if isSafe then 1 else 0);
    }
    assert levels[..|levels|] == levels;
  }

  /** monotonic_within_jump_num_sat */
  method MonotonicWithinJumpNumSat(levels: seq<seq<int>>, minJump: int, maxJump: int, errorAllowed: bool)
    returns (count: nat)
    ensures count == BruteCount(levels, minJump, maxJump, errorAllowed)
    ensures count <= |levels|
  {
    count := 0;
    for n := 0 to |levels|
      invariant count == BruteCount(levels[..n], minJump, maxJump, errorAllowed)
    {
      assert levels[..n + 1][..n] == levels[..n];
      var isSafe := LevelIsSafe(levels[n], minJump, maxJump, errorAllowed);
      count := count + (if isSafe then 1 else 0);
    }
    assert levels[..|levels|] == levels;
  }

  // ---------------------------------------------------------------------
  // Relating the two checkers
  // ---------------------------------------------------------------------

  lemma IncreasingIsStrictSafe(s: seq<int>, minJump: int, maxJump: int)
    requires Increasing(s, minJump, maxJump) || Increasing(Negate(s), minJump, maxJump)
    ensures StrictSafe(s, minJump, maxJump)
  {
    if Increasing(Negate(s), minJump, maxJump) {
      forall i | 0 <= i < |s| - 1 ensures Diff(s, i) < 0 && minJump <= Abs(Diff(s, i)) <= maxJump {
        assert StepOk(Diff(Negate(s), i), minJump, maxJump);
      }
    } else {
      forall i | 0 <= i < |s| - 1 ensures Diff(s, i) > 0 && minJump <= Abs(Diff(s, i)) <= maxJump {
        assert StepOk(Diff(s, i), minJump, maxJump);
      }
    }
  }

  /** With minJump >= 1 no step is flat, so a safe level is increasing or
      its negation is. */
  lemma StrictSafeSplit(s: seq<int>, minJump: int, maxJump: int)
    requires 1 <= minJump
    ensures StrictSafe(s, minJump, maxJump) <==> Increasing(s, minJump, maxJump) || Increasing(Negate(s), minJump, maxJump)
  {
    if Increasing(s, minJump, maxJump) || Increasing(Negate(s), minJump, maxJump) {
      IncreasingIsStrictSafe(s, minJump, maxJump);
    }
    if StrictSafe(s, minJump, maxJump) {
      if forall i :: 0 <= i < |s| - 1 ==> Diff(s, i) >= 0 {
        forall i | 0 <= i < |s| - 1 ensures StepOk(Diff(s, i), minJump, maxJump) {
          assert minJump <= Abs(Diff(s, i)) <= maxJump;
        }
      } else {
        var t := Negate(s);
        forall i | 0 <= i < |t| - 1 ensures StepOk(Diff(t, i), minJump, maxJump) {
          assert minJump <= Abs(Diff(s, i)) <= maxJump;
        }
      }
    }
  }

  lemma RemoveAtNegate(s: seq<int>, i: nat)
    requires i < |s|
    ensures RemoveAt(Negate(s), i) == Negate(RemoveAt(s, i))
  {
  }

  /** A walk that accepts the level or its negation accepts a safe level. */
  lemma OrientedWalkSound(level: seq<int>, oriented: seq<int>, minJump: int, maxJump: int, errorAllowed: bool)
    requires oriented == level || oriented == Negate(level)
    requires FastVerdict(oriented, minJump, maxJump, None, errorAllowed)
    ensures LevelIsSafe(level, minJump, maxJump, errorAllowed)
  {
    if errorAllowed {
      FastVerdictWithError(oriented, minJump, maxJump);
      if Increasing(oriented, minJump, maxJump) {
        IncreasingIsStrictSafe(level, minJump, maxJump);
      } else {
        var i :| 0 <= i < |oriented| && Increasing(RemoveAt(oriented, i), minJump, maxJump);
        var r := RemoveAt(level, i);
        RemoveAtNegate(level, i);
        assert Increasing(r, minJump, maxJump) || Increasing(Negate(r), minJump, maxJump);
        IncreasingIsStrictSafe(r, minJump, maxJump);
      }
    } else {
      FastVerdictNoError(oriented, minJump, maxJump, None);
      assert Kept(oriented, None) == oriented;
      IncreasingIsStrictSafe(level, minJump, maxJump);
    }
  }

  lemma {:induction false} FastCountAtMostBruteCount(levels: seq<seq<int>>, minJump: int, maxJump: int, errorAllowed: bool)
    ensures FastCount(levels, minJump, maxJump, errorAllowed) <= BruteCount(levels, minJump, maxJump, errorAllowed)
  {
    if levels != [] {
      FastCountAtMostBruteCount(levels[..|levels| - 1], minJump, maxJump, errorAllowed);
    }
  }

  /** The negation heuristic misses short levels: [5, 3, 3] becomes safe by
      dropping one 3, yet it has a single decreasing step, so the fast
      counter walks it as an increasing level and rejects it. */
  lemma FastIsSafeMissesShortDecreasingLevel()
    ensures !FastIsSafe([5, 3, 3], 1, 3, true)
    ensures LevelIsSafe([5, 3, 3], 1, 3, true)
  {
    ExampleNotFast();
    ExampleSafe();
  }

  /** [5, 3, 3] has one decreasing step, so it is walked as increasing,
      and no single removal makes it increasing. */
  lemma ExampleNotFast()
    ensures !FastIsSafe([5, 3, 3], 1, 3, true)
  {
    ExampleOneDecrease();
    ExampleVerdict();
  }

  lemma ExampleOneDecrease()
    ensures DecreasingSteps([5, 3, 3]) == 1
  {
    var level := [5, 3, 3];
    assert level[..2] == [5, 3];
    assert [5, 3][..1] == [5];
  }

  /** The first step of [5, 3, 3] is bad, and removing either of its
      entries leaves a bad step. */
  lemma ExampleVerdict()
    ensures !FastVerdict([5, 3, 3], 1, 3, None, true)
  {
    var level := [5, 3, 3];
    assert Kept(level, None) == level;
    assert FirstBad(level, 1, 3, 0) == Some(0);
    assert Kept(level, Some(1)) == [5, 3];
    assert !StepOk(Diff([5, 3], 0), 1, 3);
    assert Kept(level, Some(0)) == [3, 3];
    assert !StepOk(Diff([3, 3], 0), 1, 3);
  }

  /** Removing one 3 from [5, 3, 3] leaves the safe [5, 3]. */
  lemma ExampleSafe()
    ensures LevelIsSafe([5, 3, 3], 1, 3, true)
  {
    assert RemoveAt([5, 3, 3], 1) == [5, 3];
    assert StrictSafe([5, 3], 1, 3);
  }

  /** Walking both the level and its negation decides exactly what the
      brute-force checker decides (for minJump >= 1). */
  predicate CorrectedFastIsSafe(level: seq<int>, minJump: int, maxJump: int, errorAllowed: bool)
  {
    FastVerdict(level, minJump, maxJump, None, errorAllowed)
      || FastVerdict(Negate(level), minJump, maxJump, None, errorAllowed)
  }

  lemma CorrectedFastIsSafeMatchesBrute(level: seq<int>, minJump: int, maxJump: int, errorAllowed: bool)
    requires 1 <= minJump
    ensures CorrectedFastIsSafe(level, minJump, maxJump, errorAllowed) <==> LevelIsSafe(level, minJump, maxJump, errorAllowed)
  {
    StrictSafeSplit(level, minJump, maxJump);
    if errorAllowed {
      FastVerdictWithError(level, minJump, maxJump);
      FastVerdictWithError(Negate(level), minJump, maxJump);
      SomeRemovalSplit(level, minJump, maxJump);
    } else {
      FastVerdictNoError(level, minJump, maxJump, None);
      FastVerdictNoError(Negate(level), minJump, maxJump, None);
      assert Kept(level, None) == level && Kept(Negate(level), None) == Negate(level);
    }
  }

  /** Some removal leaves a safe level iff some removal leaves it
      increasing, or leaves its negation increasing. */
  lemma SomeRemovalSplit(level: seq<int>, minJump: int, maxJump: int)
    requires 1 <= minJump
    ensures (exists i :: 0 <= i < |level| && StrictSafe(RemoveAt(level, i), minJump, maxJump))
        <==> (exists i :: 0 <= i < |level| && Increasing(RemoveAt(level, i), minJump, maxJump))
             || (exists i :: 0 <= i < |Negate(level)| && Increasing(RemoveAt(Negate(level), i), minJump, maxJump))
  {
    forall i | 0 <= i < |level|
      ensures StrictSafe(RemoveAt(level, i), minJump, maxJump) <==>
        Increasing(RemoveAt(level, i), minJump, maxJump) || Increasing(RemoveAt(Negate(level), i), minJump, maxJump)
    {
      RemoveAtNegate(level, i);
      StrictSafeSplit(RemoveAt(level, i), minJump, maxJump);
    }
    if exists i :: 0 <= i < |level| && StrictSafe(RemoveAt(level, i), minJump, maxJump) {
      var i :| 0 <= i < |level| && StrictSafe(RemoveAt(level, i), minJump, maxJump);
      if !Increasing(RemoveAt(level, i), minJump, maxJump) {
        assert 0 <= i < |Negate(level)| && Increasing(RemoveAt(Negate(level), i), minJump, maxJump);
      }
    }
    if exists i :: 0 <= i < |Negate(level)| && Increasing(RemoveAt(Negate(level), i), minJump, maxJump) {
      var i :| 0 <= i < |Negate(level)| && Increasing(RemoveAt(Negate(level), i), minJump, maxJump);
      assert StrictSafe(RemoveAt(level, i), minJump, maxJump);
    }
  }
}

=== FILE: day3.dfy ===
/** Day 3: mull it over. A token-by-token state machine recognises
    mul(a,b) with one to three digits per number and adds a * b to a
    running count; a text filter first drops everything between a
    "don't()" and the next "do()". */
module Day3 {
  import opened Common
  import opened Decimal

  datatype ParseRes = Fail | PartialSuccess | FullSuccess

  /** One state of the machine. CharMatch accepts one given character.
      DigitParse reads up to count more digits into valueStr and stops
      early, without consuming it, on earlyEnd. The DigitParse object of
      the source changes its count and string as it reads; here the
      updated state is returned as a new value. */
  datatype State =
    | CharMatch(want: char)
    | DigitParse(earlyEnd: char, count: int, valueStr: string)

  /** DigitParse's constructor: max_count must be at least 1. */
  function NewDigitParse(earlyEnd: char, maxCount: int): (s: State)
    requires maxCount >= 1
    ensures Template(s)
  {
    DigitParse(earlyEnd, maxCount, "")
  }

  /** A state as constructed: nothing read yet. */
  predicate Template(s: State)
  {
    s.CharMatch? || (s.valueStr == [] && s.count >= 1)
  }

  /** int(s) for a string the machine built: ValueError when empty. */
  function Int(s: string): (r: Result<nat, PyError>)
    ensures r.Ok? <==> s != [] && AllDigits(s)
    ensures r.Ok? ==> r.value == FromDecimal(s)
  {
    if s != [] && AllDigits(s) then Ok(FromDecimal(s)) else Err(ValueError)
  }

  /** What one eval call reports: the outcome, the state afterwards, the
      value read (DigitParse only) and the tokens left. */
  datatype Outcome = Outcome(res: ParseRes, state: State, value: Option<nat>, rest: string)

  /** State.eval and DigitParse.eval. Reading tokens[0] of an empty string
      raises IndexError. */
  function Eval(s: State, tokens: string): (r: Result<Outcome, PyError>)
    ensures tokens == [] ==> r == Err(IndexError)
    ensures r.Err? ==> r.error == IndexError || r.error == ValueError
    ensures r.Ok? ==> r.value.rest == tokens[1..] || r.value.rest == tokens
    ensures r.Ok? && r.value.res == PartialSuccess ==> s.DigitParse? && r.value.state == s.(count := s.count - 1, valueStr := s.valueStr + [tokens[0]])
  {
    if tokens == [] then Err(IndexError)
    else
      var t := tokens[0];
      match s
      case CharMatch(c) =>
        Ok(Outcome(if t == c then FullSuccess else Fail, s, None, tokens[1..]))
      case DigitParse(earlyEnd, count, valueStr) =>
        if IsDigit(t) then
          var s' := DigitParse(earlyEnd, count - 1, valueStr + [t]);
          if count - 1 <= 0 then
            var v := Int(s'.valueStr);
            if v.Err? then Err(v.error) else Ok(Outcome(FullSuccess, s', Some(v.value), tokens[1..]))
          else Ok(Outcome(PartialSuccess, s', None, tokens[1..]))
        else if t == earlyEnd then
          var v := Int(valueStr);
          if v.Err? then Err(v.error) else Ok(Outcome(FullSuccess, s, Some(v.value), tokens))
        else Ok(Outcome(Fail, s, None, tokens[1..]))
  }

  /** CharMatch consumes exactly one token and succeeds iff it is its
      character; every eval consumes one token, except a DigitParse that
      has read a digit and meets its early-end character; a failure always
      consumes the offending token. */
  lemma EvalConsumes(s: State, tokens: string)
    ensures tokens == [] ==> Eval(s, tokens) == Err(IndexError)
    ensures s.CharMatch? && tokens != [] ==>
      var r := Eval(s, tokens);
      r.Ok? && r.value.rest == tokens[1..] && r.value.state == s && r.value.value == None
      && (r.value.res == FullSuccess <==> tokens[0] == s.want)
      && (r.value.res != FullSuccess ==> r.value.res == Fail)
    ensures var r := Eval(s, tokens);
      r.Ok? ==> (r.value.rest == tokens[1..]
      || (r.value.rest == tokens && r.value.res == FullSuccess && s.DigitParse? && s.valueStr != []))
    ensures var r := Eval(s, tokens);
      r.Ok? && r.value.res == Fail ==> r.value.rest == tokens[1..]
  {
  }

  /** DigitParse reads digits one at a time: the max_count-th digit gives
      the number read, every earlier one a partial success; the early-end
      character gives the number without being consumed, and with no digit
      read yet int("") raises ValueError. */
  lemma DigitParseEval(earlyEnd: char, count: int, valueStr: string, tokens: string)
    requires tokens != [] && AllDigits(valueStr)
    ensures var r := Eval(DigitParse(earlyEnd, count, valueStr), tokens);
      && (IsDigit(tokens[0]) && count <= 1 ==>
            r == Ok(Outcome(FullSuccess, DigitParse(earlyEnd, count - 1, valueStr + [tokens[0]]),
                            Some(FromDecimal(valueStr + [tokens[0]])), tokens[1..])))
      && (IsDigit(tokens[0]) && count > 1 ==>
            r == Ok(Outcome(PartialSuccess, DigitParse(earlyEnd, count - 1, valueStr + [tokens[0]]), None, tokens[1..])))
      && (!IsDigit(tokens[0]) && tokens[0] == earlyEnd && valueStr != [] ==>
            r == Ok(Outcome(FullSuccess, DigitParse(earlyEnd, count, valueStr), Some(FromDecimal(valueStr)), tokens)))
      && (!IsDigit(tokens[0]) && tokens[0] == earlyEnd && valueStr == [] ==> r == Err(ValueError))
      && (!IsDigit(tokens[0]) && tokens[0] != earlyEnd ==> r.Ok? && r.value.res == Fail)
  {
    var t := tokens[0];
    if IsDigit(t) {
      assert AllDigits(valueStr + [t]);
    }
  }

  /** The fields of StateMachine that change: the live state (a copy of a
      template), its index, the numbers read so far and the count. */
  datatype Machine = Machine(cur: State, stateIdx: nat, values: seq<nat>, count: int)

  /** A fresh machine, or one just reset, with the given count. */
  function Reset(states: seq<State>, count: int): (m: Machine)
    requires |states| >= 1
    ensures m.stateIdx == 0 && m.values == [] && m.count == count
  {
    Machine(states[0], 0, [], count)
  }

  /** Templates all as constructed, and the index within the list. */
  predicate Wf(states: seq<State>, m: Machine)
  {
    && |states| >= 1 && (forall i :: 0 <= i < |states| ==> Template(states[i]))
    && m.stateIdx < |states|
  }

  /** The second component of run_state_machine's measure. A call that
      consumes no token ends a DigitParse that has read a digit; it moves
      to the next template or wraps to a fresh first one. */
  function Rank(states: seq<State>, m: Machine): nat
    requires Wf(states, m)
  {
    if m.stateIdx == 0 && (m.cur.CharMatch? || m.cur.valueStr == []) then 0
    else |states| + 1 - m.stateIdx
  }

  /** StateMachine.parse: one eval of the live state. Fail consumes the
      offending token and resets; a partial success keeps the updated
      state; a full success moves to a copy of the next template, keeping
      the value read, or, past the last one, adds values[0] * values[1] to
      the count (IndexError with fewer than two values) and resets. The
      machine is returned alongside the tokens left or the error raised. */
  function Step(states: seq<State>, m: Machine, tokens: string): (r: (Machine, Result<string, PyError>))
    requires Wf(states, m)
    ensures r.1.Ok? ==> tokens != [] && (r.1.value == tokens[1..] || r.1.value == tokens)
    ensures r.1.Err? ==> r.0.count == m.count
  {
    var e := Eval(m.cur, tokens);
    if e.Err? then (m, Err(e.error))
    else
      var o := e.value;
      match o.res
      case Fail => (Reset(states, m.count), Ok(o.rest))
      case PartialSuccess => (m.(cur := o.state), Ok(o.rest))
      case FullSuccess =>
        var idx := m.stateIdx + 1;
        if idx < |states| then
          var values := if o.value.Some? then m.values + [o.value.value] else m.values;
          (Machine(states[idx], idx, values, m.count), Ok(o.rest))
        else if |m.values| < 2 then (m.(stateIdx := idx - 1), Err(IndexError))
        else (Reset(states, m.count + m.values[0] * m.values[1]), Ok(o.rest))
  }

  /** The count changes only when the last template completes: it grows by
      the product of the first two values and the machine is reset. */
  lemma StepCounts(states: seq<State>, m: Machine, tokens: string)
    requires Wf(states, m)
    ensures var r := Step(states, m, tokens);
      r.0.count != m.count ==> |m.values| >= 2 && r.0.count == m.count + m.values[0] * m.values[1] && r.0 == Reset(states, r.0.count)
  {
  }
  /** Each call consumes at most one token, and one that consumes none
      lowers the rank; the templates stay as constructed; the count never
      goes down. */
  lemma StepProgress(states: seq<State>, m: Machine, tokens: string)
    requires Wf(states, m)
    ensures Wf(states, Step(states, m, tokens).0)
    ensures var (m', next) := Step(states, m, tokens);
      next.Ok? ==> tokens != [] && (next.value == tokens[1..] || (next.value == tokens && Rank(states, m') < Rank(states, m)))
    ensures var (m', next) := Step(states, m, tokens);
      next.Ok? ==> m'.count >= m.count
  {
    EvalConsumes(m.cur, tokens);
  }


  class StateMachine {
    const states: seq<State>
    var curState: State
    var stateIdx: nat
    var values: seq<nat>
    var count: int

    function Snapshot(): Machine
      reads this
    {
      Machine(curState, stateIdx, values, count)
    }

    /** The machine starts on a copy of the first template with nothing
        counted. */
    constructor(states: seq<State>)
      requires |states| >= 1
      ensures this.states == states && Snapshot() == Reset(states, 0)
    {
      this.states := states;
      curState := states[0];
      stateIdx := 0;
      values := [];
      count := 0;
    }

    /** parse: one token (or none) through the live state, stated through
        Step. On IndexError from the product the source has already moved
        state_idx past the last template; here the index is left on the
        last template, so that it still names one. The error ends the run,
        so the index is never read again. */
    method Parse(tokens: string) returns (next: Result<string, PyError>)
      requires Wf(states, Snapshot())
      modifies this
      ensures (Snapshot(), next) == Step(states, old(Snapshot()), tokens)
    {
      var e := Eval(curState, tokens);
      if e.Err? {
        return Err(e.error);
      }
      var o := e.value;
      match o.res {
        case Fail =>
          curState, values, stateIdx := states[0], [], 0;
        case PartialSuccess =>
          curState := o.state;
        case FullSuccess =>
          stateIdx := stateIdx + 1;
          if stateIdx < |states| {
            curState := states[stateIdx];
            if o.value.Some? {
              values := values + [o.value.value];
            }
          } else {
            if |values| < 2 {
              stateIdx := stateIdx - 1;
              return Err(IndexError);
            }
            count := count + values[0] * values[1];
            curState, values, stateIdx := states[0], [], 0;
          }
      }
      return Ok(o.rest);
    }
  }

  /** The machine run until no token is left: the final count, or the
      error the first failing call raises. */
  function Run(states: seq<State>, m: Machine, tokens: string): Result<int, PyError>
    requires Wf(states, m)
    decreases |tokens|, Rank(states, m)
  {
    if tokens == [] then Ok(m.count)
    else
      var (m', next) := Step(states, m, tokens);
      if next.Err? then Err(next.error)
      else
        StepProgress(states, m, tokens);
        Run(states, m', next.value)
  }

  /** run_state_machine. */
  method RunStateMachine(tokens: string, states: seq<State>) returns (r: Result<int, PyError>)
    requires |states| >= 1 && forall i :: 0 <= i < |states| ==> Template(states[i])
    ensures r == Run(states, Reset(states, 0), tokens)
  {
    var sm := new StateMachine(states);
    var rest := tokens;
    while rest != []
      invariant Wf(states, sm.Snapshot()) && sm.states == states
      invariant Run(states, sm.Snapshot(), rest) == Run(states, Reset(states, 0), tokens)
      decreases |rest|, Rank(states, sm.Snapshot())
    {
      ghost var before := sm.Snapshot();
      StepProgress(states, before, rest);
      var next := sm.Parse(rest);
      if next.Err? {
        return Err(next.error);
      }
      rest := next.value;
    }
    return Ok(sm.count);
  }

  /** The count never goes down: a finished run counts at least what the
      machine had. */
  lemma {:induction false} RunCountGrows(states: seq<State>, m: Machine, tokens: string)
    requires Wf(states, m)
    ensures Run(states, m, tokens).Ok? ==> Run(states, m, tokens).value >= m.count
    decreases |tokens|, Rank(states, m)
  {
    if tokens != [] {
      var (m', next) := Step(states, m, tokens);
      if next.Ok? {
        StepProgress(states, m, tokens);
        RunCountGrows(states, m', next.value);
      }
    }
  }

  /** The states the solver runs: mul ( digits , digits ). */
  function MulStates(): (states: seq<State>)
    ensures |states| == 8 && forall i :: 0 <= i < |states| ==> Template(states[i])
  {
    [CharMatch('m'), CharMatch('u'), CharMatch('l'), CharMatch('('),
     NewDigitParse(',', 3), CharMatch(','), NewDigitParse(')', 3), CharMatch(')')]
  }

  /** One call of a run. */
  lemma RunUnfold(states: seq<State>, m: Machine, tokens: string, m': Machine, rest: string)
    requires Wf(states, m) && tokens != [] && Step(states, m, tokens) == (m', Ok(rest))
    ensures Run(states, m, tokens) == Run(states, m', rest)
  {
  }

  /** A CharMatch state that is not the last one accepts its character. */
  lemma CharAccepted(k: nat, c: char, rest: string, values: seq<nat>, count: int)
    requires k + 1 < |MulStates()| && MulStates()[k] == CharMatch(c)
    ensures Run(MulStates(), Machine(CharMatch(c), k, values, count), [c] + rest)
         == Run(MulStates(), Machine(MulStates()[k + 1], k + 1, values, count), rest)
  {
    assert ([c] + rest)[1..] == rest;
    RunUnfold(MulStates(), Machine(CharMatch(c), k, values, count), [c] + rest,
              Machine(MulStates()[k + 1], k + 1, values, count), rest);
  }

  /** A CharMatch state that meets another character fails: the
      character is consumed and the machine reset, values dropped. */
  lemma CharRejected(k: nat, c: char, tokens: string, values: seq<nat>, count: int)
    requires k < |MulStates()| && MulStates()[k] == CharMatch(c)
    requires tokens != [] && tokens[0] != c
    ensures Run(MulStates(), Machine(CharMatch(c), k, values, count), tokens)
         == Run(MulStates(), Reset(MulStates(), count), tokens[1..])
  {
    RunUnfold(MulStates(), Machine(CharMatch(c), k, values, count), tokens,
              Reset(MulStates(), count), tokens[1..]);
  }

  /** A digit that is not the third one of the number. */
  lemma DigitRead(k: nat, v: string, c: char, rest: string, values: seq<nat>, count: int)
    requires k == 4 || k == 6
    requires IsDigit(c) && |v| < 2
    ensures Run(MulStates(), Machine(DigitParse(MulStates()[k].earlyEnd, 3 - |v|, v), k, values, count), [c] + rest)
         == Run(MulStates(), Machine(DigitParse(MulStates()[k].earlyEnd, 3 - |v + [c]|, v + [c]), k, values, count), rest)
  {
    var e := MulStates()[k].earlyEnd;
    assert ([c] + rest)[1..] == rest;
    RunUnfold(MulStates(), Machine(DigitParse(e, 3 - |v|, v), k, values, count), [c] + rest,
              Machine(DigitParse(e, 3 - |v + [c]|, v + [c]), k, values, count), rest);
  }

  /** The third digit ends the number. */
  lemma ThirdDigitRead(k: nat, v: string, c: char, rest: string, values: seq<nat>, count: int)
    requires k == 4 || k == 6
    requires IsDigit(c) && |v| == 2 && AllDigits(v + [c])
    ensures Run(MulStates(), Machine(DigitParse(MulStates()[k].earlyEnd, 1, v), k, values, count), [c] + rest)
         == Run(MulStates(), Machine(MulStates()[k + 1], k + 1, values + [FromDecimal(v + [c])], count), rest)
  {
    var e := MulStates()[k].earlyEnd;
    assert ([c] + rest)[1..] == rest;
    RunUnfold(MulStates(), Machine(DigitParse(e, 1, v), k, values, count), [c] + rest,
              Machine(MulStates()[k + 1], k + 1, values + [FromDecimal(v + [c])], count), rest);
  }

  /** The separator after one or two digits ends the number and is left
      for the next state. */
  lemma EarlyEnd(k: nat, v: string, rest: string, values: seq<nat>, count: int)
    requires k == 4 || k == 6
    requires AllDigits(v) && 1 <= |v| < 3
    requires rest != [] && rest[0] == MulStates()[k].earlyEnd
    ensures Run(MulStates(), Machine(DigitParse(MulStates()[k].earlyEnd, 3 - |v|, v), k, values, count), rest)
         == Run(MulStates(), Machine(MulStates()[k + 1], k + 1, values + [FromDecimal(v)], count), rest)
  {
    var e := MulStates()[k].earlyEnd;
    assert !IsDigit(rest[0]);
    RunUnfold(MulStates(), Machine(DigitParse(e, 3 - |v|, v), k, values, count), rest,
              Machine(MulStates()[k + 1], k + 1, values + [FromDecimal(v)], count), rest);
  }

  /** Reading a number of one to three digits in state k (4 or 6) ends in
      state k + 1 with the number appended to the values: the third digit
      ends it at once, a shorter number ends on the following separator,
      which is left for the next state. */
  lemma {:induction false} ReadNumber(k: nat, n: int, v: string, d: string, rest: string, values: seq<nat>, count: int)
    requires k == 4 || k == 6
    requires AllDigits(v + d) && 1 <= |v + d| <= 3 && |v| < 3 && n == 3 - |v|
    requires rest != [] && rest[0] == MulStates()[k].earlyEnd
    ensures Run(MulStates(), Machine(DigitParse(MulStates()[k].earlyEnd, n, v), k, values, count), d + rest)
         == Run(MulStates(), Machine(MulStates()[k + 1], k + 1, values + [FromDecimal(v + d)], count), rest)
    decreases |d|
  {
    if d == [] {
      assert v + d == v && d + rest == rest;
      EarlyEnd(k, v, rest, values, count);
    } else {
      var c := d[0];
      NextDigit(v, d, rest);
      if |v| == 2 {
        assert d == [c] && d[1..] + rest == rest;
        ThirdDigitRead(k, v, c, rest, values, count);
      } else {
        DigitRead(k, v, c, d[1..] + rest, values, count);
        ReadNumber(k, n - 1, v + [c], d[1..], rest, values, count);
      }
    }
  }

  /** Moving the next digit from d to the digits read so far. */
  lemma NextDigit(v: string, d: string, rest: string)
    requires AllDigits(v + d) && d != []
    ensures IsDigit(d[0]) && AllDigits(v + [d[0]])
    ensures (v + [d[0]]) + d[1..] == v + d && d + rest == [d[0]] + (d[1..] + rest)
  {
    var v' := v + [d[0]];
    assert (v + d)[|v|] == d[0];
    assert v' + d[1..] == v + d;
    assert forall i :: 0 <= i < |v'| ==> v'[i] == (v + d)[i];
  }

  /** "mul(" takes the machine from reset to the first number. */
  lemma MulOpen(t: string, count: int)
    ensures Run(MulStates(), Reset(MulStates(), count), "mul(" + t)
         == Run(MulStates(), Machine(MulStates()[4], 4, [], count), t)
  {
    assert "mul(" + t == ['m'] + (['u'] + (['l'] + (['('] + t)));
    CharAccepted(0, 'm', ['u'] + (['l'] + (['('] + t)), [], count);
    CharAccepted(1, 'u', ['l'] + (['('] + t), [], count);
    CharAccepted(2, 'l', ['('] + t, [], count);
    CharAccepted(3, '(', t, [], count);
  }

  /** The first number, up to its comma. */
  lemma FirstNumberRead(a: string, t: string, count: int)
    requires AllDigits(a) && 1 <= |a| <= 3
    ensures Run(MulStates(), Machine(MulStates()[4], 4, [], count), a + ("," + t))
         == Run(MulStates(), Machine(MulStates()[5], 5, [FromDecimal(a)], count), "," + t)
  {
    assert [] + a == a && [] + [FromDecimal(a)] == [FromDecimal(a)];
    assert MulStates()[4] == DigitParse(',', 3, []);
    ReadNumber(4, 3, [], a, "," + t, [], count);
  }

  /** The first number and its comma. */
  lemma MulFirst(a: string, t: string, count: int)
    requires AllDigits(a) && 1 <= |a| <= 3
    ensures Run(MulStates(), Machine(MulStates()[4], 4, [], count), a + ("," + t))
         == Run(MulStates(), Machine(MulStates()[6], 6, [FromDecimal(a)], count), t)
  {
    var S := MulStates();
    var m5 := Machine(S[5], 5, [FromDecimal(a)], count);
    assert Run(S, Machine(S[4], 4, [], count), a + ("," + t)) == Run(S, m5, "," + t) by {
      FirstNumberRead(a, t, count);
    }
    assert Run(S, m5, "," + t) == Run(S, Machine(S[6], 6, [FromDecimal(a)], count), t) by {
      assert S[5] == CharMatch(',');
      CharAccepted(5, ',', t, [FromDecimal(a)], count);
    }
  }

  /** The second number, up to the closing parenthesis. */
  lemma SecondNumberRead(x: nat, b: string, rest: string, count: int)
    requires AllDigits(b) && 1 <= |b| <= 3
    ensures Run(MulStates(), Machine(MulStates()[6], 6, [x], count), b + (")" + rest))
         == Run(MulStates(), Machine(MulStates()[7], 7, [x, FromDecimal(b)], count), ")" + rest)
  {
    assert [] + b == b && [x] + [FromDecimal(b)] == [x, FromDecimal(b)];
    assert MulStates()[6] == DigitParse(')', 3, []);
    ReadNumber(6, 3, [], b, ")" + rest, [x], count);
  }

  /** The closing parenthesis counts the product and resets. */
  lemma CloseCounted(x: nat, y: nat, rest: string, count: int)
    ensures Run(MulStates(), Machine(MulStates()[7], 7, [x, y], count), ")" + rest)
         == Run(MulStates(), Reset(MulStates(), count + x * y), rest)
  {
    var S := MulStates();
    assert S[7] == CharMatch(')');
    assert (")" + rest)[1..] == rest;
    RunUnfold(S, Machine(S[7], 7, [x, y], count), ")" + rest, Reset(S, count + x * y), rest);
  }

  /** The second number and the closing parenthesis: the product is
      counted and the machine reset. */
  lemma MulSecond(x: nat, b: string, rest: string, count: int)
    requires AllDigits(b) && 1 <= |b| <= 3
    ensures Run(MulStates(), Machine(MulStates()[6], 6, [x], count), b + (")" + rest))
         == Run(MulStates(), Reset(MulStates(), count + x * FromDecimal(b)), rest)
  {
    SecondNumberRead(x, b, rest, count);
    CloseCounted(x, FromDecimal(b), rest, count);
  }

  /** A well-formed instruction mul(a,b), with one to three digits per
      number, adds a * b to the count and leaves the machine reset right
      after the closing parenthesis. */
  lemma MulCounted(a: string, b: string, rest: string, count: int)
    requires AllDigits(a) && 1 <= |a| <= 3 && AllDigits(b) && 1 <= |b| <= 3
    ensures Run(MulStates(), Reset(MulStates(), count), "mul(" + a + "," + b + ")" + rest)
         == Run(MulStates(), Reset(MulStates(), count + FromDecimal(a) * FromDecimal(b)), rest)
  {
    var S := MulStates();
    var t6 := b + (")" + rest);
    assert "mul(" + a + "," + b + ")" + rest == "mul(" + (a + ("," + t6));
    calc {
      Run(S, Reset(S, count), "mul(" + (a + ("," + t6)));
      { MulOpen(a + ("," + t6), count); }
      Run(S, Machine(S[4], 4, [], count), a + ("," + t6));
      { MulFirst(a, t6, count); }
      Run(S, Machine(S[6], 6, [FromDecimal(a)], count), t6);
      { MulSecond(FromDecimal(a), b, rest, count); }
      Run(S, Reset(S, count + FromDecimal(a) * FromDecimal(b)), rest);
    }
  }

  /** Outside an instruction, a character other than 'm' is dropped. */
  lemma NoiseSkipped(t: char, rest: string, count: int)
    requires t != 'm'
    ensures Run(MulStates(), Reset(MulStates(), count), [t] + rest) == Run(MulStates(), Reset(MulStates(), count), rest)
  {
    assert ([t] + rest)[1..] == rest;
  }

  /** Text without an 'm' adds nothing. */
  lemma {:induction false} NoMulNoCount(tokens: string, count: int)
    requires forall i :: 0 <= i < |tokens| ==> tokens[i] != 'm'
    ensures Run(MulStates(), Reset(MulStates(), count), tokens) == Ok(count)
  {
    if tokens != [] {
      NoMulNoCount(tokens[1..], count);
      NoiseSkipped(tokens[0], tokens[1..], count);
      assert [tokens[0]] + tokens[1..] == tokens;
    }
  }

  /** An 'm' inside an unfinished instruction is consumed by the failure
      and never starts an instruction itself: "mmul(2,3)" counts nothing. */
  lemma MmulMissed(count: int)
    ensures Run(MulStates(), Reset(MulStates(), count), "mmul(2,3)") == Ok(count)
  {
    var t := "mul(2,3)";
    assert "mmul(2,3)" == ['m'] + t;
    CharAccepted(0, 'm', t, [], count);
    CharRejected(1, 'u', t, [], count);
    RestHasNoM();
    NoMulNoCount("ul(2,3)", count);
  }

  lemma RestHasNoM()
    ensures "mul(2,3)"[1..] == "ul(2,3)"
    ensures forall i :: 0 <= i < |"ul(2,3)"| ==> "ul(2,3)"[i] != 'm'
  {
  }

  /** A comma straight after "mul(" reaches int("") and raises. */
  lemma EmptyNumberRaises(rest: string, count: int)
    ensures Run(MulStates(), Reset(MulStates(), count), "mul(," + rest) == Err(ValueError)
  {
    var S := MulStates();
    assert "mul(," + rest == "mul(" + ("," + rest);
    MulOpen("," + rest, count);
    assert Step(S, Machine(S[4], 4, [], count), "," + rest).1 == Err(ValueError);
  }

  /** pat occurs in s starting at i. */
  predicate OccursAt(s: string, pat: string, i: nat)
  {
    i + |pat| <= |s| && s[i..i + |pat|] == pat
  }

  /** The first occurrence of a non-empty pat in s. */
  function FirstAt(s: string, pat: string): (r: Option<nat>)
    requires pat != []
    ensures r.None? ==> forall i: nat :: !OccursAt(s, pat, i)
    ensures r.Some? ==> OccursAt(s, pat, r.value) && forall j: nat :: j < r.value ==> !OccursAt(s, pat, j)
    decreases |s|
  {
    if |s| < |pat| then None
    else if s[..|pat|] == pat then Some(0)
    else
      var r := FirstAt(s[1..], pat);
      assert s[0..|pat|] == s[..|pat|];
      forall j: nat
        ensures OccursAt(s[1..], pat, j) <==> OccursAt(s, pat, j + 1)
      {
        OccursShift(s, pat, j);
      }
      if r.None? then
        assert forall i: nat :: !OccursAt(s, pat, i) by {
          forall i: nat ensures !OccursAt(s, pat, i) {
            if i > 0 {
              OccursShift(s, pat, i - 1);
            }
          }
        }
        None
      else
        assert forall j: nat :: j < r.value + 1 ==> !OccursAt(s, pat, j) by {
          forall j: nat | j < r.value + 1 ensures !OccursAt(s, pat, j) {
            if j > 0 {
              OccursShift(s, pat, j - 1);
            }
          }
        }
        Some(r.value + 1)
  }

  /** Occurrences in s[1..] are those in s moved one to the left. */
  lemma OccursShift(s: string, pat: string, j: nat)
    requires s != []
    ensures OccursAt(s[1..], pat, j) <==> OccursAt(s, pat, j + 1)
  {
    if j + 1 + |pat| <= |s| {
      assert s[1..][j..j + |pat|] == s[j + 1..j + 1 + |pat|];
    }
  }

  /** str.split(pat, 1): the text before the first occurrence and the text
      after it, or nothing when pat does not occur. */
  function Split1(s: string, pat: string): (r: Option<(string, string)>)
    requires pat != []
    ensures r.None? <==> FirstAt(s, pat).None?
    ensures r.Some? ==> var i := FirstAt(s, pat).value;
      r.value.0 == s[..i] && r.value.1 == s[i + |pat|..] && s == r.value.0 + pat + r.value.1
  {
    match FirstAt(s, pat)
    case None => None
    case Some(i) =>
      assert s == s[..i] + s[i..i + |pat|] + s[i + |pat|..];
      Some((s[..i], s[i + |pat|..]))
  }

  const DoStr: string := "do()"
  const DontStr: string := "don't()"

  /** The reference reading of the filter, one character at a time: text
      is kept while enabled; "don't()" disables, and the first "do()"
      after it enables again; the markers that switch are dropped. */
  function Filter(s: string, enabled: bool): string
    decreases |s|
  {
    if s == [] then []
    else if enabled && OccursAt(s, DontStr, 0) then Filter(s[|DontStr|..], false)
    else if !enabled && OccursAt(s, DoStr, 0) then Filter(s[|DoStr|..], true)
    else (if enabled then [s[0]] else []) + Filter(s[1..], enabled)
  }

  /** The marker that switches the filter off when enabled, on otherwise. */
  function Marker(enabled: bool): string
  {
    if enabled then DontStr else DoStr
  }

  /** Up to the first switching marker the filter keeps all (enabled) or
      nothing (disabled). */
  lemma {:induction false} FilterUpTo(s: string, enabled: bool, i: nat)
    requires i <= |s| && forall j: nat :: j < i ==> !OccursAt(s, Marker(enabled), j)
    ensures Filter(s, enabled) == (if enabled then s[..i] else []) + Filter(s[i..], enabled)
    decreases i
  {
    if i > 0 {
      assert !OccursAt(s, Marker(enabled), 0);
      NoneBeforeShift(s, Marker(enabled), i);
      FilterUpTo(s[1..], enabled, i - 1);
      FrontSplit(s, i);
    }
  }

  /** No occurrence before i in s: none before i - 1 in s[1..]. */
  lemma NoneBeforeShift(s: string, pat: string, i: nat)
    requires 0 < i <= |s| && forall j: nat :: j < i ==> !OccursAt(s, pat, j)
    ensures forall j: nat :: j < i - 1 ==> !OccursAt(s[1..], pat, j)
  {
    forall j: nat | j < i - 1
      ensures !OccursAt(s[1..], pat, j)
    {
      OccursShift(s, pat, j);
    }
  }

  lemma FrontSplit(s: string, i: nat)
    requires 0 < i <= |s|
    ensures s[1..][i - 1..] == s[i..] && [s[0]] + s[1..][..i - 1] == s[..i]
  {
  }

  /** The pieces joined with sep between them, as str.join. */
  function Join(sep: string, pieces: seq<string>): string
  {
    if |pieces| == 0 then []
    else if |pieces| == 1 then pieces[0]
    else Join(sep, pieces[..|pieces| - 1]) + sep + pieces[|pieces| - 1]
  }

  /** All pieces one after the other. */
  function Flatten(pieces: seq<string>): string
  {
    if pieces == [] then [] else Flatten(pieces[..|pieces| - 1]) + pieces[|pieces| - 1]
  }

  lemma FlattenAppend(pieces: seq<string>, p: string)
    ensures Flatten(pieces + [p]) == Flatten(pieces) + p
  {
    assert (pieces + [p])[..|pieces|] == pieces;
  }

  lemma {:induction false} FlattenCons(p: string, pieces: seq<string>)
    ensures Flatten([p] + pieces) == p + Flatten(pieces)
    decreases |pieces|
  {
    if pieces != [] {
      var init, last := pieces[..|pieces| - 1], pieces[|pieces| - 1];
      assert pieces == init + [last];
      assert [p] + pieces == ([p] + init) + [last];
      FlattenAppend([p] + init, last);
      FlattenCons(p, init);
      FlattenAppend(init, last);
    }
  }

  /** The pieces do_dont_filter keeps, read off the markers: while enabled,
      the text up to the next "don't()" is a piece (all the rest when there
      is none) and reading goes on disabled after it; while disabled,
      everything up to and including the next "do()" is dropped (all the
      rest when there is none). */
  function Pieces(s: string, enabled: bool): seq<string>
    decreases |s|
  {
    if enabled then
      match FirstAt(s, DontStr)
      case None => [s]
      case Some(i) => [s[..i]] + Pieces(s[i + |DontStr|..], false)
    else
      match FirstAt(s, DoStr)
      case None => []
      case Some(i) => Pieces(s[i + |DoStr|..], true)
  }

  /** The pieces hold exactly what the character-by-character filter keeps,
      and none of them contains "don't()". */
  lemma {:induction false} PiecesMeaning(s: string, enabled: bool)
    ensures Flatten(Pieces(s, enabled)) == Filter(s, enabled)
    ensures forall k, i: nat :: 0 <= k < |Pieces(s, enabled)| ==> !OccursAt(Pieces(s, enabled)[k], DontStr, i)
    decreases |s|
  {
    if enabled {
      match FirstAt(s, DontStr)
      case None =>
        FilterUpTo(s, true, |s|);
        assert s[..|s|] == s && s[|s|..] == [];
        assert Flatten([s]) == Flatten([]) + s;
      case Some(i) =>
        var rest := s[i + |DontStr|..];
        PiecesMeaning(rest, false);
        FilterAtDont(s, i);
        FlattenCons(s[..i], Pieces(rest, false));
        PieceClean(s, i);
        CleanCons(s[..i], Pieces(rest, false));
    } else {
      match FirstAt(s, DoStr)
      case None =>
        FilterUpTo(s, false, |s|);
        assert s[|s|..] == [];
      case Some(i) =>
        PiecesMeaning(s[i + |DoStr|..], true);
        FilterUpTo(s, false, i);
        FilterAtMarker(s[i..], false);
        assert s[i..][|DoStr|..] == s[i + |DoStr|..];
    }
  }

  /** A clean piece in front of clean pieces. */
  lemma CleanCons(p: string, pieces: seq<string>)
    requires forall i: nat :: !OccursAt(p, DontStr, i)
    requires forall k, i: nat :: 0 <= k < |pieces| ==> !OccursAt(pieces[k], DontStr, i)
    ensures forall k, i: nat :: 0 <= k < |[p] + pieces| ==> !OccursAt(([p] + pieces)[k], DontStr, i)
  {
    forall k, i: nat | 0 <= k < |[p] + pieces|
      ensures !OccursAt(([p] + pieces)[k], DontStr, i)
    {
      if k > 0 {
        assert ([p] + pieces)[k] == pieces[k - 1];
      }
    }
  }

  /** At the first "don't()" the filter keeps what comes before and
      switches off after it. */
  lemma FilterAtDont(s: string, i: nat)
    requires OccursAt(s, DontStr, i) && forall j: nat :: j < i ==> !OccursAt(s, DontStr, j)
    ensures Filter(s, true) == s[..i] + Filter(s[i + |DontStr|..], false)
  {
    FilterUpTo(s, true, i);
    FilterAtMarker(s[i..], true);
    assert s[i..][|DontStr|..] == s[i + |DontStr|..];
  }

  /** A switching marker at the front flips the filter. */
  lemma FilterAtMarker(s: string, enabled: bool)
    requires OccursAt(s, Marker(enabled), 0)
    ensures Filter(s, enabled) == Filter(s[|Marker(enabled)|..], !enabled)
  {
  }

  /** do_dont_filter: the text before the first "don't()", then each text
      from a following "do()" up to the next "don't()", joined with "|";
      an input without "don't()" comes back unchanged. */
  method DoDontFilter(tokens: string) returns (r: string)
    ensures r == Join("|", Pieces(tokens, true))
    ensures (forall i: nat :: !OccursAt(tokens, DontStr, i)) ==> r == tokens
  {
    var parsingDont := true;
    var filtered: seq<string> := [];
    var cur := tokens;
    while true
      invariant filtered + Pieces(cur, parsingDont) == Pieces(tokens, true)
      decreases |cur|
    {
      if parsingDont {
        var res := Split1(cur, DontStr);
        if res.Some? {
          DontFound(filtered, cur);
          filtered := filtered + [res.value.0];
          cur := res.value.1;
          parsingDont := false;
        } else {
          DontAbsent(filtered, cur);
          filtered := filtered + [cur];
          break;
        }
      } else {
        var res := Split1(cur, DoStr);
        if res.Some? {
          DoFound(filtered, cur);
          cur := res.value.1;
          parsingDont := true;
        } else {
          DoAbsent(filtered, cur);
          break;
        }
      }
    }
    r := Join("|", filtered);
    NoDontOnePiece(tokens);
  }

  /** Splitting at the first "don't()" moves one piece out of the rest. */
  lemma DontFound(filtered: seq<string>, cur: string)
    requires Split1(cur, DontStr).Some?
    ensures var (before, after) := Split1(cur, DontStr).value;
      filtered + Pieces(cur, true) == (filtered + [before]) + Pieces(after, false) && |after| < |cur|
  {
    var i := FirstAt(cur, DontStr).value;
    var before, after := cur[..i], cur[i + |DontStr|..];
    assert Split1(cur, DontStr).value == (before, after);
    PiecesAtDont(cur, i);
    MovePiece(filtered, before, Pieces(after, false));
  }

  lemma MovePiece<T>(a: seq<T>, x: T, b: seq<T>)
    ensures a + ([x] + b) == (a + [x]) + b
  {
  }

  /** With no "don't()" left the rest is one last piece. */
  lemma DontAbsent(filtered: seq<string>, cur: string)
    requires Split1(cur, DontStr).None?
    ensures filtered + Pieces(cur, true) == filtered + [cur]
  {
  }

  /** Skipping past the first "do()" leaves the pieces unchanged. */
  lemma DoFound(filtered: seq<string>, cur: string)
    requires Split1(cur, DoStr).Some?
    ensures var after := Split1(cur, DoStr).value.1;
      filtered + Pieces(cur, false) == filtered + Pieces(after, true) && |after| < |cur|
  {
    var i := FirstAt(cur, DoStr).value;
    assert Split1(cur, DoStr).value.1 == cur[i + |DoStr|..];
    PiecesAtDo(cur, i);
  }

  /** With no "do()" left nothing more is kept. */
  lemma DoAbsent(filtered: seq<string>, cur: string)
    requires Split1(cur, DoStr).None?
    ensures filtered + Pieces(cur, false) == filtered
  {
  }

  /** An input without "don't()" is a single piece. */
  lemma NoDontOnePiece(tokens: string)
    ensures (forall i: nat :: !OccursAt(tokens, DontStr, i)) ==> Pieces(tokens, true) == [tokens]
  {
    if FirstAt(tokens, DontStr).Some? {
      assert OccursAt(tokens, DontStr, FirstAt(tokens, DontStr).value);
    }
  }

  /** The bar marks where text was cut out: "a", then "don't()do()", then
      "b" gives the two pieces "a" and "b". */
  lemma FilterKeepsBar()
    ensures Join("|", Pieces("adon't()do()b", true)) == "a|b"
  {
    ExamplePieces();
    assert ["a", "b"][..1] == ["a"];
  }

  lemma ExamplePieces()
    ensures Pieces("adon't()do()b", true) == ["a", "b"]
  {
    var s := "adon't()do()b";
    ExampleDontAt();
    PiecesAtDont(s, 1);
    var t := "do()b";
    assert s[1 + |DontStr|..] == t && s[..1] == "a";
    assert t[..|DoStr|] == DoStr;
    PiecesAtDo(t, 0);
    assert t[|DoStr|..] == "b";
    assert Pieces("b", true) == ["b"];
  }

  lemma PiecesAtDont(s: string, i: nat)
    requires FirstAt(s, DontStr) == Some(i)
    ensures Pieces(s, true) == [s[..i]] + Pieces(s[i + |DontStr|..], false)
  {
  }

  lemma PiecesAtDo(s: string, i: nat)
    requires FirstAt(s, DoStr) == Some(i)
    ensures Pieces(s, false) == Pieces(s[i + |DoStr|..], true)
  {
  }

  lemma ExampleDontAt()
    ensures FirstAt("adon't()do()b", DontStr) == Some(1)
  {
    var s := "adon't()do()b";
    assert OccursAt(s, DontStr, 1);
    assert s[0] != DontStr[0];
  }

  /** The text before the first "don't()" contains none. */
  lemma PieceClean(s: string, i: nat)
    requires i <= |s| && forall j: nat :: j < i ==> !OccursAt(s, DontStr, j)
    ensures forall j: nat :: !OccursAt(s[..i], DontStr, j)
  {
    forall j: nat | OccursAt(s[..i], DontStr, j)
      ensures false
    {
      assert s[..i][j..j + |DontStr|] == s[j..j + |DontStr|];
      assert OccursAt(s, DontStr, j);
    }
  }
}

=== FILE: day4.dfy ===
/** Day 4: word search. Part 1 counts the occurrences of XMAS in a letter
    grid in any of the eight directions, anchoring every occurrence at the
    top-most (then left-most) end of its four-cell window; part 2 counts the
    cells at the centre of two crossing diagonal MAS words. */
module Day4 {

  /** The grid as read: rows of characters with their dimensions. */
  datatype WordArray = WordArray(rows: seq<string>, nRows: int, nCols: int)

  /** Every row has nCols characters and there are nRows rows. */
  predicate Rectangular(w: WordArray)
  {
    |w.rows| == w.nRows && forall r :: 0 <= r < |w.rows| ==> |w.rows[r]| == w.nCols
  }

  predicate InGrid(w: WordArray, i: int, j: int)
  {
    0 <= i < w.nRows && 0 <= j < w.nCols
  }

  function Reverse(s: string): (r: string)
    ensures |r| == |s|
    ensures forall k :: 0 <= k < |s| ==> r[k] == s[|s| - 1 - k]
  {
    if s == [] then [] else Reverse(s[1..]) + [s[0]]
  }

  const XMAS: string := "XMAS"
  const MAS: string := "MAS"

  function Hit(b: bool): nat { if b then 1 else 0 }

  /** int(w == word) + int(w[::-1] == word) */
  function BothWays(w: string, word: string): nat
  {
    Hit(w == word) + Hit(Reverse(w) == word)
  }

  /** XMAS is not a palindrome, so a window reads it at most one way round. */
  lemma XmasOneWay(w: string)
    ensures BothWays(w, XMAS) <= 1
  {
    if w == XMAS {
      assert Reverse(w)[0] == 'S';
    }
  }

  /** The four characters starting at (i, j) and stepping by (di, dj). */
  function Ray(w: WordArray, i: int, j: int, di: int, dj: int): (s: string)
    requires Rectangular(w)
    requires InGrid(w, i, j) && InGrid(w, i + 3 * di, j + 3 * dj)
    requires -1 <= di <= 1 && -1 <= dj <= 1
    ensures |s| == 4
  {
    [w.rows[i][j], w.rows[i + di][j + dj], w.rows[i + 2 * di][j + 2 * dj],
     w.rows[i + 3 * di][j + 3 * dj]]
  }

  /** The window of four cells from (i, j) heading (di, dj), read forwards
      and backwards, when the guard says it fits; nothing otherwise. */
  function Window(w: WordArray, i: int, j: int, di: int, dj: int, fits: bool): (c: nat)
    requires Rectangular(w) && InGrid(w, i, j)
    requires -1 <= di <= 1 && -1 <= dj <= 1
    requires fits ==> InGrid(w, i + 3 * di, j + 3 * dj)
    ensures c <= 1
  {
    if fits then
      XmasOneWay(Ray(w, i, j, di, dj));
      BothWays(Ray(w, i, j, di, dj), XMAS)
    else 0
  }

  /** count_xmas_at_pos: the right, down, down-right and down-left windows
      with their top-left (top-right for down-left) end at (i, j), each read
      forwards and backwards, a window only when it fits in the grid. The
      row slice rows[i][j:j+4] is the rightward window. */
  function CountXmasAtPos(i: int, j: int, w: WordArray): (c: int)
    requires Rectangular(w) && InGrid(w, i, j)
    ensures 0 <= c <= 4
  {
    var spaceRight := j + 4 <= w.nCols;
    var spaceLeft := 0 <= j - 4 + 1;
    var spaceDown := i + 4 <= w.nRows;
    Window(w, i, j, 0, 1, spaceRight) + Window(w, i, j, 1, 0, spaceDown)
    + Window(w, i, j, 1, 1, spaceDown && spaceRight)
    + Window(w, i, j, 1, -1, spaceDown && spaceLeft)
  }

  /** XMAS is written in the grid starting at (i, j) and heading (di, dj). */
  predicate Occurs(w: WordArray, i: int, j: int, di: int, dj: int)
    requires Rectangular(w)
  {
    -1 <= di <= 1 && -1 <= dj <= 1
    && InGrid(w, i, j) && InGrid(w, i + 3 * di, j + 3 * dj)
    && Ray(w, i, j, di, dj) == XMAS
  }

  /** A window, when it fits, counts the occurrences starting at either of
      its ends. */
  lemma WindowHits(w: WordArray, i: int, j: int, di: int, dj: int, fits: bool)
    requires Rectangular(w) && InGrid(w, i, j)
    requires -1 <= di <= 1 && -1 <= dj <= 1
    requires fits <==> InGrid(w, i + 3 * di, j + 3 * dj)
    ensures Window(w, i, j, di, dj, fits)
      == Hit(Occurs(w, i, j, di, dj)) + Hit(Occurs(w, i + 3 * di, j + 3 * dj, -di, -dj))
  {
    if fits {
      assert Reverse(Ray(w, i, j, di, dj)) == Ray(w, i + 3 * di, j + 3 * dj, -di, -dj);
    }
  }

  /** The count at a cell is the number of the eight directed occurrences of
      XMAS whose four-cell window has its anchor at that cell: the word read
      forwards starts at the anchor, read backwards it starts at the far end. */
  lemma CountXmasAtPosMeaning(i: int, j: int, w: WordArray)
    requires Rectangular(w) && InGrid(w, i, j)
    ensures CountXmasAtPos(i, j, w) ==
      Hit(Occurs(w, i, j, 0, 1)) + Hit(Occurs(w, i, j + 3, 0, -1))
      + Hit(Occurs(w, i, j, 1, 0)) + Hit(Occurs(w, i + 3, j, -1, 0))
      + Hit(Occurs(w, i, j, 1, 1)) + Hit(Occurs(w, i + 3, j + 3, -1, -1))
      + Hit(Occurs(w, i, j, 1, -1)) + Hit(Occurs(w, i + 3, j - 3, -1, 1))
  {
    RightWindow(w, i, j);
    DownWindow(w, i, j);
    DownRightWindow(w, i, j);
    DownLeftWindow(w, i, j);
  }

  /** Each window of count_xmas_at_pos, with its own guard. */
  lemma RightWindow(w: WordArray, i: int, j: int)
    requires Rectangular(w) && InGrid(w, i, j)
    ensures Window(w, i, j, 0, 1, j + 4 <= w.nCols)
      == Hit(Occurs(w, i, j, 0, 1)) + Hit(Occurs(w, i, j + 3, 0, -1))
  {
    WindowHits(w, i, j, 0, 1, j + 4 <= w.nCols);
  }

  lemma DownWindow(w: WordArray, i: int, j: int)
    requires Rectangular(w) && InGrid(w, i, j)
    ensures Window(w, i, j, 1, 0, i + 4 <= w.nRows)
      == Hit(Occurs(w, i, j, 1, 0)) + Hit(Occurs(w, i + 3, j, -1, 0))
  {
    WindowHits(w, i, j, 1, 0, i + 4 <= w.nRows);
  }

  lemma DownRightWindow(w: WordArray, i: int, j: int)
    requires Rectangular(w) && InGrid(w, i, j)
    ensures Window(w, i, j, 1, 1, i + 4 <= w.nRows && j + 4 <= w.nCols)
      == Hit(Occurs(w, i, j, 1, 1)) + Hit(Occurs(w, i + 3, j + 3, -1, -1))
  {
    WindowHits(w, i, j, 1, 1, i + 4 <= w.nRows && j + 4 <= w.nCols);
  }

  lemma DownLeftWindow(w: WordArray, i: int, j: int)
    requires Rectangular(w) && InGrid(w, i, j)
    ensures Window(w, i, j, 1, -1, i + 4 <= w.nRows && 0 <= j - 4 + 1)
      == Hit(Occurs(w, i, j, 1, -1)) + Hit(Occurs(w, i + 3, j - 3, -1, 1))
  {
    WindowHits(w, i, j, 1, -1, i + 4 <= w.nRows && 0 <= j - 4 + 1);
  }

  /** Python's s[k] for -len(s) <= k < len(s): a negative index counts from
      the end. */
  function PyAt<T>(s: seq<T>, k: int): T
    requires -|s| <= k < |s|
  {
    if k < 0 then s[|s| + k] else s[k]
  }

  /** The diagonal through (i, j) at offsets -1, 0, 1, with Python indexing:
      cells (i + v, j + dj * v), running down-left for dj = -1 and down-right
      for dj = 1. */
  function PyDiagonal(w: WordArray, i: int, j: int, dj: int): (s: string)
    requires Rectangular(w) && (dj == -1 || dj == 1)
    requires 0 <= i && i + 1 < w.nRows && 0 <= j && j + 1 < w.nCols
    ensures |s| == 3
  {
    [PyAt(PyAt(w.rows, i - 1), j - dj), w.rows[i][j], PyAt(w.rows[i + 1], j + dj)]
  }

  predicate IsMasEitherWay(s: string)
  {
    s == MAS || Reverse(s) == MAS
  }

  /** count_x_mas_at_pos as written: the guards test 0 <= i and 0 <= j, so
      at i = 0 or j = 0 the row or column -1 is read, which Python takes as
      the last one. */
  function CountXMasAtPos(i: int, j: int, w: WordArray): (c: int)
    requires Rectangular(w) && InGrid(w, i, j)
    ensures c == 0 || c == 1
    ensures c == 1 ==> 0 <= i && i + 1 < w.nRows && 0 <= j && j + 1 < w.nCols
  {
    var hasSpace := j + 1 < w.nCols && 0 <= j && i + 1 < w.nRows && 0 <= i;
    if hasSpace then
      Hit(IsMasEitherWay(PyDiagonal(w, i, j, -1)) && IsMasEitherWay(PyDiagonal(w, i, j, 1)))
    else 0
  }

  /** The three cells of a diagonal through (i, j), all inside the grid. */
  function Diagonal(w: WordArray, i: int, j: int, dj: int): (s: string)
    requires Rectangular(w) && (dj == -1 || dj == 1)
    requires 1 <= i && i + 1 < w.nRows && 1 <= j && j + 1 < w.nCols
    ensures |s| == 3
  {
    [w.rows[i - 1][j - dj], w.rows[i][j], w.rows[i + 1][j + dj]]
  }

  /** Two MAS words cross at (i, j), every letter inside the grid. */
  predicate XShape(w: WordArray, i: int, j: int)
    requires Rectangular(w)
  {
    1 <= i && i + 1 < w.nRows && 1 <= j && j + 1 < w.nCols
    && IsMasEitherWay(Diagonal(w, i, j, -1)) && IsMasEitherWay(Diagonal(w, i, j, 1))
  }

  /** count_x_mas_at_pos with the guards it evidently intends, 1 <= i and
      1 <= j: it counts exactly the real crossings. */
  function CountXMasAtPosFixed(i: int, j: int, w: WordArray): (c: int)
    requires Rectangular(w) && InGrid(w, i, j)
    ensures c == (if XShape(w, i, j) then 1 else 0)
  {
    var hasSpace := j + 1 < w.nCols && 1 <= j && i + 1 < w.nRows && 1 <= i;
    if hasSpace then
      Hit(IsMasEitherWay(Diagonal(w, i, j, -1)) && IsMasEitherWay(Diagonal(w, i, j, 1)))
    else 0
  }

  /** Away from the first row and column the two versions agree. */
  lemma CountXMasAtPosAgreesInside(i: int, j: int, w: WordArray)
    requires Rectangular(w) && InGrid(w, i, j) && 1 <= i && 1 <= j
    ensures CountXMasAtPos(i, j, w) == CountXMasAtPosFixed(i, j, w)
  {
    if j + 1 < w.nCols && i + 1 < w.nRows {
      assert PyDiagonal(w, i, j, -1) == Diagonal(w, i, j, -1);
      assert PyDiagonal(w, i, j, 1) == Diagonal(w, i, j, 1);
    }
  }

  const Wrapped := WordArray([".A.", "S.S", "M.M"], 3, 3)

  /** In the grid .A. / S.S / M.M the top-row A is counted as a crossing:
      its upper diagonal letters are taken from the bottom row. */
  lemma CountXMasAtPosWrapsAround()
    ensures Rectangular(Wrapped) && InGrid(Wrapped, 0, 1)
    ensures CountXMasAtPos(0, 1, Wrapped) == 1
    ensures !XShape(Wrapped, 0, 1) && CountXMasAtPosFixed(0, 1, Wrapped) == 0
  {
    assert PyDiagonal(Wrapped, 0, 1, -1) == MAS;
    assert PyDiagonal(Wrapped, 0, 1, 1) == MAS;
  }

  /** A per-cell count used by count_xmas_all. */
  type CellPredicate = (int, int, WordArray) --> int

  ghost predicate Defined(w: WordArray, pred: CellPredicate)
  {
    forall i, j :: InGrid(w, i, j) ==> pred.requires(i, j, w)
  }

  /** pred summed over the first m cells of row i. */
  function RowSum(w: WordArray, pred: CellPredicate, i: int, m: int): int
    requires Defined(w, pred) && 0 <= i < w.nRows && m <= w.nCols
    decreases m
  {
    if m <= 0 then 0 else RowSum(w, pred, i, m - 1) + pred(i, m - 1, w)
  }

  /** pred summed over the cells of the first k rows. */
  function GridSum(w: WordArray, pred: CellPredicate, k: int): int
    requires Defined(w, pred) && k <= w.nRows
    decreases k
  {
    if k <= 0 then 0 else GridSum(w, pred, k - 1) + RowSum(w, pred, k - 1, w.nCols)
  }

  /** count_xmas_all: the sum of pred over every (row, column) of the grid. */
  function CountXmasAll(w: WordArray, pred: CellPredicate): (r: int)
    requires Defined(w, pred)
    ensures forall b :: Bounded(w, pred, b) && 0 <= w.nRows && 0 <= w.nCols ==> 0 <= r <= b * w.nCols * w.nRows
  {
    GridSumBoundAll(w, pred);
    GridSum(w, pred, w.nRows)
  }

  ghost predicate Bounded(w: WordArray, pred: CellPredicate, b: int)
    requires Defined(w, pred)
  {
    forall i, j :: InGrid(w, i, j) ==> 0 <= pred(i, j, w) <= b
  }

  lemma {:induction false} RowSumBound(w: WordArray, pred: CellPredicate, b: int, i: int, m: nat)
    requires Defined(w, pred) && Bounded(w, pred, b) && 0 <= i < w.nRows && m <= w.nCols
    ensures 0 <= RowSum(w, pred, i, m) <= b * m
  {
    if m > 0 {
      RowSumBound(w, pred, b, i, m - 1);
      assert InGrid(w, i, m - 1);
    }
  }

  lemma {:induction false} GridSumBound(w: WordArray, pred: CellPredicate, b: int, k: nat)
    requires Defined(w, pred) && Bounded(w, pred, b) && k <= w.nRows && 0 <= w.nCols
    ensures 0 <= GridSum(w, pred, k) <= b * w.nCols * k
  {
    if k > 0 {
      GridSumBound(w, pred, b, k - 1);
      RowSumBound(w, pred, b, k - 1, w.nCols);
      assert b * w.nCols * k == b * w.nCols * (k - 1) + b * w.nCols;
    }
  }

  lemma GridSumBoundAll(w: WordArray, pred: CellPredicate)
    requires Defined(w, pred)
    ensures forall b :: Bounded(w, pred, b) && 0 <= w.nRows && 0 <= w.nCols ==>
      0 <= GridSum(w, pred, w.nRows) <= b * w.nCols * w.nRows
  {
    forall b | Bounded(w, pred, b) && 0 <= w.nRows && 0 <= w.nCols
      ensures 0 <= GridSum(w, pred, w.nRows) <= b * w.nCols * w.nRows
    {
      GridSumBound(w, pred, b, w.nRows);
    }
  }

  /** Part 1 counts at most four words per cell. */
  lemma CountXmasAllBound(w: WordArray)
    requires Rectangular(w) && 0 <= w.nRows && 0 <= w.nCols
    ensures Defined(w, CountXmasAtPos)
    ensures 0 <= CountXmasAll(w, CountXmasAtPos) <= 4 * w.nCols * w.nRows
  {
    GridSumBound(w, CountXmasAtPos, 4, w.nRows);
  }

  /** Part 2 counts at most one crossing per cell. */
  lemma CountXMasAllBound(w: WordArray)
    requires Rectangular(w) && 0 <= w.nRows && 0 <= w.nCols
    ensures Defined(w, CountXMasAtPosFixed)
    ensures 0 <= CountXmasAll(w, CountXMasAtPosFixed) <= w.nCols * w.nRows
  {
    GridSumBound(w, CountXMasAtPosFixed, 1, w.nRows);
  }

  /** Part 2 as written also counts at most one crossing per cell. */
  lemma CountXMasAllAsWrittenBound(w: WordArray)
    requires Rectangular(w) && 0 <= w.nRows && 0 <= w.nCols
    ensures Defined(w, CountXMasAtPos)
    ensures 0 <= CountXmasAll(w, CountXMasAtPos) <= w.nCols * w.nRows
  {
    GridSumBound(w, CountXMasAtPos, 1, w.nRows);
  }
}

=== FILE: day5.dfy ===
/** Day 5: print queue. A rule a|b says page a must be printed before page
    b. An update (a page list) is correct when no page is followed by one
    that must precede it; part 1 sums the middle pages of the correct
    updates, part 2 reorders the incorrect ones with a comparator built from
    the rules and sums their middle pages. */
module Day5 {

  /** rules(x) on the dictionary: the pages that must precede x, empty for
      a page no rule mentions on its right (the defaultdict's default). */
  function Rules(m: map<int, set<int>>, x: int): (r: set<int>)
    ensures x in m ==> r == m[x]
    ensures x !in m ==> r == {}
  {
    if x in m then m[x] else {}
  }

  /** The dictionary lists exactly the rules: a is in rules(x) iff a|x is a rule. */
  ghost predicate Lists(m: map<int, set<int>>, ruleTuples: seq<(int, int)>)
  {
    forall a, x :: a in Rules(m, x) <==> (a, x) in ruleTuples
  }

  /** An entry with no rule behind it exists only for a page that was
      looked up: the defaultdict creates it, empty, on the first rules(x). */
  predicate EntriesFrom(m: map<int, set<int>>, queried: set<int>)
  {
    queried <= m.Keys && forall x :: x in m && x !in queried ==> m[x] != {}
  }

  /** BreakRules: for each page, the set of pages that must come before it. */
  class BreakRules {
    var breakRuleDict: map<int, set<int>>
    ghost var ruleTuples: seq<(int, int)>
    /** The pages looked up through __call__ so far. */
    ghost var queried: set<int>

    ghost predicate Valid()
      reads this
    {
      Lists(breakRuleDict, ruleTuples) && EntriesFrom(breakRuleDict, queried)
    }

    constructor(ruleTuples: seq<(int, int)>)
      ensures Valid() && this.ruleTuples == ruleTuples && queried == {}
    {
      var d: map<int, set<int>> := map[];
      for k := 0 to |ruleTuples|
        invariant Lists(d, ruleTuples[..k]) && EntriesFrom(d, {})
      {
        var (left, right) := ruleTuples[k];
        assert forall t :: t in ruleTuples[..k + 1] <==> t in ruleTuples[..k] || t == (left, right);
        d := d[right := Rules(d, right) + {left}];
      }
      assert ruleTuples[..|ruleTuples|] == ruleTuples;
      breakRuleDict := d;
      this.ruleTuples := ruleTuples;
      queried := {};
    }

    /** __call__: the pages that must be printed before x. Looking up a
        missing page inserts an empty entry for it. */
    method Call(x: int) returns (r: set<int>)
      requires Valid()
      modifies this
      ensures Valid() && ruleTuples == old(ruleTuples) && queried == old(queried) + {x}
      ensures forall a :: a in r <==> (a, x) in ruleTuples
      ensures breakRuleDict == if x in old(breakRuleDict) then old(breakRuleDict) else old(breakRuleDict)[x := {}]
    {
      if x !in breakRuleDict {
        breakRuleDict := breakRuleDict[x := {}];
      }
      r := breakRuleDict[x];
      queried := queried + {x};
    }

    /** is_in: x has an entry in the dictionary, that is, some rule has x
        on its right or x was looked up before. */
    function IsIn(x: int): (r: bool)
      reads this
      requires Valid()
      ensures r <==> (exists a :: (a, x) in ruleTuples) || x in queried
    {
      KeysFrom(breakRuleDict, ruleTuples, queried, x);
      x in breakRuleDict
    }
  }

  /** The dictionary's keys: the right-hand pages of the rules and the pages
      looked up. */
  lemma KeysFrom(m: map<int, set<int>>, ruleTuples: seq<(int, int)>, queried: set<int>, x: int)
    requires Lists(m, ruleTuples) && EntriesFrom(m, queried)
    ensures x in m <==> (exists a :: (a, x) in ruleTuples) || x in queried
  {
    if x in m && x !in queried {
      var entry := m[x];
      assert entry != {};
      if forall a :: a !in entry {
        assert false;
      }
      var a :| a in entry;
      assert a in Rules(m, x);
    }
    if exists a :: (a, x) in ruleTuples {
      var a :| (a, x) in ruleTuples;
      assert a in Rules(m, x);
    }
  }

  /** No page is followed by a page that some rule puts before it. */
  predicate ValidPage(m: map<int, set<int>>, page: seq<int>)
  {
    forall i, j :: 0 <= i < j < |page| ==> page[j] !in Rules(m, page[i])
  }

  /** The same, stated with the rules themselves. */
  ghost predicate Obeys(ruleTuples: seq<(int, int)>, page: seq<int>)
  {
    forall i, j :: 0 <= i < j < |page| ==> (page[j], page[i]) !in ruleTuples
  }

  lemma ValidPageObeys(m: map<int, set<int>>, ruleTuples: seq<(int, int)>, page: seq<int>)
    requires Lists(m, ruleTuples)
    ensures ValidPage(m, page) <==> Obeys(ruleTuples, page)
  {
    forall i, j | 0 <= i < j < |page|
      ensures page[j] in Rules(m, page[i]) <==> (page[j], page[i]) in ruleTuples
    {
    }
  }

  /** check_rules: false as soon as some later page must precede an earlier
      one. Each rules(page[i]) lookup may add an empty entry. */
  method CheckRules(rules: BreakRules, page: seq<int>) returns (ok: bool)
    requires rules.Valid()
    modifies rules
    ensures rules.Valid() && rules.ruleTuples == old(rules.ruleTuples)
    ensures rules.queried <= old(rules.queried) + set p | p in page
    ensures ok <==> ValidPage(old(rules.breakRuleDict), page)
    ensures ok <==> Obeys(rules.ruleTuples, page)
  {
    ValidPageObeys(rules.breakRuleDict, rules.ruleTuples, page);
    var i := 0;
    while i < |page| - 1
      invariant 0 <= i && (|page| >= 1 ==> i <= |page| - 1)
      invariant rules.Valid() && rules.ruleTuples == old(rules.ruleTuples)
      invariant rules.queried <= old(rules.queried) + set p | p in page
      invariant forall i', j :: 0 <= i' < i && i' < j < |page| ==> (page[j], page[i']) !in rules.ruleTuples
    {
      var curChecks := rules.Call(page[i]);
      for j := i + 1 to |page|
        invariant forall j' :: i < j' < j ==> (page[j'], page[i]) !in rules.ruleTuples
      {
        if page[j] in curChecks {
          assert (page[j], page[i]) in rules.ruleTuples;
          return false;
        }
      }
      i := i + 1;
    }
    assert Obeys(rules.ruleTuples, page);
    return true;
  }

  /** page[len(page) // 2] */
  function Mid(page: seq<int>): int
    requires |page| >= 1
  {
    page[|page| / 2]
  }

  predicate NonEmptyPages(pages: seq<seq<int>>)
  {
    forall k :: 0 <= k < |pages| ==> |pages[k]| >= 1
  }

  /** The middle pages of the correct updates, summed. */
  function TrueMids(m: map<int, set<int>>, pages: seq<seq<int>>): int
    requires NonEmptyPages(pages)
  {
    if pages == [] then 0
    else
      var page := pages[|pages| - 1];
      TrueMids(m, pages[..|pages| - 1]) + (if ValidPage(m, page) then Mid(page) else 0)
  }

  /** sum_true_mids */
  method SumTrueMids(rules: BreakRules, pages: seq<seq<int>>) returns (count: int)
    requires rules.Valid() && NonEmptyPages(pages)
    modifies rules
    ensures rules.Valid() && rules.ruleTuples == old(rules.ruleTuples)
    ensures count == TrueMids(old(rules.breakRuleDict), pages)
  {
    ghost var m0 := rules.breakRuleDict;
    count := 0;
    for k := 0 to |pages|
      invariant rules.Valid() && rules.ruleTuples == old(rules.ruleTuples)
      invariant count == TrueMids(m0, pages[..k])
    {
      assert pages[..k + 1][..k] == pages[..k];
      var ok := CheckRules(rules, pages[k]);
      ValidPageObeys(m0, rules.ruleTuples, pages[k]);
      if ok {
        count := count + Mid(pages[k]);
      }
    }
    assert pages[..|pages|] == pages;
  }

  // Sorting with a comparator

  /** The "comes first" test a sort asks of a comparator: cmp(a, b) < 0. */
  type Less = (int, int) -> bool

  /** Inserts x in front of the first element it comes before. */
  function Insert(lt: Less, x: int, s: seq<int>): (r: seq<int>)
    ensures multiset(r) == multiset(s) + multiset{x}
  {
    if s == [] then [x]
    else if lt(x, s[0]) then [x] + s
    else
      assert s == [s[0]] + s[1..];
      [s[0]] + Insert(lt, x, s[1..])
  }

  /** A stable insertion sort: the page's entries inserted one by one. */
  function SortBy(lt: Less, s: seq<int>): (r: seq<int>)
    ensures multiset(r) == multiset(s)
  {
    if s == [] then []
    else
      assert s == s[..|s| - 1] + [s[|s| - 1]];
      Insert(lt, s[|s| - 1], SortBy(lt, s[..|s| - 1]))
  }

  /** No entry is followed by one that comes before it. */
  predicate SortedBy(lt: Less, s: seq<int>)
  {
    forall i, j :: 0 <= i < j < |s| ==> !lt(s[j], s[i])
  }

  /** "Comes first" is a strict partial order on the entries: nothing comes
      before itself, and it is transitive. */
  ghost predicate StrictOrderOn(lt: Less, dom: seq<int>)
  {
    (forall x :: x in dom ==> !lt(x, x))
    && (forall x, y, z :: x in dom && y in dom && z in dom && lt(x, y) && lt(y, z) ==> lt(x, z))
  }

  lemma {:induction false} InsertSorted(lt: Less, x: int, s: seq<int>, dom: seq<int>)
    requires StrictOrderOn(lt, dom) && x in dom && forall e :: e in s ==> e in dom
    requires SortedBy(lt, s)
    ensures SortedBy(lt, Insert(lt, x, s))
  {
    if s == [] {
    } else if lt(x, s[0]) {
      InsertInFront(lt, x, s, dom);
    } else {
      InsertSorted(lt, x, s[1..], dom);
      InsertBehind(lt, x, s);
    }
  }

  /** x goes in front when it comes before the first entry. */
  lemma InsertInFront(lt: Less, x: int, s: seq<int>, dom: seq<int>)
    requires StrictOrderOn(lt, dom) && x in dom && forall e :: e in s ==> e in dom
    requires SortedBy(lt, s) && s != [] && lt(x, s[0])
    ensures SortedBy(lt, [x] + s)
  {
    var r := [x] + s;
    forall i, j | 0 <= i < j < |r| ensures !lt(r[j], r[i]) {
      if i == 0 {
        var e, s0 := s[j - 1], s[0];
        assert r[j] == e && r[i] == x;
        assert e in dom && s0 in dom by {
          assert e in s && s0 in s;
        }
        assert !lt(e, s0) by {
          if j - 1 == 0 {
            assert e == s0;
          }
        }
        assert lt(e, x) && lt(x, s0) ==> lt(e, s0);
      } else {
        assert r[i] == s[i - 1] && r[j] == s[j - 1];
      }
    }
  }

  /** Otherwise the first entry stays first. */
  lemma InsertBehind(lt: Less, x: int, s: seq<int>)
    requires SortedBy(lt, s) && s != [] && !lt(x, s[0])
    requires SortedBy(lt, Insert(lt, x, s[1..]))
    ensures SortedBy(lt, [s[0]] + Insert(lt, x, s[1..]))
  {
    var t := Insert(lt, x, s[1..]);
    InsertMembers(lt, x, s[1..]);
    TailNotBefore(lt, s);
    PrependSorted(lt, s[0], t);
  }

  /** Insert adds x and nothing else. */
  lemma InsertMembers(lt: Less, x: int, u: seq<int>)
    ensures forall e :: e in Insert(lt, x, u) ==> e == x || e in u
  {
    forall e | e in Insert(lt, x, u) ensures e == x || e in u {
      assert e in multiset(Insert(lt, x, u));
    }
  }

  /** In a sorted sequence nothing after the first entry comes before it. */
  lemma TailNotBefore(lt: Less, s: seq<int>)
    requires SortedBy(lt, s) && s != []
    ensures forall e :: e in s[1..] ==> !lt(e, s[0])
  {
    forall e | e in s[1..] ensures !lt(e, s[0]) {
      var k :| 0 <= k < |s[1..]| && s[1..][k] == e;
      assert s[k + 1] == e;
    }
  }

  /** A head that nothing in a sorted tail comes before keeps it sorted. */
  lemma PrependSorted(lt: Less, h: int, t: seq<int>)
    requires SortedBy(lt, t) && forall e :: e in t ==> !lt(e, h)
    ensures SortedBy(lt, [h] + t)
  {
    var r := [h] + t;
    forall i, j | 0 <= i < j < |r| ensures !lt(r[j], r[i]) {
      if i == 0 {
        assert r[j] == t[j - 1];
      } else {
        assert r[i] == t[i - 1] && r[j] == t[j - 1];
      }
    }
  }

  /** For a transitive "comes first" on the entries, the sort leaves no
      entry in front of one that comes before it. */
  lemma {:induction false} SortBySorted(lt: Less, s: seq<int>, dom: seq<int>)
    requires StrictOrderOn(lt, dom) && forall e :: e in s ==> e in dom
    ensures SortedBy(lt, SortBy(lt, s))
  {
    if s != [] {
      var init := s[..|s| - 1];
      SortBySorted(lt, init, dom);
      forall e | e in SortBy(lt, init) ensures e in dom {
        assert e in multiset(SortBy(lt, init));
      }
      InsertSorted(lt, s[|s| - 1], SortBy(lt, init), dom);
    }
  }

  /** Any two entries are ordered one way and not both ways. */
  ghost predicate StrictTotalOn(lt: Less, dom: seq<int>)
  {
    (forall x, y :: x in dom && y in dom && x != y ==> lt(x, y) || lt(y, x))
    && (forall x, y :: x in dom && y in dom && lt(x, y) ==> !lt(y, x))
  }

  /** Two sorted arrangements of the same entries start alike. */
  lemma HeadsEqual(lt: Less, s: seq<int>, t: seq<int>, dom: seq<int>)
    requires StrictTotalOn(lt, dom) && forall e :: e in s ==> e in dom
    requires SortedBy(lt, s) && SortedBy(lt, t) && multiset(s) == multiset(t) && s != []
    ensures t != [] && s[0] == t[0]
  {
    assert s[0] in multiset(t);
    assert t[0] in multiset(s);
    var k :| 0 <= k < |t| && t[k] == s[0];
    var l :| 0 <= l < |s| && s[l] == t[0];
  }

  /** Under a strict total order there is only one sorted arrangement, so
      any correct sort (Python's among them) gives the insertion sort's result. */
  lemma {:induction false} SortedUnique(lt: Less, s: seq<int>, t: seq<int>, dom: seq<int>)
    requires StrictTotalOn(lt, dom) && forall e :: e in s ==> e in dom
    requires SortedBy(lt, s) && SortedBy(lt, t) && multiset(s) == multiset(t)
    ensures s == t
  {
    if s == [] {
      assert |t| == |multiset(t)| == 0;
    } else {
      HeadsEqual(lt, s, t, dom);
      TailsAlike(lt, s, t, dom);
      SortedUnique(lt, s[1..], t[1..], dom);
      assert s == [s[0]] + s[1..] && t == [t[0]] + t[1..];
    }
  }

  /** Past equal heads, the rests are sorted arrangements of the same entries. */
  lemma TailsAlike(lt: Less, s: seq<int>, t: seq<int>, dom: seq<int>)
    requires forall e :: e in s ==> e in dom
    requires SortedBy(lt, s) && SortedBy(lt, t) && multiset(s) == multiset(t)
    requires s != [] && t != [] && s[0] == t[0]
    ensures forall e :: e in s[1..] ==> e in dom
    ensures SortedBy(lt, s[1..]) && SortedBy(lt, t[1..]) && multiset(s[1..]) == multiset(t[1..])
  {
    TailMultiset(s);
    TailMultiset(t);
    forall e | e in s[1..] ensures e in dom {
      assert e in s;
    }
  }

  lemma TailMultiset(s: seq<int>)
    requires s != []
    ensures multiset(s[1..]) == multiset(s) - multiset{s[0]}
  {
    assert s == [s[0]] + s[1..];
  }

  /** cmp(a, b) of fix_page: -1 when b is in rules(a), +1 when a is in
      rules(b), 0 otherwise. */
  function Cmp(m: map<int, set<int>>, a: int, b: int): (r: int)
    ensures -1 <= r <= 1
    ensures r == -1 <==> b in Rules(m, a)
    ensures r == 1 <==> a in Rules(m, b) && b !in Rules(m, a)
    ensures r == 0 <==> a !in Rules(m, b) && b !in Rules(m, a)
  {
    if b in Rules(m, a) then -1 else if a in Rules(m, b) then 1 else 0
  }

  /** Unless each of two pages must precede the other, swapping them flips
      the comparator's sign. */
  lemma CmpAntisymmetric(m: map<int, set<int>>, a: int, b: int)
    requires !(b in Rules(m, a) && a in Rules(m, b))
    ensures Cmp(m, b, a) == -Cmp(m, a, b)
  {
  }

  /** The comparator's "comes first": b is in rules(a). */
  function LessAsWritten(m: map<int, set<int>>): (lt: Less)
    ensures forall a, b :: lt(a, b) <==> b in Rules(m, a)
  {
    (a, b) => Cmp(m, a, b) < 0
  }

  /** fix_page as written. */
  function FixPage(m: map<int, set<int>>, page: seq<int>): (r: seq<int>)
    ensures multiset(r) == multiset(page) && |r| == |page|
  {
    var r := SortBy(LessAsWritten(m), page);
    assert |r| == |multiset(r)| == |multiset(page)| == |page|;
    r
  }

  /** Among the update's pages no page must precede itself and the rules
      are transitive. */
  ghost predicate RulesStrictOn(m: map<int, set<int>>, page: seq<int>)
  {
    (forall a :: a in page ==> a !in Rules(m, a))
    && (forall a, b, c :: a in page && b in page && c in page && b in Rules(m, a) && c in Rules(m, b)
          ==> c in Rules(m, a))
  }

  /** The rules order every two distinct pages of the update, never both ways. */
  ghost predicate RulesTotalOn(m: map<int, set<int>>, page: seq<int>)
  {
    (forall a, b :: a in page && b in page && a != b ==> a in Rules(m, b) || b in Rules(m, a))
    && (forall a, b :: a in page && b in page && a in Rules(m, b) ==> b !in Rules(m, a))
  }

  function Reverse(s: seq<int>): (r: seq<int>)
    ensures |r| == |s| && forall k :: 0 <= k < |s| ==> r[k] == s[|s| - 1 - k]
  {
    if s == [] then [] else Reverse(s[1..]) + [s[0]]
  }

  /** The comparator puts a page before the pages that must precede it, so
      fix_page produces the rule order backwards: its reverse is correct. */
  lemma FixPageReversesRuleOrder(m: map<int, set<int>>, page: seq<int>)
    requires RulesStrictOn(m, page)
    ensures ValidPage(m, Reverse(FixPage(m, page)))
  {
    AsWrittenStrict(m, page);
    SortBySorted(LessAsWritten(m), page, page);
    ReversedSortedValid(m, FixPage(m, page));
  }

  /** Under strict rules the comparator's "comes first" is a strict order. */
  lemma AsWrittenStrict(m: map<int, set<int>>, page: seq<int>)
    requires RulesStrictOn(m, page)
    ensures StrictOrderOn(LessAsWritten(m), page)
  {
    var lt := LessAsWritten(m);
    forall x, y, z | x in page && y in page && z in page && lt(x, y) && lt(y, z)
      ensures lt(x, z)
    {
      assert y in Rules(m, x) && z in Rules(m, y);
    }
  }

  /** Sorted by the comparator as written, read backwards, breaks no rule. */
  lemma ReversedSortedValid(m: map<int, set<int>>, s: seq<int>)
    requires SortedBy(LessAsWritten(m), s)
    ensures ValidPage(m, Reverse(s))
  {
    var r, n := Reverse(s), |s|;
    forall i, j | 0 <= i < j < |r| ensures r[j] !in Rules(m, r[i]) {
      assert r[i] == s[n - 1 - i] && r[j] == s[n - 1 - j];
      assert !LessAsWritten(m)(s[n - 1 - i], s[n - 1 - j]);
    }
  }

  /** sorted with cmp(a, b) = -1 when a is in rules(b): the evidently
      intended comparator. */
  function LessIntended(m: map<int, set<int>>): Less
  {
    (a, b) => a in Rules(m, b)
  }

  function FixPageCorrected(m: map<int, set<int>>, page: seq<int>): (r: seq<int>)
    ensures multiset(r) == multiset(page) && |r| == |page|
  {
    var r := SortBy(LessIntended(m), page);
    assert |r| == |multiset(r)| == |multiset(page)| == |page|;
    r
  }

  /** The corrected reordering is a correct update made of the same pages. */
  lemma FixPageCorrectedIsValid(m: map<int, set<int>>, page: seq<int>)
    requires RulesStrictOn(m, page)
    ensures ValidPage(m, FixPageCorrected(m, page))
    ensures multiset(FixPageCorrected(m, page)) == multiset(page)
  {
    SortBySorted(LessIntended(m), page, page);
  }

  /** With a strict total order on the pages, fix_page gives exactly the
      corrected order reversed, so the middle pages agree on odd lengths. */
  lemma FixPageMidOnOddPages(m: map<int, set<int>>, page: seq<int>)
    requires RulesStrictOn(m, page) && RulesTotalOn(m, page) && |page| % 2 == 1
    ensures Reverse(FixPage(m, page)) == FixPageCorrected(m, page)
    ensures Mid(FixPage(m, page)) == Mid(FixPageCorrected(m, page))
  {
    FixPageReversed(m, page);
    MidOfMirror(FixPageCorrected(m, page), FixPage(m, page));
  }

  /** Under a strict total order the as-written result is the corrected
      one backwards. */
  lemma FixPageReversed(m: map<int, set<int>>, page: seq<int>)
    requires RulesStrictOn(m, page) && RulesTotalOn(m, page)
    ensures Reverse(FixPage(m, page)) == FixPageCorrected(m, page)
  {
    var f := FixPage(m, page);
    var r, c := Reverse(f), FixPageCorrected(m, page);
    FixPageReversesRuleOrder(m, page);
    FixPageCorrectedIsValid(m, page);
    ValidIsSorted(m, r);
    ValidIsSorted(m, c);
    IntendedTotal(m, page);
    ReverseMultiset(f);
    forall e | e in r ensures e in page {
      assert e in multiset(r);
    }
    SortedUnique(LessIntended(m), r, c, page);
  }

  /** A correct update is sorted by the intended comparator. */
  lemma ValidIsSorted(m: map<int, set<int>>, s: seq<int>)
    requires ValidPage(m, s)
    ensures SortedBy(LessIntended(m), s)
  {
  }

  /** Rules that order every two pages one way make the intended
      comparator a strict total order. */
  lemma IntendedTotal(m: map<int, set<int>>, page: seq<int>)
    requires RulesTotalOn(m, page)
    ensures StrictTotalOn(LessIntended(m), page)
  {
  }

  /** An odd-length list and its mirror image share the middle entry. */
  lemma MidOfMirror(r: seq<int>, s: seq<int>)
    requires |r| == |s| && |s| % 2 == 1
    requires forall k :: 0 <= k < |s| ==> r[k] == s[|s| - 1 - k]
    ensures Mid(r) == Mid(s)
  {
    HalfOfOdd(|s|);
  }

  lemma HalfOfOdd(n: int)
    requires n % 2 == 1
    ensures n - 1 - n / 2 == n / 2
  {
  }

  lemma {:induction false} ReverseMultiset(s: seq<int>)
    ensures multiset(Reverse(s)) == multiset(s)
  {
    if s != [] {
      ReverseMultiset(s[1..]);
      assert s == [s[0]] + s[1..];
    }
  }

  /** The middle pages of the reordered incorrect updates, summed. */
  function FixedMids(m: map<int, set<int>>, pages: seq<seq<int>>): int
  {
    if pages == [] then 0
    else
      var page := pages[|pages| - 1];
      FixedMids(m, pages[..|pages| - 1]) + (if ValidPage(m, page) then 0 else Mid(FixPage(m, page)))
  }

  /** fix_and_sum_mids */
  method FixAndSumMids(rules: BreakRules, pages: seq<seq<int>>) returns (count: int)
    requires rules.Valid()
    modifies rules
    ensures rules.Valid() && rules.ruleTuples == old(rules.ruleTuples)
    ensures count == FixedMids(old(rules.breakRuleDict), pages)
  {
    ghost var m0 := rules.breakRuleDict;
    count := 0;
    for k := 0 to |pages|
      invariant rules.Valid() && rules.ruleTuples == old(rules.ruleTuples)
      invariant count == FixedMids(m0, pages[..k])
    {
      assert pages[..k + 1][..k] == pages[..k];
      var ok := CheckRules(rules, pages[k]);
      ValidPageObeys(m0, rules.ruleTuples, pages[k]);
      if !ok {
        SameRulesSameFix(m0, rules.breakRuleDict, rules.ruleTuples, pages[k]);
        var fixedPage := FixPage(rules.breakRuleDict, pages[k]);
        count := count + fixedPage[|pages[k]| / 2];
      }
    }
    assert pages[..|pages|] == pages;
  }

  /** Two dictionaries listing the same rules sort a page alike: the
      entries the lookups add are empty. */
  lemma SameRulesSameFix(m: map<int, set<int>>, m': map<int, set<int>>, ruleTuples: seq<(int, int)>, page: seq<int>)
    requires Lists(m, ruleTuples) && Lists(m', ruleTuples)
    ensures FixPage(m, page) == FixPage(m', page)
  {
    forall a, b ensures LessAsWritten(m)(a, b) == LessAsWritten(m')(a, b) {
      assert forall y :: y in Rules(m, a) <==> y in Rules(m', a);
      assert forall y :: y in Rules(m, b) <==> y in Rules(m', b);
    }
    SortByAgree(LessAsWritten(m), LessAsWritten(m'), page);
  }

  /** The sort only asks the comparator, so comparators that answer alike
      sort alike. */
  lemma {:induction false} SortByAgree(lt: Less, lt': Less, s: seq<int>)
    requires forall a, b :: lt(a, b) == lt'(a, b)
    ensures SortBy(lt, s) == SortBy(lt', s)
  {
    if s != [] {
      SortByAgree(lt, lt', s[..|s| - 1]);
      InsertAgree(lt, lt', s[|s| - 1], SortBy(lt, s[..|s| - 1]));
    }
  }

  lemma {:induction false} InsertAgree(lt: Less, lt': Less, x: int, s: seq<int>)
    requires forall a, b :: lt(a, b) == lt'(a, b)
    ensures Insert(lt, x, s) == Insert(lt', x, s)
  {
    if s != [] {
      var h := s[0];
      assert lt(x, h) == lt'(x, h);
      InsertAgree(lt, lt', x, s[1..]);
    }
  }

  /** The same sum with the corrected comparator. */
  function FixedMidsCorrected(m: map<int, set<int>>, pages: seq<seq<int>>): int
  {
    if pages == [] then 0
    else
      var page := pages[|pages| - 1];
      FixedMidsCorrected(m, pages[..|pages| - 1])
      + (if ValidPage(m, page) then 0 else Mid(FixPageCorrected(m, page)))
  }

  /** When every update has odd length and the rules totally order its
      pages, part 2's answer is the intended one. */
  lemma {:induction false} FixedMidsOddPages(m: map<int, set<int>>, pages: seq<seq<int>>)
    requires forall k :: 0 <= k < |pages| ==> |pages[k]| % 2 == 1
    requires forall k :: 0 <= k < |pages| ==> RulesStrictOn(m, pages[k]) && RulesTotalOn(m, pages[k])
    ensures FixedMids(m, pages) == FixedMidsCorrected(m, pages)
  {
    if pages != [] {
      FixedMidsOddPages(m, pages[..|pages| - 1]);
      FixPageMidOnOddPages(m, pages[|pages| - 1]);
    }
  }

  /** Each update counts in exactly one of the two parts: the correct ones
      in part 1, the incorrect ones in part 2. */
  lemma {:induction false} PartsSplitUpdates(m: map<int, set<int>>, pages: seq<seq<int>>)
    requires NonEmptyPages(pages)
    requires forall k :: 0 <= k < |pages| ==> ValidPage(m, pages[k])
    ensures TrueMids(m, pages) == SumMids(pages) && FixedMids(m, pages) == 0
  {
    if pages != [] {
      PartsSplitUpdates(m, pages[..|pages| - 1]);
    }
  }

  function SumMids(pages: seq<seq<int>>): int
    requires NonEmptyPages(pages)
  {
    if pages == [] then 0 else SumMids(pages[..|pages| - 1]) + Mid(pages[|pages| - 1])
  }

  const OneRule: map<int, set<int>> := map[2 := {1}]

  /** With the single rule 1|2 the update [2, 1] is reordered to [2, 1]:
      its middle page is 1, while the correct order [1, 2] has middle 2. */
  lemma FixPageKeepsEvenPageBackwards()
    ensures FixPage(OneRule, [2, 1]) == [2, 1] && !ValidPage(OneRule, [2, 1])
    ensures Mid(FixPage(OneRule, [2, 1])) == 1
    ensures FixPageCorrected(OneRule, [2, 1]) == [1, 2] && ValidPage(OneRule, [1, 2])
    ensures Mid(FixPageCorrected(OneRule, [2, 1])) == 2
  {
    ExampleAsWritten();
    ExampleIntended();
    assert Rules(OneRule, 1) == {} && Rules(OneRule, 2) == {1};
  }

  lemma ExampleAsWritten()
    ensures FixPage(OneRule, [2, 1]) == [2, 1]
  {
    assert [2, 1][..1] == [2];
    assert SortBy(LessAsWritten(OneRule), [2]) == [2];
    assert Insert(LessAsWritten(OneRule), 1, [2]) == [2, 1];
  }

  lemma ExampleIntended()
    ensures FixPageCorrected(OneRule, [2, 1]) == [1, 2]
  {
    assert [2, 1][..1] == [2];
    assert SortBy(LessIntended(OneRule), [2]) == [2];
    assert Insert(LessIntended(OneRule), 1, [2]) == [1, 2];
  }
}

=== FILE: day6.dfy ===
/** Day 6: guard gallivant. A guard walks a grid from a start cell facing
    north, turning right in place at a wall ahead and stepping forward
    otherwise, until the step would leave the grid. Part 1 counts the cells
    walked; part 2 counts the single added obstacles that trap the guard in
    a loop, detected by a repeated (position, direction) record at a turn. */
module Day6 {
  import opened Common

  datatype Direction = North | East | South | West

  /** The unit step of a direction, as (row, column). */
  function Delta(d: Direction): (p: Pos)
    ensures IsUnit(p)
  {
    match d
    case North => (-1, 0)
    case East => (0, 1)
    case South => (1, 0)
    case West => (0, -1)
  }

  /** next_dir: the clockwise turn N -> E -> S -> W -> N, a quarter
      rotation of the step. */
  function NextDir(d: Direction): (e: Direction)
    ensures Delta(e) == (Delta(d).1, -Delta(d).0)
  {
    match d
    case North => East
    case East => South
    case South => West
    case West => North
  }

  /** Four turns bring the guard back to its direction, and fewer do not. */
  lemma FourTurns(d: Direction)
    ensures NextDir(NextDir(NextDir(NextDir(d)))) == d
    ensures NextDir(d) != d && NextDir(NextDir(d)) != d && NextDir(NextDir(NextDir(d))) != d
  {
  }

  /** The grid the guard walks: its extent and its walls. */
  datatype Lab = Lab(rows: nat, cols: nat, walls: set<Pos>)

  datatype Guard = Guard(pos: Pos, dir: Direction)

  function Ahead(g: Guard): Pos
  {
    Add(g.pos, Delta(g.dir))
  }

  /** One iteration of the walking loops: nothing when the step would leave
      the grid, a turn in place at a wall ahead, a step forward otherwise. */
  function Move(lab: Lab, g: Guard): (r: Option<Guard>)
    ensures r.None? <==> !InBox(Ahead(g), lab.rows, lab.cols)
    ensures r.Some? ==> InBox(r.value.pos, lab.rows, lab.cols) || r.value.pos == g.pos
  {
    if !InBox(Ahead(g), lab.rows, lab.cols) then None
    else if Ahead(g) in lab.walls then Some(Guard(g.pos, NextDir(g.dir)))
    else Some(Guard(Ahead(g), g.dir))
  }

  /** Where the guard is after n iterations, or nothing once it has left. */
  function Walk(lab: Lab, g: Guard, n: nat): (r: Option<Guard>)
    ensures n == 0 ==> r == Some(g)
    ensures r.Some? && InBox(g.pos, lab.rows, lab.cols) ==> InBox(r.value.pos, lab.rows, lab.cols)
    ensures r.Some? && g.pos !in lab.walls ==> r.value.pos !in lab.walls
  {
    if n == 0 then Some(g)
    else match Walk(lab, g, n - 1)
      case None => None
      case Some(h) => Move(lab, h)
  }

  function WalkFrom(lab: Lab, o: Option<Guard>, n: nat): Option<Guard>
  {
    match o
    case None => None
    case Some(h) => Walk(lab, h, n)
  }

  /** Walking a then b iterations is walking a + b. */
  lemma {:induction false} WalkCompose(lab: Lab, g: Guard, a: nat, b: nat)
    ensures Walk(lab, g, a + b) == WalkFrom(lab, Walk(lab, g, a), b)
  {
    if b > 0 {
      WalkCompose(lab, g, a, b - 1);
      match Walk(lab, g, a)
      case None =>
      case Some(h) =>
    }
  }

  /** Walking n + 1 iterations is one move, then n iterations. */
  lemma WalkFirst(lab: Lab, g: Guard, g': Guard, n: nat)
    requires Move(lab, g) == Some(g')
    ensures Walk(lab, g, n + 1) == Walk(lab, g', n)
  {
    WalkCompose(lab, g, 1, n);
  }

  /** Once out, the guard stays out. */
  lemma {:induction false} OutStaysOut(lab: Lab, g: Guard, a: nat, b: nat)
    requires a <= b && Walk(lab, g, a).None?
    ensures Walk(lab, g, b).None?
  {
    if a < b {
      OutStaysOut(lab, g, a, b - 1);
    }
  }

  /** The guard never leaves the grid. */
  ghost predicate Trapped(lab: Lab, g: Guard)
  {
    forall n: nat :: Walk(lab, g, n).Some?
  }

  /** A state that recurs recurs forever: the guard is trapped. */
  lemma Cycle(lab: Lab, g: Guard, a: nat, b: nat)
    requires a < b && Walk(lab, g, a).Some? && Walk(lab, g, a) == Walk(lab, g, b)
    ensures Trapped(lab, g)
  {
    var x := Walk(lab, g, a).value;
    Recurs(lab, g, a, b);
    PeriodicTrapped(lab, x, b - a);
    forall n: nat
      ensures Walk(lab, g, n).Some?
    {
      TrappedFrom(lab, g, a, x, n);
    }
  }

  /** A state met again after b - a more iterations returns to itself. */
  lemma Recurs(lab: Lab, g: Guard, a: nat, b: nat)
    requires a < b && Walk(lab, g, a).Some? && Walk(lab, g, a) == Walk(lab, g, b)
    ensures Walk(lab, Walk(lab, g, a).value, b - a) == Walk(lab, g, a)
  {
    var p := b - a;
    var w := Walk(lab, g, a);
    WalkCompose(lab, g, a, p);
    assert a + p == b;
    assert WalkFrom(lab, w, p) == Walk(lab, w.value, p);
  }

  /** A state the walk returns to is trapped. */
  lemma PeriodicTrapped(lab: Lab, x: Guard, p: nat)
    requires p > 0 && Walk(lab, x, p) == Some(x)
    ensures Trapped(lab, x)
  {
    forall n: nat
      ensures Walk(lab, x, n).Some?
    {
      PeriodicInside(lab, x, p, n);
    }
  }

  /** A walk that reaches a trapped state never leaves. */
  lemma TrappedFrom(lab: Lab, g: Guard, a: nat, x: Guard, n: nat)
    requires Walk(lab, g, a) == Some(x) && Trapped(lab, x)
    ensures Walk(lab, g, n).Some?
  {
    if n <= a {
      if Walk(lab, g, n).None? {
        OutStaysOut(lab, g, n, a);
      }
    } else {
      WalkCompose(lab, g, a, n - a);
      assert Walk(lab, x, n - a).Some?;
    }
  }

  lemma {:induction false} PeriodicInside(lab: Lab, x: Guard, p: nat, n: nat)
    requires p > 0 && Walk(lab, x, p) == Some(x)
    ensures Walk(lab, x, n).Some?
    decreases n
  {
    if n < p {
      if Walk(lab, x, n).None? {
        OutStaysOut(lab, x, n, p);
      }
    } else {
      WalkCompose(lab, x, p, n - p);
      PeriodicInside(lab, x, p, n - p);
    }
  }

  /** All (cell, direction) records a turn inside the grid can make. */
  function Records(lab: Lab): set<(Pos, Direction)>
  {
    set i, j, d | 0 <= i < lab.rows && 0 <= j < lab.cols && d in {North, East, South, West} :: ((i, j), d)
  }

  /** Steps left before the edge straight ahead. */
  function Dist(lab: Lab, g: Guard): nat
    requires InBox(g.pos, lab.rows, lab.cols)
  {
    match g.dir
    case North => g.pos.0
    case South => lab.rows - 1 - g.pos.0
    case West => g.pos.1
    case East => lab.cols - 1 - g.pos.1
  }

  /** The reference reading of track_for_loops: walk on; at each turn, the
      record (cell, new direction) seen before means a loop, otherwise it
      is recorded; leaving the grid means no loop. */
  function Detect(lab: Lab, g: Guard, seen: set<(Pos, Direction)>): (r: bool)
    requires InBox(g.pos, lab.rows, lab.cols)
    ensures !r ==> Exits(lab, g)
    ensures r ==> InBox(Ahead(g), lab.rows, lab.cols)
    decreases Records(lab) - seen, Dist(lab, g)
  {
    if !InBox(Ahead(g), lab.rows, lab.cols) then
      assert Walk(lab, g, 1).None?;
      false
    else if Ahead(g) in lab.walls then
      var rec := (g.pos, NextDir(g.dir));
      if rec in seen then true
      else
        assert rec in Records(lab);
        ExitsFirst(lab, g, Guard(g.pos, NextDir(g.dir)));
        Detect(lab, Guard(g.pos, NextDir(g.dir)), seen + {rec})
    else
      ExitsFirst(lab, g, Guard(Ahead(g), g.dir));
      Detect(lab, Guard(Ahead(g), g.dir), seen)
  }

  /** The guard steps off the grid after some number of iterations. */
  ghost predicate Exits(lab: Lab, g: Guard)
  {
    exists n: nat :: Walk(lab, g, n).None?
  }

  /** A guard whose next state gets off gets off too, one iteration later. */
  lemma ExitsFirst(lab: Lab, g: Guard, g': Guard)
    requires Move(lab, g) == Some(g')
    ensures Exits(lab, g') ==> Exits(lab, g)
  {
    if Exits(lab, g') {
      var n: nat :| Walk(lab, g', n).None?;
      WalkFirst(lab, g, g', n);
    }
  }

  /** The records of the turns made in the first n iterations. */
  function TurnRecords(lab: Lab, g: Guard, n: nat): set<(Pos, Direction)>
  {
    if n == 0 then {}
    else
      TurnRecords(lab, g, n - 1) +
      match Walk(lab, g, n - 1)
      case Some(h) =>
        if InBox(Ahead(h), lab.rows, lab.cols) && Ahead(h) in lab.walls then {(h.pos, NextDir(h.dir))} else {}
      case None => {}
  }

  /** Every record is the state right after an earlier turn. */
  lemma {:induction false} RecordWasState(lab: Lab, g: Guard, n: nat, rec: (Pos, Direction))
    requires rec in TurnRecords(lab, g, n)
    ensures exists s: nat :: 0 < s <= n && Walk(lab, g, s) == Some(Guard(rec.0, rec.1))
  {
    if rec in TurnRecords(lab, g, n - 1) {
      RecordWasState(lab, g, n - 1, rec);
    } else {
      assert Walk(lab, g, n) == Some(Guard(rec.0, rec.1));
    }
  }

  /** Loop detection is exact: started with no records, Detect answers
      true iff the guard never leaves the grid. A repeated record is a
      repeated state, so the walk cycles; false comes only from a step off
      the grid. */
  lemma {:induction false} DetectIffTrapped(lab: Lab, g0: Guard, k: nat, g: Guard)
    requires Walk(lab, g0, k) == Some(g) && InBox(g.pos, lab.rows, lab.cols)
    ensures Detect(lab, g, TurnRecords(lab, g0, k)) <==> Trapped(lab, g0)
    decreases Records(lab) - TurnRecords(lab, g0, k), Dist(lab, g)
  {
    var seen := TurnRecords(lab, g0, k);
    WalkNext(lab, g0, k, g);
    if !InBox(Ahead(g), lab.rows, lab.cols) {
      DetectExit(lab, g, seen);
      assert Walk(lab, g0, k + 1).None?;
    } else if Ahead(g) in lab.walls {
      DetectTurn(lab, g, seen);
      var rec := (g.pos, NextDir(g.dir));
      if rec in seen {
        RecordWasState(lab, g0, k, rec);
        var s: nat :| 0 < s <= k && Walk(lab, g0, s) == Some(Guard(rec.0, rec.1));
        Cycle(lab, g0, s, k + 1);
      } else {
        DetectIffTrapped(lab, g0, k + 1, Guard(g.pos, NextDir(g.dir)));
      }
    } else {
      DetectForward(lab, g, seen);
      assert TurnRecords(lab, g0, k + 1) == seen;
      DetectIffTrapped(lab, g0, k + 1, Guard(Ahead(g), g.dir));
    }
  }

  /** One more iteration: the next state is one move on, and a turn adds
      its record. */
  lemma WalkNext(lab: Lab, g0: Guard, k: nat, g: Guard)
    requires Walk(lab, g0, k) == Some(g)
    ensures Walk(lab, g0, k + 1) == Move(lab, g)
    ensures TurnRecords(lab, g0, k + 1) ==
      TurnRecords(lab, g0, k) +
      (if InBox(Ahead(g), lab.rows, lab.cols) && Ahead(g) in lab.walls then {(g.pos, NextDir(g.dir))} else {})
  {
  }

  /** The cells walked, start included, in the first n iterations. */
  function Visited(lab: Lab, g: Guard, n: nat): set<Pos>
  {
    if n == 0 then {g.pos}
    else
      Visited(lab, g, n - 1) +
      match Walk(lab, g, n)
      case Some(h) => {h.pos}
      case None => {}
  }

  /** The accumulating reading of track_to_end_and_count: the cells marked
      by the time the guard steps off, or nothing when that takes more than
      fuel iterations. */
  function Trail(lab: Lab, g: Guard, fuel: nat, marked: set<Pos>): Option<set<Pos>>
    decreases fuel
  {
    var marked' := marked + {g.pos};
    if !InBox(Ahead(g), lab.rows, lab.cols) then Some(marked')
    else if fuel == 0 then None
    else Trail(lab, Move(lab, g).value, fuel - 1, marked')
  }

  /** One iteration shifts the cells walked by one. */
  lemma {:induction false} VisitedShift(lab: Lab, g: Guard, g': Guard, n: nat)
    requires Move(lab, g) == Some(g')
    ensures Visited(lab, g, n + 1) == {g.pos} + Visited(lab, g', n)
  {
    WalkFirst(lab, g, g', n);
    if n > 0 {
      VisitedShift(lab, g, g', n - 1);
    }
  }

  /** The guard gets off within fuel + 1 iterations exactly when the trail
      ends, and the trail is then every cell walked. */
  lemma {:induction false} TrailIsWalk(lab: Lab, g: Guard, fuel: nat, marked: set<Pos>)
    ensures Trail(lab, g, fuel, marked).Some? <==> Walk(lab, g, fuel + 1).None?
    ensures Trail(lab, g, fuel, marked).Some? ==> Trail(lab, g, fuel, marked).value == marked + Visited(lab, g, fuel)
    decreases fuel
  {
    if !InBox(Ahead(g), lab.rows, lab.cols) {
      assert Walk(lab, g, 1).None?;
      OutStaysOut(lab, g, 1, fuel + 1);
      NoVisitAfterExit(lab, g, fuel);
    } else if fuel > 0 {
      var g' := Move(lab, g).value;
      TrailIsWalk(lab, g', fuel - 1, marked + {g.pos});
      TrailStep(lab, g, g', fuel, marked);
    } else {
      assert Walk(lab, g, 1).Some?;
    }
  }

  lemma TrailStep(lab: Lab, g: Guard, g': Guard, fuel: nat, marked: set<Pos>)
    requires InBox(Ahead(g), lab.rows, lab.cols) && fuel > 0 && Move(lab, g) == Some(g')
    requires var t := Trail(lab, g', fuel - 1, marked + {g.pos});
      (t.Some? <==> Walk(lab, g', fuel).None?) &&
      (t.Some? ==> t.value == marked + {g.pos} + Visited(lab, g', fuel - 1))
    ensures Trail(lab, g, fuel, marked).Some? <==> Walk(lab, g, fuel + 1).None?
    ensures Trail(lab, g, fuel, marked).Some? ==> Trail(lab, g, fuel, marked).value == marked + Visited(lab, g, fuel)
  {
    WalkFirst(lab, g, g', fuel);
    VisitedShift(lab, g, g', fuel - 1);
  }

  lemma {:induction false} NoVisitAfterExit(lab: Lab, g: Guard, n: nat)
    requires Walk(lab, g, 1).None?
    ensures Visited(lab, g, n) == {g.pos}
  {
    if n > 0 {
      NoVisitAfterExit(lab, g, n - 1);
      OutStaysOut(lab, g, 1, n);
    }
  }

  /** The cells of a grid of flags that are set. */
  ghost function Cells(a: array2<bool>): set<Pos>
    reads a
  {
    set i, j | 0 <= i < a.Length0 && 0 <= j < a.Length1 && a[i, j] :: (i, j)
  }

  /** Setting one flag adds its cell and nothing else. */
  lemma CellsSet(a: array2<bool>, before: set<Pos>, p: Pos)
    requires InBox(p, a.Length0, a.Length1) && a[p.0, p.1]
    requires forall i, j :: 0 <= i < a.Length0 && 0 <= j < a.Length1 && (i, j) != p ==> (a[i, j] <==> (i, j) in before)
    requires forall q :: q in before ==> InBox(q, a.Length0, a.Length1)
    ensures Cells(a) == before + {p}
  {
  }

  /** The set cells before row i, column j in row-major order. */
  ghost function CellsBefore(a: array2<bool>, i: int, j: int): set<Pos>
    reads a
  {
    set r, c | 0 <= r < a.Length0 && 0 <= c < a.Length1 && a[r, c] && (r < i || (r == i && c < j)) :: (r, c)
  }

  lemma CellsBeforeMarked(a: array2<bool>, i: int, j: int)
    requires 0 <= i < a.Length0 && 0 <= j < a.Length1 && a[i, j]
    ensures CellsBefore(a, i, j + 1) == CellsBefore(a, i, j) + {(i, j)}
    ensures (i, j) !in CellsBefore(a, i, j)
  {
  }

  lemma CellsBeforeUnmarked(a: array2<bool>, i: int, j: int)
    requires 0 <= i < a.Length0 && 0 <= j < a.Length1 && !a[i, j]
    ensures CellsBefore(a, i, j + 1) == CellsBefore(a, i, j)
  {
  }

  lemma CellsBeforeNextRow(a: array2<bool>, i: int)
    ensures CellsBefore(a, i + 1, 0) == CellsBefore(a, i, a.Length1)
  {
  }

  lemma CellsBeforeAll(a: array2<bool>)
    ensures CellsBefore(a, a.Length0, 0) == Cells(a)
  {
  }

  /** The row-by-row count behind Tracker.Count. */
  method CountCells(a: array2<bool>) returns (n: nat)
    ensures n == |Cells(a)|
  {
    n := 0;
    for i := 0 to a.Length0
      invariant n == |CellsBefore(a, i, 0)|
    {
      n := CountRowCells(a, i, n);
      CellsBeforeNextRow(a, i);
    }
    CellsBeforeAll(a);
  }

  /** One row of CountCells: adds the set cells of row i. */
  method CountRowCells(a: array2<bool>, i: nat, n0: nat) returns (n: nat)
    requires i < a.Length0 && n0 == |CellsBefore(a, i, 0)|
    ensures n == |CellsBefore(a, i, a.Length1)|
  {
    n := n0;
    for j := 0 to a.Length1
      invariant n == |CellsBefore(a, i, j)|
    {
      if a[i, j] {
        CellsBeforeMarked(a, i, j);
        n := n + 1;
      } else {
        CellsBeforeUnmarked(a, i, j);
      }
    }
  }

  /** Maze: the walls as a fixed-size grid that part 2 changes in place. */
  class Maze {
    const walls: array2<bool>

    constructor(walls: array2<bool>)
      ensures this.walls == walls
    {
      this.walls := walls;
    }

    ghost function Walls(): set<Pos>
      reads this, walls
    {
      Cells(walls)
    }

    ghost function AsLab(): Lab
      reads this, walls
    {
      Lab(walls.Length0, walls.Length1, Walls())
    }

    /** has_wall: whether the cell p of the grid is a wall. */
    function HasWall(p: Pos): (r: bool)
      requires InBox(p, walls.Length0, walls.Length1)
      reads this, walls
      ensures r <==> p in Walls()
    {
      walls[p.0, p.1]
    }
  }

  /** Tracker: the guard's position and direction, the cells it has marked
      and the turn records, all updated in place. */
  class Tracker {
    const startPos: Pos
    const rows: nat
    const cols: nat
    var direction: Direction
    var pos: Pos
    var tracking: array2<bool>
    var loopCheckSet: set<(Pos, Direction)>

    /** The guard stands inside the grid on a marked cell. */
    ghost predicate Valid()
      reads this, tracking
    {
      tracking.Length0 == rows && tracking.Length1 == cols &&
      InBox(startPos, rows, cols) && InBox(pos, rows, cols) && tracking[pos.0, pos.1]
    }

    ghost function Marked(): set<Pos>
      reads this, tracking
    {
      Cells(tracking)
    }

    function State(): Guard
      reads this
    {
      Guard(pos, direction)
    }

    constructor(startPos: Pos, maze: Maze)
      requires InBox(startPos, maze.walls.Length0, maze.walls.Length1)
      ensures this.startPos == startPos && rows == maze.walls.Length0 && cols == maze.walls.Length1
      ensures Valid() && State() == Guard(startPos, North) && Marked() == {startPos} && loopCheckSet == {}
      ensures fresh(tracking)
    {
      this.startPos := startPos;
      rows := maze.walls.Length0;
      cols := maze.walls.Length1;
      new;
      ResetTracker();
    }

    /** reset_tracker: facing north on the start cell, only the start
        marked, no turn records. */
    method ResetTracker()
      requires InBox(startPos, rows, cols)
      modifies this
      ensures Valid() && State() == Guard(startPos, North) && Marked() == {startPos} && loopCheckSet == {}
      ensures fresh(tracking)
    {
      direction := North;
      pos := startPos;
      tracking := new bool[rows, cols]((i, j) => false);
      tracking[pos.0, pos.1] := true;
      loopCheckSet := {};
      assert forall q :: q in Marked() <==> q == startPos;
    }

    /** The guard's own cell is marked. */
    lemma OnMarked()
      requires Valid()
      ensures pos in Marked()
    {
    }

    /** next_position: the cell ahead, or nothing when it is off the grid. */
    function NextPosition(): (r: Option<Pos>)
      reads this
      ensures r.None? <==> !InBox(Ahead(State()), rows, cols)
      ensures r.Some? ==> r.value == Ahead(State())
    {
      var next := Add(pos, Delta(direction));
      if next.0 >= rows || next.1 >= cols || next.0 < 0 || next.1 < 0 then None
      else Some(next)
    }

    /** forward: one step ahead, marking the cell stepped on. */
    method Forward()
      requires Valid() && InBox(Ahead(State()), rows, cols)
      modifies this, tracking
      ensures Valid() && State() == Guard(Ahead(old(State())), old(direction))
      ensures tracking == old(tracking) && Marked() == old(Marked()) + {pos}
      ensures loopCheckSet == old(loopCheckSet)
    {
      pos := Add(pos, Delta(direction));
      tracking[pos.0, pos.1] := true;
      CellsSet(tracking, old(Marked()), pos);
    }

    /** turn: a right turn in place. */
    method Turn()
      modifies this
      ensures State() == Guard(old(pos), NextDir(old(direction)))
      ensures tracking == old(tracking) && loopCheckSet == old(loopCheckSet)
    {
      direction := NextDir(direction);
    }

    /** turn_and_check_loop: a right turn, then whether (cell, new direction)
        was recorded before; it is recorded either way. */
    method TurnAndCheckLoop() returns (check: bool)
      modifies this
      ensures State() == Guard(old(pos), NextDir(old(direction)))
      ensures check <==> (pos, direction) in old(loopCheckSet)
      ensures loopCheckSet == old(loopCheckSet) + {(pos, direction)}
      ensures tracking == old(tracking)
    {
      Turn();
      var posDir := (pos, direction);
      check := posDir in loopCheckSet;
      loopCheckSet := loopCheckSet + {posDir};
    }

    /** count: the number of marked cells. */
    method Count() returns (n: nat)
      requires Valid()
      ensures n == |Marked()|
    {
      n := CountCells(tracking);
    }
  }

  /** The maze and the tracker share a grid shape and not an array. */
  ghost predicate Apart(maze: Maze, tracker: Tracker)
    reads maze, tracker, tracker.tracking
  {
    tracker.Valid() && maze.walls.Length0 == tracker.rows && maze.walls.Length1 == tracker.cols &&
    maze.walls != tracker.tracking
  }

  /** One iteration of the part 1 loop leaves the trail where it was: the
      cell the guard is on is already marked. */
  lemma TrailMove(lab: Lab, g: Guard, fuel: nat, marked: set<Pos>, g': Guard)
    requires g.pos in marked && fuel > 0 && Move(lab, g) == Some(g')
    ensures Trail(lab, g, fuel, marked) == Trail(lab, g', fuel - 1, marked + {g'.pos})
  {
    assert marked + {g.pos} == marked;
    assert (marked + {g'.pos}) + {g'.pos} == marked + {g'.pos};
  }

  /** The body of the part 1 loop: a turn at a wall ahead, a step
      forward otherwise. */
  method MoveTracker(maze: Maze, tracker: Tracker, next: Pos)
    requires Apart(maze, tracker) && InBox(next, tracker.rows, tracker.cols) && next == Ahead(tracker.State())
    modifies tracker, tracker.tracking
    ensures Apart(maze, tracker) && tracker.tracking == old(tracker.tracking)
    ensures Move(maze.AsLab(), old(tracker.State())) == Some(tracker.State())
    ensures tracker.Marked() == old(tracker.Marked()) + {tracker.pos}
  {
    if maze.HasWall(next) {
      tracker.Turn();
      assert tracker.Marked() == old(tracker.Marked()) + {tracker.pos};
    } else {
      tracker.Forward();
    }
  }

  /** One iteration of the part 1 loop, with the trail it leaves still
      to come. */
  method WalkStep(maze: Maze, tracker: Tracker, next: Pos, f: nat, ghost lab: Lab)
    requires Apart(maze, tracker) && maze.AsLab() == lab
    requires InBox(next, tracker.rows, tracker.cols) && next == Ahead(tracker.State()) && f > 0
    modifies tracker, tracker.tracking
    ensures Apart(maze, tracker) && maze.AsLab() == lab && tracker.tracking == old(tracker.tracking)
    ensures Trail(lab, tracker.State(), f - 1, tracker.Marked()) ==
      Trail(lab, old(tracker.State()), f, old(tracker.Marked()))
  {
    ghost var g := tracker.State();
    ghost var m := tracker.Marked();
    tracker.OnMarked();
    MoveTracker(maze, tracker, next);
    TrailMove(lab, g, f, m, tracker.State());
  }

  /** With the step ahead off the grid, the trail ends where it is. */
  lemma TrailExit(lab: Lab, g: Guard, fuel: nat, marked: set<Pos>)
    requires g.pos in marked && !InBox(Ahead(g), lab.rows, lab.cols)
    ensures Trail(lab, g, fuel, marked) == Some(marked)
  {
    assert marked + {g.pos} == marked;
  }

  /** With the step ahead inside and no fuel left, the trail gives up. */
  lemma TrailOutOfFuel(lab: Lab, g: Guard, marked: set<Pos>)
    requires InBox(Ahead(g), lab.rows, lab.cols)
    ensures Trail(lab, g, 0, marked).None?
  {
  }

  /** The loop of track_to_end_and_count: true once the step ahead leaves
      the grid, with the trail marked; false after fuel iterations inside. */
  method WalkToEnd(maze: Maze, tracker: Tracker, fuel: nat) returns (exited: bool)
    requires Apart(maze, tracker)
    modifies tracker, tracker.tracking
    ensures Apart(maze, tracker) && tracker.tracking == old(tracker.tracking)
    ensures var t := Trail(maze.AsLab(), old(tracker.State()), fuel, old(tracker.Marked()));
      exited == t.Some? && (exited ==> tracker.Marked() == t.value)
  {
    ghost var lab := maze.AsLab();
    ghost var t := Trail(lab, tracker.State(), fuel, tracker.Marked());
    var k: nat := 0;
    var next := tracker.NextPosition();
    while next.Some? && k < fuel
      invariant k <= fuel && Apart(maze, tracker) && tracker.tracking == old(tracker.tracking)
      invariant maze.AsLab() == lab && next == tracker.NextPosition()
      invariant Trail(lab, tracker.State(), fuel - k, tracker.Marked()) == t
      decreases fuel - k
    {
      WalkStep(maze, tracker, next.value, fuel - k, lab);
      k := k + 1;
      next := tracker.NextPosition();
    }
    if next.Some? {
      TrailOutOfFuel(lab, tracker.State(), tracker.Marked());
      return false;
    }
    tracker.OnMarked();
    TrailExit(lab, tracker.State(), fuel - k, tracker.Marked());
    return true;
  }

  /** track_to_end_and_count: walk until the step ahead leaves the grid,
      then count the marked cells. The source loops forever when the guard
      is trapped; here the walk gives up after fuel iterations. */
  method TrackToEndAndCount(maze: Maze, tracker: Tracker, fuel: nat) returns (r: Option<nat>)
    requires Apart(maze, tracker)
    modifies tracker, tracker.tracking
    ensures Apart(maze, tracker) && tracker.tracking == old(tracker.tracking)
    ensures var t := Trail(maze.AsLab(), old(tracker.State()), fuel, old(tracker.Marked()));
      if t.None? then r.None?
      else r == Some(|t.value|) && tracker.Marked() == t.value
  {
    var exited := WalkToEnd(maze, tracker, fuel);
    if !exited {
      return None;
    }
    var n := tracker.Count();
    r := Some(n);
  }

  /** Detect, one iteration at a time: off the grid, a turn, a step. */
  lemma DetectExit(lab: Lab, g: Guard, seen: set<(Pos, Direction)>)
    requires InBox(g.pos, lab.rows, lab.cols) && !InBox(Ahead(g), lab.rows, lab.cols)
    ensures !Detect(lab, g, seen)
  {
  }

  lemma DetectTurn(lab: Lab, g: Guard, seen: set<(Pos, Direction)>)
    requires InBox(g.pos, lab.rows, lab.cols) && InBox(Ahead(g), lab.rows, lab.cols) && Ahead(g) in lab.walls
    ensures (g.pos, NextDir(g.dir)) in Records(lab)
    ensures Detect(lab, g, seen) ==
      ((g.pos, NextDir(g.dir)) in seen || Detect(lab, Guard(g.pos, NextDir(g.dir)), seen + {(g.pos, NextDir(g.dir))}))
  {
  }

  lemma DetectForward(lab: Lab, g: Guard, seen: set<(Pos, Direction)>)
    requires InBox(g.pos, lab.rows, lab.cols) && InBox(Ahead(g), lab.rows, lab.cols) && Ahead(g) !in lab.walls
    ensures Dist(lab, Guard(Ahead(g), g.dir)) < Dist(lab, g)
    ensures Detect(lab, g, seen) == Detect(lab, Guard(Ahead(g), g.dir), seen)
  {
  }

  /** track_for_loops: walk with turn records; true as soon as a turn
      repeats a record, false when the step ahead leaves the grid. It ends
      because every turn that does not stop adds a new record, and between
      turns the guard goes straight towards an edge. */
  method TrackForLoops(maze: Maze, tracker: Tracker) returns (r: bool)
    requires Apart(maze, tracker)
    modifies tracker, tracker.tracking
    ensures Apart(maze, tracker) && tracker.tracking == old(tracker.tracking)
    ensures r == Detect(maze.AsLab(), old(tracker.State()), old(tracker.loopCheckSet))
  {
    ghost var lab := maze.AsLab();
    ghost var d := Detect(lab, tracker.State(), tracker.loopCheckSet);
    while true
      invariant Apart(maze, tracker) && tracker.tracking == old(tracker.tracking)
      invariant maze.AsLab() == lab
      invariant Detect(lab, tracker.State(), tracker.loopCheckSet) == d
      decreases Records(lab) - tracker.loopCheckSet, Dist(lab, tracker.State())
    {
      var next := tracker.NextPosition();
      if next.None? {
        DetectExit(lab, tracker.State(), tracker.loopCheckSet);
        break;
      }
      if maze.HasWall(next.value) {
        DetectTurn(lab, tracker.State(), tracker.loopCheckSet);
        var hasLoop := tracker.TurnAndCheckLoop();
        if hasLoop {
          return true;
        }
      } else {
        DetectForward(lab, tracker.State(), tracker.loopCheckSet);
        tracker.Forward();
      }
    }
    return false;
  }

  /** A cell generate_mazes turns into a wall: on the walked path, not a
      wall already, not the start. */
  ghost predicate Candidate(lab: Lab, start: Pos, path: set<Pos>, p: Pos)
  {
    p in path && p !in lab.walls && p != start
  }

  /** The guard, from the start facing north, is trapped once p is a wall. */
  ghost predicate Traps(lab: Lab, start: Pos, p: Pos)
  {
    Trapped(Lab(lab.rows, lab.cols, lab.walls + {p}), Guard(start, North))
  }

  ghost function LoopCells(lab: Lab, start: Pos, path: set<Pos>): set<Pos>
  {
    set p | p in path && Candidate(lab, start, path, p) && Traps(lab, start, p)
  }

  /** The candidates before row i, column j in row-major order that trap
      the guard. */
  ghost function LoopCellsBefore(lab: Lab, start: Pos, path: set<Pos>, i: int, j: int): set<Pos>
  {
    set p | p in path && Candidate(lab, start, path, p) && Traps(lab, start, p) && (p.0 < i || (p.0 == i && p.1 < j))
  }

  /** Row-major counting: the next cell joins when it traps the guard, a
      row ends at its last column, and all rows make the whole set. */
  lemma LoopCellsNext(lab: Lab, start: Pos, path: set<Pos>, i: int, j: int)
    ensures LoopCellsBefore(lab, start, path, i, j + 1) ==
      LoopCellsBefore(lab, start, path, i, j) +
      (if Candidate(lab, start, path, (i, j)) && Traps(lab, start, (i, j)) then {(i, j)} else {})
  {
  }

  lemma LoopCellsRow(lab: Lab, start: Pos, path: set<Pos>, i: int)
    requires forall q :: q in path ==> InBox(q, lab.rows, lab.cols)
    ensures LoopCellsBefore(lab, start, path, i + 1, 0) == LoopCellsBefore(lab, start, path, i, lab.cols)
  {
  }

  lemma LoopCellsAll(lab: Lab, start: Pos, path: set<Pos>)
    requires forall q :: q in path ==> InBox(q, lab.rows, lab.cols)
    ensures LoopCellsBefore(lab, start, path, lab.rows, 0) == LoopCells(lab, start, path)
    ensures LoopCellsBefore(lab, start, path, 0, 0) == {}
  {
  }

  /** One maze of generate_mazes and its check: the cell pos becomes a
      wall, the tracker is reset and checked for a loop, and the cell is
      cleared again. */
  method TryWall(maze: Maze, tracker: Tracker, pos: Pos) returns (trapped: bool)
    requires tracker.Valid() && maze.walls.Length0 == tracker.rows && maze.walls.Length1 == tracker.cols
    requires InBox(pos, tracker.rows, tracker.cols) && !maze.walls[pos.0, pos.1]
    modifies maze.walls, tracker
    ensures maze.AsLab() == old(maze.AsLab())
    ensures trapped == Traps(maze.AsLab(), tracker.startPos, pos)
    ensures Apart(maze, tracker) && fresh(tracker.tracking)
  {
    ghost var lab := maze.AsLab();
    maze.walls[pos.0, pos.1] := true;
    CellsSet(maze.walls, lab.walls, pos);
    ghost var lab' := maze.AsLab();
    tracker.ResetTracker();
    trapped := TrackForLoops(maze, tracker);
    assert trapped == Detect(lab', Guard(tracker.startPos, North), {});
    DetectIffTrapped(lab', Guard(tracker.startPos, North), 0, Guard(tracker.startPos, North));
    maze.walls[pos.0, pos.1] := false;
    assert Cells(maze.walls) == lab.walls;
  }

  /** The body of generate_mazes' loop for the cell (i, j) with the
      count_potential_loops step it drives. */
  method CheckCell(maze: Maze, tracker: Tracker, pathToCheck: array2<bool>, i: nat, j: nat, counter: nat,
                   ghost lab: Lab, ghost path: set<Pos>)
    returns (counter': nat)
    requires tracker.Valid() && maze.walls.Length0 == tracker.rows && maze.walls.Length1 == tracker.cols
    requires maze.AsLab() == lab && InBox((i, j), lab.rows, lab.cols) && maze.walls != tracker.tracking
    requires pathToCheck != maze.walls && Cells(pathToCheck) == path
    requires pathToCheck.Length0 == lab.rows && pathToCheck.Length1 == lab.cols
    requires counter == |LoopCellsBefore(lab, tracker.startPos, path, i, j)|
    modifies maze.walls, tracker
    ensures maze.AsLab() == lab && Cells(pathToCheck) == path 
    ensures tracker.Valid() && maze.walls != tracker.tracking
    ensures counter' == |LoopCellsBefore(lab, tracker.startPos, path, i, j + 1)|
  {
    var pos := (i, j);
    LoopCellsNext(lab, tracker.startPos, path, i, j);
    if !pathToCheck[i, j] || maze.HasWall(pos) || pos == tracker.startPos {
      return counter;
    }
    var trapped := TryWall(maze, tracker, pos);
    counter' := counter + if trapped then 1 else 0;
  }

  /** One row of the generate_mazes loop. */
  method CountRow(maze: Maze, tracker: Tracker, pathToCheck: array2<bool>, i: nat, counter: nat,
                  ghost lab: Lab, ghost path: set<Pos>)
    returns (counter': nat)
    requires Apart(maze, tracker) && i < lab.rows
    requires maze.AsLab() == lab && pathToCheck != maze.walls && Cells(pathToCheck) == path
    requires pathToCheck.Length0 == lab.rows && pathToCheck.Length1 == lab.cols
    requires counter == |LoopCellsBefore(lab, tracker.startPos, path, i, 0)|
    modifies maze.walls, tracker
    ensures Apart(maze, tracker) && maze.AsLab() == lab && Cells(pathToCheck) == path
    ensures counter' == |LoopCellsBefore(lab, tracker.startPos, path, i + 1, 0)|
  {
    counter' := counter;
    for j := 0 to maze.walls.Length1
      invariant Apart(maze, tracker)
      invariant maze.AsLab() == lab && Cells(pathToCheck) == path
      invariant counter' == |LoopCellsBefore(lab, tracker.startPos, path, i, j)|
    {
      counter' := CheckCell(maze, tracker, pathToCheck, i, j, counter', lab, path);
    }
    LoopCellsRow(lab, tracker.startPos, path, i);
  }

  /** The maze loop of count_potential_loops over generate_mazes: every
      cell in row-major order, counting the candidates that trap the guard. */
  method CountLoopCells(maze: Maze, tracker: Tracker, pathToCheck: array2<bool>, ghost path: set<Pos>)
    returns (counter: nat)
    requires Apart(maze, tracker) && pathToCheck != maze.walls && Cells(pathToCheck) == path
    requires pathToCheck.Length0 == tracker.rows && pathToCheck.Length1 == tracker.cols
    modifies maze.walls, tracker
    ensures maze.AsLab() == old(maze.AsLab())
    ensures counter == |LoopCells(maze.AsLab(), tracker.startPos, path)|
  {
    ghost var lab := maze.AsLab();
    counter := 0;
    LoopCellsAll(lab, tracker.startPos, path);
    for i := 0 to maze.walls.Length0
      invariant Apart(maze, tracker)
      invariant maze.AsLab() == lab && Cells(pathToCheck) == path
      invariant counter == |LoopCellsBefore(lab, tracker.startPos, path, i, 0)|
    {
      counter := CountRow(maze, tracker, pathToCheck, i, counter, lab, path);
    }
  }

  /** count_potential_loops: walk the path once, then for each candidate
      cell in row-major order (generate_mazes) make it a wall, reset the
      tracker, check for a loop and clear the cell again. The answer is the
      number of candidates that trap the guard; the maze ends as it began. */
  method CountPotentialLoops(maze: Maze, tracker: Tracker, fuel: nat) returns (r: Option<nat>)
    requires Apart(maze, tracker)
    modifies maze.walls, tracker, tracker.tracking
    ensures maze.AsLab() == old(maze.AsLab())
    ensures var t := Trail(old(maze.AsLab()), old(tracker.State()), fuel, old(tracker.Marked()));
      if t.None? then r.None?
      else r == Some(|LoopCells(old(maze.AsLab()), tracker.startPos, t.value)|)
  {
    var walked := TrackToEndAndCount(maze, tracker, fuel);
    if walked.None? {
      return None;
    }
    var counter := CountLoopCells(maze, tracker, tracker.tracking, tracker.Marked());
    r := Some(counter);
  }
}

=== FILE: day7.dfy ===
/** Day 7: bridge calibration. Operators are placed between the values of
    an equation and evaluated strictly left to right; code 0 multiplies,
    code 1 adds and any other code concatenates decimally. An equation is
    solvable when some operator tuple reaches the target. */
module Day7 {
  import opened Decimal
  import Common

  /** int(f"{a}{b}") */
  function Concat(a: nat, b: nat): (r: nat)
    ensures r == a * Pow10(|ToDecimal(b)|) + b
  {
    FromDecimalAppend(ToDecimal(a), ToDecimal(b));
    FromToDecimal(a);
    FromToDecimal(b);
    FromDecimal(ToDecimal(a) + ToDecimal(b))
  }

  /** One operator applied to the running value. */
  function Apply(v: nat, c: int, x: nat): nat
  {
    if c == 0 then v * x else if c == 1 then v + x else Concat(v, x)
  }

  /** The running value after the first n operators. */
  function Prefix(problem: seq<nat>, calcs: seq<int>, n: nat): nat
    requires 1 <= |problem| && n <= |calcs| < |problem|
  {
    if n == 0 then problem[0]
    else Apply(Prefix(problem, calcs, n - 1), calcs[n - 1], problem[n])
  }

  /** What is_calcs_target decides: no running value after an operator
      exceeds the target, and the final value equals it. */
  predicate CalcsHitTarget(target: nat, problem: seq<nat>, calcs: seq<int>)
    requires 1 <= |problem| && |calcs| < |problem|
  {
    (forall n :: 1 <= n <= |calcs| ==> Prefix(problem, calcs, n) <= target)
    && Prefix(problem, calcs, |calcs|) == target
  }

  /** One more operator: the running value it gives is the next prefix. */
  lemma PrefixStep(problem: seq<nat>, calcs: seq<int>, i: nat, cur: nat)
    requires 1 <= |problem| && i < |calcs| < |problem|
    requires cur == Apply(Prefix(problem, calcs, i), calcs[i], problem[i + 1])
    ensures cur == Prefix(problem, calcs, i + 1)
  {
  }

  /** The match in is_calcs_target's loop: 0 multiplies, 1 adds, any
      other operator concatenates. */
  method ApplyOp(cur: nat, c: int, x: nat) returns (r: nat)
    ensures r == Apply(cur, c, x)
  {
    match c {
      case 0 => r := cur * x;
      case 1 => r := cur + x;
      case _ => r := Concat(cur, x);
    }
  }

  method IsCalcsTarget(target: nat, problem: seq<nat>, calcs: seq<int>) returns (hit: bool)
    requires 1 <= |problem| && |calcs| < |problem|
    ensures hit <==> CalcsHitTarget(target, problem, calcs)
  {
    var cur := problem[0];
    for i := 0 to |calcs|
      invariant cur == Prefix(problem, calcs, i)
      invariant forall n :: 1 <= n <= i ==> Prefix(problem, calcs, n) <= target
    {
      cur := ApplyOp(cur, calcs[i], problem[i + 1]);
      PrefixStep(problem, calcs, i, cur);
      if cur > target {
        return false;
      }
    }
    return cur == target;
  }

  /** An element of product(range(base), repeat=len). */
  predicate IsOpTuple(calcs: seq<int>, base: nat, len: nat)
  {
    |calcs| == len && forall i :: 0 <= i < |calcs| ==> 0 <= calcs[i] < base
  }

  /** Some operator tuple over range(base) hits the target. */
  ghost predicate Solvable(target: nat, values: seq<nat>, base: nat)
    requires 1 <= |values|
  {
    exists calcs :: IsOpTuple(calcs, base, |values| - 1) && CalcsHitTarget(target, values, calcs)
  }

  function Power(b: nat, n: nat): (p: nat)
    ensures b >= 1 ==> p >= 1
  {
    if n == 0 then 1 else b * Power(b, n - 1)
  }

  /** The k-th tuple of product(range(base), repeat=len), in its
      lexicographic order (k written in base `base`, most significant first). */
  function Decode(k: nat, base: nat, len: nat): (t: seq<int>)
    requires base >= 1
    ensures IsOpTuple(t, base, len)
  {
    if len == 0 then [] else Decode(k / base, base, len - 1) + [k % base]
  }

  function Encode(t: seq<int>, base: nat): int
  {
    if t == [] then 0 else Encode(t[..|t| - 1], base) * base + t[|t| - 1]
  }

  lemma BoundStep(e: int, d: int, base: int, p: int)
    requires 0 <= e < p && 0 <= d < base
    ensures 0 <= e * base + d < base * p
  {
    assert (e + 1) * base <= p * base;
  }

  /** Every tuple is enumerated: it is the Encode(t)-th one. */
  lemma {:induction false} EncodeDecode(t: seq<int>, base: nat)
    requires base >= 1 && IsOpTuple(t, base, |t|)
    ensures 0 <= Encode(t, base) < Power(base, |t|)
    ensures Decode(Encode(t, base), base, |t|) == t
  {
    if t != [] {
      var t' := t[..|t| - 1];
      var d := t[|t| - 1];
      EncodeDecode(t', base);
      var e := Encode(t', base);
      BoundStep(e, d, base, Power(base, |t'|));
      Common.DivModOf(e * base + d, e, d, base);
      assert t == t' + [d];
    }
  }

  /** check_if_solvable (base 2) and check_if_solvable_with_concat (base 3). */
  method CheckSolvable(target: nat, values: seq<nat>, base: nat) returns (solvable: bool)
    requires 1 <= |values| && base >= 1
    ensures solvable <==> Solvable(target, values, base)
  {
    var len := |values| - 1;
    var total := Power(base, len);
    for k := 0 to total
      invariant forall j :: 0 <= j < k ==> !CalcsHitTarget(target, values, Decode(j, base, len))
    {
      var calcs := Decode(k, base, len);
      var hit := IsCalcsTarget(target, values, calcs);
      if hit {
        return true;
      }
    }
    forall calcs | IsOpTuple(calcs, base, len)
      ensures !CalcsHitTarget(target, values, calcs)
    {
      EncodeDecode(calcs, base);
    }
    return false;
  }

  method CheckIfSolvable(target: nat, values: seq<nat>) returns (solvable: bool)
    requires 1 <= |values|
    ensures solvable <==> Solvable(target, values, 2)
  {
    solvable := CheckSolvable(target, values, 2);
  }

  method CheckIfSolvableWithConcat(target: nat, values: seq<nat>) returns (solvable: bool)
    requires 1 <= |values|
    ensures solvable <==> Solvable(target, values, 3)
  {
    solvable := CheckSolvable(target, values, 3);
  }

  /** Allowing concatenation can only add solutions. */
  lemma SolvableWithoutConcatIsSolvableWithConcat(target: nat, values: seq<nat>)
    requires 1 <= |values| && Solvable(target, values, 2)
    ensures Solvable(target, values, 3)
  {
    var calcs :| IsOpTuple(calcs, 2, |values| - 1) && CalcsHitTarget(target, values, calcs);
    assert IsOpTuple(calcs, 3, |values| - 1);
  }

  /** A one-value equation is solvable iff the value is the target. */
  lemma SingleValueSolvable(target: nat, v: nat, base: nat)
    ensures Solvable(target, [v], base) <==> v == target
  {
    if v == target {
      assert IsOpTuple([], base, 0) && CalcsHitTarget(target, [v], []);
    }
  }

  /** With every value positive the running value never decreases. */
  lemma {:induction false} PrefixMonotone(problem: seq<nat>, calcs: seq<int>, m: nat, n: nat)
    requires 1 <= |problem| && m <= n <= |calcs| < |problem|
    requires forall i :: 0 <= i < |problem| ==> problem[i] >= 1
    ensures Prefix(problem, calcs, m) <= Prefix(problem, calcs, n)
  {
    if m < n {
      PrefixMonotone(problem, calcs, m, n - 1);
      var v := Prefix(problem, calcs, n - 1);
      var x := problem[n];
      assert v <= v * x by { MulGrows(v, x); }
      assert v <= Concat(v, x) by { MulGrows(v, Pow10(|ToDecimal(x)|)); }
    }
  }

  lemma MulGrows(v: nat, x: nat)
    requires x >= 1
    ensures v <= v * x
  {
  }

  /** For positive values the early exit loses nothing: the tuple hits
      the target iff its final value equals the target. */
  lemma EarlyExitExact(target: nat, problem: seq<nat>, calcs: seq<int>)
    requires 1 <= |problem| && |calcs| < |problem|
    requires forall i :: 0 <= i < |problem| ==> problem[i] >= 1
    ensures CalcsHitTarget(target, problem, calcs) <==> Prefix(problem, calcs, |calcs|) == target
  {
    forall n | 1 <= n <= |calcs|
      ensures Prefix(problem, calcs, n) <= Prefix(problem, calcs, |calcs|)
    {
      PrefixMonotone(problem, calcs, n, |calcs|);
    }
  }

  /** With a zero value the early exit rejects a tuple whose final value is
      the target: 5 * 3 * 0 = 0, but 15 > 0 stops the evaluation first. */
  lemma EarlyExitMissesZero()
    ensures Prefix([5, 3, 0], [0, 0], 2) == 0
    ensures !CalcsHitTarget(0, [5, 3, 0], [0, 0])
  {
    assert Prefix([5, 3, 0], [0, 0], 1) == 15;
  }
}

=== FILE: day8.dfy ===
/** Day 8: resonant collinearity. For every ordered pair of distinct
    antennas of one frequency, antinodes lie on their line: the simple rule
    puts one at pos1 + (pos1 - pos2) and one at pos2 - (pos1 - pos2); the
    harmonic rule puts them at every multiple of the offset up to
    rows + cols, and counts the antennas themselves. */
module Day8 {
  import opened Common

  /** The antenna position lists, one per frequency (antenna_map.values()). */
  type AntennaMap = seq<seq<Pos>>

  /** What one ordered pair of antennas contributes. */
  type PairRule = (Pos, Pos) -> set<Pos>

  /** The pairs (l[a], l[b]) for b < nb, b != a, in the order
      permutations(l, 2) yields them for first index a. */
  function RowFold(l: seq<Pos>, a: nat, nb: nat, g: PairRule): set<Pos>
    requires a < |l| && nb <= |l|
  {
    if nb == 0 then {}
    else RowFold(l, a, nb - 1, g) + (if nb - 1 != a then g(l[a], l[nb - 1]) else {})
  }

  /** All pairs whose first index is below na. */
  function ListFold(l: seq<Pos>, na: nat, g: PairRule): set<Pos>
    requires na <= |l|
  {
    if na == 0 then {} else ListFold(l, na - 1, g) + RowFold(l, na - 1, |l|, g)
  }

  lemma {:induction false} RowFoldMembers(l: seq<Pos>, a: nat, nb: nat, g: PairRule, x: Pos)
    requires a < |l| && nb <= |l|
    ensures x in RowFold(l, a, nb, g) <==> exists b :: 0 <= b < nb && b != a && x in g(l[a], l[b])
  {
    if nb > 0 {
      RowFoldMembers(l, a, nb - 1, g, x);
    }
  }

  lemma {:induction false} ListFoldMembers(l: seq<Pos>, na: nat, g: PairRule, x: Pos)
    requires na <= |l|
    ensures x in ListFold(l, na, g) <==>
      exists a, b :: 0 <= a < na && 0 <= b < |l| && a != b && x in g(l[a], l[b])
  {
    if na > 0 {
      ListFoldMembers(l, na - 1, g, x);
      RowFoldMembers(l, na - 1, |l|, g, x);
    }
  }

  /** antinode1 = pos1 + delta and antinode2 = pos2 - delta, delta = pos1 - pos2. */
  function SimplePair(p: Pos, q: Pos): set<Pos>
  {
    {Add(p, Sub(p, q)), Sub(q, Sub(p, q))}
  }

  /** The first-frequency-indexed union of the simple antinodes. */
  function SimpleFold(m: AntennaMap, nf: nat): set<Pos>
    requires nf <= |m|
  {
    if nf == 0 then {} else SimpleFold(m, nf - 1) + ListFold(m[nf - 1], |m[nf - 1]|, SimplePair)
  }

  /** x is pos1 + (pos1 - pos2) for two distinct antennas of the list. */
  ghost predicate SimpleIn(l: seq<Pos>, x: Pos)
  {
    exists a, b :: 0 <= a < |l| && 0 <= b < |l| && a != b && x == Add(l[a], Sub(l[a], l[b]))
  }

  /** ... for some frequency below nf. */
  ghost predicate IsSimpleAntinode(m: AntennaMap, nf: nat, x: Pos)
    requires nf <= |m|
  {
    exists f :: 0 <= f < nf && SimpleIn(m[f], x)
  }

  /** Since both orders of every pair are used, pos2 - delta adds nothing
      beyond the pos1 + delta of the reversed pair. */
  lemma SimpleListMembers(l: seq<Pos>, x: Pos)
    ensures x in ListFold(l, |l|, SimplePair) <==> SimpleIn(l, x)
  {
    if x in ListFold(l, |l|, SimplePair) {
      SimpleListSound(l, x);
    }
    if SimpleIn(l, x) {
      SimpleListComplete(l, x);
    }
  }

  lemma SimpleListSound(l: seq<Pos>, x: Pos)
    requires x in ListFold(l, |l|, SimplePair)
    ensures SimpleIn(l, x)
  {
    ListFoldMembers(l, |l|, SimplePair, x);
    var a, b :| 0 <= a < |l| && 0 <= b < |l| && a != b && x in SimplePair(l[a], l[b]);
    if x != Add(l[a], Sub(l[a], l[b])) {
      SimplePairSwap(l[a], l[b]);
      assert x == Add(l[b], Sub(l[b], l[a]));
    }
  }

  lemma SimpleListComplete(l: seq<Pos>, x: Pos)
    requires SimpleIn(l, x)
    ensures x in ListFold(l, |l|, SimplePair)
  {
    var a, b :| 0 <= a < |l| && 0 <= b < |l| && a != b && x == Add(l[a], Sub(l[a], l[b]));
    assert x in SimplePair(l[a], l[b]);
    ListFoldMembers(l, |l|, SimplePair, x);
  }

  /** pos2 - delta is the first antinode of the reversed pair. */
  lemma SimplePairSwap(p: Pos, q: Pos)
    ensures Sub(q, Sub(p, q)) == Add(q, Sub(q, p))
  {
  }

  lemma {:induction false} SimpleFoldMembers(m: AntennaMap, nf: nat, x: Pos)
    requires nf <= |m|
    ensures x in SimpleFold(m, nf) <==> IsSimpleAntinode(m, nf, x)
  {
    if nf > 0 {
      SimpleFoldMembers(m, nf - 1, x);
      SimpleListMembers(m[nf - 1], x);
      if IsSimpleAntinode(m, nf, x) {
        var f :| 0 <= f < nf && SimpleIn(m[f], x);
        if f < nf - 1 {
          assert IsSimpleAntinode(m, nf - 1, x);
        }
      }
    }
  }

  /** create_antinode_pos_set */
  method CreateAntinodePosSet(antennaMap: AntennaMap) returns (antinodePos: set<Pos>)
    ensures antinodePos == SimpleFold(antennaMap, |antennaMap|)
    ensures forall x :: x in antinodePos <==> IsSimpleAntinode(antennaMap, |antennaMap|, x)
  {
    antinodePos := {};
    for f := 0 to |antennaMap|
      invariant antinodePos == SimpleFold(antennaMap, f)
    {
      var antennaPosList := antennaMap[f];
      ghost var before := antinodePos;
      for a := 0 to |antennaPosList|
        invariant antinodePos == before + ListFold(antennaPosList, a, SimplePair)
      {
        ghost var rowStart := antinodePos;
        for b := 0 to |antennaPosList|
          invariant antinodePos == rowStart + RowFold(antennaPosList, a, b, SimplePair)
        {
          if a != b {
            var pos1, pos2 := antennaPosList[a], antennaPosList[b];
            var delta := Sub(pos1, pos2);
            var antinode1 := Add(pos1, delta);
            var antinode2 := Sub(pos2, delta);
            antinodePos := antinodePos + {antinode1};
            antinodePos := antinodePos + {antinode2};
          }
        }
      }
    }
    forall x ensures x in antinodePos <==> IsSimpleAntinode(antennaMap, |antennaMap|, x) {
      SimpleFoldMembers(antennaMap, |antennaMap|, x);
    }
  }

  /** {p + d * i : 0 <= i < n} */
  function Ray(p: Pos, d: Pos, n: nat): set<Pos>
  {
    if n == 0 then {} else Ray(p, d, n - 1) + {Add(p, Scale(n - 1, d))}
  }

  /** {q - d * i : 0 <= i < n} */
  function BackRay(q: Pos, d: Pos, n: nat): set<Pos>
  {
    if n == 0 then {} else BackRay(q, d, n - 1) + {Sub(q, Scale(n - 1, d))}
  }

  lemma {:induction false} RayMembers(p: Pos, d: Pos, n: nat, x: Pos)
    ensures x in Ray(p, d, n) <==> exists i :: 0 <= i < n && x == Add(p, Scale(i, d))
  {
    if n > 0 { RayMembers(p, d, n - 1, x); }
  }

  /** Walking back from q by d is walking forward by -d. */
  lemma {:induction false} BackRayIsRay(q: Pos, d: Pos, n: nat)
    ensures BackRay(q, d, n) == Ray(q, Sub((0, 0), d), n)
  {
    if n > 0 {
      BackRayIsRay(q, d, n - 1);
      BackStep(q, d, n - 1);
    }
  }

  /** Step k back along d is step k forward along -d. */
  lemma BackStep(q: Pos, d: Pos, k: int)
    ensures Sub(q, Scale(k, d)) == Add(q, Scale(k, Sub((0, 0), d)))
  {
    assert k * (0 - d.0) == -(k * d.0) && k * (0 - d.1) == -(k * d.1);
  }

  /** Both loops over range(rows + cols) for one ordered pair. */
  function HarmonicPair(n: nat): PairRule
  {
    (p: Pos, q: Pos) => Ray(p, Sub(p, q), n) + BackRay(q, Sub(p, q), n)
  }

  /** Every antenna of a frequency with more than one antenna. */
  function Antennas(l: seq<Pos>): set<Pos>
  {
    if |l| > 1 then set k | 0 <= k < |l| :: l[k] else {}
  }

  function HarmonicFold(m: AntennaMap, nf: nat, n: nat): set<Pos>
    requires nf <= |m|
  {
    if nf == 0 then {}
    else HarmonicFold(m, nf - 1, n) + ListFold(m[nf - 1], |m[nf - 1]|, HarmonicPair(n)) + Antennas(m[nf - 1])
  }

  /** The two `for i in range(n)` loops of one pair: antinodes at
      pos1 + i * delta, then at pos2 - i * delta. */
  method AddHarmonics(antinodePos: set<Pos>, pos1: Pos, pos2: Pos, n: nat) returns (r: set<Pos>)
    ensures r == antinodePos + Ray(pos1, Sub(pos1, pos2), n) + BackRay(pos2, Sub(pos1, pos2), n)
  {
    r := antinodePos;
    var delta := Sub(pos1, pos2);
    for i := 0 to n
      invariant r == antinodePos + Ray(pos1, delta, i)
    {
      r := r + {Add(pos1, Scale(i, delta))};
    }
    for i := 0 to n
      invariant r == antinodePos + Ray(pos1, delta, n) + BackRay(pos2, delta, i)
    {
      r := r + {Sub(pos2, Scale(i, delta))};
    }
  }

  /** The `for pos2` loop of one first antenna. */
  method AddHarmonicRow(antinodePos: set<Pos>, antennaPosList: seq<Pos>, a: nat, n: nat) returns (r: set<Pos>)
    requires a < |antennaPosList|
    ensures r == antinodePos + RowFold(antennaPosList, a, |antennaPosList|, HarmonicPair(n))
  {
    r := antinodePos;
    for b := 0 to |antennaPosList|
      invariant r == antinodePos + RowFold(antennaPosList, a, b, HarmonicPair(n))
    {
      if a != b {
        r := AddHarmonics(r, antennaPosList[a], antennaPosList[b], n);
      }
    }
  }

  method CreateAntinodePosHarmonicSet(antennaMap: AntennaMap, cityDim: (nat, nat)) returns (antinodePos: set<Pos>)
    ensures antinodePos == HarmonicFold(antennaMap, |antennaMap|, cityDim.0 + cityDim.1)
    ensures cityDim.0 + cityDim.1 >= 1 ==>
      forall x :: x in antinodePos <==> IsHarmonicAntinode(antennaMap, |antennaMap|, cityDim.0 + cityDim.1, x)
  {
    var n := cityDim.0 + cityDim.1;
    antinodePos := {};
    for f := 0 to |antennaMap|
      invariant antinodePos == HarmonicFold(antennaMap, f, n)
    {
      var antennaPosList := antennaMap[f];
      ghost var before := antinodePos;
      for a := 0 to |antennaPosList|
        invariant antinodePos == before + ListFold(antennaPosList, a, HarmonicPair(n))
      {
        antinodePos := AddHarmonicRow(antinodePos, antennaPosList, a, n);
      }
      if |antennaPosList| > 1 {
        antinodePos := antinodePos + set k | 0 <= k < |antennaPosList| :: antennaPosList[k];
      }
    }
    if n >= 1 {
      forall x ensures x in antinodePos <==> IsHarmonicAntinode(antennaMap, |antennaMap|, n, x) {
        HarmonicFoldMembers(antennaMap, |antennaMap|, n, x);
      }
    }
  }

  /** x = pos1 + i * (pos1 - pos2) for two distinct antennas of the list
      and some 0 <= i < n. */
  ghost predicate HarmonicIn(l: seq<Pos>, n: nat, x: Pos)
  {
    exists a, b, i :: 0 <= a < |l| && 0 <= b < |l| && a != b && 0 <= i < n
      && x == Add(l[a], Scale(i, Sub(l[a], l[b])))
  }

  /** ... for some frequency below nf. */
  ghost predicate IsHarmonicAntinode(m: AntennaMap, nf: nat, n: nat, x: Pos)
    requires nf <= |m|
  {
    exists f :: 0 <= f < nf && HarmonicIn(m[f], n, x)
  }

  /** One pair's harmonic antinodes are the forward rays from both ends. */
  lemma HarmonicPairMembers(p: Pos, q: Pos, n: nat, x: Pos)
    ensures x in HarmonicPair(n)(p, q) <==>
      (exists i :: 0 <= i < n && x == Add(p, Scale(i, Sub(p, q))))
      || (exists i :: 0 <= i < n && x == Add(q, Scale(i, Sub(q, p))))
  {
    BackRayIsRay(q, Sub(p, q), n);
    assert Sub((0, 0), Sub(p, q)) == Sub(q, p);
    RayMembers(p, Sub(p, q), n, x);
    RayMembers(q, Sub(q, p), n, x);
  }

  /** Both walking directions of every pair are the forward walk of one of
      the two orders. */
  lemma HarmonicListMembers(l: seq<Pos>, n: nat, x: Pos)
    ensures x in ListFold(l, |l|, HarmonicPair(n)) <==> HarmonicIn(l, n, x)
  {
    ListFoldMembers(l, |l|, HarmonicPair(n), x);
    if x in ListFold(l, |l|, HarmonicPair(n)) {
      var a, b :| 0 <= a < |l| && 0 <= b < |l| && a != b && x in HarmonicPair(n)(l[a], l[b]);
      HarmonicPairMembers(l[a], l[b], n, x);
      if i :| 0 <= i < n && x == Add(l[a], Scale(i, Sub(l[a], l[b]))) {
      } else {
        var i :| 0 <= i < n && x == Add(l[b], Scale(i, Sub(l[b], l[a])));
      }
    }
    if HarmonicIn(l, n, x) {
      var a, b, i :| 0 <= a < |l| && 0 <= b < |l| && a != b && 0 <= i < n
        && x == Add(l[a], Scale(i, Sub(l[a], l[b])));
      HarmonicPairMembers(l[a], l[b], n, x);
    }
  }

  /** With n >= 1 the antennas are the multiple 0 of some pair. */
  lemma AntennasAreHarmonic(l: seq<Pos>, n: nat, x: Pos)
    requires n >= 1 && x in Antennas(l)
    ensures HarmonicIn(l, n, x)
  {
    var k :| 0 <= k < |l| && x == l[k];
    var b := if k == 0 then 1 else 0;
    assert x == Add(l[k], Scale(0, Sub(l[k], l[b])));
  }

  /** With at least one multiple (rows + cols >= 1) the harmonic set is
      exactly the multiples on the antenna lines: the antennas themselves are
      the multiple 0 and add nothing. */
  lemma {:induction false} HarmonicFoldMembers(m: AntennaMap, nf: nat, n: nat, x: Pos)
    requires nf <= |m| && n >= 1
    ensures x in HarmonicFold(m, nf, n) <==> IsHarmonicAntinode(m, nf, n, x)
  {
    if nf > 0 {
      HarmonicFoldMembers(m, nf - 1, n, x);
      HarmonicListMembers(m[nf - 1], n, x);
      if x in Antennas(m[nf - 1]) {
        AntennasAreHarmonic(m[nf - 1], n, x);
      }
      if IsHarmonicAntinode(m, nf, n, x) {
        var f :| 0 <= f < nf && HarmonicIn(m[f], n, x);
        if f < nf - 1 {
          assert IsHarmonicAntinode(m, nf - 1, n, x);
        }
      }
    }
  }

  /** With rows + cols >= 2 the multiple 1 is included, so every simple
      antinode is a harmonic one. */
  lemma HarmonicContainsSimple(m: AntennaMap, n: nat)
    requires n >= 2
    ensures SimpleFold(m, |m|) <= HarmonicFold(m, |m|, n)
  {
    forall x | x in SimpleFold(m, |m|) ensures x in HarmonicFold(m, |m|, n) {
      SimpleFoldMembers(m, |m|, x);
      var f :| 0 <= f < |m| && SimpleIn(m[f], x);
      var l := m[f];
      var a, b :| 0 <= a < |l| && 0 <= b < |l| && a != b && x == Add(l[a], Sub(l[a], l[b]));
      assert x == Add(l[a], Scale(1, Sub(l[a], l[b])));
      assert HarmonicIn(l, n, x);
      HarmonicFoldMembers(m, |m|, n, x);
    }
  }

  /** out_of_bounds: outside rows x cols. */
  function OutOfBounds(pos: Pos, cityDim: (int, int)): (r: bool)
    ensures r <==> !InBox(pos, cityDim.0, cityDim.1)
  {
    if pos.0 < 0 then true
    else if pos.1 < 0 then true
    else if pos.0 >= cityDim.0 then true
    else if pos.1 >= cityDim.1 then true
    else false
  }
}

=== FILE: day9.dfy ===
/** Day 9: disk fragmenter. A disk map alternates file lengths (even
    indices, file id = index / 2) and free-run lengths (odd indices).
    Part 1 moves single blocks from the end of the disk into the leftmost
    free blocks; part 2 moves whole files, highest id first, into a free run
    to their left that can hold them. Both report the checksum, the sum of
    position times file id over the compacted disk. The map is taken as the
    sequence of its digit values. */
module Day9 {
  import opened Common

  /** n copies of x. */
  function Rep<T>(x: T, n: nat): (r: seq<T>)
    ensures |r| == n
  {
    if n == 0 then [] else Rep(x, n - 1) + [x]
  }

  lemma {:induction false} RepAt<T>(x: T, n: nat, k: nat)
    requires k < n
    ensures Rep(x, n)[k] == x
  {
    if k < n - 1 {
      RepAt(x, n - 1, k);
    }
  }

  lemma {:induction false} RepMultiset<T>(x: T, n: nat, y: T)
    ensures multiset(Rep(x, n))[y] == if y == x then n else 0
  {
    if n > 0 {
      RepMultiset(x, n - 1, y);
    }
  }

  /** is_space: odd map indices describe free runs. */
  predicate IsSpace(idx: nat)
  {
    idx != 0 && !IsSpace(idx - 1)
  }

  /** idx // 2: the id of the file at map index idx, counted as the number
      of free-run indices before it. */
  function Id(idx: nat): nat
  {
    if idx == 0 then 0 else Id(idx - 1) + if IsSpace(idx - 1) then 1 else 0
  }

  /** The recursive IsSpace and Id are the source's idx % 2 == 1 and idx // 2. */
  lemma {:induction false} ParityIsHalving(idx: nat)
    ensures IsSpace(idx) <==> idx % 2 == 1
    ensures Id(idx) == idx / 2
  {
    if idx > 0 {
      ParityIsHalving(idx - 1);
    }
  }

  /** Two map entries on, the kind is the same and the id one more. */
  lemma {:induction false} ParityStep(idx: nat)
    ensures IsSpace(idx + 2) == IsSpace(idx) && Id(idx + 2) == Id(idx) + 1
  {
  }

  /** The disk position of the first block of map entry i: the blocks of
      the entries before it. */
  function Start(code: seq<nat>, i: nat): nat
    requires i <= |code|
  {
    if i == 0 then 0 else Start(code, i - 1) + code[i - 1]
  }

  lemma {:induction false} StartMono(code: seq<nat>, i: nat, j: nat)
    requires i <= j <= |code|
    ensures Start(code, i) <= Start(code, j)
  {
    if i < j {
      StartMono(code, i, j - 1);
    }
  }

  /** The number of free blocks among the first n map entries. */
  function Free(code: seq<nat>, n: nat): nat
    requires n <= |code|
  {
    if n == 0 then 0 else Free(code, n - 1) + if IsSpace(n - 1) then code[n - 1] else 0
  }

  lemma {:induction false} FreeMono(code: seq<nat>, n: nat, m: nat)
    requires n <= m <= |code|
    ensures Free(code, n) <= Free(code, m)
  {
    if n < m {
      FreeMono(code, n, m - 1);
    }
  }

  /** The number of file blocks among the first n map entries. */
  function FileBlocks(code: seq<nat>, n: nat): nat
    requires n <= |code|
  {
    if n == 0 then 0 else FileBlocks(code, n - 1) + if IsSpace(n - 1) then 0 else code[n - 1]
  }

  /** The file ids of the file blocks among the first n entries, in disk
      order. */
  function Files(code: seq<nat>, n: nat): (f: seq<nat>)
    requires n <= |code|
    ensures |f| == FileBlocks(code, n)
  {
    if n == 0 then []
    else Files(code, n - 1) + (if IsSpace(n - 1) then [] else Rep<nat>(Id(n - 1), code[n - 1]))
  }

  /** n_char: the number of file blocks on the disk. */
  function NChar(code: seq<nat>): nat
  {
    FileBlocks(code, |code|)
  }

  /** Every block belongs to a file or is free. */
  lemma {:induction false} StartSplit(code: seq<nat>, n: nat)
    requires n <= |code|
    ensures Start(code, n) == FileBlocks(code, n) + Free(code, n)
  {
    if n > 0 {
      StartSplit(code, n - 1);
    }
  }

  lemma {:induction false} FilesPrefix(code: seq<nat>, n: nat, m: nat)
    requires n <= m <= |code|
    ensures |Files(code, n)| <= |Files(code, m)|
    ensures Files(code, m)[..|Files(code, n)|] == Files(code, n)
  {
    if n < m {
      FilesPrefix(code, n, m - 1);
    }
  }

  /** Block t of file entry i is the (|Files(code, i)| + t)-th file block. */
  lemma {:induction false} FilesAt(code: seq<nat>, i: nat, t: nat)
    requires i < |code| && !IsSpace(i) && t < code[i]
    ensures FileBlocks(code, i) + t < NChar(code)
    ensures Files(code, |code|)[FileBlocks(code, i) + t] == Id(i)
  {
    FilesPrefix(code, i + 1, |code|);
    var a := Files(code, i);
    assert Files(code, i + 1) == a + Rep<nat>(Id(i), code[i]);
    assert Files(code, |code|)[|a| + t] == Files(code, i + 1)[|a| + t];
    RepAt<nat>(Id(i), code[i], t);
  }

  /** What the part 1 compaction puts into the blocks of entry i, when F
      lists the disk's file blocks: a file keeps its blocks; the k-th free
      block of the disk (counting from the left) receives the k-th file
      block counting from the right. Free blocks left over when the files
      run out lie past n_char and are cut off; they get 0 here. */
  function Refill(code: seq<nat>, F: seq<nat>, i: nat): (b: seq<nat>)
    requires i < |code|
    ensures |b| == code[i]
  {
    if IsSpace(i) then Fill(F, Free(code, i), code[i]) else Rep<nat>(Id(i), code[i])
  }

  /** Free block k of the disk receives file block k counted from the right
      end of F, or 0 when there is none. */
  function Pick(F: seq<nat>, k: nat): nat
  {
    if k < |F| then F[|F| - 1 - k] else 0
  }

  /** The n free blocks numbered k onwards, refilled. */
  function Fill(F: seq<nat>, k: nat, n: nat): (b: seq<nat>)
    ensures |b| == n
  {
    if n == 0 then [] else Fill(F, k, n - 1) + [Pick(F, k + n - 1)]
  }

  lemma {:induction false} FillAt(F: seq<nat>, k: nat, n: nat, t: nat)
    requires t < n
    ensures Fill(F, k, n)[t] == Pick(F, k + t)
  {
    if t < n - 1 {
      FillAt(F, k, n - 1, t);
    }
  }

  /** The first n entries after the part 1 compaction, before cutting. */
  function Refilled(code: seq<nat>, F: seq<nat>, n: nat): (d: seq<nat>)
    requires n <= |code|
    ensures |d| == Start(code, n)
  {
    if n == 0 then [] else Refilled(code, F, n - 1) + Refill(code, F, n - 1)
  }

  /** Block t of entry i sits at disk position Start(code, i) + t. */
  lemma {:induction false} RefilledAt(code: seq<nat>, F: seq<nat>, n: nat, i: nat, t: nat)
    requires i < n <= |code| && t < code[i]
    ensures Start(code, i) + t < Start(code, n)
    ensures Refilled(code, F, n)[Start(code, i) + t] == Refill(code, F, i)[t]
  {
    var a := Refilled(code, F, n - 1);
    assert Refilled(code, F, n) == a + Refill(code, F, n - 1);
    if i < n - 1 {
      RefilledAt(code, F, n - 1, i, t);
    }
  }

  /** The part 1 result: the compacted disk's first n_char blocks. */
  function Compacted(code: seq<nat>): (c: seq<nat>)
    ensures |c| == NChar(code)
  {
    StartSplit(code, |code|);
    Refilled(code, Files(code, |code|), |code|)[..NChar(code)]
  }

  /** Sum of position times id. */
  function Checksum(s: seq<nat>): int
  {
    if s == [] then 0 else Checksum(s[..|s| - 1]) + (|s| - 1) * s[|s| - 1]
  }

  /** What the cursors of char_compress_checksum keep true: the output
      covers the disk up to the left cursor; the free blocks it has filled
      equal the file blocks taken from the right, file rightIdx having
      rightCount blocks left; every output block within the first n_char is
      the compacted disk's. */
  ghost predicate CursorsInv(code: seq<nat>, C: seq<nat>, leftIdx: int, rightIdx: int, leftId: int, rightId: int,
                              leftCount: int, rightCount: int, out: seq<nat>)
  {
    && 0 <= leftIdx < |code| && 0 <= rightIdx < |code| && !IsSpace(rightIdx)
    && (!IsSpace(leftIdx) ==> leftIdx <= rightIdx)
    && leftId == Id(leftIdx + 1) && rightId == Id(rightIdx)
    && 0 <= leftCount <= code[leftIdx] && 0 <= rightCount <= code[rightIdx]
    && (rightCount >= 1 || (IsSpace(leftIdx) && leftIdx < rightIdx))
    && (rightIdx < |code| - 1 ==> code[|code| - 1] <= Free(code, |code|))
    && |out| == Start(code, leftIdx) + code[leftIdx] - leftCount
    && Free(code, leftIdx) + (if IsSpace(leftIdx) then code[leftIdx] - leftCount else 0)
       + FileBlocks(code, rightIdx) + rightCount == NChar(code)
    && (forall k :: 0 <= k < |out| && k < |C| ==> out[k] == C[k])
  }

  /** Every file on the map has at least one block. */
  predicate FilesNonEmpty(code: seq<nat>)
  {
    forall i :: 0 <= i < |code| && !IsSpace(i) ==> code[i] >= 1
  }

  /** The block-moving loop of char_compress_checksum. The right cursor
      starts on the last entry, which is a file for an odd-length map (the
      right id len // 2 is that file's id only then). With stopAtEnd false
      the loop is as written: reading past the map after the last file
      raises IndexError. With stopAtEnd true it stops there instead. */
  method CompactBlocks(code: seq<nat>, stopAtEnd: bool) returns (r: Result<seq<nat>, PyError>)
    requires |code| % 2 == 1
    requires FilesNonEmpty(code)
    ensures r.Err? <==> !stopAtEnd && Free(code, |code|) < code[|code| - 1]
    ensures r.Ok? ==> |r.value| >= NChar(code) && r.value[..NChar(code)] == Compacted(code)
  {
    var leftIdx, rightIdx := 0, |code| - 1;
    var leftId, rightId := 0, |code| / 2;
    var leftCount, rightCount := code[leftIdx], code[rightIdx];
    var out: seq<nat> := [];
    ghost var C := Compacted(code);
    CursorsStart(code, C);
    while !(leftIdx >= rightIdx && IsSpace(leftIdx))
      invariant CursorsInv(code, C, leftIdx, rightIdx, leftId, rightId, leftCount, rightCount, out)
      decreases rightIdx - leftIdx + |code|, leftCount
    {
      if rightCount == 0 {
        NextRightFile(code, C, leftIdx, rightIdx, leftId, rightId, leftCount, out);
        rightIdx := rightIdx - 2;
        rightCount := code[rightIdx];
        rightId := rightId - 1;
      } else if IsSpace(leftIdx) {
        leftIdx, leftCount, rightCount, out := FreeRunStep(code, C, leftIdx, rightIdx, leftId, rightId, leftCount, rightCount, out);
      } else if leftCount == 0 && leftIdx + 1 == |code| {
        LeftAtEnd(code, C, leftIdx, rightIdx, leftId, rightId, rightCount, out);
        if !stopAtEnd {
          return Err(IndexError);
        }
        return Ok(out);
      } else {
        leftIdx, leftId, leftCount, out := FileRunStep(code, C, leftIdx, rightIdx, leftId, rightId, leftCount, rightCount, out);
      }
    }
    Crossed(code, C, leftIdx, rightIdx, leftId, rightId, leftCount, rightCount, out);
    return Ok(out);
  }

  /** The two branches of the loop for a free run at the left cursor, the
      right file not used up: one block of the right file moves in, or a
      full run moves the left cursor on. */
  method FreeRunStep(code: seq<nat>, ghost C: seq<nat>, leftIdx: int, rightIdx: int, leftId: int, rightId: int,
                     leftCount: int, rightCount: int, out: seq<nat>)
    returns (leftIdx': int, leftCount': int, rightCount': int, out': seq<nat>)
    requires C == Compacted(code)
    requires CursorsInv(code, C, leftIdx, rightIdx, leftId, rightId, leftCount, rightCount, out)
    requires IsSpace(leftIdx) && leftIdx < rightIdx && rightCount != 0
    ensures CursorsInv(code, C, leftIdx', rightIdx, leftId, rightId, leftCount', rightCount', out')
    ensures rightIdx - leftIdx' < rightIdx - leftIdx || (leftIdx' == leftIdx && 0 <= leftCount' < leftCount)
  {
    if leftCount != 0 {
      MoveBlock(code, C, leftIdx, rightIdx, leftId, rightId, leftCount, rightCount, out);
      leftIdx', leftCount', rightCount', out' := leftIdx, leftCount - 1, rightCount - 1, out + [rightId];
    } else {
      SkipSpace(code, C, leftIdx, rightIdx, leftId, rightId, rightCount, out);
      leftIdx' := leftIdx + 1;
      leftCount', rightCount', out' := code[leftIdx'], rightCount, out;
    }
  }

  /** The two branches of the loop for a file at the left cursor, the
      right file not used up: one block of it stays, or, when it is done,
      the left cursor moves to the next entry. */
  method FileRunStep(code: seq<nat>, ghost C: seq<nat>, leftIdx: int, rightIdx: int, leftId: int, rightId: int,
                     leftCount: int, rightCount: int, out: seq<nat>)
    returns (leftIdx': int, leftId': int, leftCount': int, out': seq<nat>)
    requires C == Compacted(code)
    requires CursorsInv(code, C, leftIdx, rightIdx, leftId, rightId, leftCount, rightCount, out)
    requires !IsSpace(leftIdx) && rightCount != 0 && (leftCount == 0 ==> leftIdx + 1 < |code|)
    ensures CursorsInv(code, C, leftIdx', rightIdx, leftId', rightId, leftCount', rightCount, out')
    ensures rightIdx - leftIdx' < rightIdx - leftIdx || (leftIdx' == leftIdx && 0 <= leftCount' < leftCount)
  {
    if leftCount != 0 {
      KeepBlock(code, C, leftIdx, rightIdx, leftId, rightId, leftCount, rightCount, out);
      leftIdx', leftId', leftCount', out' := leftIdx, leftId, leftCount - 1, out + [leftId];
    } else {
      NextLeftEntry(code, C, leftIdx, rightIdx, leftId, rightId, rightCount, out);
      leftIdx', leftId' := leftIdx + 1, leftId + 1;
      leftCount', out' := code[leftIdx'], out;
    }
  }

  /** The cursors start on the first and the last entry, which is a file
      with id len // 2 on an odd-length map. */
  lemma {:induction false} CursorsStart(code: seq<nat>, C: seq<nat>)
    requires |code| % 2 == 1 && FilesNonEmpty(code) && |C| == NChar(code)
    ensures CursorsInv(code, C, 0, |code| - 1, 0, |code| / 2, code[0], code[|code| - 1], [])
  {
    ParityIsHalving(|code| - 1);
    StartSplit(code, |code|);
  }

  /** The right file is used up: the right cursor moves to the previous
      file, which lies right of a free run the left cursor is in. */
  lemma {:induction false} NextRightFile(code: seq<nat>, C: seq<nat>, leftIdx: int, rightIdx: int, leftId: int, rightId: int,
                      leftCount: int, out: seq<nat>)
    requires CursorsInv(code, C, leftIdx, rightIdx, leftId, rightId, leftCount, 0, out)
    requires FilesNonEmpty(code)
    ensures rightIdx >= 2
    ensures CursorsInv(code, C, leftIdx, rightIdx - 2, leftId, rightId - 1, leftCount, code[rightIdx - 2], out)
  {
    ParityStep(rightIdx - 2);
    assert FileBlocks(code, rightIdx) == FileBlocks(code, rightIdx - 1);
    assert FileBlocks(code, rightIdx - 1) == FileBlocks(code, rightIdx - 2) + code[rightIdx - 2];
    if rightIdx == |code| - 1 {
      FreeMono(code, leftIdx + 1, |code|);
    }
      }

  /** One block of the right file goes into the free run at the left. */
  lemma {:induction false} MoveBlock(code: seq<nat>, C: seq<nat>, leftIdx: int, rightIdx: int, leftId: int, rightId: int,
                  leftCount: int, rightCount: int, out: seq<nat>)
    requires CursorsInv(code, C, leftIdx, rightIdx, leftId, rightId, leftCount, rightCount, out)
    requires C == Compacted(code)
    requires rightCount != 0 && IsSpace(leftIdx) && leftCount != 0 && leftIdx < rightIdx
    ensures CursorsInv(code, C, leftIdx, rightIdx, leftId, rightId, leftCount - 1, rightCount - 1, out + [rightId])
  {
    AppendMoved(code, leftIdx, code[leftIdx] - leftCount, rightIdx, rightCount);
  }

  /** The free run at the left is full: the left cursor moves on to the
      next file. */
  lemma {:induction false} SkipSpace(code: seq<nat>, C: seq<nat>, leftIdx: int, rightIdx: int, leftId: int, rightId: int,
                  rightCount: int, out: seq<nat>)
    requires CursorsInv(code, C, leftIdx, rightIdx, leftId, rightId, 0, rightCount, out)
    requires rightCount != 0 && IsSpace(leftIdx) && leftIdx < rightIdx
    ensures leftIdx + 1 < |code|
    ensures CursorsInv(code, C, leftIdx + 1, rightIdx, leftId, rightId, code[leftIdx + 1], rightCount, out)
  {
  }

  /** The file at the left is done: the left cursor moves on to the free
      run after it. */
  lemma {:induction false} NextLeftEntry(code: seq<nat>, C: seq<nat>, leftIdx: int, rightIdx: int, leftId: int, rightId: int,
                      rightCount: int, out: seq<nat>)
    requires CursorsInv(code, C, leftIdx, rightIdx, leftId, rightId, 0, rightCount, out)
    requires rightCount != 0 && !IsSpace(leftIdx) && leftIdx + 1 < |code|
    ensures CursorsInv(code, C, leftIdx + 1, rightIdx, leftId + 1, rightId, code[leftIdx + 1], rightCount, out)
  {
  }

  /** One block of the left file stays where it is. */
  lemma {:induction false} KeepBlock(code: seq<nat>, C: seq<nat>, leftIdx: int, rightIdx: int, leftId: int, rightId: int,
                  leftCount: int, rightCount: int, out: seq<nat>)
    requires CursorsInv(code, C, leftIdx, rightIdx, leftId, rightId, leftCount, rightCount, out)
    requires C == Compacted(code)
    requires rightCount != 0 && !IsSpace(leftIdx) && leftCount != 0
    ensures CursorsInv(code, C, leftIdx, rightIdx, leftId, rightId, leftCount - 1, rightCount, out + [leftId])
  {
    AppendKept(code, leftIdx, code[leftIdx] - leftCount);
  }

  /** The left cursor finished the last file: this happens exactly when
      the free space could not take that file, and the output then covers
      the whole disk. */
  lemma {:induction false} LeftAtEnd(code: seq<nat>, C: seq<nat>, leftIdx: int, rightIdx: int, leftId: int, rightId: int,
                  rightCount: int, out: seq<nat>)
    requires CursorsInv(code, C, leftIdx, rightIdx, leftId, rightId, 0, rightCount, out)
    requires C == Compacted(code)
    requires rightCount != 0 && !IsSpace(leftIdx) && leftIdx + 1 == |code|
    ensures Free(code, |code|) < code[|code| - 1]
    ensures |out| >= |C| && out[..|C|] == C
  {
    StartSplit(code, |code|);
  }

  /** The loop ends with the left cursor in a free run past the right
      file: the last file fitted, and n_char blocks have been written. */
  lemma {:induction false} Crossed(code: seq<nat>, C: seq<nat>, leftIdx: int, rightIdx: int, leftId: int, rightId: int,
                leftCount: int, rightCount: int, out: seq<nat>)
    requires CursorsInv(code, C, leftIdx, rightIdx, leftId, rightId, leftCount, rightCount, out)
    requires C == Compacted(code)
    requires leftIdx >= rightIdx && IsSpace(leftIdx)
    ensures code[|code| - 1] <= Free(code, |code|)
    ensures |out| >= |C| && out[..|C|] == C
  {
    FinalLength(code, leftIdx, rightIdx);
    StartSplit(code, leftIdx);
  }

  /** A block written while the left cursor is in free run i, t blocks
      in, is the compacted disk's block there when that is among the first
      n_char. */
  lemma {:induction false} AppendMoved(code: seq<nat>, i: nat, t: nat, j: nat, rightCount: nat)
    requires i < |code| && IsSpace(i) && t < code[i]
    requires j < |code| && !IsSpace(j) && 1 <= rightCount <= code[j]
    requires Free(code, i) + t + FileBlocks(code, j) + rightCount == NChar(code)
    ensures var p := Start(code, i) + t;
      p < NChar(code) ==> Compacted(code)[p] == Id(j)
  {
    var p := Start(code, i) + t;
    MovedFrom(code, Files(code, |code|), i, t, j, rightCount);
    if p < NChar(code) {
      CompactedAt(code, p);
    }
  }

  /** The block free run i receives t blocks in is block rightCount - 1 of
      file j, when the two cursors have that many blocks between them. */
  lemma {:induction false} MovedFrom(code: seq<nat>, F: seq<nat>, i: nat, t: nat, j: nat, rightCount: nat)
    requires F == Files(code, |code|)
    requires i < |code| && IsSpace(i) && t < code[i]
    requires j < |code| && !IsSpace(j) && 1 <= rightCount <= code[j]
    requires Free(code, i) + t + FileBlocks(code, j) + rightCount == NChar(code)
    ensures Start(code, i) + t < Start(code, |code|)
    ensures Refilled(code, F, |code|)[Start(code, i) + t] == Id(j)
  {
    RefilledAt(code, F, |code|, i, t);
    FilesAt(code, j, rightCount - 1);
    RefillSpaceAt(code, F, i, t);
    var k := FileBlocks(code, j) + rightCount - 1;
    assert |F| - 1 - Free(code, i) - t == k;
    assert F[k] == Id(j);
  }

  lemma {:induction false} RefillSpaceAt(code: seq<nat>, F: seq<nat>, i: nat, t: nat)
    requires i < |code| && IsSpace(i) && t < code[i] && Free(code, i) + t < |F|
    ensures Refill(code, F, i)[t] == F[|F| - 1 - Free(code, i) - t]
  {
    FillAt(F, Free(code, i), code[i], t);
  }

  lemma {:induction false} CompactedAt(code: seq<nat>, p: nat)
    requires p < NChar(code)
    ensures p < |Refilled(code, Files(code, |code|), |code|)|
    ensures Compacted(code)[p] == Refilled(code, Files(code, |code|), |code|)[p]
  {
    StartSplit(code, |code|);
  }

  /** A block written while the left cursor is in file i is that file's
      block, which the compaction leaves in place. */
  lemma {:induction false} AppendKept(code: seq<nat>, i: nat, t: nat)
    requires i < |code| && !IsSpace(i) && t < code[i]
    ensures var p := Start(code, i) + t;
      p < NChar(code) ==> Compacted(code)[p] == Id(i)
  {
    KeptAt(code, Files(code, |code|), i, t);
    if Start(code, i) + t < NChar(code) {
      CompactedAt(code, Start(code, i) + t);
    }
  }

  lemma {:induction false} KeptAt(code: seq<nat>, F: seq<nat>, i: nat, t: nat)
    requires i < |code| && !IsSpace(i) && t < code[i]
    ensures Start(code, i) + t < Start(code, |code|)
    ensures Refilled(code, F, |code|)[Start(code, i) + t] == Id(i)
  {
    RefilledAt(code, F, |code|, i, t);
    RepAt<nat>(Id(i), code[i], t);
  }

  /** When the left cursor has passed the right one, the file blocks up
      to the left cursor cover the rest of the right file. */
  lemma {:induction false} FinalLength(code: seq<nat>, leftIdx: nat, rightIdx: nat)
    requires leftIdx <= |code| && rightIdx < leftIdx && !IsSpace(rightIdx)
    ensures FileBlocks(code, leftIdx) >= FileBlocks(code, rightIdx) + code[rightIdx]
  {
    FilesPrefix(code, rightIdx + 1, leftIdx);
  }

  /** char_compress_checksum: the checksum of the first n_char blocks. */
  method CharCompressChecksum(code: seq<nat>) returns (r: Result<int, PyError>)
    requires |code| % 2 == 1
    requires FilesNonEmpty(code)
    ensures r.Err? <==> Free(code, |code|) < code[|code| - 1]
    ensures r.Ok? ==> r.value == Checksum(Compacted(code))
  {
    var blocks := CompactBlocks(code, false);
    if blocks.Err? {
      return Err(blocks.error);
    }
    return Ok(Checksum(blocks.value[..NChar(code)]));
  }

  /** The same with the left cursor stopping after the last file. */
  method CharCompressChecksumGuarded(code: seq<nat>) returns (checksum: int)
    requires |code| % 2 == 1
    requires FilesNonEmpty(code)
    ensures checksum == Checksum(Compacted(code))
  {
    var blocks := CompactBlocks(code, true);
    return Checksum(blocks.value[..NChar(code)]);
  }

  /** "101" (two one-block files, no free space): the last file is never
      moved, the left cursor walks onto it and then past the end. */
  lemma {:induction false} CharCompressFailsWithoutFreeSpace()
    ensures Free([1, 0, 1], 3) < 1
    ensures Compacted([1, 0, 1]) == [0, 1] && Checksum(Compacted([1, 0, 1])) == 1
  {
    var code := [1, 0, 1];
    assert Free(code, 3) == 0 by {
      assert Free(code, 1) == 0 && Free(code, 2) == 0;
    }
    ExampleCompacted();
    assert Checksum([0, 1]) == 1 by {
      assert [0, 1][..1] == [0] && [0][..0] == [];
    }
  }

  lemma ExampleCompacted()
    ensures Compacted([1, 0, 1]) == [0, 1]
  {
    var code := [1, 0, 1];
    ExampleFiles();
    ExampleRefilled();
    assert NChar(code) == 2 by {
      assert FileBlocks(code, 1) == 1 && FileBlocks(code, 2) == 1;
    }
  }

  lemma ExampleFiles()
    ensures Files([1, 0, 1], 3) == [0, 1]
  {
    var code := [1, 0, 1];
    assert IsSpace(1) && !IsSpace(2) && Id(2) == 1;
    assert Files(code, 1) == [0];
    assert Files(code, 2) == [0];
  }

  lemma ExampleRefilled()
    ensures Refilled([1, 0, 1], [0, 1], 3) == [0, 1]
  {
    var code := [1, 0, 1];
    assert IsSpace(1) && !IsSpace(2) && Id(2) == 1;
    assert Refill(code, [0, 1], 0) == [0];
    assert Refill(code, [0, 1], 1) == [];
    assert Refill(code, [0, 1], 2) == [1];
    assert Refilled(code, [0, 1], 1) == [0];
    assert Refilled(code, [0, 1], 2) == [0];
  }

  // ---- Part 2: block_compress_checksum ----

  /** A cell of the whole-file result: a file id, or None for ".". */
  type Cell = Option<nat>

  /** The sizes of the files, by id: the map's entries at even indices. */
  function FileSizes(code: seq<nat>): (sizes: seq<nat>)
    ensures |sizes| == Id(|code| + 1)
  {
    if code == [] then []
    else
      var n := |code| - 1;
      FileSizes(code[..n]) + if IsSpace(n) then [] else [code[n]]
  }

  /** File g's size sits at map index 2g, which is a file entry with id g. */
  lemma {:induction false} FileSizesAt(code: seq<nat>, g: nat)
    requires g < |FileSizes(code)|
    ensures 2 * g < |code| && !IsSpace(2 * g) && Id(2 * g) == g
    ensures FileSizes(code)[g] == code[2 * g]
  {
    var n := |code| - 1;
    var p := code[..n];
    if g < |FileSizes(p)| {
      FileSizesAt(p, g);
    } else {
      TwiceId(n);
    }
  }

  lemma {:induction false} TwiceId(idx: nat)
    ensures 2 * Id(idx) == if IsSpace(idx) then idx - 1 else idx
  {
    if idx > 0 {
      TwiceId(idx - 1);
    }
  }

  /** The candidate scan: the unseen files from the highest id down, the
      first whose size is at most space. */
  method FindFit(sizes: seq<nat>, seen: seq<bool>, space: nat) returns (found: Option<nat>)
    requires |seen| == |sizes|
    ensures found == Fit(sizes, seen, space)
    ensures found.Some? ==> found.value < |sizes| && !seen[found.value] && sizes[found.value] <= space
    ensures forall g :: 0 <= g < |sizes| && !seen[g] && (found.None? || found.value < g) ==> sizes[g] > space
  {
    var g := |sizes|;
    while g > 0
      invariant 0 <= g <= |sizes|
      invariant FitBelow(sizes, seen, space, g) == Fit(sizes, seen, space)
    {
      g := g - 1;
      if !seen[g] && sizes[g] <= space {
        return Some(g);
      }
    }
    return None;
  }

  /** The file a free run with space blocks left takes next: the highest
      unseen id whose size fits, or None when no unseen file fits. */
  function Fit(sizes: seq<nat>, seen: seq<bool>, space: nat): (r: Option<nat>)
    requires |seen| == |sizes|
    ensures r.Some? ==> r.value < |sizes| && !seen[r.value] && sizes[r.value] <= space
    ensures forall g :: 0 <= g < |sizes| && !seen[g] && (r.None? || r.value < g) ==> sizes[g] > space
  {
    FitBelow(sizes, seen, space, |sizes|)
  }

  /** The highest unseen id below n whose size fits. */
  function FitBelow(sizes: seq<nat>, seen: seq<bool>, space: nat, n: nat): (r: Option<nat>)
    requires |seen| == |sizes| && n <= |sizes|
    ensures r.Some? ==> r.value < n && !seen[r.value] && sizes[r.value] <= space
    ensures forall g :: 0 <= g < n && !seen[g] && (r.None? || r.value < g) ==> sizes[g] > space
  {
    if n == 0 then None
    else if !seen[n - 1] && sizes[n - 1] <= space then Some(n - 1)
    else FitBelow(sizes, seen, space, n - 1)
  }

  /** No file seen yet. */
  function AllUnseen(n: nat): (seen: seq<bool>)
    ensures |seen| == n && forall g :: 0 <= g < n ==> !seen[g]
  {
    seq(n, _ => false)
  }

  /** The reference result of block_compress_checksum's scan: the map read
      entry by entry with no file seen at the start. */
  ghost function BlockReference(code: seq<nat>): seq<Cell>
  {
    var sizes := FileSizes(code);
    Compact(code, sizes, AllUnseen(|sizes|), 0)
  }

  /** The cells written from map index i on, entry i untouched. */
  ghost function Compact(code: seq<nat>, sizes: seq<nat>, seen: seq<bool>, i: nat): seq<Cell>
    requires |sizes| == Id(|code| + 1) && |seen| == |sizes|
    decreases |code| - i, 1, 0, 0
  {
    if i >= |code| then [] else Cont(code, sizes, seen, i, code[i])
  }

  /** The cells written from map index i on with c blocks of entry i to
      go. A free run takes Fit's file again and again while it has room,
      and once nothing fits pads what is left with "."; a file entry
      writes its id, or "." once the file has moved, and is marked seen
      when it is done. */
  ghost function Cont(code: seq<nat>, sizes: seq<nat>, seen: seq<bool>, i: nat, c: nat): seq<Cell>
    requires |sizes| == Id(|code| + 1) && |seen| == |sizes|
    decreases |code| - i, 0, Unseen(seen), c
  {
    if i >= |code| then []
    else if IsSpace(i) then
      if c == 0 then Compact(code, sizes, seen, i + 1)
      else
        match Fit(sizes, seen, c)
        case None => Rep(None, c) + Cont(code, sizes, seen, i, 0)
        case Some(g) =>
          UnseenMark(seen, g);
          Rep(Some(g), sizes[g]) + Cont(code, sizes, seen[g := true], i, c - sizes[g])
    else
      FileIdBound(code, i);
      var g := Id(i + 1);
      if c == 0 then Compact(code, sizes, seen[g := true], i + 1)
      else [if seen[g] then None else Some(g)] + Cont(code, sizes, seen, i, c - 1)
  }

  /** What the scan still writes, after what it has written, is the
      reference. */
  ghost predicate RefInv(code: seq<nat>, sizes: seq<nat>, seen: seq<bool>, leftIdx: int, leftCount: int, out: seq<Cell>)
  {
    && |sizes| == Id(|code| + 1) && |seen| == |sizes| && leftIdx >= 0 && leftCount >= 0
    && out + Cont(code, sizes, seen, leftIdx, leftCount) == BlockReference(code)
  }

  /** A full free run hands over to the next entry. */
  lemma ContSkip(code: seq<nat>, sizes: seq<nat>, seen: seq<bool>, i: nat)
    requires |sizes| == Id(|code| + 1) && |seen| == |sizes|
    requires i + 1 < |code| && IsSpace(i)
    ensures Cont(code, sizes, seen, i, 0) == Cont(code, sizes, seen, i + 1, code[i + 1])
  {
  }

  /** A free run with room takes Fit's file whole. */
  lemma ContFit(code: seq<nat>, sizes: seq<nat>, seen: seq<bool>, i: nat, c: nat, g: nat)
    requires |sizes| == Id(|code| + 1) && |seen| == |sizes|
    requires i < |code| && IsSpace(i) && c > 0 && Fit(sizes, seen, c) == Some(g)
    ensures Cont(code, sizes, seen, i, c) == Rep(Some(g), sizes[g]) + Cont(code, sizes, seen[g := true], i, c - sizes[g])
  {
  }

  /** A free run that nothing fits is padded with ".". */
  lemma ContPad(code: seq<nat>, sizes: seq<nat>, seen: seq<bool>, i: nat, c: nat)
    requires |sizes| == Id(|code| + 1) && |seen| == |sizes|
    requires i < |code| && IsSpace(i) && c > 0 && Fit(sizes, seen, c).None?
    ensures Cont(code, sizes, seen, i, c) == Rep(None, c) + Cont(code, sizes, seen, i, 0)
  {
  }

  /** One block of the file at the cursor: its id, or "." once moved. */
  lemma ContBlock(code: seq<nat>, sizes: seq<nat>, seen: seq<bool>, i: nat, c: nat)
    requires |sizes| == Id(|code| + 1) && |seen| == |sizes|
    requires i < |code| && !IsSpace(i) && c > 0 && Id(i + 1) < |seen|
    ensures Cont(code, sizes, seen, i, c)
      == [if seen[Id(i + 1)] then None else Some(Id(i + 1))] + Cont(code, sizes, seen, i, c - 1)
  {
  }

  /** A finished file is marked seen and the next entry starts. */
  lemma ContNextFile(code: seq<nat>, sizes: seq<nat>, seen: seq<bool>, i: nat, c': nat)
    requires |sizes| == Id(|code| + 1) && |seen| == |sizes|
    requires i < |code| && !IsSpace(i) && Id(i + 1) < |seen|
    requires i + 1 < |code| ==> c' == code[i + 1]
    ensures Cont(code, sizes, seen, i, 0) == Cont(code, sizes, seen[Id(i + 1) := true], i + 1, c')
  {
  }

  lemma RefSkip(code: seq<nat>, sizes: seq<nat>, seen: seq<bool>, i: nat, out: seq<Cell>)
    requires RefInv(code, sizes, seen, i, 0, out) && i + 1 < |code| && IsSpace(i)
    ensures RefInv(code, sizes, seen, i + 1, code[i + 1], out)
  {
    ContSkip(code, sizes, seen, i);
  }

  lemma RefFit(code: seq<nat>, sizes: seq<nat>, seen: seq<bool>, i: nat, c: nat, g: nat, out: seq<Cell>)
    requires RefInv(code, sizes, seen, i, c, out)
    requires i < |code| && IsSpace(i) && c > 0 && Fit(sizes, seen, c) == Some(g)
    ensures RefInv(code, sizes, seen[g := true], i, c - sizes[g], out + Rep(Some(g), sizes[g]))
  {
    ContFit(code, sizes, seen, i, c, g);
    AppendAssoc(out, Rep(Some(g), sizes[g]), Cont(code, sizes, seen[g := true], i, c - sizes[g]));
  }

  lemma RefPad(code: seq<nat>, sizes: seq<nat>, seen: seq<bool>, i: nat, c: nat, out: seq<Cell>)
    requires RefInv(code, sizes, seen, i, c, out)
    requires i < |code| && IsSpace(i) && c > 0 && Fit(sizes, seen, c).None?
    ensures RefInv(code, sizes, seen, i, 0, out + Rep(None, c))
  {
    ContPad(code, sizes, seen, i, c);
    AppendAssoc(out, Rep(None, c), Cont(code, sizes, seen, i, 0));
  }

  lemma RefBlock(code: seq<nat>, sizes: seq<nat>, seen: seq<bool>, i: nat, c: nat, out: seq<Cell>)
    requires RefInv(code, sizes, seen, i, c, out)
    requires i < |code| && !IsSpace(i) && c > 0 && Id(i + 1) < |seen|
    ensures RefInv(code, sizes, seen, i, c - 1, out + [if seen[Id(i + 1)] then None else Some(Id(i + 1))])
  {
    ContBlock(code, sizes, seen, i, c);
    AppendAssoc(out, [if seen[Id(i + 1)] then None else Some(Id(i + 1))], Cont(code, sizes, seen, i, c - 1));
  }

  lemma RefNextFile(code: seq<nat>, sizes: seq<nat>, seen: seq<bool>, i: nat, c': nat, out: seq<Cell>)
    requires RefInv(code, sizes, seen, i, 0, out)
    requires i < |code| && !IsSpace(i) && Id(i + 1) < |seen|
    requires i + 1 < |code| ==> c' == code[i + 1]
    ensures RefInv(code, sizes, seen[Id(i + 1) := true], i + 1, c', out)
  {
    ContNextFile(code, sizes, seen, i, c');
  }

  lemma AppendAssoc<T>(a: seq<T>, b: seq<T>, c: seq<T>)
    ensures a + (b + c) == (a + b) + c
  {
  }

  /** What the cell at block t of entry i may hold: a file entry keeps its
      file, or "." once the file has moved; a free run holds "." or a
      file whose new home is that run. */
  ghost predicate CellPlaced(code: seq<nat>, home: map<nat, nat>, i: nat, c: Cell)
  {
    if IsSpace(i) then c.None? || (c.value in home && home[c.value] == i)
    else c == if Id(i) in home then None else Some(Id(i))
  }

  /** Block t of entry i of a (partial) result. */
  ghost function At(code: seq<nat>, out: seq<Cell>, i: nat, t: nat): Cell
    requires i <= |code| && Start(code, i) + t < |out|
  {
    out[Start(code, i) + t]
  }

  /** Every cell written so far is placed. */
  ghost predicate AllPlaced(code: seq<nat>, home: map<nat, nat>, out: seq<Cell>)
  {
    forall i, t :: 0 <= i < |code| && 0 <= t < code[i] && Start(code, i) + t < |out| ==>
      CellPlaced(code, home, i, At(code, out, i, t))
  }

  /** Moved files went into a free run to their left. */
  ghost predicate HomesLeft(sizes: seq<nat>, home: map<nat, nat>, bound: nat)
  {
    forall f :: f in home ==> f < |sizes| && IsSpace(home[f]) && home[f] < 2 * f && home[f] <= bound
  }

  /** The whole-file result: every block of the disk has a cell, each file
      shows up exactly once with all of its blocks, either in place or
      moved whole into a free run to its left (its home), leaving "." in
      its old place. */
  ghost predicate WholeFileCompaction(code: seq<nat>, out: seq<Cell>, home: map<nat, nat>)
  {
    var sizes := FileSizes(code);
    && |out| == Start(code, |code|)
    && HomesLeft(sizes, home, |code|)
    && AllPlaced(code, home, out)
    && (forall g :: 0 <= g < |sizes| ==> multiset(out)[Some(g)] == sizes[g])
    && (forall g :: g >= |sizes| ==> multiset(out)[Some(g)] == 0)
  }

  /** How many blocks of file g the output holds while the left cursor is
      on entry leftIdx with leftCount blocks to go. */
  function Written(sizes: seq<nat>, home: map<nat, nat>, leftIdx: int, leftCount: int, g: nat): int
    requires g < |sizes|
  {
    if g in home || 2 * g < leftIdx then sizes[g]
    else if 2 * g == leftIdx then sizes[g] - leftCount
    else 0
  }

  /** What the left cursor of block_compress_checksum keeps true. */
  ghost predicate ScanInv(code: seq<nat>, sizes: seq<nat>, seen: seq<bool>, home: map<nat, nat>,
                          leftIdx: int, leftId: int, leftCount: int, out: seq<Cell>)
  {
    && |sizes| == Id(|code| + 1) && |seen| == |sizes|
    && 0 <= leftIdx <= |code| && leftId == Id(leftIdx + 1)
    && (leftIdx == |code| ==> 0 < |code| && !IsSpace(|code| - 1))
    && (leftIdx < |code| ==> 0 <= leftCount <= code[leftIdx])
    && |out| == Start(code, leftIdx) + (if leftIdx < |code| then code[leftIdx] - leftCount else 0)
    && (forall g :: 0 <= g < |seen| ==> (seen[g] <==> g in home || 2 * g < leftIdx))
    && HomesLeft(sizes, home, leftIdx)
    && AllPlaced(code, home, out)
    && (forall g :: 0 <= g < |sizes| ==> multiset(out)[Some(g)] == Written(sizes, home, leftIdx, leftCount, g))
    && (forall g :: g >= |sizes| ==> multiset(out)[Some(g)] == 0)
  }

  /** Unseen flags left, the middle component of the scan's measure. */
  function Unseen(seen: seq<bool>): nat
  {
    if seen == [] then 0 else Unseen(seen[..|seen| - 1]) + if seen[|seen| - 1] then 0 else 1
  }

  lemma {:induction false} UnseenMark(seen: seq<bool>, g: nat)
    requires g < |seen| && !seen[g]
    ensures Unseen(seen[g := true]) < Unseen(seen)
  {
    var n := |seen| - 1;
    if g < n {
      assert seen[g := true][..n] == seen[..n][g := true];
      UnseenMark(seen[..n], g);
      UnseenAtMost(seen[..n][g := true], seen[..n]);
    } else {
      assert seen[g := true][..n] == seen[..n];
    }
  }

  lemma {:induction false} UnseenAtMost(a: seq<bool>, b: seq<bool>)
    requires |a| == |b| && forall k :: 0 <= k < |a| && b[k] ==> a[k]
    ensures Unseen(a) <= Unseen(b)
  {
    if a != [] {
      UnseenAtMost(a[..|a| - 1], b[..|b| - 1]);
    }
  }

  /** The whole-file compaction loop of block_compress_checksum. An empty
      map fails at code[0]; a map of even length ends on a free run, and
      stepping past it fails at code[len]. */
  method BlockCompact(code: seq<nat>) returns (r: Result<seq<Cell>, PyError>)
    ensures r.Err? <==> |code| % 2 == 0
    ensures r.Ok? ==> r.value == BlockReference(code)
    ensures r.Ok? ==> exists home :: WholeFileCompaction(code, r.value, home)
  {
    if |code| == 0 {
      return Err(IndexError);
    }
    var sizes := FileSizes(code);
    var seen := AllUnseen(|sizes|);
    ghost var home: map<nat, nat> := map[];
    var leftIdx, leftId := 0, 0;
    var leftCount := code[leftIdx];
    var out: seq<Cell> := [];
    ScanStart(code, sizes, seen);
    assert [] + Cont(code, sizes, seen, 0, code[0]) == BlockReference(code);
    while leftIdx < |code|
      invariant sizes == FileSizes(code)
      invariant ScanInv(code, sizes, seen, home, leftIdx, leftId, leftCount, out)
      invariant RefInv(code, sizes, seen, leftIdx, leftCount, out)
      decreases |code| - leftIdx, Unseen(seen), leftCount
    {
      if IsSpace(leftIdx) {
        if leftCount == 0 && leftIdx + 1 == |code| {
          ParityIsHalving(leftIdx);
          return Err(IndexError);
        }
        seen, leftIdx, leftCount, out, home := SpaceStep(code, sizes, seen, home, leftIdx, leftId, leftCount, out);
      } else {
        seen, leftIdx, leftId, leftCount, out := FileStep(code, sizes, seen, home, leftIdx, leftId, leftCount, out);
      }
    }
    ScanDone(code, sizes, seen, home, leftId, leftCount, out);
    assert out + [] == out;
    return Ok(out);
  }

  /** The final sum of block_compress_checksum: block index times file id
      over the cells that hold a file; "." adds nothing. */
  function CellChecksum(out: seq<Cell>): int
  {
    if out == [] then 0
    else CellChecksum(out[..|out| - 1]) + match out[|out| - 1] { case None => 0 case Some(v) => (|out| - 1) * v }
  }

  /** A disk written as cells, every block holding a file. */
  function AsCells(s: seq<nat>): (cells: seq<Cell>)
    ensures |cells| == |s| && forall i :: 0 <= i < |s| ==> cells[i] == Some(s[i])
  {
    if s == [] then [] else AsCells(s[..|s| - 1]) + [Some(s[|s| - 1])]
  }

  /** With no "." among the cells the two checksums agree. */
  lemma {:induction false} CellChecksumOfFiles(s: seq<nat>)
    ensures CellChecksum(AsCells(s)) == Checksum(s)
  {
    if s != [] {
      CellChecksumOfFiles(s[..|s| - 1]);
      assert AsCells(s)[..|s| - 1] == AsCells(s[..|s| - 1]);
    }
  }

  /** Clearing a block to "." takes its index times its id off the sum. */
  lemma {:induction false} CellChecksumClear(out: seq<Cell>, k: nat)
    requires k < |out| && out[k].Some?
    ensures CellChecksum(out[k := None]) == CellChecksum(out) - k * out[k].value
  {
    var n := |out| - 1;
    if k < n {
      assert out[k := None][..n] == out[..n][k := None];
      CellChecksumClear(out[..n], k);
    } else {
      assert out[k := None][..n] == out[..n];
    }
  }

  /** block_compress_checksum: the checksum of the whole-file compaction. */
  method BlockCompressChecksum(code: seq<nat>) returns (r: Result<int, PyError>)
    ensures r.Err? <==> |code| % 2 == 0
    ensures r.Ok? ==> r.value == CellChecksum(BlockReference(code))
    ensures r.Ok? ==> exists out, home :: WholeFileCompaction(code, out, home) && r.value == CellChecksum(out)
  {
    var cells := BlockCompact(code);
    if cells.Err? {
      return Err(cells.error);
    }
    return Ok(CellChecksum(cells.value));
  }

  /** The scan's measure went down: the left cursor moved right, or it
      stayed and a file was marked seen, or only the count went down. */
  predicate Progress(leftIdx: int, seen: seq<bool>, leftCount: int,
                     leftIdx': int, seen': seq<bool>, leftCount': int)
  {
    leftIdx < leftIdx'
    || (leftIdx == leftIdx' && Unseen(seen') < Unseen(seen))
    || (leftIdx == leftIdx' && Unseen(seen') == Unseen(seen) && 0 <= leftCount' < leftCount)
  }

  /** The two branches of the loop for a free run at the left cursor: a
      full run moves the cursor on; otherwise the highest unseen file that
      fits moves in, or, if none fits, the rest of the run becomes ".". */
  method SpaceStep(code: seq<nat>, sizes: seq<nat>, seen: seq<bool>, ghost home: map<nat, nat>,
                   leftIdx: nat, leftId: int, leftCount: int, out: seq<Cell>)
    returns (seen': seq<bool>, leftIdx': nat, leftCount': int, out': seq<Cell>, ghost home': map<nat, nat>)
    requires sizes == FileSizes(code)
    requires ScanInv(code, sizes, seen, home, leftIdx, leftId, leftCount, out)
    requires sizes == FileSizes(code)
    requires leftIdx < |code| && IsSpace(leftIdx) && (leftCount == 0 ==> leftIdx + 1 < |code|)
    requires RefInv(code, sizes, seen, leftIdx, leftCount, out)
    ensures ScanInv(code, sizes, seen', home', leftIdx', leftId, leftCount', out')
    ensures RefInv(code, sizes, seen', leftIdx', leftCount', out')
    ensures Progress(leftIdx, seen, leftCount, leftIdx', seen', leftCount')
  {
    if leftCount == 0 {
      ScanSkipSpace(code, sizes, seen, home, leftIdx, leftId, out);
      RefSkip(code, sizes, seen, leftIdx, out);
      seen', leftIdx', out', home' := seen, leftIdx + 1, out, home;
      leftCount' := code[leftIdx'];
      return;
    }
    var space := leftCount;
    var found := FindFit(sizes, seen, space);
    if found.Some? {
      var id := found.value;
      ScanMove(code, sizes, seen, home, leftIdx, leftId, leftCount, out, id);
      UnseenMark(seen, id);
      RefFit(code, sizes, seen, leftIdx, space, id, out);
      out' := out + Rep(Some(id), sizes[id]);
      seen' := seen[id := true];
      home' := home[id := leftIdx];
      leftIdx' := leftIdx;
      leftCount' := leftCount - sizes[id];
    } else {
      ScanPad(code, sizes, seen, home, leftIdx, leftId, leftCount, out);
      RefPad(code, sizes, seen, leftIdx, space, out);
      out' := out + Rep<Cell>(None, space);
      seen', leftIdx', home' := seen, leftIdx, home;
      leftCount' := 0;
    }
  }

  /** The two branches of the loop for a file at the left cursor: one
      block of it (its id, or "." once it has moved), or, when it is done,
      marking it seen and moving to the next entry; past the last file the
      count is read from the last entry. */
  method FileStep(code: seq<nat>, sizes: seq<nat>, seen: seq<bool>, ghost home: map<nat, nat>,
                  leftIdx: nat, leftId: int, leftCount: int, out: seq<Cell>)
    returns (seen': seq<bool>, leftIdx': nat, leftId': int, leftCount': int, out': seq<Cell>)
    requires sizes == FileSizes(code)
    requires ScanInv(code, sizes, seen, home, leftIdx, leftId, leftCount, out)
    requires sizes == FileSizes(code)
    requires leftIdx < |code| && !IsSpace(leftIdx)
    requires RefInv(code, sizes, seen, leftIdx, leftCount, out)
    ensures ScanInv(code, sizes, seen', home, leftIdx', leftId', leftCount', out')
    ensures RefInv(code, sizes, seen', leftIdx', leftCount', out')
    ensures Progress(leftIdx, seen, leftCount, leftIdx', seen', leftCount')
  {
    if leftCount != 0 {
      out' := FileBlock(code, sizes, seen, home, leftIdx, leftId, leftCount, out);
      seen', leftIdx', leftId', leftCount' := seen, leftIdx, leftId, leftCount - 1;
    } else {
      seen', leftIdx', leftId', leftCount' := FileDone(code, sizes, seen, home, leftIdx, leftId, out);
      out' := out;
    }
  }

  /** One block of the file at the left cursor: its id, or "." once it has
      moved. */
  method FileBlock(code: seq<nat>, sizes: seq<nat>, seen: seq<bool>, ghost home: map<nat, nat>,
                   leftIdx: nat, leftId: int, leftCount: int, out: seq<Cell>)
    returns (out': seq<Cell>)
    requires sizes == FileSizes(code)
    requires ScanInv(code, sizes, seen, home, leftIdx, leftId, leftCount, out)
    requires leftIdx < |code| && !IsSpace(leftIdx) && leftCount != 0
    requires RefInv(code, sizes, seen, leftIdx, leftCount, out)
    ensures ScanInv(code, sizes, seen, home, leftIdx, leftId, leftCount - 1, out')
    ensures RefInv(code, sizes, seen, leftIdx, leftCount - 1, out')
  {
    FileIdBound(code, leftIdx);
    ScanKeep(code, sizes, seen, home, leftIdx, leftId, leftCount, out);
    var v := if seen[leftId] then None else Some(leftId);
    RefBlock(code, sizes, seen, leftIdx, leftCount, out);
    out' := out + [v];
  }

  /** A finished file is marked seen and the left cursor moves on; past
      the last file the count is read from the last entry. */
  method FileDone(code: seq<nat>, sizes: seq<nat>, seen: seq<bool>, ghost home: map<nat, nat>,
                  leftIdx: nat, leftId: int, out: seq<Cell>)
    returns (seen': seq<bool>, leftIdx': nat, leftId': int, leftCount': int)
    requires sizes == FileSizes(code)
    requires ScanInv(code, sizes, seen, home, leftIdx, leftId, 0, out)
    requires leftIdx < |code| && !IsSpace(leftIdx)
    requires RefInv(code, sizes, seen, leftIdx, 0, out)
    ensures ScanInv(code, sizes, seen', home, leftIdx', leftId', leftCount', out)
    ensures RefInv(code, sizes, seen', leftIdx', leftCount', out)
    ensures leftIdx' == leftIdx + 1
  {
    FileIdBound(code, leftIdx);
    ScanNextFile(code, sizes, seen, home, leftIdx, leftId, out);
    seen' := seen[leftId := true];
    leftId' := leftId + 1;
    leftIdx' := leftIdx + 1;
    var next := if leftIdx' < |code| - 1 then leftIdx' else |code| - 1;
    leftCount' := code[next];
    RefNextFile(code, sizes, seen, leftIdx, leftCount', out);
  }

  /** Even map indices are files: entry 2g has id g, the run after it too. */
  lemma {:induction false} EvenIsFile(g: nat)
    ensures !IsSpace(2 * g) && Id(2 * g) == g
    ensures IsSpace(2 * g + 1) && Id(2 * g + 1) == g
  {
    if g > 0 {
      EvenIsFile(g - 1);
      ParityStep(2 * g - 2);
    }
  }

  lemma {:induction false} IdMono(a: nat, b: nat)
    requires a <= b
    ensures Id(a) <= Id(b)
  {
    if a < b {
      IdMono(a, b - 1);
    }
  }

  /** The file at a map index has a slot among the file ids, and that id
      is half the index. */
  lemma FileIdBound(code: seq<nat>, leftIdx: nat)
    requires leftIdx < |code| && !IsSpace(leftIdx)
    ensures 2 * Id(leftIdx + 1) == leftIdx && Id(leftIdx + 2) == Id(leftIdx + 1) + 1
    ensures Id(leftIdx + 1) < Id(|code| + 1)
  {
    TwiceId(leftIdx);
    IdMono(leftIdx + 2, |code| + 1);
  }

  /** Disk position Start(code, i) + t lies in entry i and no other. */
  lemma {:induction false} StartUnique(code: seq<nat>, i: nat, t: nat, j: nat)
    requires i < |code| && t < code[i] && j < |code|
    requires Start(code, j) <= Start(code, i) + t < Start(code, j) + code[j]
    ensures i == j
  {
    if i < j {
      StartMono(code, i + 1, j);
    } else if j < i {
      StartMono(code, j + 1, i);
    }
  }

  /** A cell already written lies in an entry at or before the left
      cursor. */
  lemma {:induction false} WrittenBefore(code: seq<nat>, i: nat, t: nat, j: nat)
    requires i < |code| && j < |code| && Start(code, i) + t < Start(code, j + 1)
    ensures i <= j
  {
    if j < i {
      StartMono(code, j + 1, i);
    }
  }

  lemma {:induction false} ScanStart(code: seq<nat>, sizes: seq<nat>, seen: seq<bool>)
    requires 0 < |code| && sizes == FileSizes(code)
    requires |seen| == |sizes| && forall g :: 0 <= g < |seen| ==> !seen[g]
    ensures ScanInv(code, sizes, seen, map[], 0, 0, code[0], [])
  {
    forall g | 0 <= g < |sizes|
      ensures Written(sizes, map[], 0, code[0], g) == 0
    {
      FileSizesAt(code, g);
    }
  }

  /** A full free run: the left cursor moves on to the next file. */
  lemma {:induction false} ScanSkipSpace(code: seq<nat>, sizes: seq<nat>, seen: seq<bool>, home: map<nat, nat>,
                                         leftIdx: nat, leftId: int, out: seq<Cell>)
    requires ScanInv(code, sizes, seen, home, leftIdx, leftId, 0, out)
    requires sizes == FileSizes(code)
    requires leftIdx + 1 < |code| && IsSpace(leftIdx)
    ensures ScanInv(code, sizes, seen, home, leftIdx + 1, leftId, code[leftIdx + 1], out)
  {
    forall g | 0 <= g < |sizes|
      ensures (seen[g] <==> g in home || 2 * g < leftIdx + 1)
      ensures multiset(out)[Some(g)] == Written(sizes, home, leftIdx + 1, code[leftIdx + 1], g)
    {
      FileSizesAt(code, g);
      assert Written(sizes, home, leftIdx, 0, g) == Written(sizes, home, leftIdx + 1, code[leftIdx + 1], g);
    }
  }

  /** A file that fits moves whole into the free run at the left. */
  lemma {:induction false} ScanMove(code: seq<nat>, sizes: seq<nat>, seen: seq<bool>, home: map<nat, nat>,
                                    leftIdx: nat, leftId: int, leftCount: nat, out: seq<Cell>, id: nat)
    requires ScanInv(code, sizes, seen, home, leftIdx, leftId, leftCount, out)
    requires sizes == FileSizes(code)
    requires leftIdx < |code| && IsSpace(leftIdx) && leftCount > 0
    requires id < |sizes| && !seen[id] && sizes[id] <= leftCount
    ensures ScanInv(code, sizes, seen[id := true], home[id := leftIdx], leftIdx, leftId,
                    leftCount - sizes[id], out + Rep(Some(id), sizes[id]))
  {
    FileSizesAt(code, id);
    MovePlaced(code, sizes, seen, home, leftIdx, leftId, leftCount, out, id);
    MoveCounts(code, sizes, seen, home, leftIdx, leftId, leftCount, out, id);
  }

  /** The moved file's blocks land in the free run at the left cursor. */
  lemma {:induction false} MovePlaced(code: seq<nat>, sizes: seq<nat>, seen: seq<bool>, home: map<nat, nat>,
                                      leftIdx: nat, leftId: int, leftCount: nat, out: seq<Cell>, id: nat)
    requires ScanInv(code, sizes, seen, home, leftIdx, leftId, leftCount, out)
    requires leftIdx < |code| && IsSpace(leftIdx) && leftCount > 0
    requires id < |sizes| && !seen[id] && sizes[id] <= leftCount && leftIdx < 2 * id
    ensures AllPlaced(code, home[id := leftIdx], out + Rep(Some(id), sizes[id]))
  {
    var home' := home[id := leftIdx];
    var out' := out + Rep(Some(id), sizes[id]);
    forall i, t | 0 <= i < |code| && 0 <= t < code[i] && Start(code, i) + t < |out'|
      ensures CellPlaced(code, home', i, At(code, out', i, t))
    {
      WrittenBefore(code, i, t, leftIdx);
      if Start(code, i) + t < |out| {
        assert At(code, out', i, t) == At(code, out, i, t);
        assert CellPlaced(code, home, i, At(code, out, i, t));
        if !IsSpace(i) {
          EvenIsFile(Id(i));
          TwiceId(i);
        }
      } else {
        StartUnique(code, i, t, leftIdx);
        RepAt(Some(id), sizes[id], Start(code, i) + t - |out|);
      }
    }
  }

  /** After the move the output holds each file's blocks written so far. */
  lemma {:induction false} MoveCounts(code: seq<nat>, sizes: seq<nat>, seen: seq<bool>, home: map<nat, nat>,
                                      leftIdx: nat, leftId: int, leftCount: nat, out: seq<Cell>, id: nat)
    requires ScanInv(code, sizes, seen, home, leftIdx, leftId, leftCount, out)
    requires sizes == FileSizes(code)
    requires leftIdx < |code| && IsSpace(leftIdx) && leftCount > 0
    requires id < |sizes| && !seen[id] && sizes[id] <= leftCount && leftIdx < 2 * id
    ensures forall g :: 0 <= g < |sizes| ==>
      multiset(out + Rep(Some(id), sizes[id]))[Some(g)] == Written(sizes, home[id := leftIdx], leftIdx, leftCount - sizes[id], g)
    ensures forall g :: g >= |sizes| ==> multiset(out + Rep(Some(id), sizes[id]))[Some(g)] == 0
  {
    var out' := out + Rep(Some(id), sizes[id]);
    forall g | 0 <= g < |sizes|
      ensures multiset(out')[Some(g)] == Written(sizes, home[id := leftIdx], leftIdx, leftCount - sizes[id], g)
    {
      RepMultiset(Some(id), sizes[id], Some(g));
      FileSizesAt(code, g);
    }
    forall g | g >= |sizes|
      ensures multiset(out')[Some(g)] == 0
    {
      RepMultiset(Some(id), sizes[id], Some(g));
    }
  }

  /** No file fits: the rest of the free run becomes ".". */
  lemma {:induction false} ScanPad(code: seq<nat>, sizes: seq<nat>, seen: seq<bool>, home: map<nat, nat>,
                                   leftIdx: nat, leftId: int, leftCount: nat, out: seq<Cell>)
    requires ScanInv(code, sizes, seen, home, leftIdx, leftId, leftCount, out)
    requires sizes == FileSizes(code)
    requires leftIdx < |code| && IsSpace(leftIdx)
    ensures ScanInv(code, sizes, seen, home, leftIdx, leftId, 0, out + Rep<Cell>(None, leftCount))
  {
    var out' := out + Rep<Cell>(None, leftCount);
    forall i, t | 0 <= i < |code| && 0 <= t < code[i] && Start(code, i) + t < |out'|
      ensures CellPlaced(code, home, i, At(code, out', i, t))
    {
      if Start(code, i) + t < |out| {
        assert At(code, out', i, t) == At(code, out, i, t);
      } else {
        WrittenBefore(code, i, t, leftIdx);
        StartUnique(code, i, t, leftIdx);
        RepAt<Cell>(None, leftCount, Start(code, i) + t - |out|);
      }
    }
    forall g | 0 <= g
      ensures multiset(out')[Some(g)] == multiset(out)[Some(g)]
    {
      RepMultiset<Cell>(None, leftCount, Some(g));
    }
    forall g | 0 <= g < |sizes|
      ensures Written(sizes, home, leftIdx, 0, g) == Written(sizes, home, leftIdx, leftCount, g)
    {
      FileSizesAt(code, g);
    }
  }

  /** One block of the file at the left: its id, or "." if it has moved. */
  lemma {:induction false} ScanKeep(code: seq<nat>, sizes: seq<nat>, seen: seq<bool>, home: map<nat, nat>,
                                    leftIdx: nat, leftId: int, leftCount: nat, out: seq<Cell>)
    requires ScanInv(code, sizes, seen, home, leftIdx, leftId, leftCount, out)
    requires sizes == FileSizes(code)
    requires leftIdx < |code| && !IsSpace(leftIdx) && leftCount > 0
    ensures 0 <= leftId < |seen|
    ensures ScanInv(code, sizes, seen, home, leftIdx, leftId, leftCount - 1,
                    out + [if seen[leftId] then None else Some(leftId)])
  {
    FileIdBound(code, leftIdx);
    var v: Cell := if seen[leftId] then None else Some(leftId);
    var out' := out + [v];
    forall i, t | 0 <= i < |code| && 0 <= t < code[i] && Start(code, i) + t < |out'|
      ensures CellPlaced(code, home, i, At(code, out', i, t))
    {
      if Start(code, i) + t < |out| {
        assert At(code, out', i, t) == At(code, out, i, t);
      } else {
        WrittenBefore(code, i, t, leftIdx);
        StartUnique(code, i, t, leftIdx);
      }
    }
    forall g | 0 <= g < |sizes|
      ensures multiset(out')[Some(g)] == Written(sizes, home, leftIdx, leftCount - 1, g)
    {
      FileSizesAt(code, g);
    }
  }

  /** The file at the left is done: it can no longer move, and the left
      cursor moves on to the free run after it. */
  lemma {:induction false} ScanNextFile(code: seq<nat>, sizes: seq<nat>, seen: seq<bool>, home: map<nat, nat>,
                                        leftIdx: nat, leftId: int, out: seq<Cell>)
    requires ScanInv(code, sizes, seen, home, leftIdx, leftId, 0, out)
    requires sizes == FileSizes(code)
    requires leftIdx < |code| && !IsSpace(leftIdx)
    ensures 0 <= leftId < |seen|
    ensures ScanInv(code, sizes, seen[leftId := true], home, leftIdx + 1, leftId + 1,
                    code[if leftIdx + 1 < |code| - 1 then leftIdx + 1 else |code| - 1], out)
  {
    FileIdBound(code, leftIdx);
    var lc := code[if leftIdx + 1 < |code| - 1 then leftIdx + 1 else |code| - 1];
    forall g | 0 <= g < |sizes|
      ensures (seen[leftId := true][g] <==> g in home || 2 * g < leftIdx + 1)
      ensures multiset(out)[Some(g)] == Written(sizes, home, leftIdx + 1, lc, g)
    {
      ScanNextFileAt(code, sizes, seen, home, leftIdx, leftId, out, g, lc);
    }
    NextFileShape(code, leftIdx, out);
    HomesLeftGrow(sizes, home, leftIdx);
  }

  /** Past a whole file the output ends where the next entry starts. */
  lemma NextFileShape(code: seq<nat>, leftIdx: nat, out: seq<Cell>)
    requires leftIdx < |code| && !IsSpace(leftIdx)
    requires |out| == Start(code, leftIdx) + code[leftIdx]
    ensures var lc := code[if leftIdx + 1 < |code| - 1 then leftIdx + 1 else |code| - 1];
      && |out| == Start(code, leftIdx + 1) + (if leftIdx + 1 < |code| then code[leftIdx + 1] - lc else 0)
      && (leftIdx + 1 < |code| ==> 0 <= lc <= code[leftIdx + 1])
      && (leftIdx + 1 == |code| ==> 0 < |code| && !IsSpace(|code| - 1))
      && Id(leftIdx + 2) == Id(leftIdx + 1) + 1
  {
  }

  lemma HomesLeftGrow(sizes: seq<nat>, home: map<nat, nat>, bound: nat)
    requires HomesLeft(sizes, home, bound)
    ensures HomesLeft(sizes, home, bound + 1)
  {
  }

  /** The same, file by file. */
  lemma ScanNextFileAt(code: seq<nat>, sizes: seq<nat>, seen: seq<bool>, home: map<nat, nat>,
                       leftIdx: nat, leftId: int, out: seq<Cell>, g: nat, lc: int)
    requires ScanInv(code, sizes, seen, home, leftIdx, leftId, 0, out)
    requires sizes == FileSizes(code)
    requires leftIdx < |code| && !IsSpace(leftIdx) && 2 * leftId == leftIdx && leftId < |seen|
    requires g < |sizes|
    ensures (seen[leftId := true][g] <==> g in home || 2 * g < leftIdx + 1)
    ensures multiset(out)[Some(g)] == Written(sizes, home, leftIdx + 1, lc, g)
  {
    FileSizesAt(code, g);
    EvenIsFile(g);
  }

  /** The left cursor went past the last file: the map had odd length and
      the result is a whole-file compaction. */
  lemma {:induction false} ScanDone(code: seq<nat>, sizes: seq<nat>, seen: seq<bool>, home: map<nat, nat>,
                                    leftId: int, leftCount: int, out: seq<Cell>)
    requires ScanInv(code, sizes, seen, home, |code|, leftId, leftCount, out)
    requires sizes == FileSizes(code)
    ensures |code| % 2 == 1 && WholeFileCompaction(code, out, home)
  {
    ParityIsHalving(|code| - 1);
    forall g | 0 <= g < |sizes|
      ensures multiset(out)[Some(g)] == sizes[g]
    {
      FileSizesAt(code, g);
    }
  }
}

=== FILE: decimal.dfy ===
/** Decimal digit strings: Python's str(n) for a non-negative integer and
    int(s) for a string of ASCII digits. Day 3 parses numbers with int(),
    day 7 concatenates two numbers through their strings and day 11 splits
    a number's string in halves; all three are stated with these. */
module Decimal {

  function Pow10(k: nat): (p: nat)
    ensures p >= 1
  {
    if k == 0 then 1 else 10 * Pow10(k - 1)
  }

  predicate IsDigit(c: char) { '0' <= c <= '9' }

  predicate AllDigits(s: seq<char>)
  {
    forall i :: 0 <= i < |s| ==> IsDigit(s[i])
  }

  function DigitValue(c: char): (d: nat)
    requires IsDigit(c)
    ensures d < 10
  {
    (c as int) - ('0' as int)
  }

  function DigitChar(d: nat): (c: char)
    requires d < 10
    ensures IsDigit(c) && DigitValue(c) == d
  {
    (('0' as int) + d) as char
  }

  /** int(s) for a string of digits (leading zeros allowed, as in Python). */
  function FromDecimal(s: seq<char>): (n: nat)
    requires AllDigits(s)
    ensures n < Pow10(|s|)
  {
    if s == [] then 0
    else FromDecimal(s[..|s| - 1]) * 10 + DigitValue(s[|s| - 1])
  }

  /** str(n) for n >= 0: the shortest digit string, "0" for zero. */
  function ToDecimal(n: nat): (s: seq<char>)
    ensures AllDigits(s) && |s| >= 1
    ensures |s| > 1 ==> s[0] != '0'
  {
    if n < 10 then [DigitChar(n)] else ToDecimal(n / 10) + [DigitChar(n % 10)]
  }

  /** Reading back what str wrote gives the number again. */
  lemma {:induction false} FromToDecimal(n: nat)
    ensures FromDecimal(ToDecimal(n)) == n
  {
    if n >= 10 {
      FromToDecimal(n / 10);
      var s := ToDecimal(n);
      assert s[..|s| - 1] == ToDecimal(n / 10);
    }
  }

  /** Reading a concatenation: the left part is shifted by the length of the right part. */
  lemma {:induction false} FromDecimalAppend(s: seq<char>, t: seq<char>)
    requires AllDigits(s) && AllDigits(t)
    ensures AllDigits(s + t)
    ensures FromDecimal(s + t) == FromDecimal(s) * Pow10(|t|) + FromDecimal(t)
  {
    if t == [] {
      assert s + t == s;
    } else {
      var t' := t[..|t| - 1];
      FromDecimalAppend(s, t');
      AppendLastDigit(s, t);
      ShiftIdentity(FromDecimal(s), Pow10(|t'|), FromDecimal(t'), DigitValue(t[|t| - 1]));
    }
  }

  /** The last digit of s + t is the last digit of t. */
  lemma AppendLastDigit(s: seq<char>, t: seq<char>)
    requires AllDigits(s) && AllDigits(t) && t != []
    ensures AllDigits(s + t)
    ensures FromDecimal(s + t) == FromDecimal(s + t[..|t| - 1]) * 10 + DigitValue(t[|t| - 1])
    ensures FromDecimal(t) == FromDecimal(t[..|t| - 1]) * 10 + DigitValue(t[|t| - 1])
    ensures Pow10(|t|) == 10 * Pow10(|t| - 1)
  {
    assert (s + t)[..|s + t| - 1] == s + t[..|t| - 1];
  }

  lemma ShiftIdentity(a: int, p: int, b: int, d: int)
    ensures (a * p + b) * 10 + d == a * (10 * p) + (b * 10 + d)
  {
  }

  /** The number of digits str writes: n has k digits iff 10^(k-1) <= n < 10^k (for k > 1). */
  lemma {:induction false} ToDecimalLength(n: nat)
    ensures n < Pow10(|ToDecimal(n)|)
    ensures |ToDecimal(n)| > 1 ==> Pow10(|ToDecimal(n)| - 1) <= n
  {
    if n >= 10 {
      ToDecimalLength(n / 10);
    }
  }
}
